=== FILE: README.md ===
# Ecuadorian bank statements: extraction, loading and dashboard tables

A Dafny model of the data pipeline and the table logic of the dashboard for
the monthly statements that Ecuador's Superintendencia de Bancos publishes for
every private bank:

- **Extraction.** `BalanceSheet` (scripts/procesar_balance.py),
  `IncomeStatement` (scripts/procesar_pyg.py) and `IndicatorExtractor`
  (scripts/procesar_camel.py) turn the BAL, PYG and CAMEL sheets into long
  records (bank, date, account code or indicator, value). They find the header
  row of dates and skip the rows that hold no account. The income statement
  sorts its records by bank, code and date to derive the monthly values from
  the accumulated ones. The indicator extraction keeps the first record of
  each (bank, date, code) and sorts the result. The balance sheet does
  neither.
- **Download configuration.** `ScriptConfig` (scripts/config.py) covers the
  target period, the output folder, the year XPath and the validation of the
  configuration.
- **Tables.** `IndicatorMapping` (config/indicator_mapping.py) holds the
  account codes, the CAMEL indicators, their groups, labels and ranges, the
  bank names and the colour lookup.
- **Loading and quality.** `DataLoader` (utils/data_loader.py) does the
  cleaning and the quality metrics of the three master tables, the count of
  indicator codes and the list of categories of the indicator table, and the
  lookups. `DataQuality` (utils/data_quality.py) checks the accounting
  equation, the coverage of the expected banks and the missing month-ends,
  and builds the quality summary.
- **Dashboard pages.** `Panorama`, `BalancePage`, `IncomePage` and
  `IndicatorPage` (pages/1_Panorama.py, 2_Balance_General.py,
  3_Perdidas_Ganancias.py and 4_CAMEL.py) compute what the pages display:
  metrics and deltas, rankings, concentration (HHI), the account hierarchy,
  the "Top 5" shares and the available dates.
- **Charts.** `Charts` (utils/charts.py) covers the data that feeds the
  treemap and the other charts.
- **Shared definitions.** `Common` holds dates, cells, strings and sums.
  `Sorting` holds a stable sort, de-duplication and filtering, which stand
  in for pandas' `sort_values`, `drop_duplicates` and `unique`.

**How the inputs are represented.**

- A spreadsheet is a grid of cells: empty, a number with its printed text,
  a text, or a timestamp.
- A parquet table is a sequence of rows whose missing values are `None`.
- `pandas.to_datetime` and Python's `float(str)` are parameters: the
  `Common.Parsers` record.
- The current date is a parameter wherever the source reads the clock.

**Loops and proofs.** Where the source loops and appends, the model is a
method with a loop. Its postcondition equals a specification function, and the
properties are proved about that function.

**Where the code and its documentation differ, the model follows the code:**

- The balance-sheet header reader skips date cells it cannot parse. The
  income-statement header reader stops at the first one.
- `obtener_fecha_disponible` returns the most recent date when every
  available date is after the target. It does not return the earliest.
- `generar_resumen_calidad` can raise at most three alerts, so its REVISAR
  status is never reached.
- The 'indicadores' table that `generar_resumen_calidad` inspects is never
  produced by the loader.
- `validar_ecuacion_contable` and `obtener_valor_cuenta` filter on a 'hoja'
  column, but the balance extractor never writes that column.
- The indicator tables configure 41 indicators. The extractor's own table
  yields 39 of them: COB_COM_PRIO and COB_CONS_PRIO are never extracted.

## Model

| member | source | states |
|---|---|---|
| Common.DaysInMonth | pages/3_Perdidas_Ganancias.py:193 | a month has 28 to 31 days, 29 exactly for February of a leap year (also line 309) |
| Common.MonthEnd | pages/3_Perdidas_Ganancias.py:193-194 | the month end is the last day of the given year and month (also lines 309-310) |
| Common.ToFloat | scripts/procesar_pyg.py:131-133 | a numeric cell converts to its own number; an empty or date cell does not convert |
| Common.Upper | scripts/procesar_pyg.py:50 | ASCII lower-case letters are upper-cased and other characters outside Latin-1 lower case are kept |
| Common.FirstToken | scripts/procesar_pyg.py:69 | the first word of a folder name is a non-empty run of non-space characters inside it, and none exists only for a blank name |
| Common.MaxDate | utils/data_quality.py:119 | the maximum is absent only for no dates, and otherwise a listed date no earlier than any other |
| Common.MinDate | utils/data_quality.py:118 | the minimum is absent only for no dates, and otherwise a listed date no later than any other |
| Sorting.SortBy | scripts/procesar_pyg.py:166-192 | sorting by a total order gives a sorted permutation of the input |
| Sorting.Distinct | utils/data_loader.py:257-265 | unique() keeps each element of the input exactly once |
| Sorting.DedupFirstBy | scripts/procesar_camel.py:224 | keep-first deduplication leaves no two records with the same key, and only input records |
| Sorting.DedupKeepsEveryFirst | scripts/procesar_camel.py:224 | the first record of every key is kept |
| Sorting.DedupKeepsOnlyFirsts | scripts/procesar_camel.py:224 | every kept record is the first of its key |
| Sorting.DedupKeepsEveryKey | scripts/procesar_camel.py:224 | deduplication keeps every key of the input |
| Sorting.NewestFirstStrict | utils/data_loader.py:257-258 | distinct dates sorted in reverse are strictly decreasing and are the same dates |
| Sorting.SortedStringsStrict | utils/data_quality.py:104 | distinct names sorted are strictly ascending and are the same names |
| BalanceSheet.BankFromFolderRoundTrip | scripts/procesar_balance.py:38-44 | a folder named "<bank> <MONTH> <yyyy>", with the month in any case, gives back the stripped bank name |
| BalanceSheet.MonthSuffixStartOf | scripts/procesar_balance.py:40-43 | the anchored `\s+MONTH\s+\d{4}$` match begins where the bank name's trailing whitespace begins |
| BalanceSheet.MonthNamesSuffixFree | scripts/procesar_balance.py:41 | no month name of the pattern ends another one, so at most one alternative can match |
| BalanceSheet.MonthNamesUpper | scripts/procesar_balance.py:41 | every month name of the pattern is upper-case ASCII letters, so case folding the input is enough |
| BalanceSheet.Level | scripts/procesar_balance.py:47-68 | the level of a code is at most 5 |
| BalanceSheet.LevelOfDigits | scripts/procesar_balance.py:57-68 | a digit code has level 1 for one digit, 2 for two, 3 up to four, 4 up to six and 5 beyond, never 0 |
| BalanceSheet.LevelMonotone | scripts/procesar_balance.py:57-68 | a longer digit code never has a lower level |
| BalanceSheet.LevelZero | scripts/procesar_balance.py:49-55 | level 0 exactly for an empty code or one that is not all digits after stripping and removing dots and spaces |
| BalanceSheet.HeaderColumnsShape | scripts/procesar_balance.py:83-96 | each period read comes from a date cell of row 5 at or right of column C, in strictly increasing column order |
| BalanceSheet.ReadHeader | scripts/procesar_balance.py:86-96 | the header loop returns the periods of row 5 from column C with empty and unparsable cells skipped |
| BalanceSheet.TruncatingHeaderIsPrefix | scripts/procesar_balance.py:86-96 | the income-statement header, which stops at the first bad cell, is a prefix of the balance header, which skips it |
| BalanceSheet.HeadersAgreeOnDates | scripts/procesar_balance.py:86-96 | when every header cell is a date, the skipping and the stopping header read the same periods |
| BalanceSheet.CellValue | scripts/procesar_balance.py:131-140 | an empty cell gives a missing value and a numeric cell its own number |
| BalanceSheet.ProcessBalanceSheet | scripts/procesar_balance.py:71-156 | the records produced equal the extraction function: none without a period, else one record per kept row and period |
| BalanceSheet.ReadRows | scripts/procesar_balance.py:103-149 | the row loop from row 7 returns the records of every kept row, in row order |
| BalanceSheet.ReadRow | scripts/procesar_balance.py:130-149 | the period loop of one row returns that row's records for every period |
| BalanceSheet.RowRecordsExact | scripts/procesar_balance.py:128-149 | a kept row emits exactly one record per period, in period order, with the row's code, name and level and column C+j's value |
| BalanceSheet.RowKeyKeeps | scripts/procesar_balance.py:117-126 | a row is kept exactly when its stripped code or name is non-empty, and its key is that pair |
| IncomeStatement.CleanText | scripts/procesar_pyg.py:46-53 | the cleaned name has the input's length and each character is upper-cased with Á, É, Í, Ó, Ú, Ñ folded to plain letters |
| IncomeStatement.CleanName | scripts/procesar_pyg.py:48-53 | a missing cell cleans to the empty name, any other cell to its cleaned text |
| IncomeStatement.CleanTextIdempotent | scripts/procesar_pyg.py:46-53 | cleaning a cleaned name changes nothing |
| IncomeStatement.CleanTextFolded | scripts/procesar_pyg.py:50-52 | a cleaned name holds no lower-case ASCII letter and none of the six accented capitals |
| IncomeStatement.FirstKeyIndex | scripts/procesar_pyg.py:59-61 | the index found is that of the first table key contained in the name, or the table's length when none is |
| IncomeStatement.SummaryCode | scripts/procesar_pyg.py:56-62 | a summary code, when found, is one of the seven mnemonics (MNI, MBF, MNF, MDI, MOP, GAI, GDE) |
| IncomeStatement.SummaryCodeFirstMatch | scripts/procesar_pyg.py:35-62 | no code exactly when no key is contained in the cleaned name; otherwise the code of the first key, in table order, that is contained |
| IncomeStatement.HeaderFromIsLongestRun | scripts/procesar_pyg.py:79-93 | the periods are read from consecutive columns from C on, and the scan stops at the first empty or unparsable cell |
| IncomeStatement.ReadHeader | scripts/procesar_pyg.py:80-93 | the header loop with `break` returns exactly that longest run of periods |
| IncomeStatement.RowKeyShape | scripts/procesar_pyg.py:103-125 | a row is kept exactly when its code cell and name cell are present, its code text is not "nan", and on a "--" row its name matches a summary key; a kept row's code is then the mnemonic on a "--" row and otherwise the stripped code, and its name the stripped name |
| IncomeStatement.ReadRow | scripts/procesar_pyg.py:128-142 | the period loop of one row returns that row's records, one per convertible value |
| IncomeStatement.ReadRows | scripts/procesar_pyg.py:102-142 | the row loop over rows 6 to 140 returns the records of every kept row in row order |
| IncomeStatement.ProcessIncomeSheet | scripts/procesar_pyg.py:65-152 | the records produced equal the extraction function of the sheet |
| IncomeStatement.RowPrefixFromCells | scripts/procesar_pyg.py:128-142 | each record of a row comes from one of its value cells: the row's key, the bank, the cell's period and the cell's number |
| IncomeStatement.RowsFromCells | scripts/procesar_pyg.py:102-142 | each record of a range of rows comes from a value cell of a kept row in that range |
| IncomeStatement.ExtractIncomeSound | scripts/procesar_pyg.py:69-97 | no records for a folder without a first word, a sheet under 10 rows or 5 columns, or no periods; otherwise every record comes from a value cell of rows 6 to 140 (also lines 144-145) |
| IncomeStatement.RowPrefixComplete | scripts/procesar_pyg.py:128-142 | every present value cell among a row's first n periods that converts to float yields its record |
| IncomeStatement.ExtractIncomeComplete | scripts/procesar_pyg.py:102-142 | conversely to the soundness lemma, every convertible value cell of a kept row among rows 6 to 140, under a header period, yields a record with the bank, that period, the row's code and name and the cell's number |
| IncomeStatement.IncomeLeTotal | scripts/procesar_pyg.py:166 | the (bank, code, date) order used to sort is total |
| IncomeStatement.Deaccumulate | scripts/procesar_pyg.py:155-181 | the result is a permutation of the rows, sorted by (bank, code, date), and each monthly value is the year-to-date amount, minus the previous one of the same bank, code and year unless January or first |
| IncomeStatement.MonthlyTelescopes | scripts/procesar_pyg.py:155-181 | within a (bank, code, year) group the monthly values add up to the group's latest year-to-date amount |
| IncomeStatement.DeaccumulateJanuaryFirst | scripts/procesar_pyg.py:166-177 | when the input has at most one January row per (bank, code, year) and no month before January, the sort by (bank, code, date) makes each January row the first of its group |
| IncomeStatement.DeaccumulatedGroupsTelescope | scripts/procesar_pyg.py:155-181 | under the same input condition, over the whole de-accumulated table, each group's monthly values add up to its last year-to-date amount |
| IncomeStatement.MonthlyLeTotal | scripts/procesar_pyg.py:192 | the (bank, code, date) order of the trailing sum is total |
| IncomeStatement.TrailingSums | scripts/procesar_pyg.py:184-199 | the result is a permutation, sorted, and each 12-month value is the sum of the last twelve monthly values of its (bank, code) series, missing before the twelfth |
| IncomeStatement.TrailingMissingEarly | scripts/procesar_pyg.py:195-197 | the 12-month value is missing exactly for the first eleven rows of a series |
| IncomeStatement.TrailingSlides | scripts/procesar_pyg.py:195-197 | a 12-month window sum moves by adding the newest value and dropping the one thirteen back |
| IncomeStatement.TrailingStep | scripts/procesar_pyg.py:195-197 | from the thirteenth row of a series, its 12-month value is the previous row's plus this month minus the month twelve back |
| IndicatorExtractor.IndicatorRowsShape | scripts/procesar_camel.py:28-82 | the table maps 39 sheet rows, in strictly increasing order, between rows 6 and 54 and never the empty row 29 |
| IndicatorExtractor.IndicatorCodes | scripts/procesar_camel.py:28-82 | the code list has one code per table row, in table order |
| IndicatorExtractor.IndicatorCodesDistinct | scripts/procesar_camel.py:28-82 | no two rows of the table carry the same indicator code |
| IndicatorExtractor.CodesListed | scripts/procesar_camel.py:28-82 | the table's codes are, in order, SOL, AIN, CAR_ACT, … , DEP_BRECHA, LIQ |
| IndicatorExtractor.LastSpace | scripts/procesar_camel.py:89 | the position found is that of the last space of the folder name, or none when it has no space |
| IndicatorExtractor.BankFromFolderPrefix | scripts/procesar_camel.py:85-92 | the bank name is a prefix of the folder name, and the whole name when it has no space |
| IndicatorExtractor.BankFromFolderRoundTrip | scripts/procesar_camel.py:89-91 | a folder "<bank> <x> <y>" whose last two words hold no space gives back the bank, spaces in it included |
| IndicatorExtractor.BankNamesAgree | scripts/procesar_camel.py:85-92 | for a folder "<bank> <MONTH> <yyyy>" with a stripped bank name, this extraction and the balance one give the same bank |
| IndicatorExtractor.HeaderFromShape | scripts/procesar_camel.py:111-128 | each period keeps the column it was read from, a parsable cell of row 5 from column D on, in increasing column order |
| IndicatorExtractor.HeaderFromComplete | scripts/procesar_camel.py:117-128 | every parsable header cell from column D on yields a period with its column |
| IndicatorExtractor.ReadHeader | scripts/procesar_camel.py:115-128 | the header loop returns the periods and their column indices, pairwise, as the header function lists them |
| IndicatorExtractor.Zip | scripts/procesar_camel.py:144 | zipping dates and columns pairs the j-th date with the j-th column |
| IndicatorExtractor.ProcessCamelSheet | scripts/procesar_camel.py:95-174 | the records produced equal the extraction function of the sheet |
| IndicatorExtractor.ReadTable | scripts/procesar_camel.py:136-167 | the indicator loop returns the records of every table row present in the sheet, in table order |
| IndicatorExtractor.ReadIndicator | scripts/procesar_camel.py:143-167 | the period loop of one indicator returns one record per convertible value |
| IndicatorExtractor.IndicatorRecordsSound | scripts/procesar_camel.py:143-165 | an indicator yields at most one record per period, each holding the table row's code, name and category, a period's date and its cell's value |
| IndicatorExtractor.TableRecordsSound | scripts/procesar_camel.py:136-167 | every record of the table loop comes from a table row, a period and a convertible cell |
| IndicatorExtractor.ExtractCamelSound | scripts/procesar_camel.py:105-174 | no records without periods or a row 5; otherwise every record comes from a table row and a period, under the folder's bank |
| IndicatorExtractor.IndicatorRecordsComplete | scripts/procesar_camel.py:144-165 | every period whose cell converts to a number gives a record with that value (lifted to the whole extraction by ExtractCamelComplete) |
| IndicatorExtractor.TableRecordsComplete | scripts/procesar_camel.py:136-165 | every table row inside the sheet contributes the record of each header period whose cell converts to a number |
| IndicatorExtractor.ExtractCamelComplete | scripts/procesar_camel.py:105-174 | on a sheet with row 5 and at least one header period, every table row inside the sheet gives, for each period whose cell converts to v, the record (folder's bank, period date, row code, row name, v, row category) |
| IndicatorExtractor.CamelLeTotal | scripts/procesar_camel.py:227 | the (bank, code, date) order is total |
| IndicatorExtractor.Consolidate | scripts/procesar_camel.py:217-227 | the consolidated table is a permutation of the first record of each (bank, date, code), sorted by (bank, code, date) |
| IndicatorExtractor.ConsolidateUnique | scripts/procesar_camel.py:224-227 | the consolidated table has one record per key, the same keys as its input, only input records, and is strictly ordered |
| IndicatorExtractor.SeriesLeAntisymmetric | scripts/procesar_camel.py:227 | two records ordered both ways share the (bank, date, code) key |
| IndicatorMapping.BalanceCodesInSection | config/indicator_mapping.py:11-44 | the 27 balance codes are digit strings whose first digit is the section they are listed under (1 assets, 2 liabilities, 3 equity) |
| IndicatorMapping.PortfolioCodesUnderLoans | config/indicator_mapping.py:47-56 | every loan-portfolio code is a four-digit code under account 14 |
| IndicatorMapping.IncomeStatementCodesInSection | config/indicator_mapping.py:62-82 | the 16 income-statement codes are digit strings, the first seven income codes (5…) and the rest expense codes (4…) |
| IndicatorMapping.IndicatorTablesAgree | config/indicator_mapping.py:89-148 | the indicator table, the groups read in order and the label table list the same 41 codes, in the same order, with no code twice (also lines 151-209, 227-284) |
| IndicatorMapping.CamelIndicatorCodes | config/indicator_mapping.py:89-148 | the codes of the indicator table, in order, are the reference list of 41 codes |
| IndicatorMapping.GroupCodes | config/indicator_mapping.py:151-209 | the groups' codes, read group by group, are the same reference list |
| IndicatorMapping.LabelCodes | config/indicator_mapping.py:227-284 | the label table labels exactly the reference list, in order |
| IndicatorMapping.IndicatorCodeListDistinct | config/indicator_mapping.py:89-148 | the reference list of indicator codes has no duplicate |
| IndicatorMapping.ExtractedCodesConfigured | config/indicator_mapping.py:89-148 | every code the extractor produces is configured, and the extractor produces neither COB_COM_PRIO nor COB_CONS_PRIO |
| IndicatorMapping.IndicatorRangesOrdered | config/indicator_mapping.py:290-297 | every configured range has min below max and its alert and critical thresholds inside it |
| IndicatorMapping.BankColour | config/indicator_mapping.py:363-373 | a bank of the colour table gets its colour, any other bank the grey #636363 |
| IndicatorMapping.EveryExpectedBankHasColour | config/indicator_mapping.py:303-361 | the 24 expected banks are exactly the banks of the colour table, so none of them is drawn in the default grey |
| DataLoader.CleanSpec | utils/data_loader.py:35-40 | the cleaned table keeps, in order, exactly the rows whose account name is non-blank after strip and whose bank and date are present, and is no longer than the raw table (also lines 99-104) |
| DataLoader.DatesOfMembers | utils/data_loader.py:53-55 | the dates of a table are exactly the present dates of its rows |
| DataLoader.LoadCamelSpec | utils/data_loader.py:129-179 | the indicator load fails only on an empty raw table; its table is the cleaned one, its indicator count is the number of distinct codes, and its categories list every category of the cleaned rows (a missing one included), each once, in first-occurrence order |
| DataLoader.CategoriesOfSpec | utils/data_loader.py:176 | unique() on the category column lists exactly the categories present, without repetition, in the order of first occurrence |
| Sorting.DistinctFirstOrder | utils/data_loader.py:176 | unique() keeps first-occurrence order: an earlier listed element occurs before the first occurrence of any later one |
| DataLoader.LoadBalanceQuality | utils/data_loader.py:17-60 | an empty raw table fails; otherwise original = raw count, clean = cleaned count ≤ original, removed = their difference, the removed percentage lies in 0..100, and min and max bound every cleaned date and exist exactly when one does |
| DataLoader.QualityOfSpec | utils/data_loader.py:47-58 | the metrics shared by the three loaders, for any cleaned table no longer than the raw one, with the division by the original count failing on an empty table (also lines 111-123, 166-177) |
| DataLoader.LoadPygQuality | utils/data_loader.py:77-125 | the load fails only on an empty raw table (the shared percentage divides by its length); the rows with a 12-month value are at most the clean rows, their percentage is missing exactly when nothing survives cleaning and lies in 0..100 otherwise, and every kept row has a name, bank and date |
| DataLoader.AvailableDatesSpec | utils/data_loader.py:253-258 | the available dates are exactly the present dates of the table, each once, newest first |
| DataLoader.BankNamesMembers | utils/data_loader.py:261-265 | the bank names listed are exactly the present banks of the rows |
| DataLoader.AvailableBanksSpec | utils/data_loader.py:261-265 | the available banks are exactly the present banks, each once, in ascending order |
| DataLoader.ValuesOf | utils/data_loader.py:305 | the value column lists each row's value, in row order |
| DataLoader.FiltersSpec | utils/data_loader.py:268-286 | filtering by date, bank or code keeps exactly the rows whose field equals the argument, and in order, since filtering distributes over concatenation |
| DataLoader.AccountValueSpec | utils/data_loader.py:289-309 | no value exactly when no row matches (bank, date, code, sheet); otherwise the value of the first matching row |
| DataQuality.TotalsOrdered | utils/data_quality.py:33-40 | for loaders whose metrics are consistent, the total clean count lies between 0 and the total original count |
| DataQuality.OverallCompletenessSpec | utils/data_quality.py:23-50 | no completeness figures exactly when the original total is 0; otherwise removed = original − clean ≥ 0, the percentage lies in 0..100 and the dataset count is the number of loaders |
| DataQuality.CoverageMatrixSpec | utils/data_quality.py:53-72 | the matrix has a cell for every (present bank, present year); the cell is 1 when the bank has a record dated in that year and 0 otherwise |
| DataQuality.CoverageMatrixNoEmptyLine | utils/data_quality.py:63-72 | every bank line and every year column of the matrix holds at least one 1 |
| DataQuality.SystemBanksDistinct | config/indicator_mapping.py:303-328 | the 24 expected bank names are distinct |
| DataQuality.MissingBanksSpec | utils/data_quality.py:93-104 | the missing banks are exactly the expected banks absent from the table, in strictly ascending order |
| DataQuality.MonthEndsFrom | utils/data_quality.py:122-126 | the month-end range between two month indices has one date per month |
| DataQuality.MonthEndsFromAt | utils/data_quality.py:122-126 | the k-th date of the range is the month end k months after the first |
| DataQuality.MonthEndAtIndex | utils/data_quality.py:122-126 | the month end of a month index is a month end with that index |
| DataQuality.MonthEndOfItsIndex | utils/data_quality.py:122-126 | every month end is the month end of its own month index |
| DataQuality.MonthEndsIncrease | utils/data_quality.py:122-126 | the month-end range is strictly increasing |
| DataQuality.MissingDatesSound | utils/data_quality.py:107-133 | a table without dates has no missing dates; every date reported is a month end between the earliest and latest date that the table lacks |
| DataQuality.MissingDatesComplete | utils/data_quality.py:118-133 | every month end between the earliest and latest date that the table lacks is reported |
| DataQuality.MonthEndListed | utils/data_quality.py:122-126 | every month end between two dates lies in the month-end range of their months |
| DataQuality.MissingDatesAscending | utils/data_quality.py:133 | the missing dates are listed in strictly ascending order |
| DataQuality.CheckLeTotal | utils/data_quality.py:260 | the descending order on the difference percentage is total |
| DataQuality.ValidateAccountingEquation | utils/data_quality.py:206-260 | returns the checks of the specification function: one per bank at the resolved date, sorted by difference percentage, or none when no bank is present |
| DataQuality.CheckBanks | utils/data_quality.py:229-258 | the per-bank loop builds the checks of the specification function, one appended per bank in bank order |
| DataQuality.ChecksSpec | utils/data_quality.py:229-258 | the loop emits one check per bank, in bank order, each the check of that bank |
| DataQuality.ClassifySpec | utils/data_quality.py:242-247 | OK exactly when the percentage is within tolerance × 100, Advertencia exactly when above it and at most 1, never Advertencia at the default 0.01, and a zero difference is OK |
| DataQuality.CheckBankSpec | utils/data_quality.py:233-247 | difference = assets − (liabilities + equity); the percentage is non-negative, 0 exactly when assets ≤ 0 or the difference is 0, and the status is its classification |
| DataQuality.BankChecksSpec | utils/data_quality.py:229-258 | over the distinct banks of the rows, there is a check for exactly each present bank, once, and none when no bank is present |
| DataQuality.ChecksMembers | utils/data_quality.py:229-258 | for a list of distinct banks the checks are exactly one per listed bank, none twice |
| DataQuality.EquationChecksSpec | utils/data_quality.py:222-260 | no result exactly when no bank has a balance row at the resolved date (the latest one when none is given); otherwise exactly one check per such bank |
| DataQuality.EquationChecksOrdered | utils/data_quality.py:260 | the checks name each bank once and are ordered by difference percentage, largest first |
| DataQuality.QualitySummary | utils/data_quality.py:263-321 | the summary built step by step equals the summary function |
| DataQuality.CheckBalanceTable | utils/data_quality.py:288-304 | the balance checks give the missing-bank and missing-date alerts and metrics of the summary function |
| DataQuality.SummarySpec | utils/data_quality.py:279-319 | no tables gives ERROR with the single load-failure alert; otherwise the status follows the alert count (0 OK, 1-3 ADVERTENCIA, more REVISAR) and completeness is reported |
| DataQuality.SummaryReportsMissing | utils/data_quality.py:288-304 | missing banks and missing dates are reported exactly when the balance table lacks some, with their list or count and an alert each |
| DataQuality.SummaryNeverReview | utils/data_quality.py:288-319 | at most three alerts can be raised, at most two without an indicator table, so REVISAR is never reached |
| BalancePage.Candidates | pages/2_Balance_General.py:52-53 | the candidates are exactly the (code, name) pairs of the input whose code matches `^[0-9]+$`, each pair once |
| BalancePage.FilterDigitCodes | pages/2_Balance_General.py:53 | the filter keeps exactly the pairs whose code matches `^[0-9]+$` |
| BalancePage.BuildHierarchy | pages/2_Balance_General.py:47-94 | the dictionary built in four passes equals the hierarchy function of the candidate accounts |
| BalancePage.AddRoots | pages/2_Balance_General.py:57-63 | the first pass adds a leaf for every 1-digit code among 1, 2, 3, 6 and 7 |
| BalancePage.AddLevel2Accounts | pages/2_Balance_General.py:65-72 | the second pass attaches each 2-digit code under its first digit when that root exists |
| BalancePage.AddLevel4Accounts | pages/2_Balance_General.py:74-82 | the third pass attaches each 4-digit code under its 2-digit prefix when that node exists |
| BalancePage.AddLevel6Accounts | pages/2_Balance_General.py:84-92 | the fourth pass attaches each 6-digit code under its 4-digit prefix when that node exists |
| BalancePage.RootsKeys | pages/2_Balance_General.py:57-63 | the roots are exactly the 1-digit codes present in {1, 2, 3, 6, 7}, each without sub-accounts yet |
| BalancePage.CodesUnderMember | pages/2_Balance_General.py:66-92 | a code attached under a prefix has the level's length and extends that prefix |
| BalancePage.AddLevel2Shape | pages/2_Balance_General.py:66-72 | one 2-digit insertion keeps the roots and adds the code under its own first digit only, as an empty node |
| BalancePage.Level2Keys | pages/2_Balance_General.py:65-72 | after the second pass the roots are unchanged and each root's children are exactly the 2-digit codes starting with it |
| BalancePage.Level2KeysPrefixed | pages/2_Balance_General.py:65-72 | after the second pass every child key is two digits extending its root |
| BalancePage.AddLevel4Shape | pages/2_Balance_General.py:75-82 | one 4-digit insertion keeps the two upper levels and adds the code under its own 2-digit prefix only |
| BalancePage.Level4Keys | pages/2_Balance_General.py:74-82 | after the third pass the upper levels are unchanged and each 2-digit node's children are exactly the 4-digit codes extending it |
| BalancePage.Level4KeysPrefixed | pages/2_Balance_General.py:74-82 | after the third pass every key still extends its parent's key |
| BalancePage.AddLevel6Shape | pages/2_Balance_General.py:85-92 | one 6-digit insertion keeps the three upper levels and adds the code under its own 4-digit prefix only |
| BalancePage.Level6Keys | pages/2_Balance_General.py:84-92 | after the fourth pass the upper levels are unchanged and each 4-digit node's entries are exactly the 6-digit codes extending it |
| BalancePage.HierarchyLevels | pages/2_Balance_General.py:47-94 | the hierarchy has exactly the allowed present roots, under each root the 2-digit codes extending it, then the 4-digit and the 6-digit codes extending their parents; orphans and codes of length 3, 5 or 7+ never appear |
| BalancePage.NameOf | pages/2_Balance_General.py:56-91 | the name a loop leaves for a code is that of the last candidate with that code, since each match assigns again; "" when there is none |
| BalancePage.HierarchyNames | pages/2_Balance_General.py:56-91 | every root, 2-digit and 4-digit node's name, and every 6-digit account's stored name, is the name of the last candidate carrying that code |
| BalancePage.RankLeTotal | pages/2_Balance_General.py:215 | the descending-value order is total |
| BalancePage.BankValuesOfMonth | pages/2_Balance_General.py:176-217 | the bank values of a month are sorted by value in millions, largest first |
| BalancePage.MonthValuesSound | pages/2_Balance_General.py:188-204 | the filtered values are positive and come from rows of the code in that year and month; every such row with a positive value has its bank among them |
| BalancePage.MonthValuesEmpty | pages/2_Balance_General.py:194-207 | when no row of the month has a positive value the result is empty |
| BalancePage.BankValuesOfMonthSpec | pages/2_Balance_General.py:176-217 | one value per bank, for exactly the banks with a positive value that month, each the first such row of its bank, positive, and in descending order |
| BalancePage.BankValuesKeys | pages/2_Balance_General.py:209-215 | the banks listed are exactly the banks with a positive value that month |
| BalancePage.BankValuesFirsts | pages/2_Balance_General.py:209-212 | each bank's value is its first positive row of that month |
| BalancePage.Descending | pages/2_Balance_General.py:215 | a list sorted by the ranking order has non-increasing values |
| BalancePage.ChartHeight | pages/2_Balance_General.py:880 | the ranking chart is 400 pixels high, or 25 per bank when that is more |
| BalancePage.RankingShares | pages/2_Balance_General.py:897-903 | for a non-empty descending ranking of positive values the total is positive, the #1 share lies in (0, 100] and bounds every share, the top-5 share lies between the #1 share and 100 when there are five banks and is 0 otherwise |
| BalancePage.ScaleMonotone | pages/2_Balance_General.py:899-902 | dividing by a positive total and scaling to percent keeps the order, and the total itself is 100 |
| BalancePage.BankRankingShares | pages/2_Balance_General.py:861-903 | the ranking of any month with data has a positive total, a #1 share in (0, 100] and a top-5 share between the #1 share and 100 |
| IndicatorPage.CodeDatesMembers | pages/4_CAMEL.py:233-234 | the dates listed for a code are exactly the dates of that code's rows |
| IndicatorPage.FirstAtMostSpec | pages/4_CAMEL.py:236-238 | scanning newest first, the first date at or before the target is the latest such date; none is found only when every date is after the target |
| IndicatorPage.NewestIsFirst | pages/4_CAMEL.py:234-241 | the head of the newest-first list is the most recent date |
| IndicatorPage.AvailableDateSpec | pages/4_CAMEL.py:219-241 | the date returned is the target or a date of the code; the target itself when it has a row; else the latest date at or before it; the most recent date when all are later; the target when the code has no rows |
| IndicatorPage.BarLeTotal | pages/4_CAMEL.py:257 | the descending-value order is total |
| IndicatorPage.RankingIndicator | pages/4_CAMEL.py:245-258 | the ranking is sorted by value, largest first |
| IndicatorPage.RankedRowsSpec | pages/4_CAMEL.py:250-256 | the filtered bars are exactly the bars of the rows of that code and date whose bank is not excluded |
| IndicatorPage.RankingIndicatorSpec | pages/4_CAMEL.py:245-258 | the ranking is taken at the resolved date and is a permutation of the code's non-excluded rows at that date, each with percentage = value × 100, in descending value order |
| IndicatorPage.ExclusionOnlyForCoverage | pages/4_CAMEL.py:506-511 | for COB_TOT neither Citibank nor Coopnacional is ranked; for any other code every row at the resolved date is ranked |
| IndicatorPage.HeatmapWindow | pages/4_CAMEL.py:640-643 | the window's start is at or before its end: the inputs unchanged when already ordered, swapped otherwise |
| IndicatorPage.HeatmapRangesOrdered | pages/4_CAMEL.py:154-211 | every heatmap range has its lower bound below its upper bound, and the ROA and ROE ranges contain 0 |
| IndicatorPage.ZMidInsideRange | pages/4_CAMEL.py:413-421 | a midpoint exists exactly for the codes with a heatmap range, and it lies strictly inside that range (0 for ROA and ROE) |
| IncomePage.BanksOf | pages/3_Perdidas_Ganancias.py:59 | the bank list has one entry per ranked row, in ranking order |
| IncomePage.BanksByAssetsSpec | pages/3_Perdidas_Ganancias.py:48-61 | a failed load or an empty balance gives []; otherwise the banks of the code-1 rows at the latest balance date, as a permutation of those rows sorted by value, largest first |
| IncomePage.WithTwelveMonthsSpec | pages/3_Perdidas_Ganancias.py:84 | the page keeps exactly the rows with a 12-month value |
| IncomePage.DefaultBanksSpec | pages/3_Perdidas_Ganancias.py:99-104 | at most four present banks; empty only without banks; when some preset bank is present, exactly the present presets in preset order |
| IncomePage.CodeFromLabel | pages/3_Perdidas_Ganancias.py:125 | the selected code is a prefix of the label |
| IncomePage.CodeFromLabelRoundTrip | pages/3_Perdidas_Ganancias.py:121-125 | for a label "k - v" with no space in k, the code read back is k |
| IncomePage.PygAccountsSpec | pages/3_Perdidas_Ganancias.py:33-41 | every account label reads back to its own code, and the page's codes are exactly the seven mnemonics of the income-statement extractor (also lines 121-125) |
| IncomePage.MonthEndIsLastDay | pages/3_Perdidas_Ganancias.py:193-194 | the month end is in the given month, on day 28 to 31: 29 exactly for February of a leap year, 31 exactly for the seven long months (also lines 309-310) |
| IncomePage.DateOrderTotal | pages/3_Perdidas_Ganancias.py:205 | the date order of a bank's series is total |
| IncomePage.WindowRowsSpec | pages/3_Perdidas_Ganancias.py:191-205 | a bank's series is a permutation of its rows of the code between the first of the start month and the last day of the end month, in date order |
| IncomePage.Indexed | pages/3_Perdidas_Ganancias.py:210-213 | the indexed series has one value per input value |
| IncomePage.IndexedSpec | pages/3_Perdidas_Ganancias.py:210-213 | with a non-zero first value the series starts at 100 and each value is its input over the base × 100; with a zero first value every value is 0 |
| IncomePage.RankMillions | pages/3_Perdidas_Ganancias.py:319 | the ranking values are the rows' 12-month values in millions, one per row |
| IncomePage.AscendingTotal | pages/3_Perdidas_Ganancias.py:320 | the ascending value order is total |
| IncomePage.MaxOf | pages/3_Perdidas_Ganancias.py:355 | the maximum is one of the values and no value exceeds it |
| IncomePage.RankingValuesSpec | pages/3_Perdidas_Ganancias.py:309-320 | the ranking is a permutation of the values at the month end of the chosen month and code, rows without 12-month value excluded, in ascending order |
| IncomePage.TopOneShareSpec | pages/3_Perdidas_Ganancias.py:352-356 | for non-negative values the #1 share lies in 0..100 |
| IncomePage.TopFiveShareSpec | pages/3_Perdidas_Ganancias.py:358 | with at least five non-negative values and a positive total, the share of the five largest is defined and lies between the #1 share and 100 |
| IncomePage.TopFiveAsWrittenCounterexample | pages/3_Perdidas_Ganancias.py:320-358 | on values 1, 2, 3, 4, 5 and 100 the figure as written is 15/115 × 100, below the #1 share alone |
| IncomePage.ShareMonotone | pages/3_Perdidas_Ganancias.py:355-358 | a larger part of a positive total has a larger share, at most 100 |
| Panorama.MetricCodesConfigured | pages/1_Panorama.py:48-66 | the five metric codes the page looks up (1, 14, 21, 3, 11) are configured under the names it uses |
| Panorama.NumBanksSpec | pages/1_Panorama.py:68-69 | the bank count of a date is the number of distinct banks with a row at that date |
| Panorama.NoRowsZeroTotal | pages/1_Panorama.py:49-66 | a code with no row at the date totals 0 |
| Panorama.CodeTotalAdditive | pages/1_Panorama.py:44-66 | the total of a code at a date, in millions, adds up over a split of the rows |
| Panorama.ComparisonDateSpec | pages/1_Panorama.py:261-262 | the comparison date, when there is one, is an available date strictly earlier than the selected one; there is none with twelve dates or fewer, nor for a date that is not available |
| Panorama.DeltaSpec | pages/1_Panorama.py:276-278 | a delta exists exactly when the earlier value is positive; it is positive, zero or negative as the value grew, stayed or fell, and never below −100 for a non-negative value |
| Panorama.KpiDeltasSpec | pages/1_Panorama.py:261-278 | each of the four deltas (assets, loans, deposits, equity) exists exactly when there is a comparison date at which that metric is positive |
| Panorama.Entries | pages/1_Panorama.py:82-83 | the ranking entries are the rows' bank, value and value in millions, one per row |
| Panorama.ValueGeTotal | pages/1_Panorama.py:84 | the descending-value order is total |
| Panorama.Head | pages/1_Panorama.py:84 | head(n) keeps the first n rows, or all when there are fewer |
| Panorama.BankRankingSpec | pages/1_Panorama.py:75-86 | the ranking has min(top_n, matching rows) entries, sorted by value, largest first, each from a row of that date and code, none of the left-out rows larger than a kept one, and all of them when top_n is large enough |
| Panorama.EntryValues | pages/1_Panorama.py:97 | the value column has one value per entry |
| Panorama.Participations | pages/1_Panorama.py:98 | each share is the value over the total × 100, missing where the value is missing |
| Panorama.ParticipationsSum | pages/1_Panorama.py:97-98 | the shares add up to the values' sum over the total × 100 |
| Panorama.SharesSumToHundred | pages/1_Panorama.py:97-98 | shares taken over the values' own total add up to 100 |
| Panorama.SharesInRange | pages/1_Panorama.py:97-98 | shares of non-negative values lie in 0..100 |
| Panorama.SumSquaresBound | pages/1_Panorama.py:99-101 | for shares in 0..100 the sum of squares lies between 0 and 100 × their sum |
| Panorama.SquaresOfShares | pages/1_Panorama.py:99-101 | shares in 0..100 that add up to 100 have a sum of squares between 0 and 10000 |
| Panorama.HhiBound | pages/1_Panorama.py:90-103 | the HHI of non-negative values with a non-zero total lies between 0 and 10000 |
| Panorama.ConcentrationSpec | pages/1_Panorama.py:90-103 | no HHI exactly when no bank has an asset row at the date; otherwise the shares add up to 100 and, for non-negative values, the HHI lies in 0..10000 |
| Panorama.MonopolyHhi | pages/1_Panorama.py:90-103 | a single bank with positive assets gives the maximal HHI 10000 |
| Panorama.BuildTreemap | pages/1_Panorama.py:119-231 | the records appended step by step equal the treemap function of the date and kind |
| Panorama.AppendAssetRoots | pages/1_Panorama.py:147-157 | the asset loop appends exactly the root records of the code-1 rows |
| Panorama.AppendLiabilityRoots | pages/1_Panorama.py:188-205 | the liability loop appends exactly the root records of the banks' liabilities plus equity |
| Panorama.AppendChildren | pages/1_Panorama.py:159-171 | the account loop appends the child records of each fixed account, in table order (also lines 207-219) |
| Panorama.AppendAccountChildren | pages/1_Panorama.py:161-171 | the row loop of one account appends exactly that account's child records |
| Panorama.AssetRootsSpec | pages/1_Panorama.py:148-157 | every code-1 row with a positive value gives a root; every root comes from such a row, with empty parent and a positive value |
| Panorama.AccountChildrenSpec | pages/1_Panorama.py:161-171 | every positive row of an account gives a child labelled with the account name, parented by its bank, with id "<bank>_<name>"; every child comes from such a row |
| Panorama.ChildrenSpec | pages/1_Panorama.py:160-171 | the children are exactly the children of the fixed accounts' rows (also lines 208-219) |
| Panorama.AssetTreemapSpec | pages/1_Panorama.py:131-171 | in the asset treemap every positive code-1 row is a root; roots come only from code 1 with empty parent; children come only from the fixed 2-digit accounts, with id "<bank>_<name>" and a positive value |
| Panorama.LiabilityRootsSpec | pages/1_Panorama.py:190-205 | a bank with a code-1 row gets a root exactly when its liabilities plus equity are positive, with that total as value; a row without a bank totals 0 |
| Panorama.Shares | pages/1_Panorama.py:227 | each record's share is its value over the total × 100 |
| Panorama.RootSharesScale | pages/1_Panorama.py:225-227 | the roots' shares add up to the roots' total over the system total × 100 |
| Panorama.WithParticipationSpec | pages/1_Panorama.py:223-229 | every record keeps its place; when the roots' total is positive the roots' shares add up to 100, otherwise every share is 0 |
| Charts.ColoursForSpec | utils/charts.py:51-60 | the colour map has exactly the given banks as keys, each mapped to its configured colour, and no expected bank gets the default grey |
| Charts.GaugeColour | utils/charts.py:540-556 | the threshold loop returns the bar colour of the specification, with the three default thresholds when none are given |
| Charts.BarColourSpec | utils/charts.py:548-556 | the colour stays neutro exactly when no threshold's closed range contains the value; otherwise it is the tone of the last threshold that contains it |
| Charts.DefaultGaugeColours | utils/charts.py:540-556 | with the default thresholds: error below 33, advertencia from 33 below 66, exito from 66 to 100, neutro outside 0..100 |
| Charts.RadarValues | utils/charts.py:466-471 | the radar values are C, A, M, E, L with 0 for a missing key, closed by repeating the first: six values with the last equal to the first |
| Charts.RadarTraces | utils/charts.py:469-479 | a non-empty benchmark adds a first closed trace of its C, A, M, E, L values; the bank's closed trace always comes last |
| Charts.BuildCustomdata | utils/charts.py:269-278 | the customdata loop returns the hover values of the specification, row by row |
| Charts.CustomdataSpec | utils/charts.py:270-278 | one hover value per row: the participation for a root row when the column exists, 0 otherwise |
| Charts.CreateTreemap | utils/charts.py:222-278 | the hierarchical treemap built step by step equals the treemap function of the frame |
| Charts.TreemapSpec | utils/charts.py:226-278 | the error figure exactly when labels, parents or values is missing; no data exactly when no row has a positive value; otherwise exactly the rows with a positive value, children hovering 0 and roots their participation |
| Charts.FromRecords | pages/1_Panorama.py:221-229 | the frame handed to the chart has one row per treemap record, with its labels, parents, value and participation |
| Charts.FilterKeepsPositive | utils/charts.py:239-240 | dropping missing and non-positive values keeps a frame whose values are all positive |
| Charts.HoverSumIsRootShares | utils/charts.py:270-278 | the hover values add up to the roots' participations |
| Charts.PanoramaTreemapDrawn | pages/1_Panorama.py:221-229 | a non-empty overview treemap with positive values is drawn with all its rows, and its root hover values add up to 100 |
| ScriptConfig.DecimalRoundTrip | scripts/config.py:40 | the text of a natural number is a non-empty digit string without leading zero that reads back as the number |
| ScriptConfig.TargetPeriodSpec | scripts/config.py:17-42 | the target period is the previous calendar month, December of the year before in January, one month before today, named "<MES> <año>" from the upper-case month table |
| ScriptConfig.UpperString | scripts/config.py:34-38 | upper-casing keeps the length and upper-cases every character (also lines 98-105) |
| ScriptConfig.MonthTablesAgreeOn | scripts/config.py:34-38 | the lower-case folder month table upper-cases to the period month table, month by month (also lines 98-105) |
| ScriptConfig.OutputNamesSpec | scripts/config.py:98-110 | the folder is "datos_bancos_<mes>_<año>" with the period's month in lower case, and the XPath contains the text "Año <año>" |
| ScriptConfig.SubstringAt | scripts/config.py:108-110 | a text is found inside any text that embeds it |
| ScriptConfig.LowerString | scripts/config.py:80 | lower-casing keeps the length |
| ScriptConfig.ChromeHeadlessAlways | scripts/config.py:80 | the headless flag is true whatever GITHUB_ACTIONS holds, because of the trailing `or True` |
| ScriptConfig.ValidateConfiguration | scripts/config.py:117-133 | the validation loop returns the errors of the specification, in check order, and succeeds exactly when there is none |
| ScriptConfig.ConfigErrorsSpec | scripts/config.py:117-133 | the configuration fails exactly when the year is before 2003 or after next year, or the month is outside 1..12; each fault is reported once |
| ScriptConfig.TargetPeriodValid | scripts/config.py:17-42 | from February 2003 on, the period computed from today always passes the validation run on the same day (also lines 117-133) |

## Left out

- Reading and writing files is left out as I/O: Excel workbooks, parquet, CSV and JSON, the ZIP extraction (scripts/descomprimir_zips.py), the Selenium download (scripts/descargar.py) and the update driver (scripts/actualizar_datos.py). Tables arrive as values.
- Streamlit widgets, page layout, CSS, `st.cache_data`, and Plotly figure construction (colours, hover templates, axes) are left out as presentation. Only the data handed to the figures is modelled.
- BalancePage.HierarchyOf and BalancePage.BuildHierarchy hold the account hierarchy as a Dafny `map`, which has no order. The insertion order of the `jerarquia` dict is therefore not modelled. The account selectors use that order for their options and their default choice (pages/2_Balance_General.py:284, 529, 729).
- `cargar_metadata` and `cargar_todos_los_datos` are not modelled. They only read files and collect the three loaders' results.
- `calcular_cobertura_por_fecha`, `analizar_nulos_por_indicador`, `validar_rangos_indicadores` and `exportar_reporte_calidad` of utils/data_quality.py are not modelled. Only the archived quality page calls them, and the last one writes an Excel file.
- The heat-map pivots are not modelled: the year-over-year table of pages/2_Balance_General.py:117-172 and the bank-by-month table of `obtener_heatmap_indicador` in pages/4_CAMEL.py. They only reshape rows for display. The heat map's date window and colour midpoint are modelled.
- ScriptConfig.TargetPeriod: for 1 January of year 1, Python's `datetime` raises OverflowError. The model returns December of year 0 instead, because dates are unbounded here.
- The `main()` functions, logging and `print` output of the scripts are left out as I/O.
- Floating point is modelled as exact reals. The model does not capture:
  - the `round(...)` of displayed percentages: values are left unrounded;
  - NaN and infinity: a missing value is `None`, and a ratio whose denominator is zero is `None`.
- Division by zero:
  - DataLoader.QualityOf is `None` on an empty raw table, where the source divides by zero and raises.
  - DataLoader.LoadPyg reports the 12-month percentage as `None` when cleaning leaves no row, where numpy divides 0 by 0 and yields NaN without raising.
  - Panorama.HhiConcentration is `Undefined` when the total is zero.
  - IncomePage.TopFiveShare is `None` when the total is zero.
- Sorting.SortBy is a stable insertion sort. pandas' default quicksort does not fix the order of equal keys, so where keys tie the model picks one of the orders the source may produce.
- DataQuality.EquationChecks is `None` where the source raises: no bank has balance rows at the date, and sorting the empty result by a missing column raises.
- Panorama.ComparisonDate is `None` for a date that is not in the list, where `list.index` raises.
- Common.Upper upper-cases ASCII and the Latin-1 lower-case letters. Python's `str.upper` also maps letters outside that range (ÿ, µ, ß and the rest of Unicode); the Spanish account names and month names it is applied to need only that range.
- BalancePage.BankValuesOfMonth follows pandas' `observed=True` grouping: it lists only the banks with a positive value that month. scripts/procesar_balance.py:214 stores `banco` as a categorical column, and the parquet round trip keeps that type. Under pandas 2.x, whose default is `observed=False`, the `groupby('banco')` of pages/2_Balance_General.py:210 adds a NaN row for every other bank of the table, and the sort puts those rows last. Those extra rows raise the chart height of line 880 (for example 24 rows give 600 px instead of 400). With three positive banks they also turn the "Top 5" share of lines 901-902 from 0 into 100 %. Under pandas 3.x the default is `observed=True` and the model is exact.
- BalancePage.BankValuesOfMonthSpec and BalancePage.BankValuesKeys state "exactly the banks with a positive value" under the same `observed=True` reading; the NaN rows of absent banks are not modelled.
- DataLoader.AccountValue gives "no value" on a table without a 'hoja' column, which the model represents as a column of nulls. The source raises KeyError there, and the balance extractor never writes that column. The 'hoja' == 'BAL' filter of DataQuality.EquationChecks is modelled the same way.
- Common.AllDigits accepts ASCII digits only. Python's `str.isdigit()` (scripts/procesar_balance.py:54) and the regex `\d` (line 41) also accept other Unicode digits; the codes and years of the statements are ASCII.
- DataLoader.BankNames, and with it AvailableBanks and the per-bank checks, skips a missing bank. `unique()` keeps NaN, and `sorted` over NaN mixed with strings raises TypeError. This only happens on uncleaned input, since every loader drops rows without a bank.
- Common.ToFloat takes Python's `float(str)` as the `Parsers.toReal` parameter, and `pandas.to_datetime` is the `Parsers.toDate` parameter. Their own behaviour is not modelled.
- The time-series filters `obtener_serie_banco`, `obtener_serie_sistema`, `obtener_serie_temporal` and `obtener_evolucion_indicador` are not modelled. They filter by bank and code and pass the rows straight to a line chart. The chart builders of utils/charts.py are not modelled either, beyond the bank colours, the gauge colour, the radar values and the treemap data. The start page Inicio.py is not modelled, because it only renders.

## Findings

| source | as written | input that shows it | evidently intended | confidence | as-written member | corrected member |
|---|---|---|---|---|---|---|
| pages/3_Perdidas_Ganancias.py:320-358 | the "Top 5" share sums `head(5)` of the ranking sorted in ascending order, that is the five smallest banks | banks with values 1, 2, 3, 4, 5 and 100: the figure is 15/115 × 100 ≈ 13 %, below the largest bank's own share of about 87 % | the share of the five largest banks | not executed | IncomePage.TopFiveShareAsWritten, IncomePage.TopFiveAsWrittenCounterexample | IncomePage.TopFiveShare, IncomePage.TopFiveShareSpec |

=== FILE: balance_page.dfy ===
/** The balance-sheet page: the account tree built level by level from the
    account codes, the per-bank values of one account in one month, and the
    ranking statistics. */
module BalancePage {
  import opened Common
  import opened Sorting
  import BalanceSheet

  // ---------------------------------------------------------------------------
  // Account hierarchy (obtener_jerarquia_cuentas)
  // ---------------------------------------------------------------------------

  /** A 4-digit account and its 6-digit sub-accounts (code -> name). */
  datatype Node4 = Node4(nombre: string, subcuentas: map<string, string>)
  /** A 2-digit account and its 4-digit sub-accounts. */
  datatype Node2 = Node2(nombre: string, subcuentas: map<string, Node4>)
  /** A 1-digit root account and its 2-digit sub-accounts. */
  datatype Node1 = Node1(nombre: string, subcuentas: map<string, Node2>)

  type Tree = map<string, Node1>

  /** `^[0-9]+$` under re.match: ASCII digits, where `$` also accepts one
      final newline. */
  predicate IsDigitCode(c: string) {
    AllDigits(c) || (|c| >= 2 && c[|c| - 1] == '\n' && AllDigits(c[..|c| - 1]))
  }

  /** The roots kept: assets, liabilities, equity, contingent and memorandum accounts. */
  predicate IsRootCode(c: string) {
    c in {"1", "2", "3", "6", "7"}
  }

  /** The distinct (codigo, cuenta) pairs whose code is a digit code, in first-seen order. */
  function Candidates(rows: seq<(string, string)>): (r: seq<(string, string)>)
    ensures forall i :: 0 <= i < |r| ==> IsDigitCode(r[i].0) && r[i] in rows
    ensures forall p :: p in rows && IsDigitCode(p.0) ==> p in r
    ensures forall i, j :: 0 <= i < j < |r| ==> r[i] != r[j]
  {
    FilterDigitCodes(Distinct(rows))
  }

  function FilterDigitCodes(s: seq<(string, string)>): (r: seq<(string, string)>)
    ensures forall i :: 0 <= i < |r| ==> IsDigitCode(r[i].0) && r[i] in s
    ensures forall i :: 0 <= i < |s| && IsDigitCode(s[i].0) ==> s[i] in r
    ensures (forall i, j :: 0 <= i < j < |s| ==> s[i] != s[j]) ==> forall i, j :: 0 <= i < j < |r| ==> r[i] != r[j]
  {
    if s == [] then []
    else
      var rest := FilterDigitCodes(s[..|s| - 1]);
      assert forall i :: 0 <= i < |s| - 1 ==> s[..|s| - 1][i] == s[i];
      assert (forall i, j :: 0 <= i < j < |s| ==> s[i] != s[j]) ==> s[|s| - 1] !in s[..|s| - 1];
      if IsDigitCode(s[|s| - 1].0) then rest + [s[|s| - 1]] else rest
  }

  /** One step of each level loop. */
  function AddRoot(t: Tree, c: string, n: string): Tree {
    if |c| == 1 && IsRootCode(c) then t[c := Node1(n, map[])] else t
  }

  function AddLevel2(t: Tree, c: string, n: string): Tree {
    if |c| == 2 && c[..1] in t then
      t[c[..1] := t[c[..1]].(subcuentas := t[c[..1]].subcuentas[c := Node2(n, map[])])]
    else t
  }

  function AddLevel4(t: Tree, c: string, n: string): Tree {
    if |c| == 4 && c[..1] in t && c[..2] in t[c[..1]].subcuentas then
      var n1 := t[c[..1]];
      var n2 := n1.subcuentas[c[..2]];
      t[c[..1] := n1.(subcuentas := n1.subcuentas[c[..2] := n2.(subcuentas := n2.subcuentas[c := Node4(n, map[])])])]
    else t
  }

  function AddLevel6(t: Tree, c: string, n: string): Tree {
    if |c| == 6 && c[..1] in t && c[..2] in t[c[..1]].subcuentas && c[..4] in t[c[..1]].subcuentas[c[..2]].subcuentas then
      var n1 := t[c[..1]];
      var n2 := n1.subcuentas[c[..2]];
      var n4 := n2.subcuentas[c[..4]];
      t[c[..1] := n1.(subcuentas := n1.subcuentas[c[..2] :=
        n2.(subcuentas := n2.subcuentas[c[..4] := n4.(subcuentas := n4.subcuentas[c := n])])])]
    else t
  }

  /** Each level loop over the first k candidates, starting from t. */
  function Roots(cs: seq<(string, string)>, k: nat): Tree
    requires k <= |cs|
  {
    if k == 0 then map[] else AddRoot(Roots(cs, k - 1), cs[k - 1].0, cs[k - 1].1)
  }

  function Level2(t: Tree, cs: seq<(string, string)>, k: nat): Tree
    requires k <= |cs|
  {
    if k == 0 then t else AddLevel2(Level2(t, cs, k - 1), cs[k - 1].0, cs[k - 1].1)
  }

  function Level4(t: Tree, cs: seq<(string, string)>, k: nat): Tree
    requires k <= |cs|
  {
    if k == 0 then t else AddLevel4(Level4(t, cs, k - 1), cs[k - 1].0, cs[k - 1].1)
  }

  function Level6(t: Tree, cs: seq<(string, string)>, k: nat): Tree
    requires k <= |cs|
  {
    if k == 0 then t else AddLevel6(Level6(t, cs, k - 1), cs[k - 1].0, cs[k - 1].1)
  }

  /** The tree the four loops build from the candidates. */
  function HierarchyOf(cs: seq<(string, string)>): Tree {
    Level6(Level4(Level2(Roots(cs, |cs|), cs, |cs|), cs, |cs|), cs, |cs|)
  }

  /** obtener_jerarquia_cuentas: the nested dictionary is filled level by
      level, one loop over the candidate accounts per level. */
  method BuildHierarchy(rows: seq<(string, string)>) returns (jerarquia: Tree)
    ensures jerarquia == HierarchyOf(Candidates(rows))
  {
    var cuentas := Candidates(rows);
    jerarquia := AddRoots(cuentas);
    jerarquia := AddLevel2Accounts(jerarquia, cuentas);
    jerarquia := AddLevel4Accounts(jerarquia, cuentas);
    jerarquia := AddLevel6Accounts(jerarquia, cuentas);
  }

  /** Level 1: the allowed 1-digit codes. */
  method AddRoots(cuentas: seq<(string, string)>) returns (jerarquia: Tree)
    ensures jerarquia == Roots(cuentas, |cuentas|)
  {
    jerarquia := map[];
    var k := 0;
    while k < |cuentas|
      invariant 0 <= k <= |cuentas| && jerarquia == Roots(cuentas, k)
    {
      var (c, n) := cuentas[k];
      if |c| == 1 && IsRootCode(c) {
        jerarquia := jerarquia[c := Node1(n, map[])];
      }
      k := k + 1;
    }
  }

  /** Level 2: 2-digit codes under an existing root. */
  method AddLevel2Accounts(t: Tree, cuentas: seq<(string, string)>) returns (jerarquia: Tree)
    ensures jerarquia == Level2(t, cuentas, |cuentas|)
  {
    jerarquia := t;
    var k := 0;
    while k < |cuentas|
      invariant 0 <= k <= |cuentas| && jerarquia == Level2(t, cuentas, k)
    {
      var (c, n) := cuentas[k];
      if |c| == 2 && c[..1] in jerarquia {
        var raiz := jerarquia[c[..1]];
        jerarquia := jerarquia[c[..1] := raiz.(subcuentas := raiz.subcuentas[c := Node2(n, map[])])];
      }
      k := k + 1;
    }
  }

  /** Level 3: 4-digit codes under an existing 2-digit node. */
  method AddLevel4Accounts(t: Tree, cuentas: seq<(string, string)>) returns (jerarquia: Tree)
    ensures jerarquia == Level4(t, cuentas, |cuentas|)
  {
    jerarquia := t;
    var k := 0;
    while k < |cuentas|
      invariant 0 <= k <= |cuentas| && jerarquia == Level4(t, cuentas, k)
    {
      var (c, n) := cuentas[k];
      if |c| == 4 && c[..1] in jerarquia && c[..2] in jerarquia[c[..1]].subcuentas {
        var raiz := jerarquia[c[..1]];
        var grupo := raiz.subcuentas[c[..2]];
        jerarquia := jerarquia[c[..1] := raiz.(subcuentas := raiz.subcuentas[c[..2] :=
          grupo.(subcuentas := grupo.subcuentas[c := Node4(n, map[])])])];
      }
      k := k + 1;
    }
  }

  /** Level 4: 6-digit codes, as plain names, under an existing 4-digit node. */
  method AddLevel6Accounts(t: Tree, cuentas: seq<(string, string)>) returns (jerarquia: Tree)
    ensures jerarquia == Level6(t, cuentas, |cuentas|)
  {
    jerarquia := t;
    var k := 0;
    while k < |cuentas|
      invariant 0 <= k <= |cuentas| && jerarquia == Level6(t, cuentas, k)
    {
      var (c, n) := cuentas[k];
      if |c| == 6 && c[..1] in jerarquia && c[..2] in jerarquia[c[..1]].subcuentas &&
         c[..4] in jerarquia[c[..1]].subcuentas[c[..2]].subcuentas {
        var raiz := jerarquia[c[..1]];
        var grupo := raiz.subcuentas[c[..2]];
        var cuenta := grupo.subcuentas[c[..4]];
        jerarquia := jerarquia[c[..1] := raiz.(subcuentas := raiz.subcuentas[c[..2] :=
          grupo.(subcuentas := grupo.subcuentas[c[..4] := cuenta.(subcuentas := cuenta.subcuentas[c := n])])])];
      }
      k := k + 1;
    }
  }

  // ---------------------------------------------------------------------------
  // What the tree holds, level by level
  // ---------------------------------------------------------------------------

  /** The candidate codes of length len under prefix pre among the first k. */
  ghost function CodesUnder(cs: seq<(string, string)>, k: nat, len: nat, pre: string): set<string>
    requires k <= |cs|
  {
    set i | 0 <= i < k && |cs[i].0| == len && |pre| <= len && cs[i].0[..|pre|] == pre :: cs[i].0
  }

  ghost function RootCodes(cs: seq<(string, string)>, k: nat): set<string>
    requires k <= |cs|
  {
    set i | 0 <= i < k && |cs[i].0| == 1 && IsRootCode(cs[i].0) :: cs[i].0
  }

  /** Adding the k-th candidate to the codes under a prefix. */
  lemma CodesUnderStep(cs: seq<(string, string)>, k: nat, len: nat, pre: string)
    requires 0 < k <= |cs|
    ensures CodesUnder(cs, k, len, pre) ==
      CodesUnder(cs, k - 1, len, pre) +
      (if |cs[k - 1].0| == len && |pre| <= len && cs[k - 1].0[..|pre|] == pre then {cs[k - 1].0} else {})
  {
  }

  lemma RootCodesStep(cs: seq<(string, string)>, k: nat)
    requires 0 < k <= |cs|
    ensures RootCodes(cs, k) ==
      RootCodes(cs, k - 1) + (if |cs[k - 1].0| == 1 && IsRootCode(cs[k - 1].0) then {cs[k - 1].0} else {})
  {
  }

  /** The root loop: the roots are exactly the allowed 1-digit codes present,
      each with no sub-accounts yet. */
  lemma {:induction false} RootsKeys(cs: seq<(string, string)>, k: nat)
    requires k <= |cs|
    ensures Roots(cs, k).Keys == RootCodes(cs, k)
    ensures RootsSingleDigit(Roots(cs, k)) && RootsLeaves(Roots(cs, k))
  {
    if k > 0 {
      RootsKeys(cs, k - 1);
      RootCodesStep(cs, k);
    }
  }

  /** Shape facts of a partly built tree, each kept behind a name. */
  ghost predicate RootsLeaves(t: Tree) {
    forall r :: r in t ==> t[r].subcuentas == map[]
  }

  ghost predicate RootsSingleDigit(t: Tree) {
    forall r :: r in t ==> |r| == 1
  }

  ghost predicate Level2Prefixed(t: Tree) {
    forall r, g :: r in t && g in t[r].subcuentas ==> |g| == 2 && g[..1] == r
  }

  ghost predicate Level2Leaves(t: Tree) {
    forall r, g :: r in t && g in t[r].subcuentas ==> t[r].subcuentas[g].subcuentas == map[]
  }

  ghost predicate Level4Prefixed(t: Tree) {
    forall r, g, a :: r in t && g in t[r].subcuentas && a in t[r].subcuentas[g].subcuentas ==> |a| == 4 && a[..2] == g
  }

  ghost predicate Level4Leaves(t: Tree) {
    forall r, g, a :: r in t && g in t[r].subcuentas && a in t[r].subcuentas[g].subcuentas ==>
      t[r].subcuentas[g].subcuentas[a].subcuentas == map[]
  }

  /** A code under a prefix has the level's length and begins with the prefix. */
  lemma CodesUnderMember(cs: seq<(string, string)>, k: nat, len: nat, pre: string, x: string)
    requires k <= |cs| && x in CodesUnder(cs, k, len, pre)
    ensures |x| == len && |pre| <= len && x[..|pre|] == pre
  {
  }

  /** One step of the 2-digit loop adds c under its root, if that root exists. */
  lemma AddLevel2Shape(t: Tree, c: string, n: string)
    ensures AddLevel2(t, c, n).Keys == t.Keys
    ensures forall r :: r in t ==>
      AddLevel2(t, c, n)[r].subcuentas.Keys == t[r].subcuentas.Keys + (if |c| == 2 && c[..1] == r then {c} else {})
    ensures forall r, g :: r in t && g in AddLevel2(t, c, n)[r].subcuentas ==>
      (g in t[r].subcuentas && AddLevel2(t, c, n)[r].subcuentas[g] == t[r].subcuentas[g]) ||
      (g == c && AddLevel2(t, c, n)[r].subcuentas[g].subcuentas == map[])
  {
  }

  /** The 2-digit loop keeps the roots and puts under each root r exactly the
      2-digit codes beginning with r, each with no sub-accounts yet. */
  lemma {:induction false} Level2Keys(t: Tree, cs: seq<(string, string)>, k: nat)
    requires k <= |cs|
    requires RootsSingleDigit(t) && RootsLeaves(t)
    ensures Level2(t, cs, k).Keys == t.Keys
    ensures forall r :: r in t ==> Level2(t, cs, k)[r].subcuentas.Keys == CodesUnder(cs, k, 2, r)
    ensures Level2Leaves(Level2(t, cs, k))
  {
    if k > 0 {
      Level2Keys(t, cs, k - 1);
      AddLevel2Shape(Level2(t, cs, k - 1), cs[k - 1].0, cs[k - 1].1);
      forall r | r in t
        ensures Level2(t, cs, k)[r].subcuentas.Keys == CodesUnder(cs, k, 2, r)
      {
        CodesUnderStep(cs, k, 2, r);
      }
    }
  }

  /** After the 2-digit loop every 2-digit node sits under its first digit. */
  lemma Level2KeysPrefixed(t: Tree, cs: seq<(string, string)>, k: nat)
    requires k <= |cs|
    requires RootsSingleDigit(t) && RootsLeaves(t)
    ensures Level2Prefixed(Level2(t, cs, k))
  {
    Level2Keys(t, cs, k);
    var t2 := Level2(t, cs, k);
    forall r, g | r in t2 && g in t2[r].subcuentas
      ensures |g| == 2 && g[..1] == r
    {
      CodesUnderMember(cs, k, 2, r, g);
    }
  }

  /** One step of the 4-digit loop adds c under its 2-digit node, if that exists. */
  lemma AddLevel4Shape(t: Tree, c: string, n: string)
    ensures AddLevel4(t, c, n).Keys == t.Keys
    ensures forall r :: r in t ==> AddLevel4(t, c, n)[r].subcuentas.Keys == t[r].subcuentas.Keys
    ensures forall r, g :: r in t && g in t[r].subcuentas ==>
      AddLevel4(t, c, n)[r].subcuentas[g].subcuentas.Keys ==
      t[r].subcuentas[g].subcuentas.Keys + (if |c| == 4 && c[..1] == r && c[..2] == g then {c} else {})
    ensures forall r, g, a :: r in t && g in t[r].subcuentas && a in AddLevel4(t, c, n)[r].subcuentas[g].subcuentas ==>
      (a in t[r].subcuentas[g].subcuentas && AddLevel4(t, c, n)[r].subcuentas[g].subcuentas[a] == t[r].subcuentas[g].subcuentas[a]) ||
      (a == c && AddLevel4(t, c, n)[r].subcuentas[g].subcuentas[a].subcuentas == map[])
  {
  }

  /** The 4-digit loop keeps the first two levels and puts under each
      2-digit node g exactly the 4-digit codes beginning with g. */
  lemma {:induction false} Level4Keys(t: Tree, cs: seq<(string, string)>, k: nat)
    requires k <= |cs|
    requires Level2Prefixed(t) && Level2Leaves(t)
    ensures Level4(t, cs, k).Keys == t.Keys
    ensures forall r :: r in t ==> Level4(t, cs, k)[r].subcuentas.Keys == t[r].subcuentas.Keys
    ensures forall r, g :: r in t && g in t[r].subcuentas ==>
      Level4(t, cs, k)[r].subcuentas[g].subcuentas.Keys == CodesUnder(cs, k, 4, g)
    ensures Level4Leaves(Level4(t, cs, k))
  {
    if k > 0 {
      Level4Keys(t, cs, k - 1);
      var c := cs[k - 1].0;
      AddLevel4Shape(Level4(t, cs, k - 1), c, cs[k - 1].1);
      forall r, g | r in t && g in t[r].subcuentas
        ensures Level4(t, cs, k)[r].subcuentas[g].subcuentas.Keys == CodesUnder(cs, k, 4, g)
      {
        CodesUnderStep(cs, k, 4, g);
        if |c| == 4 && c[..2] == g {
          assert c[..1] == g[..1];
        }
      }
      var prev := Level4(t, cs, k - 1);
      var t4 := Level4(t, cs, k);
      forall r, g, a | r in t4 && g in t4[r].subcuentas && a in t4[r].subcuentas[g].subcuentas
        ensures t4[r].subcuentas[g].subcuentas[a].subcuentas == map[]
      {
        assert g in prev[r].subcuentas;
        if a in prev[r].subcuentas[g].subcuentas && t4[r].subcuentas[g].subcuentas[a] == prev[r].subcuentas[g].subcuentas[a] {
          assert prev[r].subcuentas[g].subcuentas[a].subcuentas == map[];
        }
      }
    } else {
      assert Level4(t, cs, k) == t;
      assert forall g :: CodesUnder(cs, k, 4, g) == {};
    }
  }

  /** After the 4-digit loop the first two levels keep their shape and every
      4-digit node sits under its first two digits. */
  lemma Level4KeysPrefixed(t: Tree, cs: seq<(string, string)>, k: nat)
    requires k <= |cs|
    requires Level2Prefixed(t) && Level2Leaves(t)
    ensures Level2Prefixed(Level4(t, cs, k)) && Level4Prefixed(Level4(t, cs, k))
  {
    Level4KeepsLevel2(t, cs, k);
    Level4UnderParents(t, cs, k);
  }

  lemma Level4KeepsLevel2(t: Tree, cs: seq<(string, string)>, k: nat)
    requires k <= |cs|
    requires Level2Prefixed(t) && Level2Leaves(t)
    ensures Level2Prefixed(Level4(t, cs, k))
  {
    Level4Keys(t, cs, k);
    var t4 := Level4(t, cs, k);
    forall r, g | r in t4 && g in t4[r].subcuentas
      ensures |g| == 2 && g[..1] == r
    {
      assert g in t[r].subcuentas;
    }
  }

  lemma Level4UnderParents(t: Tree, cs: seq<(string, string)>, k: nat)
    requires k <= |cs|
    requires Level2Prefixed(t) && Level2Leaves(t)
    ensures Level4Prefixed(Level4(t, cs, k))
  {
    Level4Keys(t, cs, k);
    var t4 := Level4(t, cs, k);
    forall r, g, a | r in t4 && g in t4[r].subcuentas && a in t4[r].subcuentas[g].subcuentas
      ensures |a| == 4 && a[..2] == g
    {
      assert g in t[r].subcuentas;
      CodesUnderMember(cs, k, 4, g, a);
    }
  }

  /** One step of the 6-digit loop adds c under its 4-digit node, if that exists. */
  lemma AddLevel6Shape(t: Tree, c: string, n: string)
    ensures AddLevel6(t, c, n).Keys == t.Keys
    ensures forall r :: r in t ==> AddLevel6(t, c, n)[r].subcuentas.Keys == t[r].subcuentas.Keys
    ensures forall r, g :: r in t && g in t[r].subcuentas ==>
      AddLevel6(t, c, n)[r].subcuentas[g].subcuentas.Keys == t[r].subcuentas[g].subcuentas.Keys
    ensures forall r, g, a :: r in t && g in t[r].subcuentas && a in t[r].subcuentas[g].subcuentas ==>
      AddLevel6(t, c, n)[r].subcuentas[g].subcuentas[a].subcuentas.Keys ==
      t[r].subcuentas[g].subcuentas[a].subcuentas.Keys +
      (if |c| == 6 && c[..1] == r && c[..2] == g && c[..4] == a then {c} else {})
  {
  }

  /** A 6-digit code under 4-digit node a also begins with a's parents. */
  lemma SixDigitParents(c: string, r: string, g: string, a: string)
    requires |g| == 2 && g[..1] == r && |a| == 4 && a[..2] == g
    ensures |c| == 6 && c[..4] == a ==> c[..1] == r && c[..2] == g
  {
    if |c| == 6 && c[..4] == a {
      assert c[..2] == a[..2];
      assert c[..1] == g[..1];
    }
  }

  /** The 6-digit loop keeps the first three levels and puts under each
      4-digit node a exactly the 6-digit codes beginning with a. */
  lemma Level6Keys(t: Tree, cs: seq<(string, string)>, k: nat)
    requires k <= |cs|
    requires Level2Prefixed(t) && Level4Prefixed(t) && Level4Leaves(t)
    ensures Level6(t, cs, k).Keys == t.Keys
    ensures forall r :: r in t ==> Level6(t, cs, k)[r].subcuentas.Keys == t[r].subcuentas.Keys
    ensures forall r, g :: r in t && g in t[r].subcuentas ==>
      Level6(t, cs, k)[r].subcuentas[g].subcuentas.Keys == t[r].subcuentas[g].subcuentas.Keys
    ensures forall r, g, a :: r in t && g in t[r].subcuentas && a in t[r].subcuentas[g].subcuentas ==>
      Level6(t, cs, k)[r].subcuentas[g].subcuentas[a].subcuentas.Keys == CodesUnder(cs, k, 6, a)
  {
    Level6KeepsUpper(t, cs, k);
    forall r, g, a | r in t && g in t[r].subcuentas && a in t[r].subcuentas[g].subcuentas
      ensures Level6(t, cs, k)[r].subcuentas[g].subcuentas[a].subcuentas.Keys == CodesUnder(cs, k, 6, a)
    {
      Level6Under(t, cs, k, r, g, a);
    }
  }

  /** The 6-digit loop leaves the keys of the first three levels alone. */
  lemma {:induction false} Level6KeepsUpper(t: Tree, cs: seq<(string, string)>, k: nat)
    requires k <= |cs|
    ensures Level6(t, cs, k).Keys == t.Keys
    ensures forall r :: r in t ==> Level6(t, cs, k)[r].subcuentas.Keys == t[r].subcuentas.Keys
    ensures forall r, g :: r in t && g in t[r].subcuentas ==>
      Level6(t, cs, k)[r].subcuentas[g].subcuentas.Keys == t[r].subcuentas[g].subcuentas.Keys
  {
    if k > 0 {
      Level6KeepsUpper(t, cs, k - 1);
      AddLevel6Shape(Level6(t, cs, k - 1), cs[k - 1].0, cs[k - 1].1);
    } else {
      assert Level6(t, cs, k) == t;
    }
  }

  /** Under the 4-digit node a of root r and 2-digit node g the 6-digit loop
      puts exactly the 6-digit codes beginning with a. */
  lemma {:induction false} Level6Under(t: Tree, cs: seq<(string, string)>, k: nat, r: string, g: string, a: string)
    requires k <= |cs|
    requires r in t && g in t[r].subcuentas && a in t[r].subcuentas[g].subcuentas
    requires |g| == 2 && g[..1] == r && |a| == 4 && a[..2] == g
    requires t[r].subcuentas[g].subcuentas[a].subcuentas == map[]
    ensures r in Level6(t, cs, k) && g in Level6(t, cs, k)[r].subcuentas &&
      a in Level6(t, cs, k)[r].subcuentas[g].subcuentas
    ensures Level6(t, cs, k)[r].subcuentas[g].subcuentas[a].subcuentas.Keys == CodesUnder(cs, k, 6, a)
  {
    Level6KeepsUpper(t, cs, k);
    if k > 0 {
      Level6Under(t, cs, k - 1, r, g, a);
      var c := cs[k - 1].0;
      AddLevel6Shape(Level6(t, cs, k - 1), c, cs[k - 1].1);
      CodesUnderStep(cs, k, 6, a);
      SixDigitParents(c, r, g, a);
    } else {
      assert Level6(t, cs, k) == t;
      assert CodesUnder(cs, k, 6, a) == {};
    }
  }



  /** obtener_jerarquia_cuentas: the roots are exactly the allowed 1-digit
      candidate codes; under root r sit exactly the 2-digit codes beginning
      with r, under 2-digit node g exactly the 4-digit codes beginning with g,
      and under 4-digit node a exactly the 6-digit codes beginning with a.
      Codes of any other length, and codes whose parent is missing, appear
      nowhere. */
  lemma HierarchyLevels(cs: seq<(string, string)>)
    ensures HierarchyOf(cs).Keys == RootCodes(cs, |cs|)
    ensures forall r :: r in HierarchyOf(cs) ==> HierarchyOf(cs)[r].subcuentas.Keys == CodesUnder(cs, |cs|, 2, r)
    ensures forall r, g :: r in HierarchyOf(cs) && g in HierarchyOf(cs)[r].subcuentas ==>
      HierarchyOf(cs)[r].subcuentas[g].subcuentas.Keys == CodesUnder(cs, |cs|, 4, g)
    ensures forall r, g, a ::
      (r in HierarchyOf(cs) && g in HierarchyOf(cs)[r].subcuentas && a in HierarchyOf(cs)[r].subcuentas[g].subcuentas) ==>
      HierarchyOf(cs)[r].subcuentas[g].subcuentas[a].subcuentas.Keys == CodesUnder(cs, |cs|, 6, a)
  {
    var n := |cs|;
    var t1 := Roots(cs, n);
    RootsKeys(cs, n);
    var t2 := Level2(t1, cs, n);
    Level2Keys(t1, cs, n);
    Level2KeysPrefixed(t1, cs, n);
    var t4 := Level4(t2, cs, n);
    Level4Keys(t2, cs, n);
    Level4KeysPrefixed(t2, cs, n);
    Level6Keys(t4, cs, n);
  }

  // ---------------------------------------------------------------------------
  // The names the tree holds
  // ---------------------------------------------------------------------------

  /** The name of the last of the first k candidates whose code is c, or ""
      when there is none: each level loop assigns on every match, so the last
      assignment wins. */
  function NameOf(cs: seq<(string, string)>, k: nat, c: string): (n: string)
    requires k <= |cs|
    ensures forall i :: 0 <= i < k && cs[i].0 == c && (forall j :: i < j < k ==> cs[j].0 != c) ==> n == cs[i].1
    ensures (forall i :: 0 <= i < k ==> cs[i].0 != c) ==> n == ""
  {
    if k == 0 then ""
    else if cs[k - 1].0 == c then cs[k - 1].1
    else NameOf(cs, k - 1, c)
  }

  /** One step of a level loop either writes the node of its own code, with
      its own name, or leaves a node of another code as it was. */
  lemma AddLevel2Node(t: Tree, c: string, n: string, r: string, g: string)
    requires r in t && g in AddLevel2(t, c, n)[r].subcuentas
    ensures g != c ==> g in t[r].subcuentas && AddLevel2(t, c, n)[r].subcuentas[g] == t[r].subcuentas[g]
    ensures g == c && |c| == 2 && c[..1] == r ==> AddLevel2(t, c, n)[r].subcuentas[g].nombre == n
  {
  }

  lemma AddLevel4Node(t: Tree, c: string, n: string, r: string, g: string, a: string)
    requires r in t && g in t[r].subcuentas && a in AddLevel4(t, c, n)[r].subcuentas[g].subcuentas
    ensures a != c ==>
      (a in t[r].subcuentas[g].subcuentas &&
       AddLevel4(t, c, n)[r].subcuentas[g].subcuentas[a] == t[r].subcuentas[g].subcuentas[a])
    ensures a == c && |c| == 4 && c[..1] == r && c[..2] == g ==>
      AddLevel4(t, c, n)[r].subcuentas[g].subcuentas[a].nombre == n
  {
  }

  lemma AddLevel6Entry(t: Tree, c: string, n: string, r: string, g: string, a: string, x: string)
    requires r in t && g in t[r].subcuentas && a in t[r].subcuentas[g].subcuentas
    ensures r in AddLevel6(t, c, n) && g in AddLevel6(t, c, n)[r].subcuentas &&
      a in AddLevel6(t, c, n)[r].subcuentas[g].subcuentas
    ensures x != c ==>
      (x in AddLevel6(t, c, n)[r].subcuentas[g].subcuentas[a].subcuentas <==> x in t[r].subcuentas[g].subcuentas[a].subcuentas)
    ensures x != c && x in t[r].subcuentas[g].subcuentas[a].subcuentas ==>
      AddLevel6(t, c, n)[r].subcuentas[g].subcuentas[a].subcuentas[x] == t[r].subcuentas[g].subcuentas[a].subcuentas[x]
    ensures x == c && |c| == 6 && c[..1] == r && c[..2] == g && c[..4] == a ==>
      (x in AddLevel6(t, c, n)[r].subcuentas[g].subcuentas[a].subcuentas &&
       AddLevel6(t, c, n)[r].subcuentas[g].subcuentas[a].subcuentas[x] == n)
  {
  }

  /** The name of each root is that of the last candidate with its code. */
  lemma {:induction false} RootName(cs: seq<(string, string)>, k: nat, r: string)
    requires k <= |cs| && r in Roots(cs, k)
    ensures Roots(cs, k)[r].nombre == NameOf(cs, k, r)
  {
    if k > 0 {
      var c := cs[k - 1].0;
      if c != r {
        assert r in Roots(cs, k - 1);
        RootName(cs, k - 1, r);
      } else {
        RootsKeys(cs, k);
        assert |c| == 1 && IsRootCode(c);
      }
    }
  }

  /** The 2-digit loop keeps the roots and their names. */
  lemma {:induction false} Level2KeepsName(t: Tree, cs: seq<(string, string)>, k: nat, r: string)
    requires k <= |cs|
    ensures r in Level2(t, cs, k) <==> r in t
    ensures r in t ==> Level2(t, cs, k)[r].nombre == t[r].nombre
  {
    if k > 0 {
      Level2KeepsName(t, cs, k - 1, r);
    }
  }

  /** The name of each 2-digit node is that of the last candidate with its code. */
  lemma {:induction false} Level2Name(t: Tree, cs: seq<(string, string)>, k: nat, r: string, g: string)
    requires k <= |cs| && RootsSingleDigit(t) && RootsLeaves(t)
    requires r in Level2(t, cs, k) && g in Level2(t, cs, k)[r].subcuentas
    ensures Level2(t, cs, k)[r].subcuentas[g].nombre == NameOf(cs, k, g)
  {
    if k > 0 {
      var c := cs[k - 1].0;
      Level2KeepsName(t, cs, k, r);
      Level2KeepsName(t, cs, k - 1, r);
      AddLevel2Node(Level2(t, cs, k - 1), c, cs[k - 1].1, r, g);
      if c != g {
        Level2Name(t, cs, k - 1, r, g);
      } else {
        Level2KeysPrefixed(t, cs, k);
      }
    }
  }

  /** The 4-digit loop keeps the roots and their names. */
  lemma {:induction false} Level4KeepsRootName(t: Tree, cs: seq<(string, string)>, k: nat, r: string)
    requires k <= |cs|
    ensures r in Level4(t, cs, k) <==> r in t
    ensures r in t ==> Level4(t, cs, k)[r].nombre == t[r].nombre
  {
    if k > 0 {
      Level4KeepsRootName(t, cs, k - 1, r);
    }
  }

  /** The 4-digit loop keeps the 2-digit nodes and their names. */
  lemma {:induction false} Level4KeepsNames(t: Tree, cs: seq<(string, string)>, k: nat, r: string, g: string)
    requires k <= |cs| && r in t
    ensures r in Level4(t, cs, k)
    ensures g in Level4(t, cs, k)[r].subcuentas <==> g in t[r].subcuentas
    ensures g in t[r].subcuentas ==> Level4(t, cs, k)[r].subcuentas[g].nombre == t[r].subcuentas[g].nombre
  {
    if k > 0 {
      Level4KeepsNames(t, cs, k - 1, r, g);
    }
  }

  /** The name of each 4-digit node is that of the last candidate with its code. */
  lemma {:induction false} Level4Name(t: Tree, cs: seq<(string, string)>, k: nat, r: string, g: string, a: string)
    requires k <= |cs| && Level2Prefixed(t) && Level2Leaves(t) && r in t && r in Level4(t, cs, k)
    requires g in Level4(t, cs, k)[r].subcuentas && a in Level4(t, cs, k)[r].subcuentas[g].subcuentas
    ensures Level4(t, cs, k)[r].subcuentas[g].subcuentas[a].nombre == NameOf(cs, k, a)
  {
    if k > 0 {
      var c := cs[k - 1].0;
      Level4KeepsNames(t, cs, k, r, g);
      Level4KeepsNames(t, cs, k - 1, r, g);
      AddLevel4Node(Level4(t, cs, k - 1), c, cs[k - 1].1, r, g, a);
      if c != a {
        Level4Name(t, cs, k - 1, r, g, a);
      } else {
        Level4KeysPrefixed(t, cs, k);
        assert a[..1] == g[..1];
      }
    }
  }

  /** The 6-digit loop keeps the roots and their names. */
  lemma {:induction false} Level6KeepsRootName(t: Tree, cs: seq<(string, string)>, k: nat, r: string)
    requires k <= |cs|
    ensures r in Level6(t, cs, k) <==> r in t
    ensures r in t ==> Level6(t, cs, k)[r].nombre == t[r].nombre
  {
    if k > 0 {
      Level6KeepsRootName(t, cs, k - 1, r);
    }
  }

  /** The 6-digit loop keeps the 2-digit nodes and their names. */
  lemma {:induction false} Level6KeepsLevel2Name(t: Tree, cs: seq<(string, string)>, k: nat, r: string, g: string)
    requires k <= |cs| && r in t
    ensures r in Level6(t, cs, k)
    ensures g in Level6(t, cs, k)[r].subcuentas <==> g in t[r].subcuentas
    ensures g in t[r].subcuentas ==> Level6(t, cs, k)[r].subcuentas[g].nombre == t[r].subcuentas[g].nombre
  {
    if k > 0 {
      Level6KeepsLevel2Name(t, cs, k - 1, r, g);
    }
  }

  /** The 6-digit loop keeps the 4-digit nodes and their names. */
  lemma {:induction false} Level6KeepsNames(t: Tree, cs: seq<(string, string)>, k: nat, r: string, g: string, a: string)
    requires k <= |cs| && r in t && g in t[r].subcuentas
    ensures r in Level6(t, cs, k) && g in Level6(t, cs, k)[r].subcuentas
    ensures a in Level6(t, cs, k)[r].subcuentas[g].subcuentas <==> a in t[r].subcuentas[g].subcuentas
    ensures a in t[r].subcuentas[g].subcuentas ==>
      Level6(t, cs, k)[r].subcuentas[g].subcuentas[a].nombre == t[r].subcuentas[g].subcuentas[a].nombre
  {
    if k > 0 {
      Level6KeepsNames(t, cs, k - 1, r, g, a);
    }
  }

  /** The name stored for each 6-digit account is that of the last candidate
      with its code. */
  lemma {:induction false} Level6Name(t: Tree, cs: seq<(string, string)>, k: nat, r: string, g: string, a: string, x: string)
    requires k <= |cs|
    requires r in t && g in t[r].subcuentas && a in t[r].subcuentas[g].subcuentas
    requires |g| == 2 && g[..1] == r && |a| == 4 && a[..2] == g
    requires t[r].subcuentas[g].subcuentas[a].subcuentas == map[]
    requires x in CodesUnder(cs, k, 6, a)
    ensures r in Level6(t, cs, k) && g in Level6(t, cs, k)[r].subcuentas &&
      a in Level6(t, cs, k)[r].subcuentas[g].subcuentas &&
      x in Level6(t, cs, k)[r].subcuentas[g].subcuentas[a].subcuentas
    ensures Level6(t, cs, k)[r].subcuentas[g].subcuentas[a].subcuentas[x] == NameOf(cs, k, x)
  {
    if k > 0 {
      var c := cs[k - 1].0;
      Level6KeepsNames(t, cs, k - 1, r, g, a);
      AddLevel6Entry(Level6(t, cs, k - 1), c, cs[k - 1].1, r, g, a, x);
      if c != x {
        CodesUnderStep(cs, k, 6, a);
        Level6Name(t, cs, k - 1, r, g, a, x);
      } else {
        CodesUnderMember(cs, k, 6, a, x);
        SixDigitParents(x, r, g, a);
      }
    }
  }

  /** The tree after the first three loops. */
  function UpperLevels(cs: seq<(string, string)>): Tree {
    Level4(Level2(Roots(cs, |cs|), cs, |cs|), cs, |cs|)
  }

  /** Every node of the first three levels sits under its parent's code, and
      the 4-digit nodes have no sub-accounts yet. */
  lemma UpperLevelsShape(cs: seq<(string, string)>)
    ensures Level2Prefixed(UpperLevels(cs)) && Level4Prefixed(UpperLevels(cs)) && Level4Leaves(UpperLevels(cs))
  {
    var n := |cs|;
    var t1 := Roots(cs, n);
    RootsKeys(cs, n);
    Level2Keys(t1, cs, n);
    Level2KeysPrefixed(t1, cs, n);
    Level4Keys(Level2(t1, cs, n), cs, n);
    Level4KeysPrefixed(Level2(t1, cs, n), cs, n);
  }

  lemma UpperLevelsAt(cs: seq<(string, string)>, r: string, g: string, a: string)
    requires r in UpperLevels(cs) && g in UpperLevels(cs)[r].subcuentas
    requires a in UpperLevels(cs)[r].subcuentas[g].subcuentas
    ensures |g| == 2 && g[..1] == r && |a| == 4 && a[..2] == g
    ensures UpperLevels(cs)[r].subcuentas[g].subcuentas[a].subcuentas == map[]
  {
    UpperLevelsShape(cs);
  }

  lemma HierarchyRootNames(cs: seq<(string, string)>, r: string)
    requires r in HierarchyOf(cs)
    ensures HierarchyOf(cs)[r].nombre == NameOf(cs, |cs|, r)
  {
    var n := |cs|;
    var t1 := Roots(cs, n);
    var t2 := Level2(t1, cs, n);
    Level6KeepsRootName(UpperLevels(cs), cs, n, r);
    Level4KeepsRootName(t2, cs, n, r);
    Level2KeepsName(t1, cs, n, r);
    RootName(cs, n, r);
  }

  lemma HierarchyLevel2Names(cs: seq<(string, string)>, r: string, g: string)
    requires r in HierarchyOf(cs) && g in HierarchyOf(cs)[r].subcuentas
    ensures HierarchyOf(cs)[r].subcuentas[g].nombre == NameOf(cs, |cs|, g)
  {
    var n := |cs|;
    var t1 := Roots(cs, n);
    var t2 := Level2(t1, cs, n);
    RootsKeys(cs, n);
    Level6KeepsRootName(UpperLevels(cs), cs, n, r);
    Level4KeepsRootName(t2, cs, n, r);
    Level6KeepsLevel2Name(UpperLevels(cs), cs, n, r, g);
    Level4KeepsNames(t2, cs, n, r, g);
    Level2Name(t1, cs, n, r, g);
  }

  lemma HierarchyLevel4Names(cs: seq<(string, string)>, r: string, g: string, a: string)
    requires r in HierarchyOf(cs) && g in HierarchyOf(cs)[r].subcuentas
    requires a in HierarchyOf(cs)[r].subcuentas[g].subcuentas
    ensures HierarchyOf(cs)[r].subcuentas[g].subcuentas[a].nombre == NameOf(cs, |cs|, a)
  {
    var n := |cs|;
    var t1 := Roots(cs, n);
    var t2 := Level2(t1, cs, n);
    RootsKeys(cs, n);
    Level2Keys(t1, cs, n);
    Level2KeysPrefixed(t1, cs, n);
    Level6KeepsRootName(UpperLevels(cs), cs, n, r);
    Level4KeepsRootName(t2, cs, n, r);
    Level6KeepsLevel2Name(UpperLevels(cs), cs, n, r, g);
    Level6KeepsNames(UpperLevels(cs), cs, n, r, g, a);
    Level4Name(t2, cs, n, r, g, a);
  }

  lemma HierarchyLevel6Names(cs: seq<(string, string)>, r: string, g: string, a: string, x: string)
    requires r in HierarchyOf(cs) && g in HierarchyOf(cs)[r].subcuentas
    requires a in HierarchyOf(cs)[r].subcuentas[g].subcuentas
    requires x in HierarchyOf(cs)[r].subcuentas[g].subcuentas[a].subcuentas
    ensures HierarchyOf(cs)[r].subcuentas[g].subcuentas[a].subcuentas[x] == NameOf(cs, |cs|, x)
  {
    var n := |cs|;
    var t4 := UpperLevels(cs);
    Level6KeepsRootName(t4, cs, n, r);
    Level6KeepsLevel2Name(t4, cs, n, r, g);
    Level6KeepsNames(t4, cs, n, r, g, a);
    UpperLevelsAt(cs, r, g, a);
    Level6Under(t4, cs, n, r, g, a);
    Level6Name(t4, cs, n, r, g, a, x);
  }

  /** obtener_jerarquia_cuentas: every node's name, and every 6-digit
      account's name, is the name of the last candidate carrying that code. */
  lemma HierarchyNames(cs: seq<(string, string)>)
    ensures forall r :: r in HierarchyOf(cs) ==> HierarchyOf(cs)[r].nombre == NameOf(cs, |cs|, r)
    ensures forall r, g :: r in HierarchyOf(cs) && g in HierarchyOf(cs)[r].subcuentas ==>
      HierarchyOf(cs)[r].subcuentas[g].nombre == NameOf(cs, |cs|, g)
    ensures forall r, g, a ::
      (r in HierarchyOf(cs) && g in HierarchyOf(cs)[r].subcuentas && a in HierarchyOf(cs)[r].subcuentas[g].subcuentas) ==>
      HierarchyOf(cs)[r].subcuentas[g].subcuentas[a].nombre == NameOf(cs, |cs|, a)
    ensures forall r, g, a, x ::
      (r in HierarchyOf(cs) && g in HierarchyOf(cs)[r].subcuentas && a in HierarchyOf(cs)[r].subcuentas[g].subcuentas &&
       x in HierarchyOf(cs)[r].subcuentas[g].subcuentas[a].subcuentas) ==>
      HierarchyOf(cs)[r].subcuentas[g].subcuentas[a].subcuentas[x] == NameOf(cs, |cs|, x)
  {
    var h := HierarchyOf(cs);
    forall r | r in h
      ensures h[r].nombre == NameOf(cs, |cs|, r)
    {
      HierarchyRootNames(cs, r);
    }
    forall r, g | r in h && g in h[r].subcuentas
      ensures h[r].subcuentas[g].nombre == NameOf(cs, |cs|, g)
    {
      HierarchyLevel2Names(cs, r, g);
    }
    forall r, g, a | r in h && g in h[r].subcuentas && a in h[r].subcuentas[g].subcuentas
      ensures h[r].subcuentas[g].subcuentas[a].nombre == NameOf(cs, |cs|, a)
    {
      HierarchyLevel4Names(cs, r, g, a);
    }
    forall r, g, a, x | r in h && g in h[r].subcuentas && a in h[r].subcuentas[g].subcuentas &&
      x in h[r].subcuentas[g].subcuentas[a].subcuentas
      ensures h[r].subcuentas[g].subcuentas[a].subcuentas[x] == NameOf(cs, |cs|, x)
    {
      HierarchyLevel6Names(cs, r, g, a, x);
    }
  }

  // ---------------------------------------------------------------------
  // Ranking of banks for one account and one month
  // ---------------------------------------------------------------------

  /** One bar of the ranking chart: a bank and its balance in millions. */
  datatype BankValue = BankValue(banco: string, valorMillones: real)

  /** The row filter: same account code, same year and month. */
  predicate InMonth(row: BalanceSheet.BalanceRecord, codigo: string, fecha: Date) {
    row.codigo == codigo && row.fecha.year == fecha.year && row.fecha.month == fecha.month
  }

  /** The value of a row in millions, when present and positive. */
  function PositiveMillions(row: BalanceSheet.BalanceRecord): Option<real> {
    if row.valor.Some? && row.valor.value / 1000.0 > 0.0 then Some(row.valor.value / 1000.0) else None
  }

  /** The filtered rows of the month, in table order, with their value in
      millions; missing and non-positive values are dropped. */
  function MonthValues(rows: seq<BalanceSheet.BalanceRecord>, codigo: string, fecha: Date): seq<BankValue>
  {
    if rows == [] then []
    else
      var last := rows[|rows| - 1];
      MonthValues(rows[..|rows| - 1], codigo, fecha) +
        (if InMonth(last, codigo, fecha) && PositiveMillions(last).Some?
         then [BankValue(last.banco, PositiveMillions(last).value)] else [])
  }

  function BankOf(v: BankValue): string { v.banco }

  /** The ranking order: larger value first; equal values by bank name. */
  predicate RankLe(a: BankValue, b: BankValue) {
    a.valorMillones > b.valorMillones || (a.valorMillones == b.valorMillones && StrLe(a.banco, b.banco))
  }

  lemma RankLeTotal()
    ensures Total(RankLe)
  {
    forall a, b
      ensures RankLe(a, b) || RankLe(b, a)
    {
      StrLeTotal(a.banco, b.banco);
    }
    forall a, b, c | RankLe(a, b) && RankLe(b, c)
      ensures RankLe(a, c)
    {
      if a.valorMillones == b.valorMillones && b.valorMillones == c.valorMillones {
        StrLeTransitive(a.banco, b.banco, c.banco);
      }
    }
  }

  /** obtener_valores_bancos_mes: the first positive value of every bank in
      the month, largest first. */
  function BankValuesOfMonth(rows: seq<BalanceSheet.BalanceRecord>, codigo: string, fecha: Date): (r: seq<BankValue>)
    ensures SortedBy(r, RankLe)
  {
    RankLeTotal();
    SortBy(DedupFirstBy(MonthValues(rows, codigo, fecha), BankOf), RankLe)
  }

  /** A row of the table that contributes the given bar. */
  ghost predicate FromMonthRow(rows: seq<BalanceSheet.BalanceRecord>, codigo: string, fecha: Date, v: BankValue, i: int) {
    0 <= i < |rows| && InMonth(rows[i], codigo, fecha) && rows[i].banco == v.banco &&
    rows[i].valor == Some(v.valorMillones * 1000.0)
  }

  ghost predicate FromMonth(rows: seq<BalanceSheet.BalanceRecord>, codigo: string, fecha: Date, v: BankValue) {
    exists i :: FromMonthRow(rows, codigo, fecha, v, i)
  }

  /** Every filtered value is positive and comes from a matching row whose
      value is a thousand times larger; every matching positive row
      contributes one. */
  lemma {:induction false} MonthValuesSound(rows: seq<BalanceSheet.BalanceRecord>, codigo: string, fecha: Date)
    ensures forall j :: 0 <= j < |MonthValues(rows, codigo, fecha)| ==>
      MonthValues(rows, codigo, fecha)[j].valorMillones > 0.0 && FromMonth(rows, codigo, fecha, MonthValues(rows, codigo, fecha)[j])
    ensures forall i :: 0 <= i < |rows| && InMonth(rows[i], codigo, fecha) && PositiveMillions(rows[i]).Some? ==>
      rows[i].banco in Keys(MonthValues(rows, codigo, fecha), BankOf)
  {
    if rows != [] {
      var n := |rows| - 1;
      var pre := rows[..n];
      MonthValuesSound(pre, codigo, fecha);
      var m := MonthValues(rows, codigo, fecha);
      var mp := MonthValues(pre, codigo, fecha);
      assert m[..|mp|] == mp;
      forall j | 0 <= j < |m|
        ensures m[j].valorMillones > 0.0 && FromMonth(rows, codigo, fecha, m[j])
      {
        if j < |mp| {
          var i :| FromMonthRow(pre, codigo, fecha, mp[j], i);
          assert FromMonthRow(rows, codigo, fecha, m[j], i);
        } else {
          assert FromMonthRow(rows, codigo, fecha, m[j], n);
        }
      }
      forall i | 0 <= i < |rows| && InMonth(rows[i], codigo, fecha) && PositiveMillions(rows[i]).Some?
        ensures rows[i].banco in Keys(m, BankOf)
      {
        if i < n {
          assert rows[i] == pre[i];
          var j :| 0 <= j < |mp| && BankOf(mp[j]) == rows[i].banco;
          assert BankOf(m[j]) == rows[i].banco;
        } else {
          assert BankOf(m[|mp|]) == rows[i].banco;
        }
      }
    }
  }

  /** No matching row with a positive value: no bars. */
  lemma {:induction false} MonthValuesEmpty(rows: seq<BalanceSheet.BalanceRecord>, codigo: string, fecha: Date)
    requires forall i :: 0 <= i < |rows| && InMonth(rows[i], codigo, fecha) ==> PositiveMillions(rows[i]).None?
    ensures MonthValues(rows, codigo, fecha) == []
  {
    if rows != [] {
      MonthValuesEmpty(rows[..|rows| - 1], codigo, fecha);
    }
  }

  /** The ranking holds one bar per bank, exactly for the banks with a
      positive value in the month; each bar is the first such value of its
      bank in table order; the bars run from the largest value down. */
  lemma BankValuesOfMonthSpec(rows: seq<BalanceSheet.BalanceRecord>, codigo: string, fecha: Date)
    ensures forall i, j :: 0 <= i < j < |BankValuesOfMonth(rows, codigo, fecha)| ==>
      BankValuesOfMonth(rows, codigo, fecha)[i].banco != BankValuesOfMonth(rows, codigo, fecha)[j].banco
    ensures Keys(BankValuesOfMonth(rows, codigo, fecha), BankOf) == PositiveBanks(rows, codigo, fecha)
    ensures forall j :: 0 <= j < |BankValuesOfMonth(rows, codigo, fecha)| ==>
      BankValuesOfMonth(rows, codigo, fecha)[j] in FirstOccurrences(MonthValues(rows, codigo, fecha), BankOf)
    ensures forall j :: 0 <= j < |BankValuesOfMonth(rows, codigo, fecha)| ==>
      BankValuesOfMonth(rows, codigo, fecha)[j].valorMillones > 0.0
    ensures forall j :: 0 <= j < |BankValuesOfMonth(rows, codigo, fecha)| ==>
      FromMonth(rows, codigo, fecha, BankValuesOfMonth(rows, codigo, fecha)[j])
    ensures forall i, j :: 0 <= i < j < |BankValuesOfMonth(rows, codigo, fecha)| ==>
      BankValuesOfMonth(rows, codigo, fecha)[i].valorMillones >= BankValuesOfMonth(rows, codigo, fecha)[j].valorMillones
  {
    var m := MonthValues(rows, codigo, fecha);
    var d := DedupFirstBy(m, BankOf);
    var r := BankValuesOfMonth(rows, codigo, fecha);
    PermutationKeepsDistinctKeys(d, r, BankOf);
    BankValuesKeys(rows, codigo, fecha);
    BankValuesFirsts(rows, codigo, fecha);
    Descending(r);
  }

  /** The banks with a positive value for the account in the month. */
  ghost function PositiveBanks(rows: seq<BalanceSheet.BalanceRecord>, codigo: string, fecha: Date): set<string> {
    set i | 0 <= i < |rows| && InMonth(rows[i], codigo, fecha) && PositiveMillions(rows[i]).Some? :: rows[i].banco
  }

  lemma BankValuesKeys(rows: seq<BalanceSheet.BalanceRecord>, codigo: string, fecha: Date)
    ensures Keys(BankValuesOfMonth(rows, codigo, fecha), BankOf) == PositiveBanks(rows, codigo, fecha)
  {
    var m := MonthValues(rows, codigo, fecha);
    var d := DedupFirstBy(m, BankOf);
    var r := BankValuesOfMonth(rows, codigo, fecha);
    MonthKeysPositive(rows, codigo, fecha);
    DedupKeepsEveryKey(m, BankOf);
    PermutationKeepsKeys(d, r, BankOf);
  }

  /** The banks of the month's positive amounts, before deduplication. */
  lemma MonthKeysPositive(rows: seq<BalanceSheet.BalanceRecord>, codigo: string, fecha: Date)
    ensures Keys(MonthValues(rows, codigo, fecha), BankOf) == PositiveBanks(rows, codigo, fecha)
  {
    var m := MonthValues(rows, codigo, fecha);
    MonthValuesSound(rows, codigo, fecha);
    forall k | k in Keys(m, BankOf)
      ensures k in PositiveBanks(rows, codigo, fecha)
    {
      var j :| 0 <= j < |m| && BankOf(m[j]) == k;
      assert FromMonth(rows, codigo, fecha, m[j]);
      var i :| FromMonthRow(rows, codigo, fecha, m[j], i);
      assert PositiveMillions(rows[i]).Some?;
    }
  }


  lemma BankValuesFirsts(rows: seq<BalanceSheet.BalanceRecord>, codigo: string, fecha: Date)
    ensures forall j :: 0 <= j < |BankValuesOfMonth(rows, codigo, fecha)| ==>
      BankValuesOfMonth(rows, codigo, fecha)[j] in FirstOccurrences(MonthValues(rows, codigo, fecha), BankOf)
    ensures forall j :: 0 <= j < |BankValuesOfMonth(rows, codigo, fecha)| ==>
      BankValuesOfMonth(rows, codigo, fecha)[j].valorMillones > 0.0
    ensures forall j :: 0 <= j < |BankValuesOfMonth(rows, codigo, fecha)| ==>
      FromMonth(rows, codigo, fecha, BankValuesOfMonth(rows, codigo, fecha)[j])
  {
    var m := MonthValues(rows, codigo, fecha);
    var d := DedupFirstBy(m, BankOf);
    var r := BankValuesOfMonth(rows, codigo, fecha);
    MonthValuesSound(rows, codigo, fecha);
    DedupKeepsOnlyFirsts(m, BankOf);
    PermutationKeepsKeys(d, r, BankOf);
    forall j | 0 <= j < |r|
      ensures r[j] in FirstOccurrences(m, BankOf) && r[j].valorMillones > 0.0 && FromMonth(rows, codigo, fecha, r[j])
    {
      var a :| 0 <= a < |d| && d[a] == r[j];
      var b :| 0 <= b < |m| && m[b] == d[a];
    }
  }

  /** A sequence sorted by RankLe runs from the largest value down. */
  lemma Descending(r: seq<BankValue>)
    requires SortedBy(r, RankLe)
    ensures forall i, j :: 0 <= i < j < |r| ==> r[i].valorMillones >= r[j].valorMillones
  {
    forall i, j | 0 <= i < j < |r|
      ensures r[i].valorMillones >= r[j].valorMillones
    {
      assert RankLe(r[i], r[j]);
    }
  }

  // ---------------------------------------------------------------------
  // Statistics under the ranking chart
  // ---------------------------------------------------------------------

  function Values(r: seq<BankValue>): (v: seq<real>)
    ensures |v| == |r| && forall i :: 0 <= i < |r| ==> v[i] == r[i].valorMillones
  {
    seq(|r|, i requires 0 <= i < |r| => r[i].valorMillones)
  }

  /** "Total Sistema". */
  function SystemTotal(r: seq<BankValue>): real {
    Sum(Values(r))
  }

  /** "Participacion #1": share of the first bar, in percent; 0 with no bars. */
  function TopShare(r: seq<BankValue>): real
    requires |r| > 0 ==> SystemTotal(r) != 0.0
  {
    if |r| > 0 then r[0].valorMillones / SystemTotal(r) * 100.0 else 0.0
  }

  /** "Concentracion Top 5": share of the first five bars, in percent; 0 with
      fewer than five bars. */
  function TopFiveShare(r: seq<BankValue>): real
    requires |r| >= 5 ==> SystemTotal(r) != 0.0
  {
    if |r| >= 5 then Sum(Values(r)[..5]) / SystemTotal(r) * 100.0 else 0.0
  }

  /** Height of the chart in pixels: 25 per bank, at least 400. */
  function ChartHeight(r: seq<BankValue>): (h: nat)
    ensures h >= 400 && h >= 25 * |r|
    ensures h == 400 || h == 25 * |r|
  {
    if 25 * |r| > 400 then 25 * |r| else 400
  }

  /** With only positive values the total is positive, the leader's share
      lies in (0, 100], the top five together hold at least the leader's share
      and at most 100 percent, and no bank holds a larger share than the
      leader of a ranking sorted from the largest value down. */
  lemma RankingShares(r: seq<BankValue>)
    requires forall i :: 0 <= i < |r| ==> r[i].valorMillones > 0.0
    requires forall i, j :: 0 <= i < j < |r| ==> r[i].valorMillones >= r[j].valorMillones
    requires |r| > 0
    ensures SystemTotal(r) > 0.0
    ensures 0.0 < TopShare(r) <= 100.0
    ensures forall i :: 0 <= i < |r| ==> r[i].valorMillones / SystemTotal(r) * 100.0 <= TopShare(r)
    ensures |r| >= 5 ==> TopShare(r) <= TopFiveShare(r) <= 100.0
    ensures |r| < 5 ==> TopFiveShare(r) == 0.0
  {
    var v := Values(r);
    var t := SystemTotal(r);
    SumBoundsElement(v, 0);
    ScaleMonotone(v[0], t, t);
    forall i | 0 <= i < |r|
      ensures r[i].valorMillones / t * 100.0 <= TopShare(r)
    {
      ScaleMonotone(r[i].valorMillones, r[0].valorMillones, t);
    }
    if |r| >= 5 {
      SumPrefixBound(v, 5);
      SumPrefixBound(v[..5], 1);
      assert v[..5][..1] == [v[0]];
      assert Sum([v[0]]) == v[0] + Sum([v[0]][1..]);
      ScaleMonotone(v[0], Sum(v[..5]), t);
      ScaleMonotone(Sum(v[..5]), t, t);
    }
  }

  /** Percent shares keep the order of the amounts. */
  lemma ScaleMonotone(a: real, b: real, t: real)
    requires 0.0 <= a <= b && t > 0.0
    ensures a / t * 100.0 <= b / t * 100.0
    ensures b == t ==> b / t * 100.0 == 100.0
  {
    var x, y := a / t, b / t;
    assert x * t == a && y * t == b;
  }

  /** The statistics of the ranking built from the table: in range whenever
      there is at least one bar. */
  lemma BankRankingShares(rows: seq<BalanceSheet.BalanceRecord>, codigo: string, fecha: Date)
    requires BankValuesOfMonth(rows, codigo, fecha) != []
    ensures SystemTotal(BankValuesOfMonth(rows, codigo, fecha)) > 0.0
    ensures 0.0 < TopShare(BankValuesOfMonth(rows, codigo, fecha)) <= 100.0
    ensures |BankValuesOfMonth(rows, codigo, fecha)| >= 5 ==>
      TopShare(BankValuesOfMonth(rows, codigo, fecha)) <= TopFiveShare(BankValuesOfMonth(rows, codigo, fecha)) <= 100.0
  {
    BankValuesOfMonthSpec(rows, codigo, fecha);
    RankingShares(BankValuesOfMonth(rows, codigo, fecha));
  }
}

=== FILE: balance_sheet.dfy ===
/** The balance-sheet (BAL sheet) extractor: bank name from the folder name,
    hierarchy level from the account code, and one long-format record per
    (row, period). */
module BalanceSheet {
  import opened Common
  import IncomeStatement

  /** One extracted cell of the balance sheet; `valor` is missing when the
      cell is empty or does not convert to float. */
  datatype BalanceRecord = BalanceRecord(banco: string, fecha: Date, codigo: string, cuenta: string,
                                         valor: Option<real>, nivel: nat)

  // ---------------------------------------------------------------------------
  // Bank name from the folder name (extraer_nombre_banco)
  // ---------------------------------------------------------------------------

  /** The Spanish month names of the folder-name pattern, in pattern order. */
  const MonthNames: seq<string> := ["ENERO", "FEBRERO", "MARZO", "ABRIL", "MAYO", "JUNIO", "JULIO",
                                    "AGOSTO", "SEPTIEMBRE", "OCTUBRE", "NOVIEMBRE", "DICIEMBRE"]

  /** ASCII upper-casing, the case folding the month pattern is matched under. */
  function AsciiUpper(c: char): char {
    if 'a' <= c <= 'z' then (c as int - 32) as char else c
  }

  function AsciiUpperText(s: string): (r: string)
    ensures |r| == |s| && forall i :: 0 <= i < |s| ==> r[i] == AsciiUpper(s[i])
  {
    seq(|s|, i requires 0 <= i < |s| => AsciiUpper(s[i]))
  }

  /** u ends with month name m, compared case-insensitively. */
  predicate EndsWithMonth(u: string, m: string) {
    |m| <= |u| && AsciiUpperText(u)[|u| - |m|..] == m
  }

  /** The length of the month name u ends with, searching from table entry k. */
  function MonthSuffixFrom(u: string, k: nat): Option<nat>
    decreases |MonthNames| - k
  {
    if k >= |MonthNames| then None
    else if EndsWithMonth(u, MonthNames[k]) then Some(|MonthNames[k]|)
    else MonthSuffixFrom(u, k + 1)
  }

  /** Where the match of `\s+MONTH\s+\d{4}` anchored at the end of s begins:
      the last four characters are digits, preceded by whitespace, preceded
      by a month name, preceded by whitespace; the match starts at the
      beginning of that whitespace run. */
  function MonthSuffixStart(s: string): Option<nat> {
    if |s| < 4 || !AllDigits(s[|s| - 4..]) then None
    else
      var t := s[..|s| - 4];
      var u := RStrip(t);
      if u == t then None
      else match MonthSuffixFrom(u, 0)
        case None => None
        case Some(len) =>
          if len > |u| then None
          else
            var v := u[..|u| - len];
            var w := RStrip(v);
            if w == v then None else Some(|w|)
  }

  /** extraer_nombre_banco: drop a trailing " <MONTH> <yyyy>" (case-insensitive)
      and strip. `$` also matches just before a final newline, which the final
      strip then removes. */
  function BankFromFolder(s: string): string {
    var core := if s != [] && s[|s| - 1] == '\n' then s[..|s| - 1] else s;
    match MonthSuffixStart(core)
    case None => Strip(s)
    case Some(k) => if k <= |core| then Strip(core[..k]) else Strip(s)
  }

  /** No month name ends another one, so at most one month can match. */
  lemma MonthNamesSuffixFree()
    ensures forall i, j :: (0 <= i < |MonthNames| && 0 <= j < |MonthNames| && i != j &&
      |MonthNames[i]| <= |MonthNames[j]|) ==>
      MonthNames[j][|MonthNames[j]| - |MonthNames[i]|..] != MonthNames[i]
  {
  }

  /** Every month name is upper-case ASCII letters. */
  lemma MonthNamesUpper()
    ensures forall i, k :: 0 <= i < |MonthNames| && 0 <= k < |MonthNames[i]| ==> 'A' <= MonthNames[i][k] <= 'Z'
  {
  }

  /** Appending " <MONTH> <yyyy>" to a bank name and extracting it again
      gives back the stripped bank name, whatever the case of the month. */
  lemma BankFromFolderRoundTrip(b: string, k: nat, m: string, y: string)
    requires k < |MonthNames| && AsciiUpperText(m) == MonthNames[k]
    requires |y| == 4 && AllDigits(y)
    ensures BankFromFolder(b + " " + m + " " + y) == Strip(b)
  {
    var s := b + " " + m + " " + y;
    assert s[|s| - 1] == y[3];
    MonthSuffixStartOf(b, k, m, y);
    RStripShape(b);
    assert s[..|RStrip(b)|] == RStrip(b);
    StripOfRStrip(b);
  }

  /** The match in b + " " + m + " " + y begins where b's trailing whitespace begins. */
  lemma MonthSuffixStartOf(b: string, k: nat, m: string, y: string)
    requires k < |MonthNames| && AsciiUpperText(m) == MonthNames[k]
    requires |y| == 4 && AllDigits(y)
    ensures MonthSuffixStart(b + " " + m + " " + y) == Some(|RStrip(b)|)
  {
    var s := b + " " + m + " " + y;
    assert s[|s| - 4..] == y;
    var u := b + " " + m;
    var t := s[..|s| - 4];
    assert t == u + " ";
    assert RStrip(t) == RStrip(u) by {
      assert t[..|t| - 1] == u;
    }
    MonthNameShape(k, m);
    assert RStrip(u) == u;
    MonthEndsText(b + " ", m, k);
    assert u[..|u| - |m|] == b + " ";
    assert RStrip(b + " ") == RStrip(b) by {
      assert (b + " ")[..|b|] == b;
    }
    RStripShape(b);
  }

  /** A month name in any case is non-empty and ends with a letter. */
  lemma MonthNameShape(k: nat, m: string)
    requires k < |MonthNames| && AsciiUpperText(m) == MonthNames[k]
    ensures |m| == |MonthNames[k]| > 0 && !IsSpace(m[|m| - 1])
  {
    MonthNamesUpper();
    assert AsciiUpper(m[|m| - 1]) == MonthNames[k][|m| - 1];
  }

  /** x + m ends with month k, and the search finds it. */
  lemma MonthEndsText(x: string, m: string, k: nat)
    requires k < |MonthNames| && AsciiUpperText(m) == MonthNames[k]
    ensures MonthSuffixFrom(x + m, 0) == Some(|m|)
  {
    var u := x + m;
    assert AsciiUpperText(u)[|u| - |m|..] == MonthNames[k] by {
      assert forall i :: 0 <= i < |m| ==> u[|u| - |m| + i] == m[i];
    }
    MonthSuffixFromFinds(u, k, 0);
  }

  /** The search finds month k when u ends with it: no earlier month can also end u. */
  lemma {:induction false} MonthSuffixFromFinds(u: string, k: nat, from: nat)
    requires from <= k < |MonthNames| && EndsWithMonth(u, MonthNames[k])
    ensures MonthSuffixFrom(u, from) == Some(|MonthNames[k]|)
    decreases k - from
  {
    if from < k {
      if EndsWithMonth(u, MonthNames[from]) {
        var fu := AsciiUpperText(u);
        if |MonthNames[from]| <= |MonthNames[k]| {
          SuffixOfSuffix(fu, MonthNames[from], MonthNames[k]);
        } else {
          SuffixOfSuffix(fu, MonthNames[k], MonthNames[from]);
        }
        MonthNamesSuffixFree();
        assert false;
      }
      MonthSuffixFromFinds(u, k, from + 1);
    }
  }

  /** Two suffixes of the same sequence: the shorter ends the longer. */
  lemma SuffixOfSuffix(x: string, a: string, c: string)
    requires |a| <= |c| <= |x|
    requires x[|x| - |a|..] == a && x[|x| - |c|..] == c
    ensures c[|c| - |a|..] == a
  {
    assert forall i :: 0 <= i < |a| ==> a[i] == x[|x| - |a| + i] == c[|c| - |a| + i];
  }

  /** strip(rstrip(x)) is strip(x). */
  lemma StripOfRStrip(b: string)
    ensures Strip(RStrip(b)) == Strip(b)
  {
    LStripRStripCommute(b);
  }

  lemma {:induction false} LStripRStripCommute(b: string)
    ensures RStrip(LStrip(RStrip(b))) == RStrip(LStrip(b))
    decreases |b|
  {
    if b != [] && IsSpace(b[|b| - 1]) {
      LStripRStripCommute(b[..|b| - 1]);
      LStripDropLastSpace(b);
    }
  }

  /** Removing a trailing space before or after lstrip gives the same rstrip. */
  lemma {:induction false} LStripDropLastSpace(b: string)
    requires b != [] && IsSpace(b[|b| - 1])
    ensures RStrip(LStrip(b)) == RStrip(LStrip(b[..|b| - 1]))
    decreases |b|
  {
    if IsSpace(b[0]) {
      if |b| > 1 {
        assert b[1..][..|b[1..]| - 1] == b[..|b| - 1][1..];
        assert LStrip(b) == LStrip(b[1..]);
        assert LStrip(b[..|b| - 1]) == LStrip(b[..|b| - 1][1..]);
        LStripDropLastSpace(b[1..]);
      } else {
        assert LStrip(b) == [];
        assert LStrip(b[..0]) == [];
      }
    } else {
      LStripShape(b);
      LStripShape(b[..|b| - 1]);
      assert LStrip(b) == b;
      assert LStrip(b[..|b| - 1]) == b[..|b| - 1];
    }
  }

  // ---------------------------------------------------------------------------
  // Hierarchy level of an account code (calcular_nivel)
  // ---------------------------------------------------------------------------

  /** The level of a digit string of length n: 1, 2, 3 (up to 4), 4 (up to 6), 5 beyond. */
  function LevelOfLength(n: nat): nat {
    if n <= 1 then 1 else if n <= 2 then 2 else if n <= 4 then 3 else if n <= 6 then 4 else 5
  }

  /** calcular_nivel: 0 for an empty code, or for one that is not all digits
      once stripped and rid of '.' and ' '; otherwise the level of its length. */
  function Level(codigo: string): (r: nat)
    ensures r <= 5
  {
    if codigo == [] then 0
    else
      var limpio := RemoveChar(RemoveChar(Strip(codigo), '.'), ' ');
      if !AllDigits(limpio) then 0 else LevelOfLength(|limpio|)
  }

  /** Removing a character a string does not hold changes nothing. */
  lemma {:induction false} RemoveAbsent(s: string, a: char)
    requires forall i :: 0 <= i < |s| ==> s[i] != a
    ensures RemoveChar(s, a) == s
  {
    if s != [] {
      RemoveAbsent(s[1..], a);
      assert s == [s[0]] + s[1..];
    }
  }

  /** A plain digit code has the level of its length: 1-digit codes are level
      1, 2-digit level 2, 4-digit level 3 and 6-digit level 4. */
  lemma LevelOfDigits(codigo: string)
    requires AllDigits(codigo)
    ensures Level(codigo) == LevelOfLength(|codigo|)
    ensures Level(codigo) >= 1
  {
    StripShape(codigo);
    RemoveAbsent(codigo, '.');
    RemoveAbsent(codigo, ' ');
  }

  /** The level never decreases as a digit code gets longer. */
  lemma LevelMonotone(a: string, b: string)
    requires AllDigits(a) && AllDigits(b) && |a| <= |b|
    ensures Level(a) <= Level(b)
  {
    LevelOfDigits(a);
    LevelOfDigits(b);
  }

  /** Anything that is not a digit code after cleaning has level 0. */
  lemma LevelZero(codigo: string)
    ensures Level(codigo) == 0 <==>
      codigo == [] || !AllDigits(RemoveChar(RemoveChar(Strip(codigo), '.'), ' '))
  {
  }

  // ---------------------------------------------------------------------------
  // Period header: bad cells are skipped
  // ---------------------------------------------------------------------------

  /** A header cell as a period: a date cell is taken, an empty cell is
      skipped, anything else goes through pd.to_datetime and is skipped when
      that fails. */
  function HeaderCell(c: Cell, p: Parsers): Option<Date> {
    match c
    case Empty => None
    case Stamp(d, _) => Some(d)
    case _ => p.toDate(c)
  }

  /** The periods of row 5 (index 4) from column col on, skipping bad cells. */
  function HeaderFrom(sh: Sheet, p: Parsers, col: nat): seq<Date>
    decreases sh.width - col
  {
    if col >= sh.width then []
    else
      (match HeaderCell(At(sh, 4, col), p) case None => [] case Some(d) => [d]) + HeaderFrom(sh, p, col + 1)
  }

  /** The columns the periods of HeaderFrom come from. */
  function HeaderColumns(sh: Sheet, p: Parsers, col: nat): seq<nat>
    decreases sh.width - col
  {
    if col >= sh.width then []
    else
      (if HeaderCell(At(sh, 4, col), p).Some? then [col] else []) + HeaderColumns(sh, p, col + 1)
  }

  /** The j-th period comes from column HeaderColumns[j], which is at or
      beyond column col + j (strictly beyond once a bad cell was skipped);
      the columns increase and stay inside the sheet. */
  lemma {:induction false} HeaderColumnsShape(sh: Sheet, p: Parsers, col: nat)
    ensures |HeaderColumns(sh, p, col)| == |HeaderFrom(sh, p, col)|
    ensures forall j :: 0 <= j < |HeaderColumns(sh, p, col)| ==>
      col + j <= HeaderColumns(sh, p, col)[j] < sh.width &&
      HeaderCell(At(sh, 4, HeaderColumns(sh, p, col)[j]), p) == Some(HeaderFrom(sh, p, col)[j])
    ensures forall i, j :: 0 <= i < j < |HeaderColumns(sh, p, col)| ==>
      HeaderColumns(sh, p, col)[i] < HeaderColumns(sh, p, col)[j]
    decreases sh.width - col
  {
    if col < sh.width {
      HeaderColumnsShape(sh, p, col + 1);
      var cs := HeaderColumns(sh, p, col);
      var rest := HeaderColumns(sh, p, col + 1);
      var ds := HeaderFrom(sh, p, col);
      var drest := HeaderFrom(sh, p, col + 1);
      if HeaderCell(At(sh, 4, col), p).Some? {
        assert cs == [col] + rest;
        assert ds == [HeaderCell(At(sh, 4, col), p).value] + drest;
        forall j | 0 < j < |cs|
          ensures col + j <= cs[j] < sh.width && HeaderCell(At(sh, 4, cs[j]), p) == Some(ds[j])
        {
          assert cs[j] == rest[j - 1] && ds[j] == drest[j - 1];
        }
      } else {
        assert cs == rest && ds == drest;
      }
    }
  }

  /** The header scan of procesar_banco: bad cells are skipped with `continue`. */
  method ReadHeader(sh: Sheet, p: Parsers) returns (fechas: seq<Date>)
    ensures fechas == HeaderFrom(sh, p, 2)
  {
    fechas := [];
    var col := 2;
    while col < sh.width
      invariant 2 <= col
      invariant HeaderFrom(sh, p, 2) == fechas + HeaderFrom(sh, p, col)
      decreases sh.width - col
    {
      var d := HeaderCell(At(sh, 4, col), p);
      if d.None? {
        col := col + 1;
        continue;
      }
      fechas := fechas + [d.value];
      col := col + 1;
    }
  }

  /** The income-statement header (which stops at the first bad cell) is a
      prefix of this header (which skips bad cells) over the same row. */
  lemma {:induction false} TruncatingHeaderIsPrefix(sh: Sheet, p: Parsers, col: nat)
    ensures IncomeStatement.HeaderFrom(sh, p, col) <= HeaderFrom(sh, p, col)
    decreases sh.width - col
  {
    if col < sh.width && IncomeStatement.HeaderCell(At(sh, 4, col), p).Some? {
      TruncatingHeaderIsPrefix(sh, p, col + 1);
    }
  }

  /** When every header cell is a date cell, skipping and truncating read the same periods. */
  lemma {:induction false} HeadersAgreeOnDates(sh: Sheet, p: Parsers, col: nat)
    requires forall c :: col <= c < sh.width ==> At(sh, 4, c).Stamp?
    ensures IncomeStatement.HeaderFrom(sh, p, col) == HeaderFrom(sh, p, col)
    decreases sh.width - col
  {
    if col < sh.width {
      HeadersAgreeOnDates(sh, p, col + 1);
    }
  }

  // ---------------------------------------------------------------------------
  // Data rows
  // ---------------------------------------------------------------------------

  /** A value cell: missing when empty or not convertible, never replaced by 0. */
  function CellValue(c: Cell, p: Parsers): (r: Option<real>)
    ensures c.Empty? ==> r.None?
    ensures c.Num? ==> r == Some(c.value)
  {
    if c.Empty? then None else ToFloat(c, p)
  }

  /** The stripped text of a cell, '' for an empty cell. */
  function TextOrEmpty(c: Cell): string {
    if c.Empty? then [] else Strip(CellText(c))
  }

  /** The (code, name) of data row r, or None when both cells are missing or
      both are blank after stripping. */
  function RowKey(sh: Sheet, r: nat): Option<(string, string)> {
    var code := At(sh, r, 0);
    var name := At(sh, r, 1);
    if code.Empty? && name.Empty? then None
    else
      var cs := TextOrEmpty(code);
      var ns := TextOrEmpty(name);
      if cs == [] && ns == [] then None else Some((cs, ns))
  }

  /** The records of the first n periods of kept row r. */
  function RowPrefixRecords(banco: string, fechas: seq<Date>, sh: Sheet, p: Parsers, r: nat,
                            codigo: string, cuenta: string, n: nat): seq<BalanceRecord>
    requires n <= |fechas|
  {
    if n == 0 then []
    else RowPrefixRecords(banco, fechas, sh, p, r, codigo, cuenta, n - 1) +
         [BalanceRecord(banco, fechas[n - 1], codigo, cuenta, CellValue(At(sh, r, 2 + (n - 1)), p), Level(codigo))]
  }

  function RowRecords(banco: string, fechas: seq<Date>, sh: Sheet, p: Parsers, r: nat): seq<BalanceRecord> {
    match RowKey(sh, r)
    case None => []
    case Some((codigo, cuenta)) => RowPrefixRecords(banco, fechas, sh, p, r, codigo, cuenta, |fechas|)
  }

  /** The records of sheet rows lo .. hi-1. */
  function RowsRecords(banco: string, fechas: seq<Date>, sh: Sheet, p: Parsers, lo: nat, hi: nat): seq<BalanceRecord>
    decreases hi
  {
    if hi <= lo then []
    else RowsRecords(banco, fechas, sh, p, lo, hi - 1) + RowRecords(banco, fechas, sh, p, hi - 1)
  }

  /** procesar_banco as a value: a sheet without row 5 fails (no records); no
      period gives no records; otherwise every data row from row 7 on. */
  function ExtractBalance(banco: string, sh: Sheet, p: Parsers): seq<BalanceRecord> {
    if |sh.rows| < 5 then []
    else
      var fechas := HeaderFrom(sh, p, 2);
      if fechas == [] then [] else RowsRecords(banco, fechas, sh, p, 6, |sh.rows|)
  }

  /** procesar_banco. */
  method ProcessBalanceSheet(banco: string, sh: Sheet, p: Parsers) returns (registros: seq<BalanceRecord>)
    ensures registros == ExtractBalance(banco, sh, p)
  {
    registros := [];
    if |sh.rows| < 5 {
      return;
    }
    var fechas := ReadHeader(sh, p);
    if |fechas| == 0 {
      return;
    }
    registros := ReadRows(banco, fechas, sh, p);
  }

  /** The row loop of procesar_banco over the rows from index 6. */
  method ReadRows(banco: string, fechas: seq<Date>, sh: Sheet, p: Parsers) returns (registros: seq<BalanceRecord>)
    ensures registros == RowsRecords(banco, fechas, sh, p, 6, |sh.rows|)
  {
    registros := [];
    var r := 6;
    while r < |sh.rows|
      invariant r == 6 || 6 <= r <= |sh.rows|
      invariant registros == RowsRecords(banco, fechas, sh, p, 6, r)
    {
      var key := RowKey(sh, r);
      if key.Some? {
        var (codigo, cuenta) := key.value;
        var fila := ReadRow(banco, fechas, sh, p, r, codigo, cuenta);
        assert RowRecords(banco, fechas, sh, p, r) == fila;
        registros := registros + fila;
      } else {
        assert RowRecords(banco, fechas, sh, p, r) == [];
      }
      assert RowsRecords(banco, fechas, sh, p, 6, r + 1) ==
             RowsRecords(banco, fechas, sh, p, 6, r) + RowRecords(banco, fechas, sh, p, r);
      r := r + 1;
    }
  }

  /** The period loop of procesar_banco over one kept row. */
  method ReadRow(banco: string, fechas: seq<Date>, sh: Sheet, p: Parsers, r: nat,
                 codigo: string, cuenta: string) returns (fila: seq<BalanceRecord>)
    ensures fila == RowPrefixRecords(banco, fechas, sh, p, r, codigo, cuenta, |fechas|)
  {
    fila := [];
    var nivel := Level(codigo);
    var j := 0;
    while j < |fechas|
      invariant 0 <= j <= |fechas|
      invariant fila == RowPrefixRecords(banco, fechas, sh, p, r, codigo, cuenta, j)
    {
      var valor := At(sh, r, 2 + j);
      var v := if !valor.Empty? then ToFloat(valor, p) else None;
      fila := fila + [BalanceRecord(banco, fechas[j], codigo, cuenta, v, nivel)];
      j := j + 1;
    }
  }

  /** A kept row emits exactly one record per period, in period order: the
      j-th carries the j-th period and the value of column C+j (even when a
      skipped header cell put that period's own column further right), the
      row's code, name and level, and the bank passed in. */
  lemma {:induction false} RowRecordsExact(banco: string, fechas: seq<Date>, sh: Sheet, p: Parsers, r: nat,
                                           codigo: string, cuenta: string, n: nat)
    requires n <= |fechas|
    ensures |RowPrefixRecords(banco, fechas, sh, p, r, codigo, cuenta, n)| == n
    ensures forall j :: 0 <= j < n ==>
      RowPrefixRecords(banco, fechas, sh, p, r, codigo, cuenta, n)[j] ==
      BalanceRecord(banco, fechas[j], codigo, cuenta, CellValue(At(sh, r, 2 + j), p), Level(codigo))
  {
    if n > 0 {
      RowRecordsExact(banco, fechas, sh, p, r, codigo, cuenta, n - 1);
    }
  }

  /** Kept rows are exactly those with a code or a name that is not blank. */
  lemma RowKeyKeeps(sh: Sheet, r: nat)
    ensures RowKey(sh, r).Some? <==> TextOrEmpty(At(sh, r, 0)) != [] || TextOrEmpty(At(sh, r, 1)) != []
    ensures RowKey(sh, r).Some? ==> RowKey(sh, r).value == (TextOrEmpty(At(sh, r, 0)), TextOrEmpty(At(sh, r, 1)))
  {
  }
}

=== FILE: charts.dfy ===
// The data logic of utils/charts.py: the colour map for a list of banks,
// the gauge bar colour, the radar value lists and the row filter and hover
// data of the hierarchical treemap. Figure construction is not modelled.

module Charts {
  import opened Common
  import opened Sorting
  import IndicatorMapping
  import Panorama

  // ---------------------------------------------------------------------
  // obtener_colores_para_bancos
  // ---------------------------------------------------------------------

  function ColoursFor(bancos: seq<string>): map<string, string> {
    map b | b in bancos :: IndicatorMapping.BankColour(b)
  }

  /** One entry per listed bank and no other, each with the bank's own colour;
      an expected bank is never drawn in the default grey. */
  lemma ColoursForSpec(bancos: seq<string>)
    ensures ColoursFor(bancos).Keys == set b | b in bancos
    ensures forall b :: b in bancos ==> ColoursFor(bancos)[b] == IndicatorMapping.BankColour(b)
    ensures forall b :: b in bancos && b in IndicatorMapping.SystemBanks ==>
      ColoursFor(bancos)[b] != IndicatorMapping.DefaultColour
  {
    IndicatorMapping.EveryExpectedBankHasColour();
  }

  // ---------------------------------------------------------------------
  // crear_gauge: colour of the bar
  // ---------------------------------------------------------------------

  /** The COLORES entries the bar can take. */
  datatype BarTone = Neutro | Exito | Advertencia | ErrorTone

  datatype Threshold = Threshold(lo: real, hi: real, color: string)

  const GreenStep: string := "#c6f6d5"
  const YellowStep: string := "#fefcbf"
  const RedStep: string := "#fed7d7"

  const DefaultThresholds: seq<Threshold> := [
    Threshold(0.0, 33.0, RedStep), Threshold(33.0, 66.0, YellowStep), Threshold(66.0, 100.0, GreenStep)
  ]

  function ToneOf(u: Threshold): BarTone {
    if u.color == GreenStep then Exito else if u.color == YellowStep then Advertencia else ErrorTone
  }

  predicate Contains(u: Threshold, valor: real) {
    u.lo <= valor <= u.hi
  }

  /** The tone left by the last threshold whose closed range holds the value. */
  function BarColour(valor: real, umbrales: seq<Threshold>): BarTone {
    if umbrales == [] then Neutro
    else if Contains(umbrales[|umbrales| - 1], valor) then ToneOf(umbrales[|umbrales| - 1])
    else BarColour(valor, umbrales[..|umbrales| - 1])
  }

  /** The loop of crear_gauge over the thresholds (the defaults when none are given). */
  method GaugeColour(valor: real, umbrales: Option<seq<Threshold>>) returns (color: BarTone)
    ensures color == BarColour(valor, if umbrales.Some? then umbrales.value else DefaultThresholds)
  {
    var us := if umbrales.Some? then umbrales.value else DefaultThresholds;
    color := Neutro;
    var i := 0;
    while i < |us|
      invariant 0 <= i <= |us|
      invariant color == BarColour(valor, us[..i])
    {
      assert us[..i + 1][..i] == us[..i];
      if Contains(us[i], valor) {
        color := ToneOf(us[i]);
      }
      i := i + 1;
    }
    assert us[..|us|] == us;
  }

  /** The bar stays neutral exactly when no threshold holds the value, and
      otherwise takes the tone of the last one that does. */
  lemma {:induction false} BarColourSpec(valor: real, umbrales: seq<Threshold>)
    ensures BarColour(valor, umbrales) == Neutro <==> forall u :: u in umbrales ==> !Contains(u, valor)
    ensures BarColour(valor, umbrales) != Neutro ==>
      exists k :: 0 <= k < |umbrales| && LastContaining(valor, umbrales, k) &&
        BarColour(valor, umbrales) == ToneOf(umbrales[k])
  {
    if umbrales != [] {
      var n := |umbrales| - 1;
      BarColourSpec(valor, umbrales[..n]);
      assert umbrales == umbrales[..n] + [umbrales[n]];
      if Contains(umbrales[n], valor) {
        assert LastContaining(valor, umbrales, n);
      } else if BarColour(valor, umbrales) != Neutro {
        var k :| 0 <= k < n && LastContaining(valor, umbrales[..n], k) &&
          BarColour(valor, umbrales[..n]) == ToneOf(umbrales[..n][k]);
        assert LastContaining(valor, umbrales, k);
      }
    }
  }

  /** Threshold k holds the value and none after it does. */
  predicate LastContaining(valor: real, umbrales: seq<Threshold>, k: int)
    requires 0 <= k < |umbrales|
  {
    Contains(umbrales[k], valor) && forall j :: k < j < |umbrales| ==> !Contains(umbrales[j], valor)
  }

  /** With the default thresholds: below 33 red, from 33 below 66 yellow,
      from 66 to 100 green, and neutral outside 0..100 (the shared bounds 33
      and 66 take the later range). */
  lemma DefaultGaugeColours(valor: real)
    ensures 0.0 <= valor < 33.0 ==> BarColour(valor, DefaultThresholds) == ErrorTone
    ensures 33.0 <= valor < 66.0 ==> BarColour(valor, DefaultThresholds) == Advertencia
    ensures 66.0 <= valor <= 100.0 ==> BarColour(valor, DefaultThresholds) == Exito
    ensures valor < 0.0 || valor > 100.0 ==> BarColour(valor, DefaultThresholds) == Neutro
  {
    var ds := DefaultThresholds;
    assert ds[..2] == [ds[0], ds[1]] && ds[..2][..1] == [ds[0]] && ds[..2][..1][..0] == [];
    assert BarColour(valor, [ds[0]]) == if Contains(ds[0], valor) then ErrorTone else Neutro;
    assert BarColour(valor, ds[..2]) ==
      if Contains(ds[1], valor) then Advertencia else BarColour(valor, [ds[0]]);
    assert BarColour(valor, ds) == if Contains(ds[2], valor) then Exito else BarColour(valor, ds[..2]);
  }

  // ---------------------------------------------------------------------
  // crear_radar_camel: value lists
  // ---------------------------------------------------------------------

  const CamelKeys: seq<string> := ["C", "A", "M", "E", "L"]

  /** dict.get(k, 0). */
  function GetOrZero(valores: map<string, real>, k: string): real {
    if k in valores then valores[k] else 0.0
  }

  /** The closed polygon: C, A, M, E, L (missing keys as 0) and C again. */
  method RadarValues(valores: map<string, real>) returns (r: seq<real>)
    ensures |r| == 6 && r[5] == r[0]
    ensures forall i :: 0 <= i < 5 ==> r[i] == GetOrZero(valores, CamelKeys[i])
  {
    r := [];
    var i := 0;
    while i < |CamelKeys|
      invariant 0 <= i <= |CamelKeys|
      invariant |r| == i && forall j :: 0 <= j < i ==> r[j] == GetOrZero(valores, CamelKeys[j])
    {
      r := r + [GetOrZero(valores, CamelKeys[i])];
      i := i + 1;
    }
    r := r + [r[0]];
  }

  /** The traces of the radar: the benchmark first when one is given and not
      empty, then the bank. */
  method RadarTraces(valores: map<string, real>, benchmark: Option<map<string, real>>)
    returns (trazas: seq<seq<real>>)
    ensures |trazas| == (if benchmark.Some? && |benchmark.value| > 0 then 2 else 1)
    ensures forall t :: t in trazas ==> |t| == 6 && t[5] == t[0]
    ensures forall i :: 0 <= i < 5 ==> trazas[|trazas| - 1][i] == GetOrZero(valores, CamelKeys[i])
    ensures |trazas| == 2 ==> forall i :: 0 <= i < 5 ==> trazas[0][i] == GetOrZero(benchmark.value, CamelKeys[i])
  {
    trazas := [];
    if benchmark.Some? && |benchmark.value| > 0 {
      var rBench := RadarValues(benchmark.value);
      trazas := trazas + [rBench];
    }
    var rValores := RadarValues(valores);
    trazas := trazas + [rValores];
  }

  // ---------------------------------------------------------------------
  // crear_treemap (jerarquico): row filter and hover data
  // ---------------------------------------------------------------------

  /** A row of the frame given to the chart; participacion is read only when
      the frame has that column. */
  datatype ChartRow = ChartRow(labels: string, parents: string, values: Option<real>, participacion: real)

  datatype TreemapFrame = TreemapFrame(hasLabels: bool, hasParents: bool, hasValues: bool,
                                       hasParticipacion: bool, rows: seq<ChartRow>)

  datatype TreemapFigure = WrongStructure | NoData | Treemap(rows: seq<ChartRow>, customdata: seq<real>)

  function PositiveMask(): ChartRow -> bool {
    (r: ChartRow) => r.values.Some? && r.values.value > 0.0
  }

  /** The hover value of a row: its participation for a root when the column
      exists, 0 otherwise. */
  function HoverOf(r: ChartRow, hasParticipacion: bool): real {
    if r.parents == "" && hasParticipacion then r.participacion else 0.0
  }

  function Customdata(rows: seq<ChartRow>, hasParticipacion: bool): seq<real> {
    if rows == [] then []
    else Customdata(rows[..|rows| - 1], hasParticipacion) + [HoverOf(rows[|rows| - 1], hasParticipacion)]
  }

  function TreemapOf(df: TreemapFrame): TreemapFigure {
    if !(df.hasLabels && df.hasParents && df.hasValues) then WrongStructure
    else
      var kept := Filter(df.rows, PositiveMask());
      if kept == [] then NoData else Treemap(kept, Customdata(kept, df.hasParticipacion))
  }

  /** The customdata loop over the kept rows. */
  method BuildCustomdata(rows: seq<ChartRow>, hasParticipacion: bool) returns (customdata: seq<real>)
    ensures customdata == Customdata(rows, hasParticipacion)
  {
    customdata := [];
    var i := 0;
    while i < |rows|
      invariant 0 <= i <= |rows|
      invariant customdata == Customdata(rows[..i], hasParticipacion)
    {
      assert rows[..i + 1][..i] == rows[..i];
      customdata := customdata + [HoverOf(rows[i], hasParticipacion)];
      i := i + 1;
    }
    assert rows[..|rows|] == rows;
  }

  /** crear_treemap in hierarchical mode, up to the figure. */
  method CreateTreemap(df: TreemapFrame) returns (fig: TreemapFigure)
    ensures fig == TreemapOf(df)
  {
    if !(df.hasLabels && df.hasParents && df.hasValues) {
      return WrongStructure;
    }
    var kept := Filter(df.rows, PositiveMask());
    if kept == [] {
      return NoData;
    }
    var customdata := BuildCustomdata(kept, df.hasParticipacion);
    fig := Treemap(kept, customdata);
  }

  lemma {:induction false} CustomdataSpec(rows: seq<ChartRow>, hasParticipacion: bool)
    ensures |Customdata(rows, hasParticipacion)| == |rows|
    ensures forall i :: 0 <= i < |rows| ==> Customdata(rows, hasParticipacion)[i] == HoverOf(rows[i], hasParticipacion)
  {
    if rows != [] {
      CustomdataSpec(rows[..|rows| - 1], hasParticipacion);
    }
  }

  /** A missing column gives the error figure; otherwise the figure shows
      exactly the rows with a positive value, in order, with one hover value
      per row that is the participation for a root (when present) and 0 for
      every account. */
  lemma TreemapSpec(df: TreemapFrame)
    ensures TreemapOf(df).WrongStructure? <==> !(df.hasLabels && df.hasParents && df.hasValues)
    ensures TreemapOf(df).NoData? <==>
      df.hasLabels && df.hasParents && df.hasValues && forall r :: r in df.rows ==> !PositiveMask()(r)
    ensures TreemapOf(df).Treemap? ==>
      (forall r :: r in TreemapOf(df).rows <==> r in df.rows && r.values.Some? && r.values.value > 0.0) &&
      |TreemapOf(df).customdata| == |TreemapOf(df).rows| &&
      (forall i :: 0 <= i < |TreemapOf(df).rows| && TreemapOf(df).rows[i].parents != "" ==> TreemapOf(df).customdata[i] == 0.0) &&
      (forall i :: 0 <= i < |TreemapOf(df).rows| && TreemapOf(df).rows[i].parents == "" && df.hasParticipacion ==>
        TreemapOf(df).customdata[i] == TreemapOf(df).rows[i].participacion)
  {
    var kept := Filter(df.rows, PositiveMask());
    FilterMembers(df.rows, PositiveMask());
    CustomdataSpec(kept, df.hasParticipacion);
    if kept == [] {
      assert forall r :: r in df.rows ==> !PositiveMask()(r);
    } else {
      assert kept[0] in df.rows;
    }
  }

  // ---------------------------------------------------------------------
  // The Panorama treemap records drawn by this chart
  // ---------------------------------------------------------------------

  function FromRecord(t: Panorama.TreemapRow): ChartRow {
    ChartRow(t.rec.labels, t.rec.parents, Some(t.rec.values), t.participacion)
  }

  function FromRecords(ts: seq<Panorama.TreemapRow>): (r: seq<ChartRow>)
    ensures |r| == |ts| && forall i :: 0 <= i < |ts| ==> r[i] == FromRecord(ts[i])
  {
    if ts == [] then [] else FromRecords(ts[..|ts| - 1]) + [FromRecord(ts[|ts| - 1])]
  }

  lemma {:induction false} FilterKeepsPositive(rows: seq<ChartRow>)
    requires forall i :: 0 <= i < |rows| ==> PositiveMask()(rows[i])
    ensures Filter(rows, PositiveMask()) == rows
  {
    if rows != [] {
      FilterKeepsPositive(rows[..|rows| - 1]);
      assert rows == rows[..|rows| - 1] + [rows[|rows| - 1]];
    }
  }

  lemma {:induction false} HoverSumIsRootShares(ts: seq<Panorama.TreemapRow>)
    ensures Sum(Customdata(FromRecords(ts), true)) == Panorama.RootShareSum(ts)
  {
    if ts != [] {
      var n := |ts| - 1;
      HoverSumIsRootShares(ts[..n]);
      assert FromRecords(ts)[..n] == FromRecords(ts[..n]);
      SumAppend(Customdata(FromRecords(ts[..n]), true), [HoverOf(FromRecord(ts[n]), true)]);
    }
  }

  /** Drawing Panorama's treemap table (whose values are positive) keeps every
      record, and the hover values of the banks add up to 100 when their
      total is positive. */
  lemma {:induction false} PanoramaTreemapDrawn(recs: seq<Panorama.TreeRecord>)
    requires recs != []
    requires forall i :: 0 <= i < |recs| ==> recs[i].values > 0.0
    requires Panorama.RootTotal(recs) > 0.0
    ensures TreemapOf(TreemapFrame(true, true, true, true, FromRecords(Panorama.WithParticipation(recs)))) ==
      Treemap(FromRecords(Panorama.WithParticipation(recs)), Customdata(FromRecords(Panorama.WithParticipation(recs)), true))
    ensures Sum(Customdata(FromRecords(Panorama.WithParticipation(recs)), true)) == 100.0
  {
    Panorama.WithParticipationSpec(recs);
    var rows := FromRecords(Panorama.WithParticipation(recs));
    FilterKeepsPositive(rows);
    HoverSumIsRootShares(Panorama.WithParticipation(recs));
  }
}

=== FILE: common.dfy ===
/** Values shared by the extractors and the dashboard logic: optional values,
    calendar dates, spreadsheet cells, Python-style string helpers and sums. */
module Common {

  datatype Option<T> = None | Some(value: T)

  /** A calendar date (pandas Timestamp at day granularity). */
  datatype Date = Date(year: int, month: int, day: int)

  predicate DateLe(a: Date, b: Date) {
    a.year < b.year ||
    (a.year == b.year && (a.month < b.month || (a.month == b.month && a.day <= b.day)))
  }

  predicate DateLt(a: Date, b: Date) {
    DateLe(a, b) && a != b
  }

  lemma DateLeTotal(a: Date, b: Date)
    ensures DateLe(a, b) || DateLe(b, a)
  {
  }

  lemma DateLeTransitive(a: Date, b: Date, c: Date)
    requires DateLe(a, b) && DateLe(b, c)
    ensures DateLe(a, c)
  {
  }

  lemma DateLeAntisymmetric(a: Date, b: Date)
    requires DateLe(a, b) && DateLe(b, a)
    ensures a == b
  {
  }

  predicate IsLeapYear(y: int) {
    y % 4 == 0 && (y % 100 != 0 || y % 400 == 0)
  }

  /** Length of a month in the Gregorian calendar (Python's calendar.monthrange(y, m)[1]). */
  function DaysInMonth(y: int, m: int): (d: int)
    requires 1 <= m <= 12
    ensures 28 <= d <= 31
    ensures d == 29 <==> m == 2 && IsLeapYear(y)
    ensures d == 31 <==> m in {1, 3, 5, 7, 8, 10, 12}
  {
    if m == 2 then (if IsLeapYear(y) then 29 else 28)
    else if m in {4, 6, 9, 11} then 30
    else 31
  }

  /** The last day of month m of year y. */
  function MonthEnd(y: int, m: int): (d: Date)
    requires 1 <= m <= 12
    ensures d.year == y && d.month == m && d.day == DaysInMonth(y, m)
  {
    Date(y, m, DaysInMonth(y, m))
  }

  /** A spreadsheet cell as pandas reads it with header=None. `text` is what
      Python's str() gives for the cell value (used for code columns). */
  datatype Cell =
    | Empty
    | Num(value: real, text: string)
    | Text(s: string)
    | Stamp(date: Date, text: string)

  /** Python str() of a non-missing cell. */
  function CellText(c: Cell): string
    requires !c.Empty?
  {
    match c
    case Num(_, t) => t
    case Text(s) => s
    case Stamp(_, t) => t
  }

  /** The two conversions the extractors borrow from pandas and Python, taken
      as given partial functions: pd.to_datetime on a cell value and float()
      on a string. */
  datatype Parsers = Parsers(toDate: Cell -> Option<Date>, toReal: string -> Option<real>)

  /** Python float(value) on a non-missing cell: numbers convert, strings are
      parsed, a timestamp raises TypeError. */
  function ToFloat(c: Cell, p: Parsers): (r: Option<real>)
    ensures c.Num? ==> r == Some(c.value)
    ensures c.Empty? || c.Stamp? ==> r == None
  {
    match c
    case Num(v, _) => Some(v)
    case Text(s) => p.toReal(s)
    case _ => None
  }

  /** A sheet read with header=None: `rows` has one entry per sheet row
      (len(df)); `width` is the number of columns (df.shape[1]). A position
      beyond a row's stored cells is an empty cell. */
  datatype Sheet = Sheet(rows: seq<seq<Cell>>, width: nat)

  function At(sh: Sheet, r: nat, c: nat): Cell {
    if r < |sh.rows| && c < |sh.rows[r]| then sh.rows[r][c] else Empty
  }

  // ---------------------------------------------------------------------------
  // Python string helpers
  // ---------------------------------------------------------------------------

  /** Python str.isspace() (which is also what `\s` matches in a str pattern). */
  predicate IsSpace(c: char) {
    c == ' ' || ('\t' <= c <= '\r') || ('\U{1c}' <= c <= '\U{1f}') ||
    c == '\U{85}' || c == '\U{a0}' || c == '\U{1680}' || ('\U{2000}' <= c <= '\U{200a}') ||
    c == '\U{2028}' || c == '\U{2029}' || c == '\U{202f}' || c == '\U{205f}' || c == '\U{3000}'
  }

  function LStrip(s: string): string {
    if s != [] && IsSpace(s[0]) then LStrip(s[1..]) else s
  }

  function RStrip(s: string): string {
    if s != [] && IsSpace(s[|s| - 1]) then RStrip(s[..|s| - 1]) else s
  }

  /** Python str.strip(). */
  function Strip(s: string): string {
    RStrip(LStrip(s))
  }

  /** lstrip removes exactly the leading whitespace. */
  lemma {:induction false} LStripShape(s: string)
    ensures var r := LStrip(s);
      |r| <= |s| && r == s[|s| - |r|..] && (r == [] || !IsSpace(r[0])) &&
      forall i :: 0 <= i < |s| - |r| ==> IsSpace(s[i])
  {
    if s != [] && IsSpace(s[0]) {
      LStripShape(s[1..]);
      var r := LStrip(s[1..]);
      assert LStrip(s) == r;
      assert s[1..][|s| - 1 - |r|..] == s[|s| - |r|..];
      forall i | 0 <= i < |s| - |r|
        ensures IsSpace(s[i])
      {
        if i > 0 {
          assert s[i] == s[1..][i - 1];
        }
      }
    }
  }

  /** rstrip removes exactly the trailing whitespace. */
  lemma {:induction false} RStripShape(s: string)
    ensures var r := RStrip(s);
      |r| <= |s| && r == s[..|r|] && (r == [] || !IsSpace(r[|r| - 1])) &&
      forall i :: |r| <= i < |s| ==> IsSpace(s[i])
  {
    if s != [] && IsSpace(s[|s| - 1]) {
      RStripShape(s[..|s| - 1]);
    }
  }

  /** strip leaves no whitespace at either end, and keeps text without
      surrounding whitespace as it is. */
  lemma StripShape(s: string)
    ensures var r := Strip(s); r == [] || (!IsSpace(r[0]) && !IsSpace(r[|r| - 1]))
    ensures s == [] || (!IsSpace(s[0]) && !IsSpace(s[|s| - 1])) ==> Strip(s) == s
  {
    LStripShape(s);
    RStripShape(LStrip(s));
    var r := Strip(s);
    if r != [] {
      assert r[0] == LStrip(s)[0];
    }
  }

  predicate IsDigit(c: char) {
    '0' <= c <= '9'
  }

  /** Python str.isdigit() on ASCII text: non-empty and every character a digit. */
  predicate AllDigits(s: string) {
    s != [] && forall i :: 0 <= i < |s| ==> IsDigit(s[i])
  }

  /** `k in s` for Python strings: k occurs as a contiguous substring of s. */
  predicate IsSubstring(k: string, s: string)
    decreases |s|
  {
    k <= s || (s != [] && IsSubstring(k, s[1..]))
  }

  /** s with every occurrence of character a replaced by b (str.replace on one character). */
  function ReplaceChar(s: string, a: char, b: char): (r: string)
    ensures |r| == |s|
    ensures forall i :: 0 <= i < |s| ==> r[i] == (if s[i] == a then b else s[i])
  {
    if s == [] then [] else [if s[0] == a then b else s[0]] + ReplaceChar(s[1..], a, b)
  }

  /** s with every occurrence of character a removed (str.replace(a, '')). */
  function RemoveChar(s: string, a: char): (r: string)
    ensures |r| <= |s|
    ensures forall i :: 0 <= i < |r| ==> r[i] != a
  {
    if s == [] then [] else (if s[0] == a then [] else [s[0]]) + RemoveChar(s[1..], a)
  }

  /** Python's `<` on strings: lexicographic by code point. */
  predicate StrLe(a: string, b: string)
    decreases |a|
  {
    a == [] || (b != [] && (a[0] < b[0] || (a[0] == b[0] && StrLe(a[1..], b[1..]))))
  }

  lemma {:induction false} StrLeTotal(a: string, b: string)
    ensures StrLe(a, b) || StrLe(b, a)
    decreases |a|
  {
    if a != [] && b != [] && a[0] == b[0] {
      StrLeTotal(a[1..], b[1..]);
    }
  }

  lemma {:induction false} StrLeTransitive(a: string, b: string, c: string)
    requires StrLe(a, b) && StrLe(b, c)
    ensures StrLe(a, c)
    decreases |a|
  {
    if a != [] && a[0] == b[0] && b[0] == c[0] {
      StrLeTransitive(a[1..], b[1..], c[1..]);
    }
  }

  lemma {:induction false} StrLeAntisymmetric(a: string, b: string)
    requires StrLe(a, b) && StrLe(b, a)
    ensures a == b
    decreases |a|
  {
    if a != [] {
      StrLeAntisymmetric(a[1..], b[1..]);
      assert a == [a[0]] + a[1..] && b == [b[0]] + b[1..];
    }
  }

  /** Python's strict `<` on strings. */
  predicate StrLt(a: string, b: string) {
    StrLe(a, b) && a != b
  }

  /** The row order of sort_values(['banco', 'codigo', 'fecha']): bank name,
      then code, then date. */
  predicate SeriesLe(b1: string, c1: string, f1: Date, b2: string, c2: string, f2: Date) {
    StrLt(b1, b2) || (b1 == b2 && (StrLt(c1, c2) || (c1 == c2 && DateLe(f1, f2))))
  }

  lemma SeriesLeTotal(b1: string, c1: string, f1: Date, b2: string, c2: string, f2: Date)
    ensures SeriesLe(b1, c1, f1, b2, c2, f2) || SeriesLe(b2, c2, f2, b1, c1, f1)
  {
    StrLeTotal(b1, b2);
    StrLeTotal(c1, c2);
  }

  lemma SeriesLeTransitive(b1: string, c1: string, f1: Date, b2: string, c2: string, f2: Date,
                           b3: string, c3: string, f3: Date)
    requires SeriesLe(b1, c1, f1, b2, c2, f2) && SeriesLe(b2, c2, f2, b3, c3, f3)
    ensures SeriesLe(b1, c1, f1, b3, c3, f3)
  {
    StrLtTransitive(b1, b2, b3);
    StrLtTransitive(c1, c2, c3);
  }

  /** Strict order on strings chains, and is irreflexive across a pair. */
  lemma StrLtTransitive(a: string, b: string, c: string)
    ensures StrLt(a, b) && StrLe(b, c) ==> StrLt(a, c)
    ensures StrLe(a, b) && StrLt(b, c) ==> StrLt(a, c)
  {
    if StrLe(a, b) && StrLe(b, c) {
      StrLeTransitive(a, b, c);
      if a == c {
        StrLeAntisymmetric(a, b);
      }
    }
  }

  /** Python str.upper() on the Basic Latin and Latin-1 letters. */
  function Upper(c: char): (u: char)
    ensures 'a' <= c <= 'z' ==> u as int == c as int - 32
    ensures !('a' <= c <= 'z') && !('\U{e0}' <= c <= '\U{fe}') ==> u == c
  {
    if 'a' <= c <= 'z' then (c as int - 32) as char
    else if '\U{e0}' <= c <= '\U{fe}' && c != '\U{f7}' then (c as int - 32) as char
    else c
  }

  /** Python split()[0]: the first whitespace-separated token, if any. */
  function FirstToken(s: string): (r: Option<string>)
    ensures r.None? <==> forall i :: 0 <= i < |s| ==> IsSpace(s[i])
    ensures r.Some? ==> r.value != [] && IsSubstring(r.value, s) &&
                        forall i :: 0 <= i < |r.value| ==> !IsSpace(r.value[i])
  {
    LStripShape(s);
    var t := LStrip(s);
    if t == [] then None
    else
      assert t[0] == s[|s| - |t|] && !IsSpace(s[|s| - |t|]);
      var w := TakeWord(t);
      assert |w| < |t| ==> IsSpace(t[|w|]);
      assert t == w + t[|w|..];
      SuffixSubstring(s, |s| - |t|, w);
      Some(w)
  }

  /** The longest prefix of s that holds no whitespace. */
  function TakeWord(s: string): (r: string)
    ensures r <= s
    ensures forall i :: 0 <= i < |r| ==> !IsSpace(s[i])
    ensures |r| < |s| ==> IsSpace(s[|r|])
  {
    if s == [] || IsSpace(s[0]) then [] else [s[0]] + TakeWord(s[1..])
  }

  /** A prefix of a suffix of s is a substring of s. */
  lemma {:induction false} SuffixSubstring(s: string, k: nat, w: string)
    requires k <= |s| && w <= s[k..]
    ensures IsSubstring(w, s)
    decreases k
  {
    if k > 0 {
      assert s[1..][k - 1..] == s[k..];
      SuffixSubstring(s[1..], k - 1, w);
    }
  }

  function Min(a: int, b: int): int {
    if a <= b then a else b
  }

  // ---------------------------------------------------------------------------
  // Sums (pandas Series.sum skips missing values)
  // ---------------------------------------------------------------------------

  function Sum(s: seq<real>): real {
    if s == [] then 0.0 else s[0] + Sum(s[1..])
  }

  /** Sum of the present values; missing values count as nothing. */
  function SumPresent(s: seq<Option<real>>): real {
    if s == [] then 0.0 else (if s[0].Some? then s[0].value else 0.0) + SumPresent(s[1..])
  }

  lemma {:induction false} SumAppend(a: seq<real>, b: seq<real>)
    ensures Sum(a + b) == Sum(a) + Sum(b)
  {
    if a != [] {
      assert (a + b)[1..] == a[1..] + b;
      SumAppend(a[1..], b);
    } else {
      assert a + b == b;
    }
  }

  lemma {:induction false} SumNonNegative(s: seq<real>)
    requires forall i :: 0 <= i < |s| ==> s[i] >= 0.0
    ensures Sum(s) >= 0.0
  {
    if s != [] {
      SumNonNegative(s[1..]);
    }
  }

  /** Every element of a sequence of non-negative numbers is at most their sum. */
  lemma {:induction false} SumBoundsElement(s: seq<real>, k: nat)
    requires forall i :: 0 <= i < |s| ==> s[i] >= 0.0
    requires k < |s|
    ensures s[k] <= Sum(s)
  {
    SumNonNegative(s[1..]);
    if k > 0 {
      SumBoundsElement(s[1..], k - 1);
    }
  }

  /** A prefix of a sequence of non-negative numbers sums to at most the whole. */
  lemma SumPrefixBound(s: seq<real>, n: nat)
    requires forall i :: 0 <= i < |s| ==> s[i] >= 0.0
    requires n <= |s|
    ensures Sum(s[..n]) <= Sum(s)
  {
    assert s == s[..n] + s[n..];
    SumAppend(s[..n], s[n..]);
    SumNonNegative(s[n..]);
  }

  lemma {:induction false} SumPresentAppend(a: seq<Option<real>>, b: seq<Option<real>>)
    ensures SumPresent(a + b) == SumPresent(a) + SumPresent(b)
  {
    if a != [] {
      assert (a + b)[1..] == a[1..] + b;
      SumPresentAppend(a[1..], b);
    } else {
      assert a + b == b;
    }
  }

  lemma {:induction false} SumPresentNonNegative(s: seq<Option<real>>)
    requires forall i :: 0 <= i < |s| && s[i].Some? ==> s[i].value >= 0.0
    ensures SumPresent(s) >= 0.0
  {
    if s != [] {
      SumPresentNonNegative(s[1..]);
    }
  }

  /** Every present value of a sequence of non-negative values is at most their sum. */
  lemma {:induction false} SumPresentBoundsElement(s: seq<Option<real>>, k: nat)
    requires forall i :: 0 <= i < |s| && s[i].Some? ==> s[i].value >= 0.0
    requires k < |s| && s[k].Some?
    ensures s[k].value <= SumPresent(s)
  {
    SumPresentNonNegative(s[1..]);
    if k > 0 {
      SumPresentBoundsElement(s[1..], k - 1);
    }
  }

  /** The latest of some dates (pandas max; NaT when there are none). */
  function MaxDate(s: seq<Date>): (r: Option<Date>)
    ensures r.None? <==> s == []
    ensures r.Some? ==> r.value in s && forall x :: x in s ==> DateLe(x, r.value)
  {
    if s == [] then None
    else
      assert s == s[..|s| - 1] + [s[|s| - 1]];
      match MaxDate(s[..|s| - 1])
      case None => Some(s[|s| - 1])
      case Some(m) => Some(if DateLe(s[|s| - 1], m) then m else s[|s| - 1])
  }

  /** The earliest of some dates (pandas min; NaT when there are none). */
  function MinDate(s: seq<Date>): (r: Option<Date>)
    ensures r.None? <==> s == []
    ensures r.Some? ==> r.value in s && forall x :: x in s ==> DateLe(r.value, x)
  {
    if s == [] then None
    else
      assert s == s[..|s| - 1] + [s[|s| - 1]];
      match MinDate(s[..|s| - 1])
      case None => Some(s[|s| - 1])
      case Some(m) => Some(if DateLe(m, s[|s| - 1]) then m else s[|s| - 1])
  }

  /** The pieces f(lo), ..., f(hi-1) joined in order: a loop over rows that
      appends each row's output. */
  function ConcatRange<T>(f: nat -> seq<T>, lo: nat, hi: nat): seq<T>
    decreases hi
  {
    if hi <= lo then [] else ConcatRange(f, lo, hi - 1) + f(hi - 1)
  }

  /** Everything a piece holds ends up in the join. */
  lemma {:induction false} ConcatRangeMember<T>(f: nat -> seq<T>, lo: nat, hi: nat, idx: nat, x: T)
    requires lo <= idx < hi && x in f(idx)
    ensures x in ConcatRange(f, lo, hi)
    decreases hi
  {
    if idx < hi - 1 {
      ConcatRangeMember(f, lo, hi - 1, idx, x);
    }
  }

  /** Every element of the join sits at some position of some piece. */
  lemma {:induction false} ConcatRangeOrigin<T>(f: nat -> seq<T>, lo: nat, hi: nat, k: nat) returns (idx: nat, j: nat)
    requires k < |ConcatRange(f, lo, hi)|
    ensures lo <= idx < hi && j < |f(idx)| && ConcatRange(f, lo, hi)[k] == f(idx)[j]
    decreases hi
  {
    var front := ConcatRange(f, lo, hi - 1);
    if k < |front| {
      idx, j := ConcatRangeOrigin(f, lo, hi - 1, k);
    } else {
      idx, j := hi - 1, k - |front|;
    }
  }
}

=== FILE: data_loader.dfy ===
// Cleaning, quality metrics and lookups of utils/data_loader.py, applied to
// the three master tables (balance, income statement, CAMEL indicators).
// Reading the parquet files is not modelled: a table arrives as a sequence of
// rows whose missing cells are None.

module DataLoader {
  import opened Common
  import opened Sorting

  /** A row of a master table. `etiqueta` is the `cuenta` column of the
      balance and income-statement tables and the `indicador` column of the
      indicator table; `valor12m` only exists in the income statement and
      `categoria` only in the indicator table. */
  datatype Row = Row(banco: Option<string>, fecha: Option<Date>, codigo: Option<string>,
                     etiqueta: Option<string>, hoja: Option<string>, valor: Option<real>,
                     valor12m: Option<real>, categoria: Option<string>)

  // ---------------------------------------------------------------------
  // Cleaning
  // ---------------------------------------------------------------------

  /** fillna('').str.strip() != '' on the label column. */
  predicate LabelPresent(r: Row) {
    r.etiqueta.Some? && Strip(r.etiqueta.value) != ""
  }

  /** dropna(subset=['banco', 'fecha']). */
  predicate KeysPresent(r: Row) {
    r.banco.Some? && r.fecha.Some?
  }

  /** The cleaning of every loader: blank labels first, then missing keys. */
  function Clean(rows: seq<Row>): seq<Row> {
    Filter(Filter(rows, LabelPresent), KeysPresent)
  }

  predicate Kept(r: Row) {
    LabelPresent(r) && KeysPresent(r)
  }

  /** The cleaned table keeps, in their original order, exactly the rows
      with a non-blank label, a bank and a date. */
  lemma CleanSpec(rows: seq<Row>)
    ensures Clean(rows) == Filter(rows, Kept)
    ensures forall r :: r in Clean(rows) <==> r in rows && LabelPresent(r) && KeysPresent(r)
    ensures |Clean(rows)| <= |rows|
  {
    FilterTwice(rows, LabelPresent, KeysPresent, Kept);
    FilterMembers(rows, Kept);
  }

  // ---------------------------------------------------------------------
  // Quality metrics
  // ---------------------------------------------------------------------

  /** The banks named in a table (nunique ignores missing values). */
  function BankNames(df: seq<Row>): seq<string> {
    if df == [] then []
    else
      BankNames(df[..|df| - 1]) +
      (if df[|df| - 1].banco.Some? then [df[|df| - 1].banco.value] else [])
  }

  /** The dates present in a table, in table order. */
  function DatesOf(df: seq<Row>): seq<Date> {
    if df == [] then []
    else
      DatesOf(df[..|df| - 1]) +
      (if df[|df| - 1].fecha.Some? then [df[|df| - 1].fecha.value] else [])
  }

  /** The codes present in a table, in table order. */
  function CodesOf(df: seq<Row>): seq<string> {
    if df == [] then []
    else
      CodesOf(df[..|df| - 1]) +
      (if df[|df| - 1].codigo.Some? then [df[|df| - 1].codigo.value] else [])
  }

  /** The category cell of every row, missing ones included, in table order. */
  function CategoriesOf(df: seq<Row>): (r: seq<Option<string>>)
    ensures |r| == |df| && forall i :: 0 <= i < |df| ==> r[i] == df[i].categoria
  {
    if df == [] then []
    else CategoriesOf(df[..|df| - 1]) + [df[|df| - 1].categoria]
  }

  predicate ValueMissing(r: Row) { r.valor.None? }
  predicate CodeMissing(r: Row) { r.codigo.None? }
  predicate Has12m(r: Row) { r.valor12m.Some? }

  /** The metrics every loader reports. */
  datatype Quality = Quality(originales: nat, limpios: nat, eliminados: int, pctEliminados: real,
                             bancos: nat, fechas: nat, fechaMin: Option<Date>, fechaMax: Option<Date>)

  /** The shared metrics; None when the raw table is empty, where the
      percentage divides by zero and the loader raises. */
  function QualityOf(raw: seq<Row>, df: seq<Row>): Option<Quality> {
    if |raw| == 0 then None
    else
      Some(Quality(|raw|, |df|, |raw| - |df|, (|raw| - |df|) as real / |raw| as real * 100.0,
                   |Distinct(BankNames(df))|, |Distinct(DatesOf(df))|,
                   MinDate(DatesOf(df)), MaxDate(DatesOf(df))))
  }

  /** cargar_balance: the cleaned table, its metrics, and the counts of
      missing values and missing codes. */
  datatype BalanceLoad = BalanceLoad(df: seq<Row>, calidad: Quality, nulosValor: nat, nulosCodigo: nat)

  function LoadBalance(raw: seq<Row>): Option<BalanceLoad> {
    var df := Clean(raw);
    match QualityOf(raw, df)
    case None => None
    case Some(q) => Some(BalanceLoad(df, q, |Filter(df, ValueMissing)|, |Filter(df, CodeMissing)|))
  }

  /** cargar_pyg: the cleaned table, its metrics, the number of codes, and
      how many rows carry a 12-month sum, also as a percentage (None when
      cleaning leaves nothing, where numpy's 0/0 gives NaN). */
  datatype PygLoad = PygLoad(df: seq<Row>, calidad: Quality, cuentasUnicas: nat, registrosCon12m: nat,
                             pctCon12m: Option<real>)

  function LoadPyg(raw: seq<Row>): Option<PygLoad> {
    var df := Clean(raw);
    match QualityOf(raw, df)
    case None => None
    case Some(q) =>
      var con12m := |Filter(df, Has12m)|;
      Some(PygLoad(df, q, |Distinct(CodesOf(df))|, con12m,
                   if |df| == 0 then None else Some(con12m as real / |df| as real * 100.0)))
  }

  /** cargar_camel: the cleaned table, its metrics, the number of indicator
      codes and the categories (unique() keeps a missing category, once). */
  datatype CamelLoad = CamelLoad(df: seq<Row>, calidad: Quality, indicadoresUnicos: nat,
                                 categorias: seq<Option<string>>)

  function LoadCamel(raw: seq<Row>): Option<CamelLoad> {
    var df := Clean(raw);
    match QualityOf(raw, df)
    case None => None
    case Some(q) => Some(CamelLoad(df, q, |Distinct(CodesOf(df))|, Distinct(CategoriesOf(df))))
  }

  /** The dates of a table are the dates of its rows. */
  lemma {:induction false} DatesOfMembers(df: seq<Row>)
    ensures forall d :: d in DatesOf(df) <==> exists i :: 0 <= i < |df| && df[i].fecha == Some(d)
  {
    if df != [] {
      var n := |df| - 1;
      DatesOfMembers(df[..n]);
      forall d
        ensures d in DatesOf(df) <==> exists i :: 0 <= i < |df| && df[i].fecha == Some(d)
      {
        if d in DatesOf(df[..n]) {
          var i :| 0 <= i < n && df[..n][i].fecha == Some(d);
          assert df[i] == df[..n][i];
        }
        if exists i :: 0 <= i < |df| && df[i].fecha == Some(d) {
          var i :| 0 <= i < |df| && df[i].fecha == Some(d);
          if i < n {
            assert df[..n][i] == df[i];
          }
        }
      }
    }
  }

  /** The loaders' metrics: the load fails exactly on an empty raw table;
      otherwise the removed count is the raw count minus the clean count and
      is a percentage between 0 and 100 of the raw count, the clean count
      never exceeds the raw count, and the first and last dates bound every
      date of the cleaned table. */
  lemma LoadBalanceQuality(raw: seq<Row>)
    ensures LoadBalance(raw).None? <==> raw == []
    ensures LoadBalance(raw).Some? ==>
      var q := LoadBalance(raw).value.calidad;
      q.originales == |raw| && q.limpios == |Clean(raw)| <= q.originales &&
      q.eliminados == q.originales - q.limpios >= 0 &&
      0.0 <= q.pctEliminados <= 100.0 &&
      (q.fechaMin.Some? <==> DatesOf(Clean(raw)) != []) &&
      (q.fechaMin.Some? ==> forall d :: d in DatesOf(Clean(raw)) ==> DateLe(q.fechaMin.value, d) && DateLe(d, q.fechaMax.value))
  {
    CleanSpec(raw);
    QualityOfSpec(raw, Clean(raw));
  }

  /** The shared metrics of a raw table and its cleaned part. */
  lemma QualityOfSpec(raw: seq<Row>, df: seq<Row>)
    requires |df| <= |raw|
    ensures QualityOf(raw, df).None? <==> raw == []
    ensures QualityOf(raw, df).Some? ==>
      var q := QualityOf(raw, df).value;
      q.originales == |raw| && q.limpios == |df| <= q.originales &&
      q.eliminados == q.originales - q.limpios >= 0 &&
      0.0 <= q.pctEliminados <= 100.0 &&
      (q.fechaMin.Some? <==> DatesOf(df) != []) &&
      (q.fechaMin.Some? ==> forall d :: d in DatesOf(df) ==> DateLe(q.fechaMin.value, d) && DateLe(d, q.fechaMax.value))
  {
    if raw != [] {
      PercentOfCount(|raw| - |df|, |raw|);
    }
  }

  /** A count out of a positive total is between 0 and 100 percent of it. */
  lemma PercentOfCount(k: int, n: int)
    requires 0 <= k <= n && n > 0
    ensures 0.0 <= k as real / n as real * 100.0 <= 100.0
  {
    assert k as real / n as real <= 1.0;
  }

  /** The income-statement load fails only on an empty raw table, like the
      others; its 12-month count is at most the clean count, and its
      percentage is missing exactly when cleaning leaves nothing and lies
      between 0 and 100 otherwise. */
  lemma LoadPygQuality(raw: seq<Row>)
    ensures LoadPyg(raw).None? <==> raw == []
    ensures LoadPyg(raw).Some? ==>
      LoadPyg(raw).value.registrosCon12m <= LoadPyg(raw).value.calidad.limpios &&
      (LoadPyg(raw).value.pctCon12m.None? <==> Clean(raw) == []) &&
      (LoadPyg(raw).value.pctCon12m.Some? ==> 0.0 <= LoadPyg(raw).value.pctCon12m.value <= 100.0) &&
      forall r :: r in LoadPyg(raw).value.df ==> LabelPresent(r) && KeysPresent(r)
  {
    var df := Clean(raw);
    CleanSpec(raw);
    QualityOfSpec(raw, df);
    if raw != [] && df != [] {
      PercentOfCount(|Filter(df, Has12m)|, |df|);
    }
  }

  /** The indicator load fails only on an empty raw table. Its categories
      are those of the cleaned rows, each listed once, in the order in which
      they first occur; its indicator count is the number of distinct codes
      of the cleaned rows. */
  lemma LoadCamelSpec(raw: seq<Row>)
    ensures LoadCamel(raw).None? <==> raw == []
    ensures LoadCamel(raw).Some? ==>
      var l := LoadCamel(raw).value;
      l.df == Clean(raw) && l.categorias == Distinct(CategoriesOf(l.df)) &&
      l.indicadoresUnicos == |set c | c in CodesOf(l.df)|
    ensures LoadCamel(raw).Some? ==> CategoriesListed(LoadCamel(raw).value.df, LoadCamel(raw).value.categorias)
  {
    var df := Clean(raw);
    CleanSpec(raw);
    QualityOfSpec(raw, df);
    CategoriesOfSpec(df);
    DistinctCardinality(Distinct(CodesOf(df)));
    assert (set c | c in Distinct(CodesOf(df))) == (set c | c in CodesOf(df));
  }

  /** cs lists the categories of df (a missing one included), each once, in
      the order in which they first occur in df. */
  ghost predicate CategoriesListed(df: seq<Row>, cs: seq<Option<string>>) {
    (forall i, j :: 0 <= i < j < |cs| ==> cs[i] != cs[j]) &&
    (forall c :: c in cs <==> exists k :: 0 <= k < |df| && df[k].categoria == c) &&
    (forall i, j :: 0 <= i < j < |cs| ==>
       exists a :: (0 <= a < |df| && df[a].categoria == cs[i] &&
                    forall b :: 0 <= b < a ==> df[b].categoria != cs[j]))
  }

  lemma CategoriesOfSpec(df: seq<Row>)
    ensures CategoriesListed(df, Distinct(CategoriesOf(df)))
  {
    var cs := CategoriesOf(df);
    var u := Distinct(cs);
    DistinctFirstOrder(cs);
    forall c | c in u
      ensures exists k :: 0 <= k < |df| && df[k].categoria == c
    {
      var k :| 0 <= k < |cs| && cs[k] == c;
    }
    forall i, j | 0 <= i < j < |u|
      ensures exists a :: (0 <= a < |df| && df[a].categoria == u[i] &&
                           forall b :: 0 <= b < a ==> df[b].categoria != u[j])
    {
      var a :| 0 <= a < |cs| && cs[a] == u[i] && u[j] !in cs[..a];
      forall b | 0 <= b < a
        ensures df[b].categoria != u[j]
      {
        assert cs[..a][b] == cs[b];
      }
    }
  }

  // ---------------------------------------------------------------------
  // Lookups
  // ---------------------------------------------------------------------

  /** obtener_fechas_disponibles: the distinct dates, newest first. */
  function AvailableDates(df: seq<Row>): seq<Date> {
    NewestFirst(Distinct(DatesOf(df)))
  }

  /** The available dates are exactly the dates of the table, each once,
      strictly newest first. */
  lemma AvailableDatesSpec(df: seq<Row>)
    ensures forall d :: d in AvailableDates(df) <==> exists i :: 0 <= i < |df| && df[i].fecha == Some(d)
    ensures forall i, j :: 0 <= i < j < |AvailableDates(df)| ==> DateLt(AvailableDates(df)[j], AvailableDates(df)[i])
  {
    DatesOfMembers(df);
    NewestFirstStrict(Distinct(DatesOf(df)));
  }

  /** obtener_bancos_disponibles: the distinct banks, in ascending order. */
  function AvailableBanks(df: seq<Row>): seq<string> {
    SortedStrings(Distinct(BankNames(df)))
  }

  /** The banks of a table are the banks of its rows. */
  lemma {:induction false} BankNamesMembers(df: seq<Row>)
    ensures forall b :: b in BankNames(df) <==> exists i :: 0 <= i < |df| && df[i].banco == Some(b)
  {
    if df != [] {
      var n := |df| - 1;
      BankNamesMembers(df[..n]);
      forall b
        ensures b in BankNames(df) <==> exists i :: 0 <= i < |df| && df[i].banco == Some(b)
      {
        if b in BankNames(df[..n]) {
          var i :| 0 <= i < n && df[..n][i].banco == Some(b);
          assert df[i] == df[..n][i];
        }
        if exists i :: 0 <= i < |df| && df[i].banco == Some(b) {
          var i :| 0 <= i < |df| && df[i].banco == Some(b);
          if i < n {
            assert df[..n][i] == df[i];
          }
        }
      }
    }
  }

  /** The available banks are exactly the banks of the table, each once, in
      strictly ascending order. */
  lemma AvailableBanksSpec(df: seq<Row>)
    ensures forall b :: b in AvailableBanks(df) <==> exists i :: 0 <= i < |df| && df[i].banco == Some(b)
    ensures forall i, j :: 0 <= i < j < |AvailableBanks(df)| ==> StrLt(AvailableBanks(df)[i], AvailableBanks(df)[j])
  {
    BankNamesMembers(df);
    SortedStringsStrict(Distinct(BankNames(df)));
  }

  /** The masks df['fecha'] == fecha, df['banco'] == banco, df['codigo'] == codigo. */
  function DateMask(fecha: Date): Row -> bool {
    (r: Row) => r.fecha == Some(fecha)
  }

  function BankMask(banco: string): Row -> bool {
    (r: Row) => r.banco == Some(banco)
  }

  function CodeMask(codigo: string): Row -> bool {
    (r: Row) => r.codigo == Some(codigo)
  }

  /** filtrar_por_fecha, filtrar_por_banco, filtrar_por_codigo. */
  function ByDate(df: seq<Row>, fecha: Date): seq<Row> {
    Filter(df, DateMask(fecha))
  }

  function ByBank(df: seq<Row>, banco: string): seq<Row> {
    Filter(df, BankMask(banco))
  }

  function ByCode(df: seq<Row>, codigo: string): seq<Row> {
    Filter(df, CodeMask(codigo))
  }

  /** The valor column. */
  function ValuesOf(rows: seq<Row>): (r: seq<Option<real>>)
    ensures |r| == |rows| && forall i :: 0 <= i < |rows| ==> r[i] == rows[i].valor
  {
    seq(|rows|, i requires 0 <= i < |rows| => rows[i].valor)
  }

  /** df[(df['banco'] == banco) & (df['codigo'] == codigo)]['valor'].sum():
      missing values are skipped and no row gives 0. */
  function BankCodeSum(rows: seq<Row>, banco: string, codigo: string): real {
    SumPresent(ValuesOf(ByCode(ByBank(rows, banco), codigo)))
  }

  /** Each filter keeps exactly the rows whose field equals the argument, and
      keeps their order: filtering a concatenation filters each part. */
  lemma FiltersSpec(df: seq<Row>, more: seq<Row>, fecha: Date, banco: string, codigo: string)
    ensures forall r :: r in ByDate(df, fecha) <==> r in df && r.fecha == Some(fecha)
    ensures forall r :: r in ByBank(df, banco) <==> r in df && r.banco == Some(banco)
    ensures forall r :: r in ByCode(df, codigo) <==> r in df && r.codigo == Some(codigo)
    ensures ByDate(df + more, fecha) == ByDate(df, fecha) + ByDate(more, fecha)
    ensures ByBank(df + more, banco) == ByBank(df, banco) + ByBank(more, banco)
    ensures ByCode(df + more, codigo) == ByCode(df, codigo) + ByCode(more, codigo)
  {
    FilterMembers(df, DateMask(fecha));
    FilterMembers(df, BankMask(banco));
    FilterMembers(df, CodeMask(codigo));
    FilterAppend(df, more, DateMask(fecha));
    FilterAppend(df, more, BankMask(banco));
    FilterAppend(df, more, CodeMask(codigo));
  }

  /** The answer of obtener_valor_cuenta: no matching row, or the value
      (possibly missing) of the first matching row. */
  datatype Lookup = NoRow | Found(valor: Option<real>)

  predicate AccountRow(r: Row, banco: string, fecha: Date, codigo: string, hoja: string) {
    r.banco == Some(banco) && r.fecha == Some(fecha) && r.codigo == Some(codigo) && r.hoja == Some(hoja)
  }

  function AccountValue(df: seq<Row>, banco: string, fecha: Date, codigo: string, hoja: string): Lookup {
    match FirstIndex(df, r => AccountRow(r, banco, fecha, codigo, hoja))
    case None => NoRow
    case Some(i) => Found(df[i].valor)
  }

  /** NoRow exactly when no row matches; otherwise the value of a matching
      row that no earlier row matches. */
  lemma AccountValueSpec(df: seq<Row>, banco: string, fecha: Date, codigo: string, hoja: string)
    ensures AccountValue(df, banco, fecha, codigo, hoja).NoRow? <==>
      forall i :: 0 <= i < |df| ==> !AccountRow(df[i], banco, fecha, codigo, hoja)
    ensures AccountValue(df, banco, fecha, codigo, hoja).Found? ==>
      exists i :: 0 <= i < |df| && AccountRow(df[i], banco, fecha, codigo, hoja) &&
        df[i].valor == AccountValue(df, banco, fecha, codigo, hoja).valor &&
        forall k :: 0 <= k < i ==> !AccountRow(df[k], banco, fecha, codigo, hoja)
  {
    var p := (r: Row) => AccountRow(r, banco, fecha, codigo, hoja);
    match FirstIndex(df, p)
    case None =>
    case Some(i) =>
      assert AccountRow(df[i], banco, fecha, codigo, hoja);
  }
}

=== FILE: data_quality.dfy ===
// Data-quality checks of utils/data_quality.py: consolidated completeness,
// the bank-by-year coverage matrix, missing banks and missing month-ends, the
// accounting equation per bank, and the executive summary.

module DataQuality {
  import opened Common
  import opened Sorting
  import opened DataLoader
  import IndicatorMapping

  // ---------------------------------------------------------------------
  // calcular_completitud_general
  // ---------------------------------------------------------------------

  /** The two counts a loader's metrics contribute; a missing key counts 0. */
  datatype Counts = Counts(originales: Option<int>, limpios: Option<int>)

  function OrDefault(x: Option<int>): int {
    if x.Some? then x.value else 0
  }

  function TotalOriginal(cs: seq<Counts>): int {
    if cs == [] then 0 else OrDefault(cs[0].originales) + TotalOriginal(cs[1..])
  }

  function TotalClean(cs: seq<Counts>): int {
    if cs == [] then 0 else OrDefault(cs[0].limpios) + TotalClean(cs[1..])
  }

  /** NoRecords is the short answer {pct_completitud: 0, total_registros: 0}. */
  datatype Completeness = NoRecords | Completeness(pct: real, total: int, eliminados: int, datasets: nat)

  function OverallCompleteness(cs: seq<Counts>): Completeness {
    if TotalOriginal(cs) == 0 then NoRecords
    else
      Completeness(TotalClean(cs) as real / TotalOriginal(cs) as real * 100.0, TotalClean(cs),
                   TotalOriginal(cs) - TotalClean(cs), |cs|)
  }

  /** A dataset never has more clean rows than raw ones. */
  predicate Consistent(c: Counts) {
    0 <= OrDefault(c.limpios) <= OrDefault(c.originales)
  }

  lemma {:induction false} TotalsOrdered(cs: seq<Counts>)
    requires forall i :: 0 <= i < |cs| ==> Consistent(cs[i])
    ensures 0 <= TotalClean(cs) <= TotalOriginal(cs)
  {
    if cs != [] {
      TotalsOrdered(cs[1..]);
    }
  }

  /** With consistent metrics: nothing raw gives the short answer, and
      otherwise the removed rows and the clean rows add up to the raw rows,
      and the completeness is a percentage between 0 and 100. */
  lemma OverallCompletenessSpec(cs: seq<Counts>)
    requires forall i :: 0 <= i < |cs| ==> Consistent(cs[i])
    ensures OverallCompleteness(cs).NoRecords? <==> TotalOriginal(cs) == 0
    ensures OverallCompleteness(cs).Completeness? ==>
      OverallCompleteness(cs).eliminados >= 0 &&
      OverallCompleteness(cs).eliminados + OverallCompleteness(cs).total == TotalOriginal(cs) &&
      0.0 <= OverallCompleteness(cs).pct <= 100.0 &&
      OverallCompleteness(cs).datasets == |cs|
  {
    TotalsOrdered(cs);
    if TotalOriginal(cs) != 0 {
      PercentOfCount(TotalClean(cs), TotalOriginal(cs));
    }
  }

  // ---------------------------------------------------------------------
  // validar_cobertura_bancos
  // ---------------------------------------------------------------------

  /** The (bank, year) pairs that have at least one record. */
  function Pairs(df: seq<Row>): set<(string, int)> {
    set i | 0 <= i < |df| && df[i].banco.Some? && df[i].fecha.Some? :: (df[i].banco.value, df[i].fecha.value.year)
  }

  /** The rows of the matrix: the banks that occur in some pair. */
  function CoveredBanks(df: seq<Row>): set<string> {
    set p | p in Pairs(df) :: p.0
  }

  /** The columns of the matrix: the years that occur in some pair. */
  function CoveredYears(df: seq<Row>): set<int> {
    set p | p in Pairs(df) :: p.1
  }

  function Grid(df: seq<Row>): set<(string, int)> {
    set b, y | b in CoveredBanks(df) && y in CoveredYears(df) :: (b, y)
  }

  /** validar_cobertura_bancos: 1 where the bank has data in the year, 0 elsewhere. */
  function CoverageMatrix(df: seq<Row>): map<(string, int), int> {
    map g | g in Grid(df) :: if g in Pairs(df) then 1 else 0
  }

  /** The matrix has a cell for every bank and year that occur, holds 1
      exactly where the bank has a record dated in that year, and 0 in
      every other cell. */
  lemma CoverageMatrixSpec(df: seq<Row>)
    ensures forall b, y :: (b, y) in CoverageMatrix(df) <==> b in CoveredBanks(df) && y in CoveredYears(df)
    ensures forall p :: p in Pairs(df) ==> p in CoverageMatrix(df) && CoverageMatrix(df)[p] == 1
    ensures forall g :: g in CoverageMatrix(df) && g !in Pairs(df) ==> CoverageMatrix(df)[g] == 0
  {
    forall b, y | b in CoveredBanks(df) && y in CoveredYears(df)
      ensures (b, y) in Grid(df)
    {
    }
    forall p | p in Pairs(df)
      ensures p in Grid(df)
    {
      assert p.0 in CoveredBanks(df) && p.1 in CoveredYears(df);
    }
  }

  /** Every row and every column of the matrix holds a 1. */
  lemma CoverageMatrixNoEmptyLine(df: seq<Row>, b: string, y: int)
    requires (b, y) in CoverageMatrix(df)
    ensures exists y' :: (b, y') in CoverageMatrix(df) && CoverageMatrix(df)[(b, y')] == 1
    ensures exists b' :: (b', y) in CoverageMatrix(df) && CoverageMatrix(df)[(b', y)] == 1
  {
    CoverageMatrixSpec(df);
    var p :| p in Pairs(df) && p.0 == b;
    var q :| q in Pairs(df) && q.1 == y;
    assert (b, p.1) == p && (q.0, y) == q;
  }

  // ---------------------------------------------------------------------
  // detectar_bancos_faltantes
  // ---------------------------------------------------------------------

  function BanksPresent(df: seq<Row>): set<string> {
    set i | 0 <= i < |df| && df[i].banco.Some? :: df[i].banco.value
  }

  function AbsentFrom(present: set<string>): string -> bool {
    (b: string) => b !in present
  }

  /** detectar_bancos_faltantes: the expected banks absent from the table, sorted. */
  function MissingBanks(df: seq<Row>): seq<string> {
    SortedStrings(Filter(IndicatorMapping.SystemBanks, AbsentFrom(BanksPresent(df))))
  }

  lemma SystemBanksDistinct(bs: seq<string>)
    requires bs == [
      "Amazonas", "Amibank", "Atlantida", "Austro", "Bolivariano", "Capital", "Citibank", "Codesarrollo",
      "Comercial Manabi", "Coopnacional", "DelBank", "Diners", "Guayaquil", "Internacional", "Litoral", "Loja",
      "Machala", "Pacifico", "Pichincha", "Procredit", "Produbanco", "Ruminahui", "Solidario", "Visionfund"]
    ensures forall i, j :: 0 <= i < j < |bs| ==> bs[i] != bs[j]
  {
  }

  /** The missing banks are exactly the expected banks that have no row, so
      they are disjoint from the banks present; each appears once, in
      strictly ascending order. */
  lemma MissingBanksSpec(df: seq<Row>)
    ensures forall b :: b in MissingBanks(df) <==> b in IndicatorMapping.SystemBanks && b !in BanksPresent(df)
    ensures forall i, j :: 0 <= i < j < |MissingBanks(df)| ==> StrLt(MissingBanks(df)[i], MissingBanks(df)[j])
  {
    var bs := IndicatorMapping.SystemBanks;
    var f := Filter(bs, AbsentFrom(BanksPresent(df)));
    SystemBanksDistinct(bs);
    FilterMembers(bs, AbsentFrom(BanksPresent(df)));
    FilterKeepsDistinct(bs, AbsentFrom(BanksPresent(df)));
    SortedStringsStrict(f);
  }

  // ---------------------------------------------------------------------
  // detectar_fechas_faltantes
  // ---------------------------------------------------------------------

  /** Months counted from year 0: January of year y is 12 * y. */
  function MonthIndex(d: Date): int {
    d.year * 12 + d.month - 1
  }

  function MonthEndAt(k: int): Date {
    MonthEnd(k / 12, k % 12 + 1)
  }

  predicate IsMonthEnd(d: Date) {
    1 <= d.month <= 12 && d.day == DaysInMonth(d.year, d.month)
  }

  /** The month-ends of the months from index lo to index hi. */
  function MonthEndsFrom(lo: int, hi: int): (r: seq<Date>)
    ensures |r| == if hi < lo then 0 else hi - lo + 1
    decreases hi - lo
  {
    if hi < lo then [] else MonthEndsFrom(lo, hi - 1) + [MonthEndAt(hi)]
  }

  /** The k-th month-end listed is that of month index lo + k. */
  lemma {:induction false} MonthEndsFromAt(lo: int, hi: int, k: int)
    requires 0 <= k < |MonthEndsFrom(lo, hi)|
    ensures MonthEndsFrom(lo, hi)[k] == MonthEndAt(lo + k)
    decreases hi - lo
  {
    if k < hi - lo {
      MonthEndsFromAt(lo, hi - 1, k);
    }
  }

  /** The expected month-ends between the first and the last date that no
      row carries. */
  function MissingMask(first: Date, last: Date, seen: seq<Date>): Date -> bool {
    (d: Date) => DateLe(first, d) && DateLe(d, last) && d !in seen
  }

  /** The month-ends from the first to the last of the observed dates that
      none of them is. */
  function MissingMonthEnds(seen: seq<Date>): seq<Date> {
    if seen == [] then []
    else
      var first, last := MinDate(seen).value, MaxDate(seen).value;
      Filter(MonthEndsFrom(MonthIndex(first), MonthIndex(last)), MissingMask(first, last, seen))
  }

  /** detectar_fechas_faltantes: empty without dates; otherwise the
      month-ends of pd.date_range(min, max, freq='ME') not observed. */
  function MissingDates(df: seq<Row>): seq<Date> {
    MissingMonthEnds(DatesOf(df))
  }

  lemma MonthEndAtIndex(k: int)
    ensures IsMonthEnd(MonthEndAt(k)) && MonthIndex(MonthEndAt(k)) == k
  {
  }

  /** A month-end is the month-end of its own index. */
  lemma MonthEndOfItsIndex(d: Date)
    requires IsMonthEnd(d)
    ensures MonthEndAt(MonthIndex(d)) == d
  {
    var k := MonthIndex(d);
    assert k / 12 == d.year && k % 12 + 1 == d.month;
  }

  /** The month-ends of consecutive indices increase strictly. */
  lemma MonthEndsIncrease(lo: int, hi: int)
    ensures forall i, j :: 0 <= i < j < |MonthEndsFrom(lo, hi)| ==>
      DateLt(MonthEndsFrom(lo, hi)[i], MonthEndsFrom(lo, hi)[j])
  {
    forall i, j | 0 <= i < j < |MonthEndsFrom(lo, hi)|
      ensures DateLt(MonthEndsFrom(lo, hi)[i], MonthEndsFrom(lo, hi)[j])
    {
      MonthEndsFromAt(lo, hi, i);
      MonthEndsFromAt(lo, hi, j);
      MonthEndAtIndex(lo + i);
      MonthEndAtIndex(lo + j);
    }
  }

  /** Dates ordered by DateLe have ordered month indices when valid. */
  lemma MonthIndexMonotone(a: Date, b: Date)
    requires 1 <= a.month <= 12 && 1 <= b.month <= 12
    requires DateLe(a, b)
    ensures MonthIndex(a) <= MonthIndex(b)
  {
  }

  /** A gap of the series: a month-end between the first and the last date
      of the table that no row carries. */
  predicate Gap(df: seq<Row>, d: Date) {
    DatesOf(df) != [] && IsMonthEnd(d) && d !in DatesOf(df) &&
    DateLe(MinDate(DatesOf(df)).value, d) && DateLe(d, MaxDate(DatesOf(df)).value)
  }

  /** Without dates nothing is missing, and every date listed is a gap. */
  lemma MissingDatesSound(df: seq<Row>)
    ensures DatesOf(df) == [] ==> MissingDates(df) == []
    ensures forall d :: d in MissingDates(df) ==> Gap(df, d)
  {
    var seen := DatesOf(df);
    if seen != [] {
      var first := MinDate(seen).value;
      var last := MaxDate(seen).value;
      var cands := MonthEndsFrom(MonthIndex(first), MonthIndex(last));
      FilterMembers(cands, MissingMask(first, last, seen));
      forall d | d in MissingDates(df)
        ensures Gap(df, d)
      {
        assert d in cands && MissingMask(first, last, seen)(d);
        var k :| 0 <= k < |cands| && cands[k] == d;
        MonthEndsFromAt(MonthIndex(first), MonthIndex(last), k);
        MonthEndAtIndex(MonthIndex(first) + k);
      }
    }
  }

  /** Every gap is listed, as long as the dates of the table are calendar
      dates. */
  lemma MissingDatesComplete(df: seq<Row>, d: Date)
    requires forall x :: x in DatesOf(df) ==> 1 <= x.month <= 12
    requires Gap(df, d)
    ensures d in MissingDates(df)
  {
    var seen := DatesOf(df);
    var first := MinDate(seen).value;
    var last := MaxDate(seen).value;
    var cands := MonthEndsFrom(MonthIndex(first), MonthIndex(last));
    MonthEndListed(first, last, d);
    assert MissingMask(first, last, seen)(d);
    FilterMembers(cands, MissingMask(first, last, seen));
  }

  /** A month-end between two calendar dates is among the month-ends listed
      from the first to the last. */
  lemma MonthEndListed(first: Date, last: Date, d: Date)
    requires 1 <= first.month <= 12 && 1 <= last.month <= 12
    requires IsMonthEnd(d) && DateLe(first, d) && DateLe(d, last)
    ensures d in MonthEndsFrom(MonthIndex(first), MonthIndex(last))
  {
    MonthIndexMonotone(first, d);
    MonthIndexMonotone(d, last);
    MonthEndOfItsIndex(d);
    MonthEndsFromAt(MonthIndex(first), MonthIndex(last), MonthIndex(d) - MonthIndex(first));
  }


  /** The missing dates come in strictly ascending order. */
  lemma MissingDatesAscending(df: seq<Row>)
    ensures forall i, j :: 0 <= i < j < |MissingDates(df)| ==> DateLt(MissingDates(df)[i], MissingDates(df)[j])
  {
    var seen := DatesOf(df);
    if seen != [] {
      var first := MinDate(seen).value;
      var last := MaxDate(seen).value;
      MonthEndsIncrease(MonthIndex(first), MonthIndex(last));
      FilterKeepsOrder(MonthEndsFrom(MonthIndex(first), MonthIndex(last)), MissingMask(first, last, seen));
    }
  }

  /** A mask of a strictly ascending sequence of dates is strictly ascending. */
  lemma {:induction false} FilterKeepsOrder(s: seq<Date>, p: Date -> bool)
    requires forall i, j :: 0 <= i < j < |s| ==> DateLt(s[i], s[j])
    ensures forall i, j :: 0 <= i < j < |Filter(s, p)| ==> DateLt(Filter(s, p)[i], Filter(s, p)[j])
  {
    if s != [] {
      var n := |s| - 1;
      FilterKeepsOrder(s[..n], p);
      FilterMembers(s[..n], p);
      forall x | x in Filter(s[..n], p)
        ensures DateLt(x, s[n])
      {
        var i :| 0 <= i < n && s[..n][i] == x;
      }
    }
  }

  // ---------------------------------------------------------------------
  // validar_ecuacion_contable
  // ---------------------------------------------------------------------

  datatype Estado = Ok | Advertencia | Error

  /** The verdict for a percentage difference and a tolerance. */
  function Classify(pct: real, tolerancia: real): Estado {
    if pct <= tolerancia * 100.0 then Ok
    else if pct <= 1.0 then Advertencia
    else Error
  }

  /** One line of the result. */
  datatype EquationCheck = EquationCheck(banco: string, activo: real, pasivo: real, patrimonio: real,
                                         pasivoPatrimonio: real, diferencia: real, pctDiferencia: real,
                                         estado: Estado)

  /** The balance-sheet rows at the date (none when there is no date). */
  function AtBalanceDate(df: seq<Row>, fecha: Option<Date>): seq<Row> {
    Filter(df, (r: Row) => fecha.Some? && r.fecha == fecha && r.hoja == Some("BAL"))
  }

  /** The check of one bank: assets against liabilities plus equity. */
  function CheckBank(rows: seq<Row>, banco: string, tolerancia: real): EquationCheck {
    var activo := BankCodeSum(rows, banco, "1");
    var pasivo := BankCodeSum(rows, banco, "2");
    var patrimonio := BankCodeSum(rows, banco, "3");
    var diferencia := activo - (pasivo + patrimonio);
    var pct := if activo > 0.0 then Abs(diferencia) / activo * 100.0 else 0.0;
    EquationCheck(banco, activo, pasivo, patrimonio, pasivo + patrimonio, diferencia, pct, Classify(pct, tolerancia))
  }

  function Abs(x: real): real {
    if x < 0.0 then -x else x
  }

  /** The checks of the given banks, in that order. */
  function Checks(rows: seq<Row>, bancos: seq<string>, tolerancia: real): seq<EquationCheck> {
    if bancos == [] then []
    else Checks(rows, bancos[..|bancos| - 1], tolerancia) + [CheckBank(rows, bancos[|bancos| - 1], tolerancia)]
  }

  /** Larger percentage difference first; ties by bank name. */
  predicate CheckLe(a: EquationCheck, b: EquationCheck) {
    a.pctDiferencia > b.pctDiferencia || (a.pctDiferencia == b.pctDiferencia && StrLe(a.banco, b.banco))
  }

  lemma CheckLeTotal()
    ensures Total(CheckLe)
  {
    forall a, b
      ensures CheckLe(a, b) || CheckLe(b, a)
    {
      StrLeTotal(a.banco, b.banco);
    }
    forall a, b, c | CheckLe(a, b) && CheckLe(b, c)
      ensures CheckLe(a, c)
    {
      if a.pctDiferencia == b.pctDiferencia && b.pctDiferencia == c.pctDiferencia {
        StrLeTransitive(a.banco, b.banco, c.banco);
      }
    }
  }

  /** The date checked: the one given, else the latest date of the table. */
  function TargetDate(df: seq<Row>, fecha: Option<Date>): Option<Date> {
    if fecha.Some? then fecha else MaxDate(DatesOf(df))
  }

  /** validar_ecuacion_contable. None when no bank has balance rows at the
      date: sorting the empty result by a column it lacks raises. */
  function EquationChecks(df: seq<Row>, fecha: Option<Date>, tolerancia: real): Option<seq<EquationCheck>> {
    var rows := AtBalanceDate(df, TargetDate(df, fecha));
    var results := Checks(rows, Distinct(BankNames(rows)), tolerancia);
    if results == [] then None
    else
      CheckLeTotal();
      Some(SortBy(results, CheckLe))
  }

  method ValidateAccountingEquation(df: seq<Row>, fecha: Option<Date>, tolerancia: real)
    returns (r: Option<seq<EquationCheck>>)
    ensures r == EquationChecks(df, fecha, tolerancia)
  {
    var objetivo := TargetDate(df, fecha);
    var dfFecha := AtBalanceDate(df, objetivo);
    var bancos := Distinct(BankNames(dfFecha));
    var resultados := CheckBanks(dfFecha, bancos, tolerancia);
    if resultados == [] {
      return None;
    }
    CheckLeTotal();
    r := Some(SortBy(resultados, CheckLe));
  }

  /** The per-bank loop of validar_ecuacion_contable. */
  method CheckBanks(dfFecha: seq<Row>, bancos: seq<string>, tolerancia: real) returns (resultados: seq<EquationCheck>)
    ensures resultados == Checks(dfFecha, bancos, tolerancia)
  {
    resultados := [];
    var i := 0;
    while i < |bancos|
      invariant 0 <= i <= |bancos|
      invariant resultados == Checks(dfFecha, bancos[..i], tolerancia)
    {
      assert bancos[..i + 1][..i] == bancos[..i];
      resultados := resultados + [CheckBank(dfFecha, bancos[i], tolerancia)];
      i := i + 1;
    }
    assert bancos[..|bancos|] == bancos;
  }

  lemma {:induction false} ChecksSpec(rows: seq<Row>, bancos: seq<string>, tolerancia: real)
    ensures |Checks(rows, bancos, tolerancia)| == |bancos|
    ensures forall i :: 0 <= i < |bancos| ==> Checks(rows, bancos, tolerancia)[i] == CheckBank(rows, bancos[i], tolerancia)
  {
    if bancos != [] {
      ChecksSpec(rows, bancos[..|bancos| - 1], tolerancia);
    }
  }

  /** The verdicts: OK exactly within the tolerance; Advertencia only above
      it and at most 1 percent; with the default tolerance 0.01 both bounds
      are 1 percent and Advertencia never occurs; a bank that balances, or
      has no positive assets, is OK for any non-negative tolerance. */
  lemma ClassifySpec(pct: real, tolerancia: real)
    ensures Classify(pct, tolerancia) == Ok <==> pct <= tolerancia * 100.0
    ensures Classify(pct, tolerancia) == Advertencia <==> tolerancia * 100.0 < pct <= 1.0
    ensures Classify(pct, 0.01) != Advertencia
    ensures tolerancia >= 0.0 && pct == 0.0 ==> Classify(pct, tolerancia) == Ok
  {
  }

  /** A check's figures: the difference is assets minus liabilities plus
      equity, the percentage is non-negative and is 0 exactly when the bank
      balances or has no positive assets, and the verdict follows it. */
  lemma CheckBankSpec(rows: seq<Row>, banco: string, tolerancia: real)
    ensures CheckBank(rows, banco, tolerancia).diferencia ==
      CheckBank(rows, banco, tolerancia).activo - CheckBank(rows, banco, tolerancia).pasivoPatrimonio
    ensures CheckBank(rows, banco, tolerancia).pctDiferencia >= 0.0
    ensures CheckBank(rows, banco, tolerancia).pctDiferencia == 0.0 <==>
      CheckBank(rows, banco, tolerancia).activo <= 0.0 || CheckBank(rows, banco, tolerancia).diferencia == 0.0
    ensures CheckBank(rows, banco, tolerancia).estado == Classify(CheckBank(rows, banco, tolerancia).pctDiferencia, tolerancia)
  {
    var c := CheckBank(rows, banco, tolerancia);
    if c.activo > 0.0 && c.diferencia != 0.0 {
      assert Abs(c.diferencia) > 0.0;
      assert Abs(c.diferencia) / c.activo > 0.0;
    }
  }

  /** The unsorted checks hold one check per bank with rows, each bank once. */
  lemma BankChecksSpec(rows: seq<Row>, tolerancia: real)
    ensures Checks(rows, Distinct(BankNames(rows)), tolerancia) == [] <==> BanksPresent(rows) == {}
    ensures forall c: EquationCheck :: c in Checks(rows, Distinct(BankNames(rows)), tolerancia) <==>
      c.banco in BanksPresent(rows) && c == CheckBank(rows, c.banco, tolerancia)
    ensures forall i, j :: 0 <= i < j < |Checks(rows, Distinct(BankNames(rows)), tolerancia)| ==>
      Checks(rows, Distinct(BankNames(rows)), tolerancia)[i].banco != Checks(rows, Distinct(BankNames(rows)), tolerancia)[j].banco
  {
    var bancos := Distinct(BankNames(rows));
    BankNamesMembers(rows);
    assert forall b :: b in bancos <==> b in BanksPresent(rows);
    ChecksMembers(rows, bancos, tolerancia);
    ChecksSpec(rows, bancos, tolerancia);
  }

  /** Checks over a list of distinct banks: one check per listed bank. */
  lemma ChecksMembers(rows: seq<Row>, bancos: seq<string>, tolerancia: real)
    requires forall i, j :: 0 <= i < j < |bancos| ==> bancos[i] != bancos[j]
    ensures Checks(rows, bancos, tolerancia) == [] <==> bancos == []
    ensures forall c: EquationCheck :: c in Checks(rows, bancos, tolerancia) <==>
      c.banco in bancos && c == CheckBank(rows, c.banco, tolerancia)
    ensures forall i, j :: 0 <= i < j < |Checks(rows, bancos, tolerancia)| ==>
      Checks(rows, bancos, tolerancia)[i].banco != Checks(rows, bancos, tolerancia)[j].banco
  {
    var results := Checks(rows, bancos, tolerancia);
    ChecksSpec(rows, bancos, tolerancia);
    forall c: EquationCheck | c.banco in bancos && c == CheckBank(rows, c.banco, tolerancia)
      ensures c in results
    {
      var k :| 0 <= k < |bancos| && bancos[k] == c.banco;
      assert results[k] == c;
    }
  }

  /** The result lists each bank with balance rows at the date exactly once,
      with its own check; None when there is no such bank. */
  lemma EquationChecksSpec(df: seq<Row>, fecha: Option<Date>, tolerancia: real)
    ensures EquationChecks(df, fecha, tolerancia).None? <==>
      BanksPresent(AtBalanceDate(df, TargetDate(df, fecha))) == {}
    ensures EquationChecks(df, fecha, tolerancia).Some? ==>
      (forall c :: c in EquationChecks(df, fecha, tolerancia).value <==>
        c.banco in BanksPresent(AtBalanceDate(df, TargetDate(df, fecha))) &&
        c == CheckBank(AtBalanceDate(df, TargetDate(df, fecha)), c.banco, tolerancia))
  {
    var rows := AtBalanceDate(df, TargetDate(df, fecha));
    var results := Checks(rows, Distinct(BankNames(rows)), tolerancia);
    BankChecksSpec(rows, tolerancia);
    if results != [] {
      var r := EquationChecks(df, fecha, tolerancia).value;
      CheckLeTotal();
      assert multiset(r) == multiset(results);
      forall c
        ensures c in r <==> c in results
      {
        assert c in r <==> c in multiset(r);
        assert c in results <==> c in multiset(results);
      }
    }
  }

  /** In the result no bank repeats and the percentage differences never
      increase. */
  lemma EquationChecksOrdered(df: seq<Row>, fecha: Option<Date>, tolerancia: real)
    requires EquationChecks(df, fecha, tolerancia).Some?
    ensures forall i, j :: 0 <= i < j < |EquationChecks(df, fecha, tolerancia).value| ==>
      EquationChecks(df, fecha, tolerancia).value[i].banco != EquationChecks(df, fecha, tolerancia).value[j].banco
    ensures forall i, j :: 0 <= i < j < |EquationChecks(df, fecha, tolerancia).value| ==>
      EquationChecks(df, fecha, tolerancia).value[i].pctDiferencia >= EquationChecks(df, fecha, tolerancia).value[j].pctDiferencia
  {
    var rows := AtBalanceDate(df, TargetDate(df, fecha));
    var results := Checks(rows, Distinct(BankNames(rows)), tolerancia);
    var r := EquationChecks(df, fecha, tolerancia).value;
    BankChecksSpec(rows, tolerancia);
    CheckLeTotal();
    assert r == SortBy(results, CheckLe);
    PermutationKeepsDistinctKeys(results, r, (c: EquationCheck) => c.banco);
    forall i, j | 0 <= i < j < |r|
      ensures r[i].pctDiferencia >= r[j].pctDiferencia
    {
      assert CheckLe(r[i], r[j]);
    }
  }

  // ---------------------------------------------------------------------
  // generar_resumen_calidad
  // ---------------------------------------------------------------------

  /** The alerts of the summary; the source renders each as a sentence. */
  datatype Alert = LoadFailed | MissingBanksAlert(bancos: seq<string>) | MissingDatesAlert(cuantas: nat)
                 | HighNullsAlert(pct: real)

  datatype GeneralStatus = StatusOk | StatusWarning | StatusReview | StatusError

  datatype Summary = Summary(estado: GeneralStatus, alertas: seq<Alert>, completitud: Option<Completeness>,
                             bancosFaltantes: Option<seq<string>>, fechasFaltantes: Option<nat>)

  /** What the loader hands over: tables by name, the metrics of each, and
      the share of missing values reported for an 'indicadores' table. */
  datatype Loaded = Loaded(dataframes: map<string, seq<Row>>, calidad: seq<Counts>, pctNulosIndicadores: Option<real>)

  /** The overall status for a number of alerts. */
  function StatusFor(alertas: nat): GeneralStatus {
    if alertas > 3 then StatusReview else if alertas > 0 then StatusWarning else StatusOk
  }

  function BankAlerts(dfBalance: seq<Row>): seq<Alert> {
    (if MissingBanks(dfBalance) != [] then [MissingBanksAlert(MissingBanks(dfBalance))] else []) +
    (if MissingDates(dfBalance) != [] then [MissingDatesAlert(|MissingDates(dfBalance)|)] else [])
  }

  /** The share of missing values of the indicator table (0 when not reported). */
  function NullShare(datos: Loaded): real {
    if datos.pctNulosIndicadores.Some? then datos.pctNulosIndicadores.value else 0.0
  }

  /** The alerts raised by the balance table, when there is one. */
  function BalanceAlerts(datos: Loaded): seq<Alert> {
    if "balance" in datos.dataframes then BankAlerts(datos.dataframes["balance"]) else []
  }

  /** The alerts, in the order they are raised. */
  function SummaryAlerts(datos: Loaded): seq<Alert> {
    BalanceAlerts(datos) +
    (if "indicadores" in datos.dataframes && NullShare(datos) > 20.0 then [HighNullsAlert(NullShare(datos))] else [])
  }

  /** The missing banks reported by the summary, when there are any. */
  function ReportedBanks(datos: Loaded): Option<seq<string>> {
    if "balance" in datos.dataframes && MissingBanks(datos.dataframes["balance"]) != []
    then Some(MissingBanks(datos.dataframes["balance"])) else None
  }

  /** The number of missing month-ends reported by the summary, when there are any. */
  function ReportedDates(datos: Loaded): Option<nat> {
    if "balance" in datos.dataframes && MissingDates(datos.dataframes["balance"]) != []
    then Some(|MissingDates(datos.dataframes["balance"])|) else None
  }

  /** The summary generar_resumen_calidad builds. */
  function SummaryOf(datos: Loaded): Summary {
    if datos.dataframes == map[] then Summary(StatusError, [LoadFailed], None, None, None)
    else Summary(StatusFor(|SummaryAlerts(datos)|), SummaryAlerts(datos), Some(OverallCompleteness(datos.calidad)),
                 ReportedBanks(datos), ReportedDates(datos))
  }

  /** generar_resumen_calidad: the load check, the balance-table checks, the
      share of missing indicator values, then the status. */
  method QualitySummary(datos: Loaded) returns (resumen: Summary)
    ensures resumen == SummaryOf(datos)
  {
    if datos.dataframes == map[] {
      resumen := Summary(StatusError, [LoadFailed], None, None, None);
      return;
    }
    var alertas, bancos, fechas := CheckBalanceTable(datos);
    if "indicadores" in datos.dataframes {
      var pctNulos := if datos.pctNulosIndicadores.Some? then datos.pctNulosIndicadores.value else 0.0;
      if pctNulos > 20.0 {
        alertas := alertas + [HighNullsAlert(pctNulos)];
      }
    }
    resumen := Summary(StatusFor(|alertas|), alertas, Some(OverallCompleteness(datos.calidad)), bancos, fechas);
  }

  /** The balance-table part of generar_resumen_calidad: missing banks, then
      missing month-ends, each with its alert when there are any. */
  method CheckBalanceTable(datos: Loaded) returns (alertas: seq<Alert>, bancos: Option<seq<string>>, fechas: Option<nat>)
    ensures alertas == BalanceAlerts(datos)
    ensures bancos == ReportedBanks(datos) && fechas == ReportedDates(datos)
  {
    alertas, bancos, fechas := [], None, None;
    if "balance" in datos.dataframes {
      var dfBalance := datos.dataframes["balance"];
      var bancosFaltantes := MissingBanks(dfBalance);
      if bancosFaltantes != [] {
        alertas := alertas + [MissingBanksAlert(bancosFaltantes)];
        bancos := Some(bancosFaltantes);
      }
      var fechasFaltantes := MissingDates(dfBalance);
      if fechasFaltantes != [] {
        alertas := alertas + [MissingDatesAlert(|fechasFaltantes|)];
        fechas := Some(|fechasFaltantes|);
      }
    }
  }

  /** No tables: ERROR with the single load-failure alert. Otherwise the
      status follows the number of alerts, the completeness is reported and
      the load-failure alert is not raised. */
  lemma SummarySpec(datos: Loaded)
    ensures datos.dataframes == map[] ==>
      SummaryOf(datos).estado == StatusError && SummaryOf(datos).alertas == [LoadFailed]
    ensures datos.dataframes != map[] ==>
      SummaryOf(datos).estado == StatusFor(|SummaryOf(datos).alertas|) &&
      SummaryOf(datos).completitud == Some(OverallCompleteness(datos.calidad)) &&
      LoadFailed !in SummaryOf(datos).alertas
  {
    if datos.dataframes != map[] {
      if "balance" in datos.dataframes {
        BankAlertsKinds(datos.dataframes["balance"]);
      }
      var a := SummaryAlerts(datos);
      assert SummaryOf(datos).alertas == a;
      assert LoadFailed !in a;
    }
  }

  lemma BankAlertsKinds(dfBalance: seq<Row>)
    ensures LoadFailed !in BankAlerts(dfBalance)
  {
    var b := MissingBanks(dfBalance);
    var d := MissingDates(dfBalance);
    assert BankAlerts(dfBalance) ==
      (if b != [] then [MissingBanksAlert(b)] else []) + (if d != [] then [MissingDatesAlert(|d|)] else []);
  }

  /** Missing banks and missing month-ends of the balance table are reported
      exactly when there are any, each together with one alert carrying them. */
  lemma SummaryReportsMissing(datos: Loaded)
    requires datos.dataframes != map[]
    ensures SummaryOf(datos).bancosFaltantes.Some? <==>
      "balance" in datos.dataframes && MissingBanks(datos.dataframes["balance"]) != []
    ensures SummaryOf(datos).fechasFaltantes.Some? <==>
      "balance" in datos.dataframes && MissingDates(datos.dataframes["balance"]) != []
    ensures SummaryOf(datos).bancosFaltantes.Some? ==>
      SummaryOf(datos).bancosFaltantes.value == MissingBanks(datos.dataframes["balance"]) &&
      MissingBanksAlert(SummaryOf(datos).bancosFaltantes.value) in SummaryOf(datos).alertas
    ensures SummaryOf(datos).fechasFaltantes.Some? ==>
      SummaryOf(datos).fechasFaltantes.value == |MissingDates(datos.dataframes["balance"])| &&
      MissingDatesAlert(SummaryOf(datos).fechasFaltantes.value) in SummaryOf(datos).alertas
  {
    var r := SummaryOf(datos);
    assert r.bancosFaltantes == ReportedBanks(datos) && r.fechasFaltantes == ReportedDates(datos);
    assert r.alertas == SummaryAlerts(datos);
    if "balance" in datos.dataframes {
      var b := BankAlerts(datos.dataframes["balance"]);
      assert SummaryAlerts(datos)[..|b|] == b;
    }
  }

  /** At most three alerts can be raised, so the REVISAR status is never
      reached; without an 'indicadores' table at most two. */
  lemma SummaryNeverReview(datos: Loaded)
    ensures |SummaryOf(datos).alertas| <= 3
    ensures SummaryOf(datos).estado != StatusReview
    ensures "indicadores" !in datos.dataframes ==> |SummaryOf(datos).alertas| <= 2
  {
  }
}

=== FILE: income_page.dfy ===
// The table logic of pages/3_Perdidas_Ganancias.py: the banks ordered by
// assets, the 12-month filter, the default banks, the account chosen from its
// label, the month-end dates, the indexed series and the ranking statistics.
// The input is the loaded income-statement table (and the balance table for
// the order by assets).

module IncomePage {
  import opened Common
  import opened Sorting
  import opened DataLoader
  import Panorama
  import IncomeStatement

  // ---------------------------------------------------------------------
  // obtener_orden_bancos_por_activos
  // ---------------------------------------------------------------------

  /** The code-'1' rows of the latest balance date, as ranking entries sorted
      by assets, largest first (missing values last). */
  function AssetRanking(balance: seq<Row>): seq<Panorama.RankEntry> {
    match MaxDate(DatesOf(balance))
    case None => []
    case Some(f) =>
      Panorama.ValueGeTotal();
      SortBy(Panorama.Entries(Panorama.AtDateCode(balance, f, "1")), Panorama.ValueGe)
  }

  function BanksOf(r: seq<Panorama.RankEntry>): (b: seq<Option<string>>)
    ensures |b| == |r| && forall i :: 0 <= i < |r| ==> b[i] == r[i].banco
  {
    seq(|r|, i requires 0 <= i < |r| => r[i].banco)
  }

  /** The banks by total assets; [] when the balance cannot be loaded. */
  function BanksByAssets(balance: Option<seq<Row>>): seq<Option<string>> {
    if balance.None? then [] else BanksOf(AssetRanking(balance.value))
  }

  /** One bank per code-'1' row at the latest balance date, in order of
      assets, largest first; nothing when the balance fails to load or has
      no dates. */
  lemma BanksByAssetsSpec(balance: seq<Row>)
    ensures BanksByAssets(None) == []
    ensures DatesOf(balance) == [] ==> BanksByAssets(Some(balance)) == []
    ensures DatesOf(balance) != [] ==>
      multiset(AssetRanking(balance)) ==
        multiset(Panorama.Entries(Panorama.AtDateCode(balance, MaxDate(DatesOf(balance)).value, "1")))
    ensures SortedBy(AssetRanking(balance), Panorama.ValueGe)
    ensures BanksByAssets(Some(balance)) == BanksOf(AssetRanking(balance))
  {
    Panorama.ValueGeTotal();
  }

  // ---------------------------------------------------------------------
  // Selections of the page
  // ---------------------------------------------------------------------

  /** df_pyg[df_pyg['valor_12m'].notna()]. */
  function WithTwelveMonths(df: seq<Row>): seq<Row> {
    Filter(df, Has12m)
  }

  lemma WithTwelveMonthsSpec(df: seq<Row>)
    ensures forall r :: r in WithTwelveMonths(df) <==> r in df && r.valor12m.Some?
  {
    FilterMembers(df, Has12m);
  }

  const DefaultPresets: seq<string> := ["Pichincha", "Pacifico", "Guayaquil", "Produbanco"]

  function PresentIn(bancos: seq<string>): string -> bool {
    (b: string) => b in bancos
  }

  /** The presets that occur, else the first four banks. */
  function DefaultBanks(bancos: seq<string>): seq<string> {
    var exactos := Filter(DefaultPresets, PresentIn(bancos));
    if exactos != [] then exactos else bancos[..Min(4, |bancos|)]
  }

  /** The defaults are at most four of the offered banks, none when there is
      no bank; when a preset is offered they are exactly the offered presets,
      in preset order. */
  lemma DefaultBanksSpec(bancos: seq<string>)
    ensures |DefaultBanks(bancos)| <= 4
    ensures forall b :: b in DefaultBanks(bancos) ==> b in bancos
    ensures DefaultBanks(bancos) == [] <==> bancos == []
    ensures (exists b :: b in DefaultPresets && b in bancos) ==>
      DefaultBanks(bancos) == Filter(DefaultPresets, PresentIn(bancos)) &&
      forall b :: b in DefaultBanks(bancos) <==> b in DefaultPresets && b in bancos
  {
    FilterMembers(DefaultPresets, PresentIn(bancos));
    var exactos := Filter(DefaultPresets, PresentIn(bancos));
    if exists b :: b in DefaultPresets && b in bancos {
      var b :| b in DefaultPresets && b in bancos;
      assert b in exactos;
    }
    if bancos == [] && exactos != [] {
      assert exactos[0] in exactos;
    }
    if exactos == [] && bancos != [] {
      assert |bancos[..Min(4, |bancos|)]| >= 1;
    }
  }

  /** CUENTAS_PYG, in dictionary order. */
  const PygAccounts: seq<(string, string)> := [
    ("MNI", "Margen Neto de Intereses"), ("MBF", "Margen Bruto Financiero"),
    ("MNF", "Margen Neto Financiero"), ("MDI", "Margen de Intermediación"),
    ("MOP", "Margen Operacional"), ("GAI", "Ganancia Antes de Impuestos"),
    ("GDE", "Ganancia del Ejercicio")
  ]

  /** The option text "{k} - {v}". */
  function Label(a: (string, string)): string {
    a.0 + " - " + a.1
  }

  /** label.split(' - ')[0]: the text before the first ' - ', or all of it. */
  function CodeFromLabel(s: string): (r: string)
    ensures r <= s
    decreases |s|
  {
    if |s| < 3 then s
    else if s[..3] == " - " then ""
    else [s[0]] + CodeFromLabel(s[1..])
  }

  /** A key without spaces is recovered from its label. */
  lemma {:induction false} CodeFromLabelRoundTrip(k: string, v: string)
    requires forall i :: 0 <= i < |k| ==> k[i] != ' '
    ensures CodeFromLabel(k + " - " + v) == k
  {
    var s := k + " - " + v;
    if k == [] {
      assert s[..3] == " - ";
    } else {
      assert s[0] == k[0];
      assert s[1..] == k[1..] + " - " + v;
      CodeFromLabelRoundTrip(k[1..], v);
    }
  }

  /** Every option of the account selector gives back its own code, and the
      seven codes are the mnemonics the income-statement extractor emits, so
      the page's lookup of the chosen code always succeeds. */
  lemma PygAccountsSpec()
    ensures forall i :: 0 <= i < |PygAccounts| ==> CodeFromLabel(Label(PygAccounts[i])) == PygAccounts[i].0
    ensures (set i | 0 <= i < |PygAccounts| :: PygAccounts[i].0) == IncomeStatement.Mnemonics
  {
    PygLabelsRoundTrip(PygAccounts);
    PygCodes(PygAccounts);
  }

  lemma PygLabelsRoundTrip(accounts: seq<(string, string)>)
    requires accounts == PygAccounts
    ensures forall i :: 0 <= i < |accounts| ==> CodeFromLabel(Label(accounts[i])) == accounts[i].0
  {
    forall i | 0 <= i < |accounts|
      ensures CodeFromLabel(Label(accounts[i])) == accounts[i].0
    {
      assert |accounts[i].0| == 3 && ' ' !in accounts[i].0;
      CodeFromLabelRoundTrip(accounts[i].0, accounts[i].1);
    }
  }

  lemma PygCodes(accounts: seq<(string, string)>)
    requires accounts == PygAccounts
    ensures (set i | 0 <= i < |accounts| :: accounts[i].0) == IncomeStatement.Mnemonics
  {
    assert (set i | 0 <= i < |accounts| :: accounts[i].0) == {"MNI", "MBF", "MNF", "MDI", "MOP", "GAI", "GDE"} by {
      assert accounts[0].0 == "MNI" && accounts[1].0 == "MBF" && accounts[2].0 == "MNF";
      assert accounts[3].0 == "MDI" && accounts[4].0 == "MOP" && accounts[5].0 == "GAI";
      assert accounts[6].0 == "GDE";
    }
  }

  /** The last day of the chosen month (calendar.monthrange): the end and
      ranking dates fall in that month and no later day does. */
  lemma MonthEndIsLastDay(y: int, m: int)
    requires 1 <= m <= 12
    ensures MonthEnd(y, m).year == y && MonthEnd(y, m).month == m
    ensures 28 <= MonthEnd(y, m).day <= 31
    ensures MonthEnd(y, m).day == 29 <==> m == 2 && IsLeapYear(y)
    ensures MonthEnd(y, m).day == 31 <==> m in {1, 3, 5, 7, 8, 10, 12}
  {
  }

  // ---------------------------------------------------------------------
  // Evolution series
  // ---------------------------------------------------------------------

  /** The row belongs to the bank and code and is dated inside the window. */
  predicate InWindow(r: Row, banco: string, codigo: string, inicio: Date, fin: Date) {
    r.banco == Some(banco) && r.codigo == Some(codigo) && r.fecha.Some? &&
    DateLe(inicio, r.fecha.value) && DateLe(r.fecha.value, fin)
  }

  function WindowMask(banco: string, codigo: string, inicio: Date, fin: Date): Row -> bool {
    (r: Row) => InWindow(r, banco, codigo, inicio, fin)
  }

  /** sort_values('fecha'): older first, rows without date last. */
  predicate DateOrder(a: Row, b: Row) {
    b.fecha.None? || (a.fecha.Some? && DateLe(a.fecha.value, b.fecha.value))
  }

  lemma DateOrderTotal()
    ensures Total(DateOrder)
  {
    forall a: Row, b: Row | a.fecha.Some? && b.fecha.Some?
      ensures DateLe(a.fecha.value, b.fecha.value) || DateLe(b.fecha.value, a.fecha.value)
    {
      DateLeTotal(a.fecha.value, b.fecha.value);
    }
    forall a: Row, b: Row, c: Row | DateOrder(a, b) && DateOrder(b, c)
      ensures DateOrder(a, c)
    {
      if c.fecha.Some? {
        DateLeTransitive(a.fecha.value, b.fecha.value, c.fecha.value);
      }
    }
  }

  /** The rows of one bank's line: the bank and code, from the first day of
      the start month to the last day of the end month, in date order. */
  function WindowRows(df: seq<Row>, banco: string, codigo: string, anoInicio: int, mesInicio: int,
                      anoFin: int, mesFin: int): seq<Row>
    requires 1 <= mesFin <= 12
  {
    DateOrderTotal();
    SortBy(Filter(df, WindowMask(banco, codigo, Date(anoInicio, mesInicio, 1), MonthEnd(anoFin, mesFin))), DateOrder)
  }

  /** The line holds every row of the bank and code inside the window, each
      once and none other, from the oldest date to the newest. */
  lemma WindowRowsSpec(df: seq<Row>, banco: string, codigo: string, anoInicio: int, mesInicio: int,
                       anoFin: int, mesFin: int)
    requires 1 <= mesFin <= 12
    ensures multiset(WindowRows(df, banco, codigo, anoInicio, mesInicio, anoFin, mesFin)) ==
      multiset(Filter(df, WindowMask(banco, codigo, Date(anoInicio, mesInicio, 1), MonthEnd(anoFin, mesFin))))
    ensures forall r :: r in WindowRows(df, banco, codigo, anoInicio, mesInicio, anoFin, mesFin) <==>
      r in df && InWindow(r, banco, codigo, Date(anoInicio, mesInicio, 1), MonthEnd(anoFin, mesFin))
    ensures forall i, j :: 0 <= i < j < |WindowRows(df, banco, codigo, anoInicio, mesInicio, anoFin, mesFin)| ==>
      DateOrder(WindowRows(df, banco, codigo, anoInicio, mesInicio, anoFin, mesFin)[i],
                WindowRows(df, banco, codigo, anoInicio, mesInicio, anoFin, mesFin)[j])
  {
    var mask := WindowMask(banco, codigo, Date(anoInicio, mesInicio, 1), MonthEnd(anoFin, mesFin));
    var f := Filter(df, mask);
    var w := WindowRows(df, banco, codigo, anoInicio, mesInicio, anoFin, mesFin);
    FilterMembers(df, mask);
    DateOrderTotal();
    forall r
      ensures r in w <==> r in f
    {
      assert r in w <==> r in multiset(w);
      assert r in f <==> r in multiset(f);
    }
  }

  /** The line in millions of 12-month value. */
  function EvolutionSeries(df: seq<Row>, banco: string, codigo: string, anoInicio: int, mesInicio: int,
                           anoFin: int, mesFin: int): seq<real>
    requires 1 <= mesFin <= 12
  {
    RankMillions(WindowRows(WithTwelveMonths(df), banco, codigo, anoInicio, mesInicio, anoFin, mesFin))
  }

  // ---------------------------------------------------------------------
  // Indexed mode
  // ---------------------------------------------------------------------

  /** Indexado: each value over the first one, times 100; all zeros when the
      first value is 0. */
  function Indexed(vals: seq<real>): (r: seq<real>)
    ensures |r| == |vals|
  {
    if vals == [] then []
    else if vals[0] != 0.0 then seq(|vals|, i requires 0 <= i < |vals| => vals[i] / vals[0] * 100.0)
    else seq(|vals|, i requires 0 <= i < |vals| => vals[i] * 0.0)
  }

  /** With a non-zero base the index starts at 100 and is proportional to
      the series; with a zero base it is flat at 0. */
  lemma IndexedSpec(vals: seq<real>)
    ensures vals != [] && vals[0] != 0.0 ==>
      Indexed(vals)[0] == 100.0 && forall i :: 0 <= i < |vals| ==> Indexed(vals)[i] * vals[0] == vals[i] * 100.0
    ensures vals != [] && vals[0] == 0.0 ==> forall i :: 0 <= i < |vals| ==> Indexed(vals)[i] == 0.0
  {
    if vals != [] && vals[0] != 0.0 {
      var b := vals[0];
      forall i | 0 <= i < |vals|
        ensures Indexed(vals)[i] * b == vals[i] * 100.0
      {
        IndexScale(vals[i], b);
      }
    }
  }

  lemma IndexScale(x: real, b: real)
    requires b != 0.0
    ensures x / b * 100.0 * b == x * 100.0
  {
  }

  // ---------------------------------------------------------------------
  // Ranking statistics
  // ---------------------------------------------------------------------

  /** The 12-month value of a row, in millions. */
  function Millions(r: Row): real {
    if r.valor12m.Some? then r.valor12m.value / 1000.0 else 0.0
  }

  function RankMillions(rows: seq<Row>): (v: seq<real>)
    ensures |v| == |rows| && forall i :: 0 <= i < |rows| ==> v[i] == Millions(rows[i])
  {
    seq(|rows|, i requires 0 <= i < |rows| => Millions(rows[i]))
  }

  predicate Ascending(a: real, b: real) {
    a <= b
  }

  lemma AscendingTotal()
    ensures Total(Ascending)
  {
  }

  /** The chart's values: the ranking rows of the month-end date and code,
      sorted ascending by millions. */
  function RankingValues(df: seq<Row>, ano: int, mes: int, codigo: string): seq<real>
    requires 1 <= mes <= 12
  {
    AscendingTotal();
    SortBy(RankMillions(Panorama.AtDateCode(WithTwelveMonths(df), MonthEnd(ano, mes), codigo)), Ascending)
  }

  function MaxOf(v: seq<real>): (m: real)
    requires v != []
    ensures m in v && forall x :: x in v ==> x <= m
  {
    if |v| == 1 then v[0]
    else
      var rest := MaxOf(v[1..]);
      assert forall x :: x in v ==> x == v[0] || x in v[1..];
      if v[0] >= rest then v[0] else rest
  }

  /** Participacion #1: the largest value over the total, or 0 unless the total is positive. */
  function TopOneShare(v: seq<real>): real {
    if v != [] && Sum(v) > 0.0 then MaxOf(v) / Sum(v) * 100.0 else 0.0
  }

  /** Concentracion Top 5 as written: head(5) of the ascending sort, i.e. the
      five smallest values; 0 with fewer than five values, and None where the
      source divides by a zero total. */
  function TopFiveShareAsWritten(ascending: seq<real>): Option<real> {
    if |ascending| < 5 then Some(0.0)
    else if Sum(ascending) == 0.0 then None
    else Some(Sum(ascending[..5]) / Sum(ascending) * 100.0)
  }

  /** Concentracion Top 5 as intended: the five largest values, the last five
      of the ascending sort. */
  function TopFiveShare(ascending: seq<real>): Option<real> {
    if |ascending| < 5 then Some(0.0)
    else if Sum(ascending) == 0.0 then None
    else Some(Sum(ascending[|ascending| - 5..]) / Sum(ascending) * 100.0)
  }

  /** On six banks with values 1, 2, 3, 4, 5 and 100 the figure as written
      reports the five smallest (15 of 115, about 13 percent), less than the
      share of the largest bank alone (100 of 115), which five banks that
      include it cannot be. */
  lemma TopFiveAsWrittenCounterexample()
    ensures TopFiveShareAsWritten([1.0, 2.0, 3.0, 4.0, 5.0, 100.0]) == Some(15.0 / 115.0 * 100.0)
    ensures TopFiveShareAsWritten([1.0, 2.0, 3.0, 4.0, 5.0, 100.0]).value < TopOneShare([1.0, 2.0, 3.0, 4.0, 5.0, 100.0])
  {
    SixBankSums([1.0, 2.0, 3.0, 4.0, 5.0, 100.0]);
  }

  lemma SixBankSums(v: seq<real>)
    requires v == [1.0, 2.0, 3.0, 4.0, 5.0, 100.0]
    ensures Sum(v[..5]) == 15.0 && Sum(v) == 115.0 && MaxOf(v) == 100.0
  {
    assert v[..5] == [1.0, 2.0, 3.0, 4.0, 5.0];
    assert Sum([5.0]) == 5.0;
    assert Sum([4.0, 5.0]) == 9.0;
    assert Sum([3.0, 4.0, 5.0]) == 12.0;
    assert Sum([2.0, 3.0, 4.0, 5.0]) == 14.0;
    assert Sum([1.0, 2.0, 3.0, 4.0, 5.0]) == 15.0;
    assert Sum([100.0]) == 100.0;
    assert Sum([5.0, 100.0]) == 105.0;
    assert Sum([4.0, 5.0, 100.0]) == 109.0;
    assert Sum([3.0, 4.0, 5.0, 100.0]) == 112.0;
    assert Sum([2.0, 3.0, 4.0, 5.0, 100.0]) == 114.0;
    assert MaxOf([100.0]) == 100.0;
    assert MaxOf([5.0, 100.0]) == 100.0;
    assert MaxOf([4.0, 5.0, 100.0]) == 100.0;
    assert MaxOf([3.0, 4.0, 5.0, 100.0]) == 100.0;
    assert MaxOf([2.0, 3.0, 4.0, 5.0, 100.0]) == 100.0;
  }

  /** The intended figure, on non-negative values sorted ascending with a
      positive total: between the largest bank's share and 100. */
  lemma TopFiveShareSpec(ascending: seq<real>)
    requires SortedBy(ascending, Ascending)
    requires forall i :: 0 <= i < |ascending| ==> ascending[i] >= 0.0
    requires |ascending| >= 5 && Sum(ascending) > 0.0
    ensures TopFiveShare(ascending).Some?
    ensures TopOneShare(ascending) <= TopFiveShare(ascending).value <= 100.0
  {
    var n := |ascending|;
    var top := ascending[n - 5..];
    assert ascending == ascending[..n - 5] + top;
    SumAppend(ascending[..n - 5], top);
    SumNonNegative(ascending[..n - 5]);
    assert MaxOf(ascending) == ascending[n - 1] by {
      assert ascending[n - 1] in ascending;
      forall x | x in ascending
        ensures x <= ascending[n - 1]
      {
        var i :| 0 <= i < n && ascending[i] == x;
      }
    }
    assert top[4] == ascending[n - 1];
    SumBoundsElement(top, 4);
    ShareMonotone(MaxOf(ascending), Sum(top), Sum(ascending));
  }

  /** Shares of a positive total keep the order of the parts and stay at most 100 for parts at most the total. */
  lemma ShareMonotone(a: real, b: real, total: real)
    requires 0.0 <= a <= b <= total && total > 0.0
    ensures a / total * 100.0 <= b / total * 100.0 <= 100.0
  {
    assert b / total <= 1.0;
  }

  /** The largest bank's share lies between 0 and 100 for non-negative values. */
  lemma TopOneShareSpec(v: seq<real>)
    requires forall i :: 0 <= i < |v| ==> v[i] >= 0.0
    ensures 0.0 <= TopOneShare(v) <= 100.0
  {
    if v != [] && Sum(v) > 0.0 {
      var m := MaxOf(v);
      var i :| 0 <= i < |v| && v[i] == m;
      SumBoundsElement(v, i);
      assert 0.0 <= m by {
        assert v[0] in v;
      }
      ShareMonotone(0.0, m, Sum(v));
    }
  }

  /** The page's statistics use the values of the ranking rows, which are
      sorted ascending and hold one value per row of the month-end date and
      code that has a 12-month value. */
  lemma RankingValuesSpec(df: seq<Row>, ano: int, mes: int, codigo: string)
    requires 1 <= mes <= 12
    ensures SortedBy(RankingValues(df, ano, mes, codigo), Ascending)
    ensures multiset(RankingValues(df, ano, mes, codigo)) ==
      multiset(RankMillions(Panorama.AtDateCode(WithTwelveMonths(df), MonthEnd(ano, mes), codigo)))
  {
    AscendingTotal();
  }
}

=== FILE: income_statement.dfy ===
/** The income-statement (PYG sheet) extractor: it turns one bank's
    year-to-date sheet into long-format records, then de-accumulates them
    into monthly flows and a trailing twelve-row sum. */
module IncomeStatement {
  import opened Common
  import opened Sorting

  /** One extracted cell: bank, period, account code, account name and the
      year-to-date amount. */
  datatype IncomeRecord = IncomeRecord(banco: string, fecha: Date, codigo: string, cuenta: string, acumulado: real)

  /** An extracted record with its monthly flow (valor_mes). */
  datatype MonthlyRecord = MonthlyRecord(rec: IncomeRecord, mensual: real)

  /** A monthly record with its trailing twelve-row sum (valor_12m), missing
      for the first eleven rows of each bank/code series. */
  datatype TrailingRecord = TrailingRecord(mon: MonthlyRecord, doce: Option<real>)

  // ---------------------------------------------------------------------------
  // Account-name cleaning and summary codes
  // ---------------------------------------------------------------------------

  /** The six accented capitals the cleaner folds to plain letters. */
  function Unaccent(c: char): char {
    if c == '\U{c1}' then 'A'
    else if c == '\U{c9}' then 'E'
    else if c == '\U{cd}' then 'I'
    else if c == '\U{d3}' then 'O'
    else if c == '\U{da}' then 'U'
    else if c == '\U{d1}' then 'N'
    else c
  }

  function CleanChar(c: char): char {
    Unaccent(Upper(c))
  }

  /** Upper-case the text, then fold Á, É, Í, Ó, Ú and Ñ to A, E, I, O, U and N. */
  function CleanText(s: string): (r: string)
    ensures |r| == |s|
    ensures forall i :: 0 <= i < |s| ==> r[i] == CleanChar(s[i])
  {
    seq(|s|, i requires 0 <= i < |s| => CleanChar(s[i]))
  }

  /** limpiar_nombre_cuenta: a missing name cleans to the empty string. */
  function CleanName(c: Cell): (r: string)
    ensures c.Empty? ==> r == []
    ensures !c.Empty? ==> r == CleanText(CellText(c))
  {
    if c.Empty? then [] else CleanText(CellText(c))
  }

  /** Cleaning a cleaned name changes nothing. */
  lemma CleanTextIdempotent(s: string)
    ensures CleanText(CleanText(s)) == CleanText(s)
  {
    forall i | 0 <= i < |s|
      ensures CleanChar(CleanChar(s[i])) == CleanChar(s[i])
    {
      var u := Upper(s[i]);
      assert Upper(u) == u;
    }
  }

  /** A cleaned name holds none of the six accented capitals, and no ASCII lower-case letter. */
  lemma CleanTextFolded(s: string)
    ensures forall i :: 0 <= i < |CleanText(s)| ==>
      CleanText(s)[i] !in {'\U{c1}', '\U{c9}', '\U{cd}', '\U{d3}', '\U{da}', '\U{d1}'} &&
      !('a' <= CleanText(s)[i] <= 'z')
  {
  }

  /** CODIGOS_RESUMEN, in its declaration order: key phrase and mnemonic. */
  const SummaryTable: seq<(string, string)> := [
    ("MARGEN NETO DE INTERESES", "MNI"),
    ("MARGEN BRUTO FINANCIERO", "MBF"),
    ("MARGEN NETO FINANCIERO", "MNF"),
    ("MARGEN DE INTERMEDIACION", "MDI"),
    ("MARGEN OPERACIONAL", "MOP"),
    ("GANANCIA O PERDIDA ANTES DE IMPUESTOS", "GAI"),
    ("GANANCIA O PERDIDA DEL EJERCICIO", "GDE")
  ]

  const Mnemonics: set<string> := {"MNI", "MBF", "MNF", "MDI", "MOP", "GAI", "GDE"}

  /** The position of the first table entry whose key occurs in s, or |t| when none does. */
  function FirstKeyIndex(t: seq<(string, string)>, s: string): (k: nat)
    ensures k <= |t|
    ensures k < |t| ==> IsSubstring(t[k].0, s)
    ensures forall j :: 0 <= j < k ==> !IsSubstring(t[j].0, s)
  {
    if t == [] then 0
    else if IsSubstring(t[0].0, s) then 0
    else 1 + FirstKeyIndex(t[1..], s)
  }

  /** obtener_codigo_resumen: the mnemonic of the first key, in table order,
      that occurs in the cleaned name, or None. */
  function SummaryCode(name: Cell): (r: Option<string>)
    ensures r.None? || r.value in Mnemonics
  {
    var k := FirstKeyIndex(SummaryTable, CleanName(name));
    if k < |SummaryTable| then Some(SummaryTable[k].1) else None
  }

  /** SummaryCode picks the earliest matching key, and fails only when no key matches. */
  lemma SummaryCodeFirstMatch(name: Cell)
    ensures SummaryCode(name).None? <==>
      forall j :: 0 <= j < |SummaryTable| ==> !IsSubstring(SummaryTable[j].0, CleanName(name))
    ensures forall k :: (0 <= k < |SummaryTable| && IsSubstring(SummaryTable[k].0, CleanName(name)) &&
      forall j :: 0 <= j < k ==> !IsSubstring(SummaryTable[j].0, CleanName(name))) ==>
      SummaryCode(name) == Some(SummaryTable[k].1)
  {
    var k := FirstKeyIndex(SummaryTable, CleanName(name));
    forall k' | 0 <= k' < |SummaryTable| && IsSubstring(SummaryTable[k'].0, CleanName(name)) &&
      (forall j :: 0 <= j < k' ==> !IsSubstring(SummaryTable[j].0, CleanName(name)))
      ensures k' == k
    {
    }
  }

  // ---------------------------------------------------------------------------
  // Period header
  // ---------------------------------------------------------------------------

  /** A header cell as a period: a date cell is taken, a text cell is parsed,
      anything else (empty, number) ends the header. */
  function HeaderCell(c: Cell, p: Parsers): Option<Date> {
    match c
    case Stamp(d, _) => Some(d)
    case Text(_) => p.toDate(c)
    case _ => None
  }

  /** The periods read from sheet row 5 (index 4) starting at column col, up
      to the first cell that is not a period. */
  function HeaderFrom(sh: Sheet, p: Parsers, col: nat): seq<Date>
    decreases sh.width - col
  {
    if col >= sh.width then []
    else match HeaderCell(At(sh, 4, col), p)
      case None => []
      case Some(d) => [d] + HeaderFrom(sh, p, col + 1)
  }

  /** The header is exactly the longest run of period cells: every listed
      period is its cell's, and the cell after the run (if inside the sheet)
      is not a period. */
  lemma {:induction false} HeaderFromIsLongestRun(sh: Sheet, p: Parsers, col: nat)
    ensures var r := HeaderFrom(sh, p, col); col + |r| <= sh.width || r == []
    ensures var r := HeaderFrom(sh, p, col);
      forall j :: 0 <= j < |r| ==> HeaderCell(At(sh, 4, col + j), p) == Some(r[j])
    ensures var r := HeaderFrom(sh, p, col);
      col + |r| < sh.width ==> HeaderCell(At(sh, 4, col + |r|), p).None?
    decreases sh.width - col
  {
    if col < sh.width && HeaderCell(At(sh, 4, col), p).Some? {
      HeaderFromIsLongestRun(sh, p, col + 1);
      var r := HeaderFrom(sh, p, col);
      var rest := HeaderFrom(sh, p, col + 1);
      assert r == [r[0]] + rest;
      forall j | 0 < j < |r|
        ensures HeaderCell(At(sh, 4, col + j), p) == Some(r[j])
      {
        assert r[j] == rest[j - 1];
        assert col + j == (col + 1) + (j - 1);
      }
    }
  }

  /** The header scan of procesar_archivo_pyg: the periods are exactly the
      prefix of row 5 from column C that stops at the first non-period cell. */
  method ReadHeader(sh: Sheet, p: Parsers) returns (fechas: seq<Date>)
    ensures fechas == HeaderFrom(sh, p, 2)
  {
    fechas := [];
    var col := 2;
    while col < sh.width
      invariant 2 <= col && col == 2 + |fechas|
      invariant HeaderFrom(sh, p, 2) == fechas + HeaderFrom(sh, p, col)
      decreases sh.width - col
    {
      var f := At(sh, 4, col);
      var d := HeaderCell(f, p);
      if d.None? {
        break;
      }
      assert HeaderFrom(sh, p, col) == [d.value] + HeaderFrom(sh, p, col + 1);
      fechas := fechas + [d.value];
      col := col + 1;
    }
  }

  // ---------------------------------------------------------------------------
  // Data rows
  // ---------------------------------------------------------------------------

  /** The (code, name) a data row contributes, or None when the row is skipped:
      an empty code cell, the text 'nan', a '--' row whose name matches no
      summary key, or an empty name. */
  function RowKey(sh: Sheet, idx: nat): Option<(string, string)> {
    var code := At(sh, idx, 0);
    var name := At(sh, idx, 1);
    if code.Empty? then None
    else
      var cs := Strip(CellText(code));
      var codigo :=
        if cs == "--" then SummaryCode(name)
        else if cs == "nan" then None
        else Some(cs);
      if codigo.None? || name.Empty? then None
      else Some((codigo.value, Strip(CellText(name))))
  }

  /** A kept row has both cells present; its name is the stripped name text;
      its code is a summary mnemonic on a '--' row and otherwise the stripped
      code text, which is never 'nan'. Conversely, a row whose code and name
      cells are present is kept unless its code text is 'nan' or it is a '--'
      row whose name matches no summary key. */
  lemma RowKeyShape(sh: Sheet, idx: nat)
    ensures var r := RowKey(sh, idx);
      r.Some? ==>
        (!At(sh, idx, 0).Empty? && !At(sh, idx, 1).Empty? &&
         r.value.1 == Strip(CellText(At(sh, idx, 1))) &&
         var cs := Strip(CellText(At(sh, idx, 0)));
         (cs == "--" && r.value.0 in Mnemonics) || (cs != "--" && cs != "nan" && r.value.0 == cs))
    ensures !At(sh, idx, 0).Empty? && !At(sh, idx, 1).Empty? ==>
      var cs := Strip(CellText(At(sh, idx, 0)));
      cs != "nan" && (cs == "--" ==> SummaryCode(At(sh, idx, 1)).Some?) ==> RowKey(sh, idx).Some?
  {
  }

  /** The record a value cell yields, if it is present and converts to float. */
  function CellRecords(banco: string, fechas: seq<Date>, sh: Sheet, p: Parsers, idx: nat,
                       codigo: string, cuenta: string, j: nat): seq<IncomeRecord>
    requires j < |fechas|
  {
    var v := At(sh, idx, 2 + j);
    if v.Empty? then []
    else match ToFloat(v, p)
      case None => []
      case Some(x) => [IncomeRecord(banco, fechas[j], codigo, cuenta, x)]
  }

  /** The records of the first n periods of one row. */
  function RowPrefixRecords(banco: string, fechas: seq<Date>, sh: Sheet, p: Parsers, idx: nat,
                            codigo: string, cuenta: string, n: nat): seq<IncomeRecord>
    requires n <= |fechas|
  {
    if n == 0 then []
    else RowPrefixRecords(banco, fechas, sh, p, idx, codigo, cuenta, n - 1) +
         CellRecords(banco, fechas, sh, p, idx, codigo, cuenta, n - 1)
  }

  function RowRecords(banco: string, fechas: seq<Date>, sh: Sheet, p: Parsers, idx: nat): seq<IncomeRecord> {
    match RowKey(sh, idx)
    case None => []
    case Some((codigo, cuenta)) => RowPrefixRecords(banco, fechas, sh, p, idx, codigo, cuenta, |fechas|)
  }

  /** RowRecords of one sheet as a function of the row index. */
  function RowsOf(banco: string, fechas: seq<Date>, sh: Sheet, p: Parsers): nat -> seq<IncomeRecord> {
    (idx: nat) => RowRecords(banco, fechas, sh, p, idx)
  }

  /** The records of sheet rows lo .. hi-1, in row order. */
  function RowsRecords(banco: string, fechas: seq<Date>, sh: Sheet, p: Parsers, lo: nat, hi: nat): seq<IncomeRecord> {
    ConcatRange(RowsOf(banco, fechas, sh, p), lo, hi)
  }

  /** The inner loop of procesar_archivo_pyg over one kept row's period cells. */
  method ReadRow(banco: string, fechas: seq<Date>, sh: Sheet, p: Parsers, idx: nat,
                 codigo: string, cuenta: string) returns (fila: seq<IncomeRecord>)
    ensures fila == RowPrefixRecords(banco, fechas, sh, p, idx, codigo, cuenta, |fechas|)
  {
    fila := [];
    var j := 0;
    while j < |fechas|
      invariant 0 <= j <= |fechas|
      invariant fila == RowPrefixRecords(banco, fechas, sh, p, idx, codigo, cuenta, j)
    {
      var valor := At(sh, idx, 2 + j);
      if !valor.Empty? {
        var num := ToFloat(valor, p);
        if num.Some? {
          fila := fila + [IncomeRecord(banco, fechas[j], codigo, cuenta, num.value)];
        }
      }
      j := j + 1;
    }
  }

  /** The last data row index the extractor scans, plus one. */
  function RowLimit(sh: Sheet): nat {
    Min(140, |sh.rows|)
  }

  /** procesar_archivo_pyg as a value: the bank is the first word of the folder
      name; a sheet under 10 rows or 5 columns, or without periods, gives nothing. */
  function ExtractIncome(folder: string, sh: Sheet, p: Parsers): seq<IncomeRecord> {
    match FirstToken(folder)
    case None => []
    case Some(banco) =>
      if |sh.rows| < 10 || sh.width < 5 then []
      else
        var fechas := HeaderFrom(sh, p, 2);
        if fechas == [] then [] else RowsRecords(banco, fechas, sh, p, 5, RowLimit(sh))
  }

  /** procesar_archivo_pyg: scan the header, then rows 6 to 140 and their period cells. */
  method ProcessIncomeSheet(folder: string, sh: Sheet, p: Parsers) returns (registros: seq<IncomeRecord>)
    ensures registros == ExtractIncome(folder, sh, p)
  {
    registros := [];
    var tok := FirstToken(folder);
    if tok.None? {
      return;
    }
    var banco := tok.value;
    if |sh.rows| < 10 || sh.width < 5 {
      return;
    }
    var fechas := ReadHeader(sh, p);
    if |fechas| == 0 {
      return;
    }
    registros := ReadRows(banco, fechas, sh, p);
  }

  /** The row loop of procesar_archivo_pyg over sheet rows 6 to 140. */
  method ReadRows(banco: string, fechas: seq<Date>, sh: Sheet, p: Parsers) returns (registros: seq<IncomeRecord>)
    ensures registros == RowsRecords(banco, fechas, sh, p, 5, RowLimit(sh))
  {
    registros := [];
    var limit := RowLimit(sh);
    var idx := 5;
    while idx < limit
      invariant idx == 5 || 5 <= idx <= limit
      invariant registros == RowsRecords(banco, fechas, sh, p, 5, idx)
    {
      var key := RowKey(sh, idx);
      if key.Some? {
        var (codigo, cuenta) := key.value;
        var fila := ReadRow(banco, fechas, sh, p, idx, codigo, cuenta);
        assert RowRecords(banco, fechas, sh, p, idx) == fila;
        registros := registros + fila;
      } else {
        assert RowRecords(banco, fechas, sh, p, idx) == [];
      }
      assert RowsRecords(banco, fechas, sh, p, 5, idx + 1) ==
             RowsRecords(banco, fechas, sh, p, 5, idx) + RowRecords(banco, fechas, sh, p, idx);
      idx := idx + 1;
    }
  }

  /** Record r comes from value cell (idx, C+j) of a kept row: its period is
      the j-th header period, its code and name are the row's, and its amount
      is the cell converted to float. */
  predicate FromRowCell(banco: string, fechas: seq<Date>, sh: Sheet, p: Parsers, idx: nat, j: nat, r: IncomeRecord) {
    j < |fechas| && RowKey(sh, idx) == Some((r.codigo, r.cuenta)) && r.banco == banco && r.fecha == fechas[j] &&
    !At(sh, idx, 2 + j).Empty? && ToFloat(At(sh, idx, 2 + j), p) == Some(r.acumulado)
  }

  /** Record r comes from some value cell of a kept row among rows lo .. hi-1. */
  ghost predicate FromCell(banco: string, fechas: seq<Date>, sh: Sheet, p: Parsers, lo: nat, hi: nat, r: IncomeRecord) {
    exists idx: nat, j: nat :: lo <= idx < hi && FromRowCell(banco, fechas, sh, p, idx, j, r)
  }

  /** Record r comes from some value cell of kept row idx. */
  ghost predicate FromRow(banco: string, fechas: seq<Date>, sh: Sheet, p: Parsers, idx: nat, r: IncomeRecord) {
    exists j: nat :: FromRowCell(banco, fechas, sh, p, idx, j, r)
  }

  lemma {:induction false} RowPrefixFromCells(banco: string, fechas: seq<Date>, sh: Sheet, p: Parsers,
                                              idx: nat, n: nat)
    requires n <= |fechas|
    requires RowKey(sh, idx).Some?
    ensures var (codigo, cuenta) := RowKey(sh, idx).value;
      var rs := RowPrefixRecords(banco, fechas, sh, p, idx, codigo, cuenta, n);
      |rs| <= n && forall k :: 0 <= k < |rs| ==> FromRow(banco, fechas, sh, p, idx, rs[k])
  {
    if n > 0 {
      var (codigo, cuenta) := RowKey(sh, idx).value;
      RowPrefixFromCells(banco, fechas, sh, p, idx, n - 1);
      var front := RowPrefixRecords(banco, fechas, sh, p, idx, codigo, cuenta, n - 1);
      var c := CellRecords(banco, fechas, sh, p, idx, codigo, cuenta, n - 1);
      var rs := front + c;
      assert rs == RowPrefixRecords(banco, fechas, sh, p, idx, codigo, cuenta, n);
      forall k | 0 <= k < |rs|
        ensures FromRow(banco, fechas, sh, p, idx, rs[k])
      {
        if k < |front| {
          assert rs[k] == front[k];
        } else {
          assert FromRowCell(banco, fechas, sh, p, idx, n - 1, rs[k]);
        }
      }
    }
  }

  lemma RowFromCells(banco: string, fechas: seq<Date>, sh: Sheet, p: Parsers, idx: nat)
    ensures forall k :: 0 <= k < |RowRecords(banco, fechas, sh, p, idx)| ==>
      FromRow(banco, fechas, sh, p, idx, RowRecords(banco, fechas, sh, p, idx)[k])
  {
    if RowKey(sh, idx).Some? {
      RowPrefixFromCells(banco, fechas, sh, p, idx, |fechas|);
    }
  }

  lemma RowsFromCells(banco: string, fechas: seq<Date>, sh: Sheet, p: Parsers, lo: nat, hi: nat)
    ensures forall k :: 0 <= k < |RowsRecords(banco, fechas, sh, p, lo, hi)| ==>
      FromCell(banco, fechas, sh, p, lo, hi, RowsRecords(banco, fechas, sh, p, lo, hi)[k])
  {
    var f := RowsOf(banco, fechas, sh, p);
    var rs := RowsRecords(banco, fechas, sh, p, lo, hi);
    forall k | 0 <= k < |rs|
      ensures FromCell(banco, fechas, sh, p, lo, hi, rs[k])
    {
      var idx, j := ConcatRangeOrigin(f, lo, hi, k);
      RowFromCells(banco, fechas, sh, p, idx);
      assert FromRow(banco, fechas, sh, p, idx, rs[k]);
      var c: nat :| FromRowCell(banco, fechas, sh, p, idx, c, rs[k]);
    }
  }

  /** Every extracted record comes from a numeric cell of a kept row among
      sheet rows 6..140, under a header period. */
  lemma ExtractIncomeSound(folder: string, sh: Sheet, p: Parsers)
    ensures FirstToken(folder).None? || |sh.rows| < 10 || sh.width < 5 || HeaderFrom(sh, p, 2) == [] ==>
      ExtractIncome(folder, sh, p) == []
    ensures FirstToken(folder).Some? ==>
      forall k :: 0 <= k < |ExtractIncome(folder, sh, p)| ==>
        FromCell(FirstToken(folder).value, HeaderFrom(sh, p, 2), sh, p, 5, RowLimit(sh), ExtractIncome(folder, sh, p)[k])
  {
    if FirstToken(folder).Some? && |sh.rows| >= 10 && sh.width >= 5 && HeaderFrom(sh, p, 2) != [] {
      var banco := FirstToken(folder).value;
      var fechas := HeaderFrom(sh, p, 2);
      RowsFromCells(banco, fechas, sh, p, 5, RowLimit(sh));
      assert ExtractIncome(folder, sh, p) == RowsRecords(banco, fechas, sh, p, 5, RowLimit(sh));
    }
  }

  lemma {:induction false} RowPrefixComplete(banco: string, fechas: seq<Date>, sh: Sheet, p: Parsers, idx: nat,
                                             codigo: string, cuenta: string, n: nat, j: nat, v: real)
    requires j < n <= |fechas|
    requires !At(sh, idx, 2 + j).Empty? && ToFloat(At(sh, idx, 2 + j), p) == Some(v)
    ensures IncomeRecord(banco, fechas[j], codigo, cuenta, v) in
      RowPrefixRecords(banco, fechas, sh, p, idx, codigo, cuenta, n)
  {
    if j < n - 1 {
      RowPrefixComplete(banco, fechas, sh, p, idx, codigo, cuenta, n - 1, j, v);
    }
  }

  lemma RowRecordsComplete(banco: string, fechas: seq<Date>, sh: Sheet, p: Parsers, idx: nat, j: nat, v: real)
    requires j < |fechas| && RowKey(sh, idx).Some?
    requires !At(sh, idx, 2 + j).Empty? && ToFloat(At(sh, idx, 2 + j), p) == Some(v)
    ensures IncomeRecord(banco, fechas[j], RowKey(sh, idx).value.0, RowKey(sh, idx).value.1, v) in
      RowRecords(banco, fechas, sh, p, idx)
  {
    var key := RowKey(sh, idx).value;
    RowPrefixComplete(banco, fechas, sh, p, idx, key.0, key.1, |fechas|, j, v);
  }

  /** Conversely, every present value cell that converts to float, in a kept
      row among sheet rows 6..140 and under a header period, yields its record. */
  lemma ExtractIncomeComplete(folder: string, sh: Sheet, p: Parsers, idx: nat, j: nat, v: real)
    requires FirstToken(folder).Some? && |sh.rows| >= 10 && sh.width >= 5
    requires 5 <= idx < RowLimit(sh) && j < |HeaderFrom(sh, p, 2)| && RowKey(sh, idx).Some?
    requires !At(sh, idx, 2 + j).Empty? && ToFloat(At(sh, idx, 2 + j), p) == Some(v)
    ensures IncomeRecord(FirstToken(folder).value, HeaderFrom(sh, p, 2)[j],
                         RowKey(sh, idx).value.0, RowKey(sh, idx).value.1, v) in ExtractIncome(folder, sh, p)
  {
    var banco := FirstToken(folder).value;
    var fechas := HeaderFrom(sh, p, 2);
    RowRecordsComplete(banco, fechas, sh, p, idx, j, v);
    ConcatRangeMember(RowsOf(banco, fechas, sh, p), 5, RowLimit(sh), idx,
                      IncomeRecord(banco, fechas[j], RowKey(sh, idx).value.0, RowKey(sh, idx).value.1, v));
  }

  // ---------------------------------------------------------------------------
  // De-accumulation (desacumular_valores)
  // ---------------------------------------------------------------------------

  /** The row order of sort_values(['banco', 'codigo', 'fecha']). */
  predicate IncomeLe(x: IncomeRecord, y: IncomeRecord) {
    SeriesLe(x.banco, x.codigo, x.fecha, y.banco, y.codigo, y.fecha)
  }

  lemma IncomeLeTotal()
    ensures Total(IncomeLe)
  {
    forall x: IncomeRecord, y: IncomeRecord
      ensures IncomeLe(x, y) || IncomeLe(y, x)
    {
      SeriesLeTotal(x.banco, x.codigo, x.fecha, y.banco, y.codigo, y.fecha);
    }
    forall x: IncomeRecord, y: IncomeRecord, z: IncomeRecord | IncomeLe(x, y) && IncomeLe(y, z)
      ensures IncomeLe(x, z)
    {
      SeriesLeTransitive(x.banco, x.codigo, x.fecha, y.banco, y.codigo, y.fecha, z.banco, z.codigo, z.fecha);
    }
  }

  /** The group of groupby(['banco', 'codigo', 'ano']). */
  function YearKey(r: IncomeRecord): (string, string, int) {
    (r.banco, r.codigo, r.fecha.year)
  }

  /** groupby(...).shift(1) seen from position n: the year-to-date amount of
      the last row before n that belongs to group key, if any. */
  function PreviousInGroup(s: seq<IncomeRecord>, n: nat, key: (string, string, int)): Option<real>
    requires n <= |s|
  {
    if n == 0 then None
    else if YearKey(s[n - 1]) == key then Some(s[n - 1].acumulado)
    else PreviousInGroup(s, n - 1, key)
  }

  /** valor_mes of row i: the year-to-date amount itself in January or when
      the row is the first of its group, otherwise the difference with the
      group's previous row. */
  function MonthlyValue(s: seq<IncomeRecord>, i: nat): real
    requires i < |s|
  {
    var prev := PreviousInGroup(s, i, YearKey(s[i]));
    if s[i].fecha.month == 1 || prev.None? then s[i].acumulado
    else s[i].acumulado - prev.value
  }

  function Recs(m: seq<MonthlyRecord>): (r: seq<IncomeRecord>)
    ensures |r| == |m| && forall i :: 0 <= i < |m| ==> r[i] == m[i].rec
  {
    seq(|m|, i requires 0 <= i < |m| => m[i].rec)
  }

  /** desacumular_valores: the rows, ordered by bank, code and date, each with its monthly flow. */
  function Deaccumulate(rows: seq<IncomeRecord>): (r: seq<MonthlyRecord>)
    ensures multiset(Recs(r)) == multiset(rows)
    ensures SortedBy(Recs(r), IncomeLe)
    ensures forall i :: 0 <= i < |r| ==> r[i].mensual == MonthlyValue(Recs(r), i)
  {
    IncomeLeTotal();
    var s := SortBy(rows, IncomeLe);
    var r := seq(|s|, i requires 0 <= i < |s| => MonthlyRecord(s[i], MonthlyValue(s, i)));
    assert Recs(r) == s;
    r
  }

  /** The sum of the monthly flows of group key among the first n rows. */
  function GroupMonthlySum(s: seq<IncomeRecord>, n: nat, key: (string, string, int)): real
    requires n <= |s|
  {
    if n == 0 then 0.0
    else GroupMonthlySum(s, n - 1, key) + (if YearKey(s[n - 1]) == key then MonthlyValue(s, n - 1) else 0.0)
  }

  /** January opens its group: a January row has no earlier row of its group. */
  predicate JanuaryFirst(s: seq<IncomeRecord>) {
    forall i :: 0 <= i < |s| && s[i].fecha.month == 1 ==> PreviousInGroup(s, i, YearKey(s[i])).None?
  }

  /** Within a (bank, code, year) group the monthly flows telescope: they add
      up to the group's latest year-to-date amount (10, 25, 33 give 10, 15, 8). */
  lemma {:induction false} MonthlyTelescopes(s: seq<IncomeRecord>, n: nat, key: (string, string, int))
    requires n <= |s|
    requires JanuaryFirst(s)
    ensures PreviousInGroup(s, n, key).None? ==> GroupMonthlySum(s, n, key) == 0.0
    ensures PreviousInGroup(s, n, key).Some? ==> GroupMonthlySum(s, n, key) == PreviousInGroup(s, n, key).value
  {
    if n > 0 {
      MonthlyTelescopes(s, n - 1, key);
    }
  }

  /** Each (bank, code, year) has at most one January row, and that row occurs once. */
  predicate OneJanuaryPerGroup(rows: seq<IncomeRecord>) {
    forall x, y :: x in rows && y in rows && x.fecha.month == 1 && y.fecha.month == 1 && YearKey(x) == YearKey(y) ==>
      x == y && multiset(rows)[x] == 1
  }

  /** No row is dated before January of its year. */
  predicate MonthsFromJanuary(rows: seq<IncomeRecord>) {
    forall x :: x in rows ==> 1 <= x.fecha.month
  }

  lemma {:induction false} PreviousInGroupFrom(s: seq<IncomeRecord>, n: nat, key: (string, string, int)) returns (j: nat)
    requires n <= |s| && PreviousInGroup(s, n, key).Some?
    ensures j < n && YearKey(s[j]) == key
  {
    if YearKey(s[n - 1]) == key {
      j := n - 1;
    } else {
      j := PreviousInGroupFrom(s, n - 1, key);
    }
  }

  lemma RepeatedTwice<T>(s: seq<T>, j: nat, i: nat)
    requires j < i < |s| && s[j] == s[i]
    ensures multiset(s)[s[i]] >= 2
  {
    assert s == s[..i] + [s[i]] + s[i + 1..];
    assert s[j] in s[..i];
  }

  /** Sorting by (bank, code, date) puts a group's January row before the
      group's other rows, so in the de-accumulated table January opens its
      group whenever the input has one January row per group. */
  lemma DeaccumulateJanuaryFirst(rows: seq<IncomeRecord>)
    requires OneJanuaryPerGroup(rows) && MonthsFromJanuary(rows)
    ensures JanuaryFirst(Recs(Deaccumulate(rows)))
  {
    var s := Recs(Deaccumulate(rows));
    forall i | 0 <= i < |s| && s[i].fecha.month == 1
      ensures PreviousInGroup(s, i, YearKey(s[i])).None?
    {
      if PreviousInGroup(s, i, YearKey(s[i])).Some? {
        var j := PreviousInGroupFrom(s, i, YearKey(s[i]));
        assert IncomeLe(s[j], s[i]);
        assert s[j] in multiset(s) && s[i] in multiset(s);
        assert s[j].fecha.month == 1;
        RepeatedTwice(s, j, i);
        assert false;
      }
    }
  }

  /** The telescoping of MonthlyTelescopes on the output of Deaccumulate: the
      flows of each group add up to the last year-to-date amount of that group. */
  lemma DeaccumulatedGroupsTelescope(rows: seq<IncomeRecord>, key: (string, string, int))
    requires OneJanuaryPerGroup(rows) && MonthsFromJanuary(rows)
    ensures var s := Recs(Deaccumulate(rows));
      GroupMonthlySum(s, |s|, key) == (match PreviousInGroup(s, |s|, key) case None => 0.0 case Some(v) => v)
  {
    var s := Recs(Deaccumulate(rows));
    DeaccumulateJanuaryFirst(rows);
    MonthlyTelescopes(s, |s|, key);
  }

  // ---------------------------------------------------------------------------
  // Trailing twelve-row sum (calcular_suma_movil_12m)
  // ---------------------------------------------------------------------------

  predicate MonthlyLe(x: MonthlyRecord, y: MonthlyRecord) {
    IncomeLe(x.rec, y.rec)
  }

  lemma MonthlyLeTotal()
    ensures Total(MonthlyLe)
  {
    IncomeLeTotal();
    forall x: MonthlyRecord, y: MonthlyRecord
      ensures MonthlyLe(x, y) || MonthlyLe(y, x)
    {
    }
    forall x: MonthlyRecord, y: MonthlyRecord, z: MonthlyRecord | MonthlyLe(x, y) && MonthlyLe(y, z)
      ensures MonthlyLe(x, z)
    {
    }
  }

  /** The group of groupby(['banco', 'codigo']). */
  function SeriesKey(m: MonthlyRecord): (string, string) {
    (m.rec.banco, m.rec.codigo)
  }

  /** The monthly flows of series key among the first n rows, in row order. */
  function SeriesValues(s: seq<MonthlyRecord>, n: nat, key: (string, string)): seq<real>
    requires n <= |s|
  {
    if n == 0 then []
    else SeriesValues(s, n - 1, key) + (if SeriesKey(s[n - 1]) == key then [s[n - 1].mensual] else [])
  }

  /** rolling(window=12, min_periods=12).sum() at row i: the sum of the last
      twelve flows of its series up to and including row i, or missing while
      the series has fewer than twelve rows so far. */
  function TrailingValue(s: seq<MonthlyRecord>, i: nat): Option<real>
    requires i < |s|
  {
    var v := SeriesValues(s, i + 1, SeriesKey(s[i]));
    if |v| < 12 then None else Some(Sum(v[|v| - 12..]))
  }

  function Mons(t: seq<TrailingRecord>): (r: seq<MonthlyRecord>)
    ensures |r| == |t| && forall i :: 0 <= i < |t| ==> r[i] == t[i].mon
  {
    seq(|t|, i requires 0 <= i < |t| => t[i].mon)
  }

  /** calcular_suma_movil_12m: the rows re-ordered by bank, code and date, each with its trailing sum. */
  function TrailingSums(rows: seq<MonthlyRecord>): (r: seq<TrailingRecord>)
    ensures multiset(Mons(r)) == multiset(rows)
    ensures SortedBy(Mons(r), MonthlyLe)
    ensures forall i :: 0 <= i < |r| ==> r[i].doce == TrailingValue(Mons(r), i)
  {
    MonthlyLeTotal();
    var s := SortBy(rows, MonthlyLe);
    var r := seq(|s|, i requires 0 <= i < |s| => TrailingRecord(s[i], TrailingValue(s, i)));
    assert Mons(r) == s;
    r
  }

  /** A twelve-element window slides by adding the new element and dropping
      the one thirteen back. */
  lemma {:induction false} TrailingSlides(v: seq<real>)
    requires |v| >= 13
    ensures Sum(v[|v| - 12..]) == Sum(v[|v| - 13..|v| - 1]) + v[|v| - 1] - v[|v| - 13]
  {
    var n := |v|;
    var w := v[n - 13..];
    assert v[n - 13..n - 1] == w[..12];
    assert v[n - 12..] == w[1..];
    assert w == [w[0]] + w[1..];
    assert w == w[..12] + [w[12]];
    SumAppend([w[0]], w[1..]);
    SumAppend(w[..12], [w[12]]);
    assert Sum([w[0]]) == w[0];
    assert Sum([w[12]]) == w[12];
  }

  /** The number of earlier rows of row i's series. */
  function SeriesPosition(s: seq<MonthlyRecord>, i: nat): nat
    requires i < |s|
  {
    |SeriesValues(s, i, SeriesKey(s[i]))|
  }

  /** valor_12m is missing exactly for the first eleven rows of each series. */
  lemma TrailingMissingEarly(s: seq<MonthlyRecord>, i: nat)
    requires i < |s|
    ensures TrailingValue(s, i).None? <==> SeriesPosition(s, i) < 11
  {
    assert |SeriesValues(s, i + 1, SeriesKey(s[i]))| == SeriesPosition(s, i) + 1;
  }

  /** Rows of other series leave a series' flows unchanged. */
  lemma {:induction false} SeriesValuesSkip(s: seq<MonthlyRecord>, j: nat, k: nat, key: (string, string))
    requires j <= k <= |s|
    requires forall m :: j <= m < k ==> SeriesKey(s[m]) != key
    ensures SeriesValues(s, k, key) == SeriesValues(s, j, key)
    decreases k
  {
    if k > j {
      SeriesValuesSkip(s, j, k - 1, key);
    }
  }

  /** From one row of a series to the next, the trailing sum gains the new
      row's flow and loses the flow twelve rows back. */
  lemma TrailingStep(s: seq<MonthlyRecord>, j: nat, i: nat)
    requires j < i < |s|
    requires SeriesKey(s[j]) == SeriesKey(s[i])
    requires forall m :: j < m < i ==> SeriesKey(s[m]) != SeriesKey(s[i])
    requires SeriesPosition(s, i) >= 12
    ensures TrailingValue(s, i).Some? && TrailingValue(s, j).Some?
    ensures var v := SeriesValues(s, i + 1, SeriesKey(s[i]));
      TrailingValue(s, i).value == TrailingValue(s, j).value + s[i].mensual - v[|v| - 13]
  {
    var key := SeriesKey(s[i]);
    SeriesValuesSkip(s, j + 1, i, key);
    var u := SeriesValues(s, j + 1, key);
    var v := SeriesValues(s, i + 1, key);
    assert v == u + [s[i].mensual];
    TrailingSlides(v);
    assert v[|v| - 13..|v| - 1] == u[|u| - 12..];
  }
}

=== FILE: indicator_extractor.dfy ===
/** The CAMEL-sheet extractor: a fixed table maps sheet rows to indicators,
    the period header skips bad cells, cells are coerced with decimal commas,
    and the consolidated table keeps the first record per (bank, date, code). */
module IndicatorExtractor {
  import opened Common
  import opened Sorting
  import BalanceSheet

  /** A 1-based sheet row number. */
  type RowNumber = n: nat | n >= 1 witness 1

  /** One row of the row table: sheet row (1-based), code, indicator name,
      the sheet column holding the name, and the CAMEL category. */
  datatype IndicatorRow = IndicatorRow(fila: RowNumber, codigo: string, nombre: string, columna: string, categoria: string)

  /** One extracted indicator value. */
  datatype CamelRecord = CamelRecord(banco: string, fecha: Date, codigo: string, indicador: string,
                                     valor: real, categoria: string)

  /** A header period and the sheet column it was read from. */
  datatype Period = Period(fecha: Date, col: nat)

  /** INDICADORES_CAMEL, in table order. */
  const IndicatorRows: seq<IndicatorRow> := [
    IndicatorRow(6, "SOL", "Indice de Solvencia PTC/APPR", "B", "C - Capital"),
    IndicatorRow(9, "AIN", "Activos Improductivos Netos / Total Activos", "B", "A - Activos"),
    IndicatorRow(10, "CAR_ACT", "Cartera Total / Activo Total", "B", "A - Activos"),
    IndicatorRow(11, "INV_ACT", "Inversiones / Total Activo", "B", "A - Activos"),
    IndicatorRow(12, "PART_INMOB_VIP", "Participacion Credito Inmobiliario y Vivienda Interes Publico", "C", "Composicion Cartera"),
    IndicatorRow(13, "PART_PROD", "Participacion Credito Productivo Nuevo", "C", "Composicion Cartera"),
    IndicatorRow(14, "PART_CONS", "Participacion Credito de Consumo", "C", "Composicion Cartera"),
    IndicatorRow(15, "PART_INMOB", "Participacion Credito Inmobiliario", "C", "Composicion Cartera"),
    IndicatorRow(16, "PART_MICRO", "Participacion Credito Microcredito", "C", "Composicion Cartera"),
    IndicatorRow(17, "PART_VIS", "Participacion Credito Vivienda Interes Social y Publico", "C", "Composicion Cartera"),
    IndicatorRow(18, "PART_EDU", "Participacion Credito Educativo", "C", "Composicion Cartera"),
    IndicatorRow(19, "PART_INV_PUB", "Participacion Credito Inversion Publica", "C", "Composicion Cartera"),
    IndicatorRow(22, "MOR_TOT", "Morosidad Total", "C", "A - Activos"),
    IndicatorRow(23, "MOR_INMOB_VIP", "Morosidad Credito Inmobiliario y Vivienda Interes Publico", "C", "A - Activos"),
    IndicatorRow(24, "MOR_PROD", "Morosidad Credito Productivo Nuevo", "C", "A - Activos"),
    IndicatorRow(25, "MOR_CONS", "Morosidad Credito de Consumo", "C", "A - Activos"),
    IndicatorRow(26, "MOR_INMOB", "Morosidad Credito Inmobiliaria", "C", "A - Activos"),
    IndicatorRow(27, "MOR_MICRO", "Morosidad Credito Microcredito", "C", "A - Activos"),
    IndicatorRow(28, "MOR_VIS", "Morosidad Credito Vivienda Interes Social", "C", "A - Activos"),
    IndicatorRow(30, "MOR_EDU", "Morosidad Credito Educativo", "C", "A - Activos"),
    IndicatorRow(31, "MOR_INV_PUB", "Morosidad Credito Inversion Publica", "C", "A - Activos"),
    IndicatorRow(33, "COB_TOT", "Cobertura Total Cartera", "C", "A - Activos"),
    IndicatorRow(34, "COB_INMOB_VIP", "Cobertura Credito Inmobiliario y Vivienda Interes Publico", "C", "A - Activos"),
    IndicatorRow(35, "COB_PROD", "Cobertura Credito Productivo Nuevo", "C", "A - Activos"),
    IndicatorRow(36, "COB_CONS", "Cobertura Credito de Consumo", "C", "A - Activos"),
    IndicatorRow(37, "COB_INMOB", "Cobertura Credito Inmobiliaria", "C", "A - Activos"),
    IndicatorRow(38, "COB_MICRO", "Cobertura Credito Microcredito", "C", "A - Activos"),
    IndicatorRow(39, "COB_VIS", "Cobertura Credito Vivienda Interes Social", "C", "A - Activos"),
    IndicatorRow(40, "COB_EDU", "Cobertura Credito Educativo", "C", "A - Activos"),
    IndicatorRow(41, "COB_INV_PUB", "Cobertura Credito Inversion Publica", "C", "A - Activos"),
    IndicatorRow(43, "AP_PC", "Activos Productivos / Pasivos con Costo", "B", "M - Management"),
    IndicatorRow(44, "GO_MNF", "Gastos Operacion / Margen Neto Financiero", "B", "M - Management"),
    IndicatorRow(45, "GP_ACT", "Gastos Personal / Total Activo Promedio", "B", "M - Management"),
    IndicatorRow(46, "GO_ACT", "Gastos Operacion / Total Activo Promedio", "B", "M - Management"),
    IndicatorRow(48, "ROA", "Rendimiento Operativo sobre Activo (ROA)", "B", "E - Earnings"),
    IndicatorRow(49, "ROE", "Rendimiento sobre Patrimonio (ROE)", "B", "E - Earnings"),
    IndicatorRow(51, "DEP_SPREAD", "Dependencia Spread", "B", "E - Earnings"),
    IndicatorRow(52, "DEP_BRECHA", "Dependencia Brecha", "B", "E - Earnings"),
    IndicatorRow(54, "LIQ", "Indice de Liquidez Fondos Disponibles / Total Depositos", "B", "L - Liquidity")
  ]

  /** The row table has 39 entries, in strictly increasing sheet-row order
      between rows 6 and 54, none of them row 29. */
  lemma IndicatorRowsShape()
    ensures |IndicatorRows| == 39
    ensures forall i, j :: 0 <= i < j < |IndicatorRows| ==> IndicatorRows[i].fila < IndicatorRows[j].fila
    ensures forall i :: 0 <= i < |IndicatorRows| ==> 6 <= IndicatorRows[i].fila <= 54 && IndicatorRows[i].fila != 29
  {
    var fs := seq(|IndicatorRows|, i requires 0 <= i < |IndicatorRows| => IndicatorRows[i].fila as int);
    SheetRowsListed(fs);
    LiteralRowsShape(fs);
    forall i, j | 0 <= i < j < |fs|
      ensures fs[i] < fs[j]
    {
      AdjacentIncrease(fs, i, j);
    }
  }

  /** The sheet rows of the table, in table order. */
  lemma SheetRowsListed(fs: seq<int>)
    requires |fs| == |IndicatorRows| && forall i :: 0 <= i < |fs| ==> fs[i] == IndicatorRows[i].fila
    ensures fs == [6, 9, 10, 11, 12, 13, 14, 15, 16, 17, 18, 19, 22, 23, 24, 25, 26, 27, 28, 30,
                   31, 33, 34, 35, 36, 37, 38, 39, 40, 41, 43, 44, 45, 46, 48, 49, 51, 52, 54]
  {
  }

  lemma LiteralRowsShape(fs: seq<int>)
    requires fs == [6, 9, 10, 11, 12, 13, 14, 15, 16, 17, 18, 19, 22, 23, 24, 25, 26, 27, 28, 30,
                    31, 33, 34, 35, 36, 37, 38, 39, 40, 41, 43, 44, 45, 46, 48, 49, 51, 52, 54]
    ensures forall k :: 0 <= k < |fs| - 1 ==> fs[k] < fs[k + 1]
    ensures forall k :: 0 <= k < |fs| ==> 6 <= fs[k] <= 54 && fs[k] != 29
  {
  }

  /** A sequence increasing at every step increases between any two positions. */
  lemma {:induction false} AdjacentIncrease(fs: seq<int>, i: nat, j: nat)
    requires forall k :: 0 <= k < |fs| - 1 ==> fs[k] < fs[k + 1]
    requires i < j < |fs|
    ensures fs[i] < fs[j]
    decreases j - i
  {
    if i + 1 < j {
      AdjacentIncrease(fs, i + 1, j);
    }
  }


  /** The codes of the row table, in table order. */
  function IndicatorCodes(): (r: seq<string>)
    ensures |r| == |IndicatorRows| && forall i :: 0 <= i < |r| ==> r[i] == IndicatorRows[i].codigo
  {
    seq(|IndicatorRows|, i requires 0 <= i < |IndicatorRows| => IndicatorRows[i].codigo)
  }

  /** No code is used by two rows of the table: there are 39 distinct codes. */
  lemma IndicatorCodesDistinct()
    ensures forall i, j :: 0 <= i < j < |IndicatorRows| ==> IndicatorRows[i].codigo != IndicatorRows[j].codigo
  {
    var cs := IndicatorCodes();
    CodesListed(cs);
    LiteralCodesDistinct(cs);
  }

  lemma CodesListed(cs: seq<string>)
    requires cs == IndicatorCodes()
    ensures cs == ["SOL", "AIN", "CAR_ACT", "INV_ACT", "PART_INMOB_VIP", "PART_PROD", "PART_CONS", "PART_INMOB",
                  "PART_MICRO", "PART_VIS", "PART_EDU", "PART_INV_PUB", "MOR_TOT", "MOR_INMOB_VIP", "MOR_PROD",
                  "MOR_CONS", "MOR_INMOB", "MOR_MICRO", "MOR_VIS", "MOR_EDU", "MOR_INV_PUB", "COB_TOT",
                  "COB_INMOB_VIP", "COB_PROD", "COB_CONS", "COB_INMOB", "COB_MICRO", "COB_VIS", "COB_EDU",
                  "COB_INV_PUB", "AP_PC", "GO_MNF", "GP_ACT", "GO_ACT", "ROA", "ROE", "DEP_SPREAD", "DEP_BRECHA", "LIQ"]
  {
  }

  lemma LiteralCodesDistinct(cs: seq<string>)
    requires cs == ["SOL", "AIN", "CAR_ACT", "INV_ACT", "PART_INMOB_VIP", "PART_PROD", "PART_CONS", "PART_INMOB",
                  "PART_MICRO", "PART_VIS", "PART_EDU", "PART_INV_PUB", "MOR_TOT", "MOR_INMOB_VIP", "MOR_PROD",
                  "MOR_CONS", "MOR_INMOB", "MOR_MICRO", "MOR_VIS", "MOR_EDU", "MOR_INV_PUB", "COB_TOT",
                  "COB_INMOB_VIP", "COB_PROD", "COB_CONS", "COB_INMOB", "COB_MICRO", "COB_VIS", "COB_EDU",
                  "COB_INV_PUB", "AP_PC", "GO_MNF", "GP_ACT", "GO_ACT", "ROA", "ROE", "DEP_SPREAD", "DEP_BRECHA", "LIQ"]
    ensures forall i, j :: 0 <= i < j < |cs| ==> cs[i] != cs[j]
  {
    var a: seq<string> := ["SOL", "AIN", "CAR_ACT", "INV_ACT", "PART_INMOB_VIP", "PART_PROD", "PART_CONS", "PART_INMOB",
                  "PART_MICRO", "PART_VIS", "PART_EDU", "PART_INV_PUB", "MOR_TOT"];
    var b: seq<string> := ["MOR_INMOB_VIP", "MOR_PROD",
                  "MOR_CONS", "MOR_INMOB", "MOR_MICRO", "MOR_VIS", "MOR_EDU", "MOR_INV_PUB", "COB_TOT",
                  "COB_INMOB_VIP", "COB_PROD", "COB_CONS", "COB_INMOB"];
    var c: seq<string> := ["COB_MICRO", "COB_VIS", "COB_EDU",
                  "COB_INV_PUB", "AP_PC", "GO_MNF", "GP_ACT", "GO_ACT", "ROA", "ROE", "DEP_SPREAD", "DEP_BRECHA", "LIQ"];
    assert cs == a + b + c;
    LiteralChunkDistinct(a, b, c);
    JoinKeepsDistinct(a, b);
    JoinKeepsDistinct(a + b, c);
  }

  lemma LiteralChunkDistinct(a: seq<string>, b: seq<string>, c: seq<string>)
    requires a == ["SOL", "AIN", "CAR_ACT", "INV_ACT", "PART_INMOB_VIP", "PART_PROD", "PART_CONS", "PART_INMOB",
                    "PART_MICRO", "PART_VIS", "PART_EDU", "PART_INV_PUB", "MOR_TOT"]
    requires b == ["MOR_INMOB_VIP", "MOR_PROD",
                    "MOR_CONS", "MOR_INMOB", "MOR_MICRO", "MOR_VIS", "MOR_EDU", "MOR_INV_PUB", "COB_TOT",
                    "COB_INMOB_VIP", "COB_PROD", "COB_CONS", "COB_INMOB"]
    requires c == ["COB_MICRO", "COB_VIS", "COB_EDU",
                    "COB_INV_PUB", "AP_PC", "GO_MNF", "GP_ACT", "GO_ACT", "ROA", "ROE", "DEP_SPREAD", "DEP_BRECHA", "LIQ"]
    ensures forall i, j :: 0 <= i < j < |a| ==> a[i] != a[j]
    ensures forall i, j :: 0 <= i < j < |b| ==> b[i] != b[j]
    ensures forall i, j :: 0 <= i < j < |c| ==> c[i] != c[j]
    ensures Apart(a, b) && Apart(a + b, c)
  {
    LiteralChunksApart(a, b, c);
  }

  lemma LiteralChunksApart(a: seq<string>, b: seq<string>, c: seq<string>)
    requires a == ["SOL", "AIN", "CAR_ACT", "INV_ACT", "PART_INMOB_VIP", "PART_PROD", "PART_CONS", "PART_INMOB",
                    "PART_MICRO", "PART_VIS", "PART_EDU", "PART_INV_PUB", "MOR_TOT"]
    requires b == ["MOR_INMOB_VIP", "MOR_PROD",
                    "MOR_CONS", "MOR_INMOB", "MOR_MICRO", "MOR_VIS", "MOR_EDU", "MOR_INV_PUB", "COB_TOT",
                    "COB_INMOB_VIP", "COB_PROD", "COB_CONS", "COB_INMOB"]
    requires c == ["COB_MICRO", "COB_VIS", "COB_EDU",
                    "COB_INV_PUB", "AP_PC", "GO_MNF", "GP_ACT", "GO_ACT", "ROA", "ROE", "DEP_SPREAD", "DEP_BRECHA", "LIQ"]
    ensures Apart(a, b) && Apart(a, c) && Apart(b, c)
  {
  }

  // ---------------------------------------------------------------------------
  // Bank name from the folder name (extraer_nombre_banco of this script)
  // ---------------------------------------------------------------------------

  /** The index of the last ' ' in s, if any. */
  function LastSpace(s: string): (r: Option<nat>)
    ensures r.None? ==> forall k :: 0 <= k < |s| ==> s[k] != ' '
    ensures r.Some? ==> r.value < |s| && s[r.value] == ' ' && forall k :: r.value < k < |s| ==> s[k] != ' '
  {
    if s == [] then None
    else if s[|s| - 1] == ' ' then Some(|s| - 1)
    else LastSpace(s[..|s| - 1])
  }

  /** rsplit(' ', 2): with at least two spaces, the text before the
      second-to-last space; otherwise split(' ')[0], the text before the only
      space, or the whole name when it has none. */
  function BankFromFolder(s: string): string {
    match LastSpace(s)
    case None => s
    case Some(i) =>
      match LastSpace(s[..i])
      case None => s[..i]
      case Some(j) => s[..j]
  }

  /** The bank name is a prefix of the folder name. */
  lemma BankFromFolderPrefix(s: string)
    ensures BankFromFolder(s) <= s
    ensures (forall k :: 0 <= k < |s| ==> s[k] != ' ') ==> BankFromFolder(s) == s
  {
  }

  /** "<bank> <x> <y>" with x and y free of spaces gives back the bank,
      whatever spaces the bank name itself holds. */
  lemma BankFromFolderRoundTrip(b: string, x: string, y: string)
    requires forall k :: 0 <= k < |x| ==> x[k] != ' '
    requires forall k :: 0 <= k < |y| ==> y[k] != ' '
    ensures BankFromFolder(b + " " + x + " " + y) == b
  {
    var s := b + " " + x + " " + y;
    var i := |b| + 1 + |x|;
    assert s[i] == ' ';
    assert forall k :: i < k < |s| ==> s[k] == y[k - i - 1];
    var t := s[..i];
    assert t == b + " " + x;
    assert t[|b|] == ' ';
    assert forall k :: |b| < k < |t| ==> t[k] == x[k - |b| - 1];
    assert t[..|b|] == b;
  }

  /** On a folder "<bank> <MONTH> <yyyy>" whose bank name carries no
      surrounding whitespace, this extractor and the balance extractor agree. */
  lemma BankNamesAgree(b: string, k: nat, y: string)
    requires k < |BalanceSheet.MonthNames|
    requires |y| == 4 && AllDigits(y)
    requires Strip(b) == b
    ensures BankFromFolder(b + " " + BalanceSheet.MonthNames[k] + " " + y) == b
    ensures BalanceSheet.BankFromFolder(b + " " + BalanceSheet.MonthNames[k] + " " + y) == b
  {
    var m := BalanceSheet.MonthNames[k];
    BalanceSheet.MonthNamesUpper();
    assert BalanceSheet.AsciiUpperText(m) == m;
    BalanceSheet.BankFromFolderRoundTrip(b, k, m, y);
    BankFromFolderRoundTrip(b, m, y);
  }

  // ---------------------------------------------------------------------------
  // Period header: row 5 from column D, bad cells skipped
  // ---------------------------------------------------------------------------

  /** A header cell as a period: a date is taken; text is parsed and skipped
      when that fails; numbers and empty cells are skipped. */
  function HeaderCell(c: Cell, p: Parsers): Option<Date> {
    match c
    case Stamp(d, _) => Some(d)
    case Text(_) => p.toDate(c)
    case _ => None
  }

  /** The periods of row index 4 from column col on, with their columns. */
  function HeaderFrom(sh: Sheet, p: Parsers, col: nat): seq<Period>
    decreases sh.width - col
  {
    if col >= sh.width then []
    else
      (match HeaderCell(At(sh, 4, col), p) case None => [] case Some(d) => [Period(d, col)]) + HeaderFrom(sh, p, col + 1)
  }

  /** Each period's column lies in col .. width-1 and holds that period;
      the columns strictly increase. */
  lemma {:induction false} HeaderFromShape(sh: Sheet, p: Parsers, col: nat)
    ensures forall j :: 0 <= j < |HeaderFrom(sh, p, col)| ==>
      col <= HeaderFrom(sh, p, col)[j].col < sh.width &&
      HeaderCell(At(sh, 4, HeaderFrom(sh, p, col)[j].col), p) == Some(HeaderFrom(sh, p, col)[j].fecha)
    ensures forall i, j :: 0 <= i < j < |HeaderFrom(sh, p, col)| ==>
      HeaderFrom(sh, p, col)[i].col < HeaderFrom(sh, p, col)[j].col
    decreases sh.width - col
  {
    if col < sh.width {
      HeaderFromShape(sh, p, col + 1);
      var ps := HeaderFrom(sh, p, col);
      var rest := HeaderFrom(sh, p, col + 1);
      if HeaderCell(At(sh, 4, col), p).Some? {
        assert ps == [Period(HeaderCell(At(sh, 4, col), p).value, col)] + rest;
        forall j | 0 < j < |ps|
          ensures ps[j] == rest[j - 1]
        {
        }
      } else {
        assert ps == rest;
      }
    }
  }

  /** Every good header cell yields a period: none is lost. */
  lemma {:induction false} HeaderFromComplete(sh: Sheet, p: Parsers, col: nat, c: nat)
    requires col <= c < sh.width && HeaderCell(At(sh, 4, c), p).Some?
    ensures exists j :: 0 <= j < |HeaderFrom(sh, p, col)| && HeaderFrom(sh, p, col)[j] == Period(HeaderCell(At(sh, 4, c), p).value, c)
    decreases c - col
  {
    var ps := HeaderFrom(sh, p, col);
    if c == col {
      assert ps[0] == Period(HeaderCell(At(sh, 4, c), p).value, c);
    } else {
      HeaderFromComplete(sh, p, col + 1, c);
      var rest := HeaderFrom(sh, p, col + 1);
      var j :| 0 <= j < |rest| && rest[j] == Period(HeaderCell(At(sh, 4, c), p).value, c);
      var pre := if HeaderCell(At(sh, 4, col), p).Some? then 1 else 0;
      assert ps[j + pre] == rest[j];
    }
  }

  /** The header loop: fechas_validas and col_indices grow together. */
  method ReadHeader(sh: Sheet, p: Parsers) returns (fechas: seq<Date>, cols: seq<nat>)
    ensures |fechas| == |cols| == |HeaderFrom(sh, p, 3)|
    ensures forall j :: 0 <= j < |fechas| ==> HeaderFrom(sh, p, 3)[j] == Period(fechas[j], cols[j])
  {
    fechas, cols := [], [];
    var col := 3;
    while col < sh.width
      invariant 3 <= col
      invariant |fechas| == |cols|
      invariant HeaderFrom(sh, p, 3) == Zip(fechas, cols) + HeaderFrom(sh, p, col)
      decreases sh.width - col
    {
      var d := HeaderCell(At(sh, 4, col), p);
      if d.Some? {
        fechas := fechas + [d.value];
        cols := cols + [col];
      }
      col := col + 1;
    }
  }

  /** Pairs up dates and columns. */
  function Zip(fechas: seq<Date>, cols: seq<nat>): (r: seq<Period>)
    requires |fechas| == |cols|
    ensures |r| == |fechas| && forall j :: 0 <= j < |r| ==> r[j] == Period(fechas[j], cols[j])
  {
    if fechas == [] then [] else Zip(fechas[..|fechas| - 1], cols[..|cols| - 1]) + [Period(fechas[|fechas| - 1], cols[|cols| - 1])]
  }

  // ---------------------------------------------------------------------------
  // Values and records
  // ---------------------------------------------------------------------------

  /** A value cell: numbers as they are, anything else parsed after turning
      decimal commas into points; missing cells give nothing. */
  function CellValue(c: Cell, p: Parsers): Option<real> {
    match c
    case Empty => None
    case Num(v, _) => Some(v)
    case _ => p.toReal(ReplaceChar(CellText(c), ',', '.'))
  }

  /** The records of indicator row ind over the first n periods. */
  function IndicatorRecords(banco: string, periods: seq<Period>, sh: Sheet, p: Parsers, ind: IndicatorRow, n: nat): seq<CamelRecord>
    requires n <= |periods|
  {
    if n == 0 then []
    else
      IndicatorRecords(banco, periods, sh, p, ind, n - 1) +
      match CellValue(At(sh, ind.fila - 1, periods[n - 1].col), p)
      case None => []
      case Some(v) => [CamelRecord(banco, periods[n - 1].fecha, ind.codigo, ind.nombre, v, ind.categoria)]
  }

  /** The records of the first k rows of a row table; rows beyond the sheet are skipped. */
  function TableRecords(banco: string, periods: seq<Period>, sh: Sheet, p: Parsers, table: seq<IndicatorRow>, k: nat): seq<CamelRecord>
    requires k <= |table|
  {
    if k == 0 then []
    else
      TableRecords(banco, periods, sh, p, table, k - 1) +
      (if table[k - 1].fila - 1 >= |sh.rows| then []
       else IndicatorRecords(banco, periods, sh, p, table[k - 1], |periods|))
  }

  /** procesar_archivo_camel as a value: a sheet without row 5 fails (no
      records), no period gives no records, otherwise the table's rows. */
  function ExtractCamel(folder: string, sh: Sheet, p: Parsers): seq<CamelRecord> {
    if |sh.rows| < 5 then []
    else
      var periods := HeaderFrom(sh, p, 3);
      if periods == [] then [] else TableRecords(BankFromFolder(folder), periods, sh, p, IndicatorRows, |IndicatorRows|)
  }

  /** procesar_archivo_camel. */
  method ProcessCamelSheet(folder: string, sh: Sheet, p: Parsers) returns (registros: seq<CamelRecord>)
    ensures registros == ExtractCamel(folder, sh, p)
  {
    registros := [];
    if |sh.rows| < 5 {
      return;
    }
    var banco := BankFromFolder(folder);
    var fechas, cols := ReadHeader(sh, p);
    if |fechas| == 0 {
      return;
    }
    assert HeaderFrom(sh, p, 3) == Zip(fechas, cols);
    registros := ReadTable(banco, fechas, cols, sh, p);
  }

  /** The loop over the row table. */
  method ReadTable(banco: string, fechas: seq<Date>, cols: seq<nat>, sh: Sheet, p: Parsers)
    returns (registros: seq<CamelRecord>)
    requires |fechas| == |cols|
    ensures registros == TableRecords(banco, Zip(fechas, cols), sh, p, IndicatorRows, |IndicatorRows|)
  {
    registros := [];
    var k := 0;
    while k < |IndicatorRows|
      invariant 0 <= k <= |IndicatorRows|
      invariant registros == TableRecords(banco, Zip(fechas, cols), sh, p, IndicatorRows, k)
    {
      var ind := IndicatorRows[k];
      if ind.fila - 1 < |sh.rows| {
        var fila := ReadIndicator(banco, fechas, cols, sh, p, ind);
        registros := registros + fila;
      }
      k := k + 1;
    }
  }

  /** The loop over the periods of one indicator row. */
  method ReadIndicator(banco: string, fechas: seq<Date>, cols: seq<nat>, sh: Sheet, p: Parsers, ind: IndicatorRow)
    returns (fila: seq<CamelRecord>)
    requires |fechas| == |cols|
    ensures fila == IndicatorRecords(banco, Zip(fechas, cols), sh, p, ind, |fechas|)
  {
    fila := [];
    var j := 0;
    while j < |fechas|
      invariant 0 <= j <= |fechas|
      invariant fila == IndicatorRecords(banco, Zip(fechas, cols), sh, p, ind, j)
    {
      var valor := CellValue(At(sh, ind.fila - 1, cols[j]), p);
      if valor.Some? {
        fila := fila + [CamelRecord(banco, fechas[j], ind.codigo, ind.nombre, valor.value, ind.categoria)];
      }
      j := j + 1;
    }
  }

  // ---------------------------------------------------------------------------
  // What the records are made of
  // ---------------------------------------------------------------------------

  /** r is the value of table row i at period j: code, name and category come
      from the table, date from the header, the value from the cell. */
  predicate FromTableCell(r: CamelRecord, banco: string, periods: seq<Period>, sh: Sheet, p: Parsers,
                          table: seq<IndicatorRow>, i: int, j: int) {
    0 <= i < |table| && 0 <= j < |periods| && table[i].fila - 1 < |sh.rows| &&
    r == CamelRecord(banco, periods[j].fecha, table[i].codigo, table[i].nombre, r.valor, table[i].categoria) &&
    CellValue(At(sh, table[i].fila - 1, periods[j].col), p) == Some(r.valor)
  }

  ghost predicate FromTable(r: CamelRecord, banco: string, periods: seq<Period>, sh: Sheet, p: Parsers, table: seq<IndicatorRow>) {
    exists i, j :: FromTableCell(r, banco, periods, sh, p, table, i, j)
  }

  /** A row yields at most one record per period, each from a present,
      convertible cell. */
  lemma {:induction false} IndicatorRecordsSound(banco: string, periods: seq<Period>, sh: Sheet, p: Parsers,
                                                 table: seq<IndicatorRow>, i: nat, n: nat)
    requires i < |table| && table[i].fila - 1 < |sh.rows| && n <= |periods|
    ensures |IndicatorRecords(banco, periods, sh, p, table[i], n)| <= n
    ensures forall k :: 0 <= k < |IndicatorRecords(banco, periods, sh, p, table[i], n)| ==>
      FromTable(IndicatorRecords(banco, periods, sh, p, table[i], n)[k], banco, periods, sh, p, table)
  {
    if n > 0 {
      IndicatorRecordsSound(banco, periods, sh, p, table, i, n - 1);
      var prev := IndicatorRecords(banco, periods, sh, p, table[i], n - 1);
      var rs := IndicatorRecords(banco, periods, sh, p, table[i], n);
      forall k | 0 <= k < |rs|
        ensures FromTable(rs[k], banco, periods, sh, p, table)
      {
        if k < |prev| {
          assert rs[k] == prev[k];
        } else {
          assert FromTableCell(rs[k], banco, periods, sh, p, table, i, n - 1);
        }
      }
    }
  }

  lemma {:induction false} TableRecordsSound(banco: string, periods: seq<Period>, sh: Sheet, p: Parsers,
                                             table: seq<IndicatorRow>, k: nat)
    requires k <= |table|
    ensures forall m :: 0 <= m < |TableRecords(banco, periods, sh, p, table, k)| ==>
      FromTable(TableRecords(banco, periods, sh, p, table, k)[m], banco, periods, sh, p, table)
  {
    if k > 0 {
      TableRecordsSound(banco, periods, sh, p, table, k - 1);
      var prev := TableRecords(banco, periods, sh, p, table, k - 1);
      var rs := TableRecords(banco, periods, sh, p, table, k);
      if table[k - 1].fila - 1 < |sh.rows| {
        IndicatorRecordsSound(banco, periods, sh, p, table, k - 1, |periods|);
        var add := IndicatorRecords(banco, periods, sh, p, table[k - 1], |periods|);
        assert rs == prev + add;
        forall m | 0 <= m < |rs|
          ensures FromTable(rs[m], banco, periods, sh, p, table)
        {
          if m >= |prev| {
            assert rs[m] == add[m - |prev|];
          }
        }
      } else {
        assert rs == prev;
      }
    }
  }

  /** Every extracted record carries the folder's bank, a header period, and
      the code, name and category of a table row whose cell at that period
      converts to its value; a short sheet or one without periods gives none. */
  lemma ExtractCamelSound(folder: string, sh: Sheet, p: Parsers)
    ensures |sh.rows| < 5 || HeaderFrom(sh, p, 3) == [] ==> ExtractCamel(folder, sh, p) == []
    ensures forall m :: 0 <= m < |ExtractCamel(folder, sh, p)| ==>
      FromTable(ExtractCamel(folder, sh, p)[m], BankFromFolder(folder), HeaderFrom(sh, p, 3), sh, p, IndicatorRows)
  {
    if |sh.rows| >= 5 && HeaderFrom(sh, p, 3) != [] {
      TableRecordsSound(BankFromFolder(folder), HeaderFrom(sh, p, 3), sh, p, IndicatorRows, |IndicatorRows|);
    }
  }

  /** A present, convertible cell of a table row at a header period always
      gives its record. */
  lemma {:induction false} IndicatorRecordsComplete(banco: string, periods: seq<Period>, sh: Sheet, p: Parsers,
                                                    ind: IndicatorRow, n: nat, j: nat, v: real)
    requires j < n <= |periods|
    requires CellValue(At(sh, ind.fila - 1, periods[j].col), p) == Some(v)
    ensures CamelRecord(banco, periods[j].fecha, ind.codigo, ind.nombre, v, ind.categoria) in
      IndicatorRecords(banco, periods, sh, p, ind, n)
  {
    if j < n - 1 {
      IndicatorRecordsComplete(banco, periods, sh, p, ind, n - 1, j, v);
    }
  }

  /** Every row of the table inside the sheet contributes the record of each
      of its convertible cells at a header period. */
  lemma {:induction false} TableRecordsComplete(banco: string, periods: seq<Period>, sh: Sheet, p: Parsers,
                                                table: seq<IndicatorRow>, k: nat, t: nat, j: nat, v: real)
    requires t < k <= |table| && table[t].fila - 1 < |sh.rows| && j < |periods|
    requires CellValue(At(sh, table[t].fila - 1, periods[j].col), p) == Some(v)
    ensures CamelRecord(banco, periods[j].fecha, table[t].codigo, table[t].nombre, v, table[t].categoria) in
      TableRecords(banco, periods, sh, p, table, k)
  {
    if t < k - 1 {
      TableRecordsComplete(banco, periods, sh, p, table, k - 1, t, j, v);
    } else {
      IndicatorRecordsComplete(banco, periods, sh, p, table[t], |periods|, j, v);
    }
  }

  /** Completeness of the extraction: on a sheet with the header row and at
      least one period, every table row inside the sheet yields a record for
      each header period whose cell converts to a number. */
  lemma ExtractCamelComplete(folder: string, sh: Sheet, p: Parsers, t: nat, j: nat, v: real)
    requires |sh.rows| >= 5 && HeaderFrom(sh, p, 3) != []
    requires t < |IndicatorRows| && IndicatorRows[t].fila - 1 < |sh.rows| && j < |HeaderFrom(sh, p, 3)|
    requires CellValue(At(sh, IndicatorRows[t].fila - 1, HeaderFrom(sh, p, 3)[j].col), p) == Some(v)
    ensures CamelRecord(BankFromFolder(folder), HeaderFrom(sh, p, 3)[j].fecha, IndicatorRows[t].codigo,
                        IndicatorRows[t].nombre, v, IndicatorRows[t].categoria) in ExtractCamel(folder, sh, p)
  {
    TableRecordsComplete(BankFromFolder(folder), HeaderFrom(sh, p, 3), sh, p, IndicatorRows, |IndicatorRows|, t, j, v);
  }

  // ---------------------------------------------------------------------------
  // Consolidation: keep the first record per (bank, date, code), then sort
  // ---------------------------------------------------------------------------

  /** The de-duplication key (banco, fecha, codigo). */
  function RecordKey(r: CamelRecord): (string, Date, string) {
    (r.banco, r.fecha, r.codigo)
  }

  /** sort_values(['banco', 'codigo', 'fecha']). */
  predicate CamelLe(a: CamelRecord, b: CamelRecord) {
    SeriesLe(a.banco, a.codigo, a.fecha, b.banco, b.codigo, b.fecha)
  }

  lemma CamelLeTotal()
    ensures Total(CamelLe)
  {
    forall a, b
      ensures CamelLe(a, b) || CamelLe(b, a)
    {
      SeriesLeTotal(a.banco, a.codigo, a.fecha, b.banco, b.codigo, b.fecha);
    }
    forall a, b, c | CamelLe(a, b) && CamelLe(b, c)
      ensures CamelLe(a, c)
    {
      SeriesLeTransitive(a.banco, a.codigo, a.fecha, b.banco, b.codigo, b.fecha, c.banco, c.codigo, c.fecha);
    }
  }

  /** The consolidation step of main: drop_duplicates on (banco, fecha,
      codigo) keeping the first, then the sort. */
  function Consolidate(rs: seq<CamelRecord>): (r: seq<CamelRecord>)
    ensures multiset(r) == multiset(DedupFirstBy(rs, RecordKey))
    ensures SortedBy(r, CamelLe)
  {
    CamelLeTotal();
    SortBy(DedupFirstBy(rs, RecordKey), CamelLe)
  }

  /** After consolidation each (bank, date, code) key occurs once, every key
      of the input survives, every record comes from the input, and the rows
      are strictly increasing by (bank, code, date). */
  lemma ConsolidateUnique(rs: seq<CamelRecord>)
    ensures forall i, j :: 0 <= i < j < |Consolidate(rs)| ==> RecordKey(Consolidate(rs)[i]) != RecordKey(Consolidate(rs)[j])
    ensures Keys(Consolidate(rs), RecordKey) == Keys(rs, RecordKey)
    ensures forall i :: 0 <= i < |Consolidate(rs)| ==> Consolidate(rs)[i] in rs
    ensures forall i, j :: 0 <= i < j < |Consolidate(rs)| ==>
      CamelLe(Consolidate(rs)[i], Consolidate(rs)[j]) && !CamelLe(Consolidate(rs)[j], Consolidate(rs)[i])
  {
    var d := DedupFirstBy(rs, RecordKey);
    var r := Consolidate(rs);
    DedupKeepsEveryKey(rs, RecordKey);
    PermutationKeepsKeys(d, r, RecordKey);
    PermutationKeepsDistinctKeys(d, r, RecordKey);
    forall i, j | 0 <= i < j < |r|
      ensures !CamelLe(r[j], r[i])
    {
      if CamelLe(r[j], r[i]) {
        SeriesLeAntisymmetric(r[i], r[j]);
        assert false;
      }
    }
  }

  /** Two records ordered both ways by CamelLe share their key. */
  lemma SeriesLeAntisymmetric(a: CamelRecord, b: CamelRecord)
    requires CamelLe(a, b) && CamelLe(b, a)
    ensures RecordKey(a) == RecordKey(b)
  {
    if a.banco == b.banco && a.codigo == b.codigo {
      DateLeAntisymmetric(a.fecha, b.fecha);
    } else if a.banco == b.banco {
      StrLeAntisymmetric(a.codigo, b.codigo);
    } else {
      StrLeAntisymmetric(a.banco, b.banco);
    }
  }
}

=== FILE: indicator_mapping.dfy ===
// The constant tables of config/indicator_mapping.py and the colour lookup
// for banks. Dictionaries are kept as sequences of (key, value) pairs in the
// order they are written in the source, so that positions can be cited.

module IndicatorMapping {
  import opened Common
  import opened Sorting
  import IndicatorExtractor

  /** CODIGOS_BALANCE: ten asset codes, ten liability codes, seven equity codes. */
  const BalanceCodes: seq<(string, string)> := [
    ("activo_total", "1"), ("fondos_disponibles", "11"), ("operaciones_interbancarias", "12"),
    ("inversiones", "13"), ("cartera_creditos", "14"), ("deudores_aceptaciones", "15"),
    ("cuentas_por_cobrar", "16"), ("bienes_arrendamiento", "17"), ("activos_fijos", "18"),
    ("otros_activos", "19"),
    ("pasivo_total", "2"), ("obligaciones_publico", "21"), ("operaciones_interbancarias_pas", "22"),
    ("obligaciones_inmediatas", "23"), ("aceptaciones_circulacion", "24"), ("cuentas_por_pagar", "25"),
    ("obligaciones_financieras", "26"), ("valores_circulacion", "27"), ("obligaciones_convertibles", "28"),
    ("otros_pasivos", "29"),
    ("patrimonio", "3"), ("capital_social", "31"), ("prima_descuento", "32"), ("reservas", "33"),
    ("otros_aportes", "34"), ("superavit_valuaciones", "35"), ("resultados", "36")
  ]

  /** The section digit of the i-th balance code: 1 assets, 2 liabilities, 3 equity. */
  function BalanceSection(i: nat): char {
    if i < 10 then '1' else if i < 20 then '2' else '3'
  }

  /** Every balance code is a digit string that starts with its section's digit. */
  lemma BalanceCodesInSection()
    ensures |BalanceCodes| == 27
    ensures forall i :: 0 <= i < |BalanceCodes| ==>
      AllDigits(BalanceCodes[i].1) && BalanceCodes[i].1[0] == BalanceSection(i)
  {
  }

  /** CODIGOS_CARTERA: loan-portfolio sub-accounts. */
  const PortfolioCodes: seq<(string, string)> := [
    ("cartera_comercial", "1401"), ("cartera_consumo", "1402"), ("cartera_vivienda", "1403"),
    ("cartera_microcredito", "1404"), ("cartera_educativo", "1405"), ("cartera_inversion_publica", "1406"),
    ("cartera_vencida", "1421"), ("provision_cartera", "1499")
  ]

  /** Every portfolio code is a four-digit child of account 14. */
  lemma PortfolioCodesUnderLoans()
    ensures forall i :: 0 <= i < |PortfolioCodes| ==>
      |PortfolioCodes[i].1| == 4 && AllDigits(PortfolioCodes[i].1) && PortfolioCodes[i].1[..2] == "14"
  {
  }

  /** CODIGOS_RESULTADOS: seven income codes, then nine expense codes. */
  const IncomeStatementCodes: seq<(string, string)> := [
    ("ingresos_total", "5"), ("intereses_descuentos_ganados", "51"), ("comisiones_ganadas", "52"),
    ("utilidades_financieras", "53"), ("ingresos_servicios", "54"), ("otros_ingresos_operacionales", "55"),
    ("otros_ingresos", "56"),
    ("gastos_total", "4"), ("intereses_causados", "41"), ("comisiones_causadas", "42"),
    ("perdidas_financieras", "43"), ("provisiones", "44"), ("gastos_operacion", "45"),
    ("otras_perdidas_operacionales", "46"), ("otros_gastos_perdidas", "47"), ("impuestos_participaciones", "48")
  ]

  /** Income codes start with 5 and expense codes with 4. */
  lemma IncomeStatementCodesInSection()
    ensures |IncomeStatementCodes| == 16
    ensures forall i :: 0 <= i < |IncomeStatementCodes| ==>
      AllDigits(IncomeStatementCodes[i].1) && IncomeStatementCodes[i].1[0] == (if i < 7 then '5' else '4')
  {
  }

  /** INDICADORES_CAMEL: indicator name to indicator code. */
  const CamelIndicators: seq<(string, string)> := [
    ("solvencia", "SOL"),
    ("morosidad_total", "MOR_TOT"), ("morosidad_consumo", "MOR_CONS"), ("morosidad_inmobiliaria", "MOR_INMOB"),
    ("morosidad_vivienda_vip", "MOR_INMOB_VIP"), ("morosidad_vivienda_social", "MOR_VIS"),
    ("morosidad_microcredito", "MOR_MICRO"), ("morosidad_educativo", "MOR_EDU"),
    ("morosidad_productivo", "MOR_PROD"), ("morosidad_inversion_publica", "MOR_INV_PUB"),
    ("cobertura_total", "COB_TOT"), ("cobertura_consumo", "COB_CONS"), ("cobertura_inmobiliaria", "COB_INMOB"),
    ("cobertura_vivienda_vip", "COB_INMOB_VIP"), ("cobertura_vivienda_social", "COB_VIS"),
    ("cobertura_microcredito", "COB_MICRO"), ("cobertura_educativo", "COB_EDU"),
    ("cobertura_productivo", "COB_PROD"), ("cobertura_inversion_publica", "COB_INV_PUB"),
    ("cobertura_comercial_prioritario", "COB_COM_PRIO"), ("cobertura_consumo_prioritario", "COB_CONS_PRIO"),
    ("participacion_consumo", "PART_CONS"), ("participacion_inmobiliaria", "PART_INMOB"),
    ("participacion_vivienda_vip", "PART_INMOB_VIP"), ("participacion_vivienda_social", "PART_VIS"),
    ("participacion_microcredito", "PART_MICRO"), ("participacion_educativo", "PART_EDU"),
    ("participacion_productivo", "PART_PROD"), ("participacion_inversion_publica", "PART_INV_PUB"),
    ("activos_improductivos_netos", "AIN"), ("cartera_activos", "CAR_ACT"), ("inversiones_activos", "INV_ACT"),
    ("gastos_margen_financiero", "GO_MNF"), ("gastos_activo_promedio", "GO_ACT"), ("gastos_personal", "GP_ACT"),
    ("activos_productivos_pasivos_costo", "AP_PC"),
    ("roe", "ROE"), ("roa", "ROA"), ("depositos_brecha", "DEP_BRECHA"), ("depositos_spread", "DEP_SPREAD"),
    ("liquidez", "LIQ")
  ]

  /** GRUPOS_INDICADORES: indicator codes grouped by CAMEL category. */
  const IndicatorGroups: seq<(string, seq<string>)> := [
    ("C - Capital y Solvencia", ["SOL"]),
    ("A - Morosidad por Cartera", ["MOR_TOT", "MOR_CONS", "MOR_INMOB", "MOR_INMOB_VIP", "MOR_VIS", "MOR_MICRO",
                                   "MOR_EDU", "MOR_PROD", "MOR_INV_PUB"]),
    ("A - Cobertura por Cartera", ["COB_TOT", "COB_CONS", "COB_INMOB", "COB_INMOB_VIP", "COB_VIS", "COB_MICRO",
                                   "COB_EDU", "COB_PROD", "COB_INV_PUB", "COB_COM_PRIO", "COB_CONS_PRIO"]),
    ("A - Participacion por Cartera", ["PART_CONS", "PART_INMOB", "PART_INMOB_VIP", "PART_VIS", "PART_MICRO",
                                       "PART_EDU", "PART_PROD", "PART_INV_PUB"]),
    ("A - Calidad de Activos", ["AIN", "CAR_ACT", "INV_ACT"]),
    ("M - Management y Eficiencia", ["GO_MNF", "GO_ACT", "GP_ACT", "AP_PC"]),
    ("E - Earnings (Rentabilidad)", ["ROE", "ROA", "DEP_BRECHA", "DEP_SPREAD"]),
    ("L - Liquidez", ["LIQ"])
  ]

  /** ETIQUETAS_INDICADORES: indicator code to display label. */
  const IndicatorLabels: seq<(string, string)> := [
    ("SOL", "Solvencia"),
    ("MOR_TOT", "Morosidad Total"), ("MOR_CONS", "Morosidad Consumo"), ("MOR_INMOB", "Morosidad Inmobiliaria"),
    ("MOR_INMOB_VIP", "Morosidad Vivienda VIP"), ("MOR_VIS", "Morosidad Vivienda Social"),
    ("MOR_MICRO", "Morosidad Microcredito"), ("MOR_EDU", "Morosidad Educativo"),
    ("MOR_PROD", "Morosidad Productivo"), ("MOR_INV_PUB", "Morosidad Inversion Publica"),
    ("COB_TOT", "Cobertura Total"), ("COB_CONS", "Cobertura Consumo"), ("COB_INMOB", "Cobertura Inmobiliaria"),
    ("COB_INMOB_VIP", "Cobertura Vivienda VIP"), ("COB_VIS", "Cobertura Vivienda Social"),
    ("COB_MICRO", "Cobertura Microcredito"), ("COB_EDU", "Cobertura Educativo"),
    ("COB_PROD", "Cobertura Productivo"), ("COB_INV_PUB", "Cobertura Inversion Publica"),
    ("COB_COM_PRIO", "Cobertura Comercial Prioritario"), ("COB_CONS_PRIO", "Cobertura Consumo Prioritario"),
    ("PART_CONS", "Participacion Consumo"), ("PART_INMOB", "Participacion Inmobiliaria"),
    ("PART_INMOB_VIP", "Participacion Vivienda VIP"), ("PART_VIS", "Participacion Vivienda Social"),
    ("PART_MICRO", "Participacion Microcredito"), ("PART_EDU", "Participacion Educativo"),
    ("PART_PROD", "Participacion Productivo"), ("PART_INV_PUB", "Participacion Inversion Publica"),
    ("AIN", "Activos Improductivos Netos"), ("CAR_ACT", "Cartera / Activos"), ("INV_ACT", "Inversiones / Activos"),
    ("GO_MNF", "Gastos Op / Margen Neto Financiero"), ("GO_ACT", "Gastos Op / Activo Promedio"),
    ("GP_ACT", "Gastos Personal / Activo Promedio"), ("AP_PC", "Activos Productivos / Pasivos Costo"),
    ("ROE", "ROE"), ("ROA", "ROA"), ("DEP_BRECHA", "Depositos Brecha"), ("DEP_SPREAD", "Depositos Spread"),
    ("LIQ", "Liquidez")
  ]

  function Seconds(t: seq<(string, string)>): (r: seq<string>)
    ensures |r| == |t| && forall i :: 0 <= i < |t| ==> r[i] == t[i].1
  {
    seq(|t|, i requires 0 <= i < |t| => t[i].1)
  }

  function Firsts(t: seq<(string, string)>): (r: seq<string>)
    ensures |r| == |t| && forall i :: 0 <= i < |t| ==> r[i] == t[i].0
  {
    seq(|t|, i requires 0 <= i < |t| => t[i].0)
  }

  /** The codes of the groups, one group after the other. */
  function GroupedCodes(g: seq<(string, seq<string>)>): seq<string> {
    if g == [] then [] else g[0].1 + GroupedCodes(g[1..])
  }

  /** The 41 indicator codes, in the order all three tables list them. */
  const IndicatorCodeList: seq<string> := [
    "SOL", "MOR_TOT", "MOR_CONS", "MOR_INMOB", "MOR_INMOB_VIP", "MOR_VIS", "MOR_MICRO", "MOR_EDU", "MOR_PROD",
    "MOR_INV_PUB", "COB_TOT", "COB_CONS", "COB_INMOB", "COB_INMOB_VIP", "COB_VIS", "COB_MICRO", "COB_EDU",
    "COB_PROD", "COB_INV_PUB", "COB_COM_PRIO", "COB_CONS_PRIO", "PART_CONS", "PART_INMOB", "PART_INMOB_VIP",
    "PART_VIS", "PART_MICRO", "PART_EDU", "PART_PROD", "PART_INV_PUB", "AIN", "CAR_ACT", "INV_ACT", "GO_MNF",
    "GO_ACT", "GP_ACT", "AP_PC", "ROE", "ROA", "DEP_BRECHA", "DEP_SPREAD", "LIQ"
  ]

  // The lemmas below about the literal code lists take the list as a
  // parameter pinned by `requires`, and split it into chunks of a few codes.
  // Unfolding a long literal inside one proof is too expensive for the
  // verifier, so each chunk is proved on its own and the results are joined.
  lemma IndicatorCodeListDistinct(cs: seq<string>)
    requires cs == IndicatorCodeList
    ensures forall i, j :: 0 <= i < j < |cs| ==> cs[i] != cs[j]
  {
    var a: seq<string> := ["SOL", "MOR_TOT", "MOR_CONS", "MOR_INMOB", "MOR_INMOB_VIP", "MOR_VIS", "MOR_MICRO",
      "MOR_EDU", "MOR_PROD", "MOR_INV_PUB", "COB_TOT", "COB_CONS", "COB_INMOB", "COB_INMOB_VIP"];
    var b: seq<string> := ["COB_VIS", "COB_MICRO", "COB_EDU", "COB_PROD", "COB_INV_PUB", "COB_COM_PRIO", "COB_CONS_PRIO",
      "PART_CONS", "PART_INMOB", "PART_INMOB_VIP", "PART_VIS", "PART_MICRO", "PART_EDU", "PART_PROD"];
    var c: seq<string> := ["PART_INV_PUB", "AIN", "CAR_ACT", "INV_ACT", "GO_MNF", "GO_ACT", "GP_ACT",
      "AP_PC", "ROE", "ROA", "DEP_BRECHA", "DEP_SPREAD", "LIQ"];
    assert cs == a + b + c;
    CodeChunksDistinct(a, b, c);
    JoinKeepsDistinct(a, b);
    JoinKeepsDistinct(a + b, c);
  }

  lemma CodeChunksDistinct(a: seq<string>, b: seq<string>, c: seq<string>)
    requires a == ["SOL", "MOR_TOT", "MOR_CONS", "MOR_INMOB", "MOR_INMOB_VIP", "MOR_VIS", "MOR_MICRO",
      "MOR_EDU", "MOR_PROD", "MOR_INV_PUB", "COB_TOT", "COB_CONS", "COB_INMOB", "COB_INMOB_VIP"]
    requires b == ["COB_VIS", "COB_MICRO", "COB_EDU", "COB_PROD", "COB_INV_PUB", "COB_COM_PRIO", "COB_CONS_PRIO",
      "PART_CONS", "PART_INMOB", "PART_INMOB_VIP", "PART_VIS", "PART_MICRO", "PART_EDU", "PART_PROD"]
    requires c == ["PART_INV_PUB", "AIN", "CAR_ACT", "INV_ACT", "GO_MNF", "GO_ACT", "GP_ACT",
      "AP_PC", "ROE", "ROA", "DEP_BRECHA", "DEP_SPREAD", "LIQ"]
    ensures forall i, j :: 0 <= i < j < |a| ==> a[i] != a[j]
    ensures forall i, j :: 0 <= i < j < |b| ==> b[i] != b[j]
    ensures forall i, j :: 0 <= i < j < |c| ==> c[i] != c[j]
    ensures Apart(a, b) && Apart(a + b, c)
  {
    CodeChunksApart(a, b, c);
  }

  lemma CodeChunksApart(a: seq<string>, b: seq<string>, c: seq<string>)
    requires a == ["SOL", "MOR_TOT", "MOR_CONS", "MOR_INMOB", "MOR_INMOB_VIP", "MOR_VIS", "MOR_MICRO",
      "MOR_EDU", "MOR_PROD", "MOR_INV_PUB", "COB_TOT", "COB_CONS", "COB_INMOB", "COB_INMOB_VIP"]
    requires b == ["COB_VIS", "COB_MICRO", "COB_EDU", "COB_PROD", "COB_INV_PUB", "COB_COM_PRIO", "COB_CONS_PRIO",
      "PART_CONS", "PART_INMOB", "PART_INMOB_VIP", "PART_VIS", "PART_MICRO", "PART_EDU", "PART_PROD"]
    requires c == ["PART_INV_PUB", "AIN", "CAR_ACT", "INV_ACT", "GO_MNF", "GO_ACT", "GP_ACT",
      "AP_PC", "ROE", "ROA", "DEP_BRECHA", "DEP_SPREAD", "LIQ"]
    ensures Apart(a, b) && Apart(a, c) && Apart(b, c)
  {
  }

  /** The three indicator tables agree: the codes of INDICADORES_CAMEL, the
      codes of GRUPOS_INDICADORES taken group by group, and the keys of
      ETIQUETAS_INDICADORES are the same 41 distinct codes, so no code sits in
      two groups and every code has a label. */
  lemma IndicatorTablesAgree()
    ensures Seconds(CamelIndicators) == IndicatorCodeList
    ensures GroupedCodes(IndicatorGroups) == IndicatorCodeList
    ensures Firsts(IndicatorLabels) == IndicatorCodeList
    ensures |IndicatorCodeList| == 41
    ensures forall i, j :: 0 <= i < j < |IndicatorCodeList| ==> IndicatorCodeList[i] != IndicatorCodeList[j]
  {
    IndicatorCodeListDistinct(IndicatorCodeList);
    CamelIndicatorCodes();
    GroupCodes();
    LabelCodes();
  }

  lemma CamelIndicatorCodes()
    ensures Seconds(CamelIndicators) == IndicatorCodeList
  {
  }

  lemma LabelCodes()
    ensures Firsts(IndicatorLabels) == IndicatorCodeList
  {
  }

  lemma GroupCodes()
    ensures GroupedCodes(IndicatorGroups) == IndicatorCodeList
  {
    LaterGroupCodes();
    var g := IndicatorGroups;
    assert GroupedCodes(g[3..]) == g[3].1 + GroupedCodes(g[4..]);
    assert GroupedCodes(g[2..]) == g[2].1 + GroupedCodes(g[3..]);
    assert GroupedCodes(g[1..]) == g[1].1 + GroupedCodes(g[2..]);
    assert GroupedCodes(g) == g[0].1 + g[1].1 + g[2].1 + g[3].1 + GroupedCodes(g[4..]);
    GroupsJoin(g[0].1, g[1].1, g[2].1, g[3].1, GroupedCodes(g[4..]), IndicatorCodeList);
  }

  lemma GroupsJoin(a: seq<string>, b: seq<string>, c: seq<string>, d: seq<string>, e: seq<string>, all: seq<string>)
    requires a == ["SOL"]
    requires b == ["MOR_TOT", "MOR_CONS", "MOR_INMOB", "MOR_INMOB_VIP", "MOR_VIS", "MOR_MICRO", "MOR_EDU", "MOR_PROD",
                   "MOR_INV_PUB"]
    requires c == ["COB_TOT", "COB_CONS", "COB_INMOB", "COB_INMOB_VIP", "COB_VIS", "COB_MICRO", "COB_EDU", "COB_PROD",
                   "COB_INV_PUB", "COB_COM_PRIO", "COB_CONS_PRIO"]
    requires d == ["PART_CONS", "PART_INMOB", "PART_INMOB_VIP", "PART_VIS", "PART_MICRO", "PART_EDU", "PART_PROD",
                   "PART_INV_PUB"]
    requires e == ["AIN", "CAR_ACT", "INV_ACT", "GO_MNF", "GO_ACT", "GP_ACT", "AP_PC", "ROE", "ROA", "DEP_BRECHA",
                   "DEP_SPREAD", "LIQ"]
    requires all == IndicatorCodeList
    ensures a + b + c + d + e == all
  {
    assert a + b == ["SOL", "MOR_TOT", "MOR_CONS", "MOR_INMOB", "MOR_INMOB_VIP", "MOR_VIS", "MOR_MICRO", "MOR_EDU",
                     "MOR_PROD", "MOR_INV_PUB"];
    assert a + b + c == ["SOL", "MOR_TOT", "MOR_CONS", "MOR_INMOB", "MOR_INMOB_VIP", "MOR_VIS", "MOR_MICRO",
                         "MOR_EDU", "MOR_PROD", "MOR_INV_PUB", "COB_TOT", "COB_CONS", "COB_INMOB", "COB_INMOB_VIP",
                         "COB_VIS", "COB_MICRO", "COB_EDU", "COB_PROD", "COB_INV_PUB", "COB_COM_PRIO", "COB_CONS_PRIO"];
    assert a + b + c + d == IndicatorCodeList[..29];
  }

  /** The codes of the last four groups (asset quality to liquidity). */
  lemma LaterGroupCodes()
    ensures GroupedCodes(IndicatorGroups[4..]) ==
      ["AIN", "CAR_ACT", "INV_ACT", "GO_MNF", "GO_ACT", "GP_ACT", "AP_PC", "ROE", "ROA", "DEP_BRECHA", "DEP_SPREAD", "LIQ"]
  {
    assert GroupedCodes(IndicatorGroups[7..]) == ["LIQ"];
    assert GroupedCodes(IndicatorGroups[6..]) == ["ROE", "ROA", "DEP_BRECHA", "DEP_SPREAD", "LIQ"];
    assert GroupedCodes(IndicatorGroups[5..]) == ["GO_MNF", "GO_ACT", "GP_ACT", "AP_PC"] + GroupedCodes(IndicatorGroups[6..]);
    assert GroupedCodes(IndicatorGroups[4..]) == ["AIN", "CAR_ACT", "INV_ACT"] + GroupedCodes(IndicatorGroups[5..]);
  }

  /** Every code the indicator extractor emits has an entry in the
      configuration tables; the two priority-portfolio coverage codes of the
      configuration are never emitted by the extractor. */
  lemma ExtractedCodesConfigured()
    ensures forall i :: 0 <= i < |IndicatorExtractor.IndicatorRows| ==>
      IndicatorExtractor.IndicatorRows[i].codigo in IndicatorCodeList
    ensures forall i :: 0 <= i < |IndicatorExtractor.IndicatorRows| ==>
      IndicatorExtractor.IndicatorRows[i].codigo != "COB_COM_PRIO" &&
      IndicatorExtractor.IndicatorRows[i].codigo != "COB_CONS_PRIO"
  {
    var cs := IndicatorExtractor.IndicatorCodes();
    IndicatorExtractor.CodesListed(cs);
    ExtractorCodesListed(cs, IndicatorCodeList);
  }

  lemma ExtractorCodesListed(cs: seq<string>, ds: seq<string>)
    requires cs == ["SOL", "AIN", "CAR_ACT", "INV_ACT", "PART_INMOB_VIP", "PART_PROD", "PART_CONS", "PART_INMOB",
                    "PART_MICRO", "PART_VIS", "PART_EDU", "PART_INV_PUB", "MOR_TOT", "MOR_INMOB_VIP", "MOR_PROD",
                    "MOR_CONS", "MOR_INMOB", "MOR_MICRO", "MOR_VIS", "MOR_EDU", "MOR_INV_PUB", "COB_TOT",
                    "COB_INMOB_VIP", "COB_PROD", "COB_CONS", "COB_INMOB", "COB_MICRO", "COB_VIS", "COB_EDU",
                    "COB_INV_PUB", "AP_PC", "GO_MNF", "GP_ACT", "GO_ACT", "ROA", "ROE", "DEP_SPREAD", "DEP_BRECHA", "LIQ"]
    requires ds == IndicatorCodeList
    ensures forall i :: 0 <= i < |cs| ==> cs[i] in ds && cs[i] != "COB_COM_PRIO" && cs[i] != "COB_CONS_PRIO"
  {
    var c0: seq<string> := ["SOL", "AIN", "CAR_ACT", "INV_ACT", "PART_INMOB_VIP", "PART_PROD", "PART_CONS",
      "PART_INMOB", "PART_MICRO", "PART_VIS", "PART_EDU", "PART_INV_PUB", "MOR_TOT"];
    var c1: seq<string> := ["MOR_INMOB_VIP", "MOR_PROD", "MOR_CONS", "MOR_INMOB", "MOR_MICRO", "MOR_VIS", "MOR_EDU",
      "MOR_INV_PUB", "COB_TOT", "COB_INMOB_VIP", "COB_PROD", "COB_CONS", "COB_INMOB"];
    var c2: seq<string> := ["COB_MICRO", "COB_VIS", "COB_EDU", "COB_INV_PUB", "AP_PC", "GO_MNF", "GP_ACT",
      "GO_ACT", "ROA", "ROE", "DEP_SPREAD", "DEP_BRECHA", "LIQ"];
    assert cs == c0 + c1 + c2;
    ChunkListed0(c0, ds);
    ChunkListed1(c1, ds);
    ChunkListed2(c2, ds);
  }

  lemma ChunkListed0(cs: seq<string>, ds: seq<string>)
    requires cs == ["SOL", "AIN", "CAR_ACT", "INV_ACT", "PART_INMOB_VIP", "PART_PROD", "PART_CONS",
      "PART_INMOB", "PART_MICRO", "PART_VIS", "PART_EDU", "PART_INV_PUB", "MOR_TOT"]
    requires ds == IndicatorCodeList
    ensures forall x :: x in cs ==> x in ds && x != "COB_COM_PRIO" && x != "COB_CONS_PRIO"
  {
  }

  lemma ChunkListed1(cs: seq<string>, ds: seq<string>)
    requires cs == ["MOR_INMOB_VIP", "MOR_PROD", "MOR_CONS", "MOR_INMOB", "MOR_MICRO", "MOR_VIS", "MOR_EDU",
      "MOR_INV_PUB", "COB_TOT", "COB_INMOB_VIP", "COB_PROD", "COB_CONS", "COB_INMOB"]
    requires ds == IndicatorCodeList
    ensures forall x :: x in cs ==> x in ds && x != "COB_COM_PRIO" && x != "COB_CONS_PRIO"
  {
  }

  lemma ChunkListed2(cs: seq<string>, ds: seq<string>)
    requires cs == ["COB_MICRO", "COB_VIS", "COB_EDU", "COB_INV_PUB", "AP_PC", "GO_MNF", "GP_ACT",
      "GO_ACT", "ROA", "ROE", "DEP_SPREAD", "DEP_BRECHA", "LIQ"]
    requires ds == IndicatorCodeList
    ensures forall x :: x in cs ==> x in ds && x != "COB_COM_PRIO" && x != "COB_CONS_PRIO"
  {
  }

  /** One entry of RANGOS_INDICADORES. */
  datatype Range = Range(min: real, max: real, alerta: real, critico: real)

  const IndicatorRanges: seq<(string, Range)> := [
    ("morosidad", Range(0.0, 100.0, 5.0, 10.0)),
    ("cobertura", Range(0.0, 500.0, 100.0, 80.0)),
    ("roe", Range(-50.0, 50.0, 5.0, 0.0)),
    ("roa", Range(-10.0, 10.0, 0.5, 0.0)),
    ("solvencia", Range(0.0, 100.0, 12.0, 9.0)),
    ("liquidez", Range(0.0, 200.0, 20.0, 15.0))
  ]

  /** Every validation range is non-empty and holds its alert and critical
      thresholds. */
  lemma IndicatorRangesOrdered()
    ensures forall i :: 0 <= i < |IndicatorRanges| ==>
      IndicatorRanges[i].1.min < IndicatorRanges[i].1.max &&
      IndicatorRanges[i].1.min <= IndicatorRanges[i].1.alerta <= IndicatorRanges[i].1.max &&
      IndicatorRanges[i].1.min <= IndicatorRanges[i].1.critico <= IndicatorRanges[i].1.max
  {
  }

  /** BANCOS_SISTEMA: the banks expected in every dataset. */
  const SystemBanks: seq<string> := [
    "Amazonas", "Amibank", "Atlantida", "Austro", "Bolivariano", "Capital", "Citibank", "Codesarrollo",
    "Comercial Manabi", "Coopnacional", "DelBank", "Diners", "Guayaquil", "Internacional", "Litoral", "Loja",
    "Machala", "Pacifico", "Pichincha", "Procredit", "Produbanco", "Ruminahui", "Solidario", "Visionfund"
  ]

  /** COLORES_BANCOS: one colour per bank. */
  const BankColours: map<string, string> := map[
    "Pichincha" := "#1f77b4", "Guayaquil" := "#ff7f0e", "Pacifico" := "#2ca02c", "Produbanco" := "#d62728",
    "Bolivariano" := "#9467bd", "Internacional" := "#8c564b", "Austro" := "#e377c2", "Machala" := "#7f7f7f",
    "Loja" := "#bcbd22", "Solidario" := "#17becf", "Ruminahui" := "#aec7e8", "Diners" := "#ffbb78",
    "Capital" := "#98df8a", "Procredit" := "#ff9896", "Coopnacional" := "#c5b0d5", "DelBank" := "#c49c94",
    "Litoral" := "#f7b6d2", "Citibank" := "#c7c7c7", "Comercial Manabi" := "#dbdb8d",
    "Codesarrollo" := "#9edae5", "Visionfund" := "#e7ba52", "Atlantida" := "#ad494a", "Amibank" := "#8c6d31",
    "Amazonas" := "#de9ed6"
  ]

  const DefaultColour: string := "#636363"

  /** obtener_color_banco: the bank's colour, grey for an unknown bank. */
  function BankColour(banco: string): (c: string)
    ensures banco in BankColours ==> c == BankColours[banco]
    ensures banco !in BankColours ==> c == DefaultColour
  {
    if banco in BankColours then BankColours[banco] else DefaultColour
  }

  /** The expected banks are exactly the banks with a colour, 24 of them,
      and none of them is drawn in the default grey. */
  lemma EveryExpectedBankHasColour()
    ensures |SystemBanks| == 24
    ensures forall b :: b in SystemBanks <==> b in BankColours
    ensures forall b :: b in SystemBanks ==> BankColour(b) != DefaultColour
  {
    SystemBanksColoured();
    ColoursAreNotDefault();
  }

  lemma SystemBanksColoured()
    ensures |SystemBanks| == 24
    ensures forall b :: b in SystemBanks <==> b in BankColours
  {
  }

  lemma ColoursAreNotDefault()
    ensures forall b :: b in BankColours ==> BankColours[b] != DefaultColour
  {
  }
}

=== FILE: indicator_page.dfy ===
// Table logic of the CAMEL indicators page (pages/4_CAMEL.py): the date
// lookup that tolerates a one-month publication lag, the ranking of banks for
// one indicator, the exclusion of outliers for the coverage indicator, and
// the colour-scale settings of the heatmap.

module IndicatorPage {
  import opened Common
  import opened Sorting
  import IndicatorExtractor

  type Row = IndicatorExtractor.CamelRecord

  // ---------------------------------------------------------------------
  // obtener_fecha_disponible
  // ---------------------------------------------------------------------

  /** The dates of the rows of one indicator, in table order. */
  function CodeDates(df: seq<Row>, codigo: string): seq<Date> {
    if df == [] then []
    else
      CodeDates(df[..|df| - 1], codigo) +
      (if df[|df| - 1].codigo == codigo then [df[|df| - 1].fecha] else [])
  }

  /** The scan of the loop: the first date not after the target. */
  function FirstAtMost(s: seq<Date>, target: Date): Option<Date> {
    if s == [] then None
    else if DateLe(s[0], target) then Some(s[0])
    else FirstAtMost(s[1..], target)
  }

  /** obtener_fecha_disponible: the target when the indicator has a row at
      the target; otherwise the first date not after the target in the
      newest-first list; otherwise the newest date; with no rows at all, the
      target. */
  function AvailableDate(df: seq<Row>, codigo: string, target: Date): Date {
    if target in CodeDates(df, codigo) then target
    else
      var s := NewestFirst(CodeDates(df, codigo));
      match FirstAtMost(s, target)
      case Some(d) => d
      case None => if |s| > 0 then s[0] else target
  }

  /** A date of the indicator is the date of one of its rows, and back. */
  lemma {:induction false} CodeDatesMembers(df: seq<Row>, codigo: string)
    ensures forall i :: 0 <= i < |df| && df[i].codigo == codigo ==> df[i].fecha in CodeDates(df, codigo)
    ensures forall d :: d in CodeDates(df, codigo) ==> exists i :: 0 <= i < |df| && df[i].codigo == codigo && df[i].fecha == d
  {
    if df != [] {
      var n := |df| - 1;
      CodeDatesMembers(df[..n], codigo);
      forall i | 0 <= i < |df| && df[i].codigo == codigo
        ensures df[i].fecha in CodeDates(df, codigo)
      {
        if i < n {
          assert df[..n][i] == df[i];
        }
      }
      forall d | d in CodeDates(df, codigo)
        ensures exists i :: 0 <= i < |df| && df[i].codigo == codigo && df[i].fecha == d
      {
        if d in CodeDates(df[..n], codigo) {
          var i :| 0 <= i < n && df[..n][i].codigo == codigo && df[..n][i].fecha == d;
          assert df[i] == df[..n][i];
        } else {
          assert df[n].codigo == codigo && df[n].fecha == d;
        }
      }
    }
  }

  /** In a newest-first list the scan finds the newest date not after the
      target, and finds nothing only when every date is after it. */
  lemma {:induction false} FirstAtMostSpec(s: seq<Date>, target: Date)
    requires SortedBy(s, DateGe)
    ensures FirstAtMost(s, target).Some? ==>
      FirstAtMost(s, target).value in s && DateLe(FirstAtMost(s, target).value, target) &&
      forall x :: x in s && DateLe(x, target) ==> DateLe(x, FirstAtMost(s, target).value)
    ensures FirstAtMost(s, target).None? ==> forall x :: x in s ==> !DateLe(x, target)
  {
    if s != [] {
      FirstAtMostSpec(s[1..], target);
      if DateLe(s[0], target) {
        forall x | x in s && DateLe(x, target)
          ensures DateLe(x, s[0])
        {
          if x == s[0] {
            DateLeTotal(x, x);
          } else {
            var j :| 0 < j < |s| && s[j] == x;
            assert DateGe(s[0], s[j]);
          }
        }
      } else {
        forall x | x in s && DateLe(x, target)
          ensures FirstAtMost(s, target).Some? && DateLe(x, FirstAtMost(s, target).value)
        {
          assert x in s[1..];
        }
      }
    }
  }

  /** The head of a non-empty newest-first list is its newest date. */
  lemma NewestIsFirst(s: seq<Date>)
    requires SortedBy(s, DateGe) && s != []
    ensures forall x :: x in s ==> DateLe(x, s[0])
  {
    forall x | x in s
      ensures DateLe(x, s[0])
    {
      var j :| 0 <= j < |s| && s[j] == x;
      if j == 0 {
        DateLeTotal(x, x);
      } else {
        assert DateGe(s[0], s[j]);
      }
    }
  }

  /** The result of obtener_fecha_disponible, case by case: the target when
      the indicator has it; else the newest date of the indicator not after
      the target; else, when every date of the indicator is after the target,
      the newest date of the indicator (not the earliest); and the target
      when the indicator has no rows. The result is always the target or a
      date of the indicator. */
  lemma AvailableDateSpec(df: seq<Row>, codigo: string, target: Date)
    ensures AvailableDate(df, codigo, target) == target || AvailableDate(df, codigo, target) in CodeDates(df, codigo)
    ensures target in CodeDates(df, codigo) ==> AvailableDate(df, codigo, target) == target
    ensures (exists d :: d in CodeDates(df, codigo) && DateLe(d, target)) ==>
      DateLe(AvailableDate(df, codigo, target), target) &&
      forall d :: d in CodeDates(df, codigo) && DateLe(d, target) ==> DateLe(d, AvailableDate(df, codigo, target))
    ensures (CodeDates(df, codigo) != [] && forall d :: d in CodeDates(df, codigo) ==> !DateLe(d, target)) ==>
      AvailableDate(df, codigo, target) in CodeDates(df, codigo) &&
      forall d :: d in CodeDates(df, codigo) ==> DateLe(d, AvailableDate(df, codigo, target))
    ensures CodeDates(df, codigo) == [] ==> AvailableDate(df, codigo, target) == target
  {
    var ds := CodeDates(df, codigo);
    var s := NewestFirst(ds);
    assert forall x :: x in s <==> x in ds by {
      forall x
        ensures x in s <==> x in ds
      {
        assert x in s <==> x in multiset(s);
        assert x in ds <==> x in multiset(ds);
      }
    }
    FirstAtMostSpec(s, target);
    if target in ds {
      DateLeTotal(target, target);
    } else if s != [] {
      NewestIsFirst(s);
    } else {
      assert ds == [] by {
        assert |multiset(ds)| == |multiset(s)| == 0;
      }
    }
  }

  // ---------------------------------------------------------------------
  // obtener_ranking_indicador
  // ---------------------------------------------------------------------

  /** One bar of the ranking: bank, value, and value in percent. */
  datatype RankRow = RankRow(banco: string, valor: real, valorPct: real)

  /** The rows kept for the ranking: the indicator at the date, banks not
      excluded. */
  predicate Ranked(x: Row, codigo: string, fecha: Date, excluir: seq<string>) {
    x.codigo == codigo && x.fecha == fecha && x.banco !in excluir
  }

  function Bar(x: Row): RankRow {
    RankRow(x.banco, x.valor, x.valor * 100.0)
  }

  function RankedRows(df: seq<Row>, codigo: string, fecha: Date, excluir: seq<string>): seq<RankRow> {
    if df == [] then []
    else
      RankedRows(df[..|df| - 1], codigo, fecha, excluir) +
      (if Ranked(df[|df| - 1], codigo, fecha, excluir) then [Bar(df[|df| - 1])] else [])
  }

  /** Larger value first; equal values by bank name. */
  predicate BarLe(a: RankRow, b: RankRow) {
    a.valor > b.valor || (a.valor == b.valor && StrLe(a.banco, b.banco))
  }

  lemma BarLeTotal()
    ensures Total(BarLe)
  {
    forall a, b
      ensures BarLe(a, b) || BarLe(b, a)
    {
      StrLeTotal(a.banco, b.banco);
    }
    forall a, b, c | BarLe(a, b) && BarLe(b, c)
      ensures BarLe(a, c)
    {
      if a.valor == b.valor && b.valor == c.valor {
        StrLeTransitive(a.banco, b.banco, c.banco);
      }
    }
  }

  /** obtener_ranking_indicador: the bars at the resolved date, largest value
      first, together with that date. */
  function RankingIndicator(df: seq<Row>, codigo: string, fecha: Date, excluir: seq<string>): (r: (seq<RankRow>, Date))
    ensures SortedBy(r.0, BarLe)
  {
    var fechaReal := AvailableDate(df, codigo, fecha);
    BarLeTotal();
    (SortBy(RankedRows(df, codigo, fechaReal, excluir), BarLe), fechaReal)
  }

  ghost predicate FromRankedRow(df: seq<Row>, codigo: string, fecha: Date, excluir: seq<string>, b: RankRow, i: int) {
    0 <= i < |df| && Ranked(df[i], codigo, fecha, excluir) && Bar(df[i]) == b
  }

  ghost predicate FromRanked(df: seq<Row>, codigo: string, fecha: Date, excluir: seq<string>, b: RankRow) {
    exists i :: FromRankedRow(df, codigo, fecha, excluir, b, i)
  }

  /** The kept bars are exactly the bars of the kept rows. */
  lemma {:induction false} RankedRowsSpec(df: seq<Row>, codigo: string, fecha: Date, excluir: seq<string>)
    ensures forall b :: b in RankedRows(df, codigo, fecha, excluir) ==> FromRanked(df, codigo, fecha, excluir, b)
    ensures forall i :: 0 <= i < |df| && Ranked(df[i], codigo, fecha, excluir) ==> Bar(df[i]) in RankedRows(df, codigo, fecha, excluir)
  {
    if df != [] {
      var n := |df| - 1;
      RankedRowsSpec(df[..n], codigo, fecha, excluir);
      forall b | b in RankedRows(df, codigo, fecha, excluir)
        ensures FromRanked(df, codigo, fecha, excluir, b)
      {
        if b in RankedRows(df[..n], codigo, fecha, excluir) {
          var i :| FromRankedRow(df[..n], codigo, fecha, excluir, b, i);
          assert FromRankedRow(df, codigo, fecha, excluir, b, i);
        } else {
          assert FromRankedRow(df, codigo, fecha, excluir, b, n);
        }
      }
      forall i | 0 <= i < |df| && Ranked(df[i], codigo, fecha, excluir)
        ensures Bar(df[i]) in RankedRows(df, codigo, fecha, excluir)
      {
        if i < n {
          assert df[..n][i] == df[i];
        }
      }
    }
  }

  /** The ranking holds, largest value first, exactly the rows of the
      indicator at the resolved date whose bank is not excluded, each with its
      value times 100; a bar appears as often as its row does. */
  lemma RankingIndicatorSpec(df: seq<Row>, codigo: string, fecha: Date, excluir: seq<string>)
    ensures RankingIndicator(df, codigo, fecha, excluir).1 == AvailableDate(df, codigo, fecha)
    ensures multiset(RankingIndicator(df, codigo, fecha, excluir).0) ==
      multiset(RankedRows(df, codigo, AvailableDate(df, codigo, fecha), excluir))
    ensures forall b :: b in RankingIndicator(df, codigo, fecha, excluir).0 ==>
      b.valorPct == b.valor * 100.0 && b.banco !in excluir &&
      FromRanked(df, codigo, AvailableDate(df, codigo, fecha), excluir, b)
    ensures forall i :: 0 <= i < |df| && Ranked(df[i], codigo, AvailableDate(df, codigo, fecha), excluir) ==>
      Bar(df[i]) in RankingIndicator(df, codigo, fecha, excluir).0
    ensures forall i, j :: 0 <= i < j < |RankingIndicator(df, codigo, fecha, excluir).0| ==>
      RankingIndicator(df, codigo, fecha, excluir).0[i].valor >= RankingIndicator(df, codigo, fecha, excluir).0[j].valor
  {
    var f := AvailableDate(df, codigo, fecha);
    var k := RankedRows(df, codigo, f, excluir);
    var r := RankingIndicator(df, codigo, fecha, excluir).0;
    RankedRowsSpec(df, codigo, f, excluir);
    forall b
      ensures b in r <==> b in k
    {
      assert b in r <==> b in multiset(r);
      assert b in k <==> b in multiset(k);
    }
    forall b | b in r
      ensures b.valorPct == b.valor * 100.0 && b.banco !in excluir
    {
      var i :| FromRankedRow(df, codigo, f, excluir, b, i);
    }
    forall i, j | 0 <= i < j < |r|
      ensures r[i].valor >= r[j].valor
    {
      assert BarLe(r[i], r[j]);
    }
  }

  /** The banks left out of the ranking: Citibank and Coopnacional for the
      total coverage indicator, nobody otherwise. */
  function ExcludedBanks(codigo: string): seq<string> {
    if codigo == "COB_TOT" then ["Citibank", "Coopnacional"] else []
  }

  /** The exclusion only affects the coverage indicator: for it neither bank
      appears; for any other indicator every bank with a row at the resolved
      date appears. */
  lemma ExclusionOnlyForCoverage(df: seq<Row>, codigo: string, fecha: Date)
    ensures codigo == "COB_TOT" ==> forall b :: b in RankingIndicator(df, codigo, fecha, ExcludedBanks(codigo)).0 ==>
      b.banco != "Citibank" && b.banco != "Coopnacional"
    ensures codigo != "COB_TOT" ==> forall i :: 0 <= i < |df| && df[i].codigo == codigo && df[i].fecha == AvailableDate(df, codigo, fecha) ==>
      Bar(df[i]) in RankingIndicator(df, codigo, fecha, ExcludedBanks(codigo)).0
  {
    RankingIndicatorSpec(df, codigo, fecha, ExcludedBanks(codigo));
  }

  // ---------------------------------------------------------------------
  // Heatmap settings
  // ---------------------------------------------------------------------

  /** The start and end months of the heatmap, swapped when the start comes
      after the end. */
  function HeatmapWindow(inicio: Date, fin: Date): (r: (Date, Date))
    ensures DateLe(r.0, r.1)
    ensures r == (inicio, fin) || r == (fin, inicio)
    ensures DateLe(inicio, fin) ==> r == (inicio, fin)
  {
    DateLeTotal(inicio, fin);
    if DateLt(fin, inicio) then (fin, inicio) else (inicio, fin)
  }

  /** RANGOS_HEATMAP: colour-scale range per indicator, in percent. */
  const HeatmapRanges: map<string, (int, int)> := map[
    "SOL" := (0, 20),
    "ROA" := (-5, 5), "ROE" := (-20, 30), "DEP_BRECHA" := (0, 10), "DEP_SPREAD" := (0, 10),
    "LIQ" := (0, 50),
    "AIN" := (0, 40), "CAR_ACT" := (0, 100), "INV_ACT" := (0, 50),
    "MOR_TOT" := (0, 10), "MOR_CONS" := (0, 10), "MOR_INMOB" := (0, 10), "MOR_INMOB_VIP" := (0, 10),
    "MOR_VIS" := (0, 10), "MOR_MICRO" := (0, 10), "MOR_EDU" := (0, 10), "MOR_PROD" := (0, 10),
    "MOR_INV_PUB" := (0, 10),
    "COB_TOT" := (0, 300), "COB_CONS" := (0, 300), "COB_INMOB" := (0, 300), "COB_INMOB_VIP" := (0, 300),
    "COB_VIS" := (0, 300), "COB_MICRO" := (0, 300), "COB_EDU" := (0, 300), "COB_PROD" := (0, 300),
    "COB_INV_PUB" := (0, 300), "COB_COM_PRIO" := (0, 300), "COB_CONS_PRIO" := (0, 300),
    "PART_CONS" := (0, 100), "PART_INMOB" := (0, 100), "PART_INMOB_VIP" := (0, 100), "PART_VIS" := (0, 100),
    "PART_MICRO" := (0, 100), "PART_EDU" := (0, 100), "PART_PROD" := (0, 100), "PART_INV_PUB" := (0, 100),
    "AP_PC" := (80, 120), "GO_MNF" := (0, 200), "GO_ACT" := (0, 10), "GP_ACT" := (0, 5)
  ]

  /** zmid of the heatmap: none without a range, 0 for ROA and ROE, the
      middle of the range otherwise. */
  function ZMid(codigo: string): Option<real> {
    if codigo in HeatmapRanges then
      if codigo == "ROA" || codigo == "ROE" then Some(0.0)
      else Some((HeatmapRanges[codigo].0 + HeatmapRanges[codigo].1) as real / 2.0)
    else None
  }

  /** Every range is non-empty, and the ranges of ROA and ROE contain 0. */
  lemma HeatmapRangesOrdered()
    ensures forall c :: c in HeatmapRanges ==> HeatmapRanges[c].0 < HeatmapRanges[c].1
    ensures HeatmapRanges["ROA"].0 <= 0 <= HeatmapRanges["ROA"].1
    ensures HeatmapRanges["ROE"].0 <= 0 <= HeatmapRanges["ROE"].1
  {
  }

  /** The midpoint exists exactly for the indicators with a range, and then
      lies inside that range, strictly between its ends. */
  lemma ZMidInsideRange(codigo: string)
    ensures ZMid(codigo).Some? <==> codigo in HeatmapRanges
    ensures codigo in HeatmapRanges ==>
      (HeatmapRanges[codigo].0 as real) < ZMid(codigo).value < (HeatmapRanges[codigo].1 as real)
  {
    HeatmapRangesOrdered();
  }
}

=== FILE: panorama.dfy ===
// The system overview of pages/1_Panorama.py: the system metrics of a date,
// the ranking of banks by one account, the HHI concentration index, the
// comparison date one year back with its deltas, and the two-level treemap
// records with their shares. The input is the loaded balance table.

module Panorama {
  import opened Common
  import opened Sorting
  import opened DataLoader
  import IndicatorMapping

  // ---------------------------------------------------------------------
  // calcular_metricas_sistema
  // ---------------------------------------------------------------------

  /** The sum of valor for the code, in millions, or 0 when no row has the code. */
  function CodeTotalMillions(dfFecha: seq<Row>, codigo: string): real {
    if ByCode(dfFecha, codigo) == [] then 0.0 else SumPresent(ValuesOf(ByCode(dfFecha, codigo))) / 1000.0
  }

  datatype Metrics = Metrics(totalActivos: real, totalCartera: real, totalDepositos: real,
                             totalPatrimonio: real, fondosDisponibles: real, numBancos: nat)

  function SystemMetrics(df: seq<Row>, fecha: Date): Metrics {
    var dfFecha := ByDate(df, fecha);
    Metrics(CodeTotalMillions(dfFecha, "1"), CodeTotalMillions(dfFecha, "14"), CodeTotalMillions(dfFecha, "21"),
            CodeTotalMillions(dfFecha, "3"), CodeTotalMillions(dfFecha, "11"), |Distinct(BankNames(dfFecha))|)
  }

  /** The five codes are the configured activo_total, cartera_creditos,
      obligaciones_publico, patrimonio and fondos_disponibles. */
  lemma MetricCodesConfigured()
    ensures ("activo_total", "1") in IndicatorMapping.BalanceCodes
    ensures ("cartera_creditos", "14") in IndicatorMapping.BalanceCodes
    ensures ("obligaciones_publico", "21") in IndicatorMapping.BalanceCodes
    ensures ("patrimonio", "3") in IndicatorMapping.BalanceCodes
    ensures ("fondos_disponibles", "11") in IndicatorMapping.BalanceCodes
  {
    assert IndicatorMapping.BalanceCodes[0] == ("activo_total", "1");
    assert IndicatorMapping.BalanceCodes[4] == ("cartera_creditos", "14");
    assert IndicatorMapping.BalanceCodes[11] == ("obligaciones_publico", "21");
    assert IndicatorMapping.BalanceCodes[20] == ("patrimonio", "3");
    assert IndicatorMapping.BalanceCodes[1] == ("fondos_disponibles", "11");
  }

  /** The banks with a row at the date. */
  ghost function BanksAt(df: seq<Row>, fecha: Date): set<string> {
    set r | r in df && r.fecha == Some(fecha) && r.banco.Some? :: r.banco.value
  }

  /** The number of banks is the number of distinct banks with a row at the date. */
  lemma NumBanksSpec(df: seq<Row>, fecha: Date)
    ensures SystemMetrics(df, fecha).numBancos == |BanksAt(df, fecha)|
  {
    var dfFecha := ByDate(df, fecha);
    var names := Distinct(BankNames(dfFecha));
    FiltersSpec(df, [], fecha, "", "");
    BankNamesMembers(dfFecha);
    DistinctCardinality(names);
    forall b
      ensures b in names <==> b in BanksAt(df, fecha)
    {
      if b in names {
        assert b in BankNames(dfFecha);
        var i :| 0 <= i < |dfFecha| && dfFecha[i].banco == Some(b);
        assert dfFecha[i] in dfFecha;
      }
      if b in BanksAt(df, fecha) {
        var r :| r in df && r.fecha == Some(fecha) && r.banco == Some(b);
        assert r in dfFecha;
        var i :| 0 <= i < |dfFecha| && dfFecha[i] == r;
        assert b in BankNames(dfFecha);
      }
    }
    assert (set x | x in names) == BanksAt(df, fecha);
  }

  /** A code without rows at the date totals 0. */
  lemma NoRowsZeroTotal(df: seq<Row>, fecha: Date, codigo: string)
    requires forall r :: r in df && r.fecha == Some(fecha) ==> r.codigo != Some(codigo)
    ensures CodeTotalMillions(ByDate(df, fecha), codigo) == 0.0
  {
    var dfFecha := ByDate(df, fecha);
    FiltersSpec(df, [], fecha, "", codigo);
    FiltersSpec(dfFecha, [], fecha, "", codigo);
  }

  /** The system totals of a table made of two parts (two banks' files, say)
      are the sums of the parts' totals. */
  lemma CodeTotalAdditive(df: seq<Row>, more: seq<Row>, fecha: Date, codigo: string)
    ensures CodeTotalMillions(ByDate(df + more, fecha), codigo) ==
      CodeTotalMillions(ByDate(df, fecha), codigo) + CodeTotalMillions(ByDate(more, fecha), codigo)
  {
    var a := ByCode(ByDate(df, fecha), codigo);
    var b := ByCode(ByDate(more, fecha), codigo);
    FiltersSpec(df, more, fecha, "", codigo);
    FiltersSpec(ByDate(df, fecha), ByDate(more, fecha), fecha, "", codigo);
    assert ValuesOf(a + b) == ValuesOf(a) + ValuesOf(b);
    SumPresentAppend(ValuesOf(a), ValuesOf(b));
  }

  // ---------------------------------------------------------------------
  // Comparison date and deltas
  // ---------------------------------------------------------------------

  function SameDate(fecha: Date): Date -> bool {
    (d: Date) => d == fecha
  }

  /** fechas[idx + 12] in the newest-first list, or None past its end (and
      for a date not offered, where list.index raises). */
  function ComparisonDate(fechas: seq<Date>, fecha: Date): Option<Date> {
    match FirstIndex(fechas, SameDate(fecha))
    case None => None
    case Some(i) => if i + 12 < |fechas| then Some(fechas[i + 12]) else None
  }

  /** In the list of available dates the comparison date is an available date
      strictly older than the selected one; there is none when the table has
      at most twelve dates or the date is not among them. */
  lemma ComparisonDateSpec(df: seq<Row>, fecha: Date)
    ensures ComparisonDate(AvailableDates(df), fecha).Some? ==>
      ComparisonDate(AvailableDates(df), fecha).value in AvailableDates(df) &&
      DateLt(ComparisonDate(AvailableDates(df), fecha).value, fecha)
    ensures |AvailableDates(df)| <= 12 ==> ComparisonDate(AvailableDates(df), fecha).None?
    ensures fecha !in AvailableDates(df) ==> ComparisonDate(AvailableDates(df), fecha).None?
  {
    var fechas := AvailableDates(df);
    AvailableDatesSpec(df);
    match FirstIndex(fechas, SameDate(fecha))
    case None =>
    case Some(i) =>
      assert fechas[i] == fecha;
  }

  /** The year-on-year change in percent, only when the earlier figure is positive. */
  function Delta(actual: real, anterior: real): Option<real> {
    if anterior > 0.0 then Some((actual - anterior) / anterior * 100.0) else None
  }

  /** The delta exists exactly when the earlier figure is positive; it is
      positive, zero or negative as the figure grew, stayed or shrank, and is
      at least -100 for a non-negative current figure. */
  lemma DeltaSpec(actual: real, anterior: real)
    ensures Delta(actual, anterior).Some? <==> anterior > 0.0
    ensures Delta(actual, anterior).Some? ==>
      (Delta(actual, anterior).value > 0.0 <==> actual > anterior) &&
      (Delta(actual, anterior).value == 0.0 <==> actual == anterior) &&
      (actual >= 0.0 ==> Delta(actual, anterior).value >= -100.0)
  {
    if anterior > 0.0 {
      if actual >= 0.0 {
        DivideByPositive(actual - anterior, -anterior, anterior);
        assert -anterior / anterior == -1.0;
      }
    }
  }

  lemma DivideByPositive(a: real, b: real, c: real)
    requires c > 0.0 && a >= b
    ensures a / c >= b / c
  {
  }

  datatype Deltas = Deltas(activos: Option<real>, cartera: Option<real>, depositos: Option<real>,
                           patrimonio: Option<real>)

  /** The deltas of the four KPI cards against the date twelve places back. */
  function KpiDeltas(df: seq<Row>, fecha: Date): Deltas {
    match ComparisonDate(AvailableDates(df), fecha)
    case None => Deltas(None, None, None, None)
    case Some(anterior) =>
      var m := SystemMetrics(df, fecha);
      var a := SystemMetrics(df, anterior);
      Deltas(Delta(m.totalActivos, a.totalActivos), Delta(m.totalCartera, a.totalCartera),
             Delta(m.totalDepositos, a.totalDepositos), Delta(m.totalPatrimonio, a.totalPatrimonio))
  }

  /** A card shows a delta only when there is a comparison date and the
      earlier figure is positive. */
  lemma KpiDeltasSpec(df: seq<Row>, fecha: Date)
    ensures KpiDeltas(df, fecha).activos.Some? <==>
      ComparisonDate(AvailableDates(df), fecha).Some? &&
      SystemMetrics(df, ComparisonDate(AvailableDates(df), fecha).value).totalActivos > 0.0
    ensures KpiDeltas(df, fecha).cartera.Some? <==>
      ComparisonDate(AvailableDates(df), fecha).Some? &&
      SystemMetrics(df, ComparisonDate(AvailableDates(df), fecha).value).totalCartera > 0.0
    ensures KpiDeltas(df, fecha).depositos.Some? <==>
      ComparisonDate(AvailableDates(df), fecha).Some? &&
      SystemMetrics(df, ComparisonDate(AvailableDates(df), fecha).value).totalDepositos > 0.0
    ensures KpiDeltas(df, fecha).patrimonio.Some? <==>
      ComparisonDate(AvailableDates(df), fecha).Some? &&
      SystemMetrics(df, ComparisonDate(AvailableDates(df), fecha).value).totalPatrimonio > 0.0
  {
  }

  // ---------------------------------------------------------------------
  // obtener_ranking_bancos
  // ---------------------------------------------------------------------

  datatype RankEntry = RankEntry(banco: Option<string>, valor: Option<real>, valorMillones: Option<real>)

  function EntryOf(r: Row): RankEntry {
    RankEntry(r.banco, r.valor, if r.valor.Some? then Some(r.valor.value / 1000.0) else None)
  }

  function Entries(rows: seq<Row>): (r: seq<RankEntry>)
    ensures |r| == |rows| && forall i :: 0 <= i < |rows| ==> r[i] == EntryOf(rows[i])
  {
    seq(|rows|, i requires 0 <= i < |rows| => EntryOf(rows[i]))
  }

  /** sort_values('valor', ascending=False): larger values first, missing values last. */
  predicate ValueGe(a: RankEntry, b: RankEntry) {
    b.valor.None? || (a.valor.Some? && a.valor.value >= b.valor.value)
  }

  lemma ValueGeTotal()
    ensures Total(ValueGe)
  {
  }

  /** DataFrame.head(n): the first n rows; a negative n drops the last -n rows. */
  function Head<T>(s: seq<T>, n: int): (r: seq<T>)
    ensures r == s[..if n >= 0 then Min(n, |s|) else if |s| + n >= 0 then |s| + n else 0]
  {
    if n >= 0 then (if n <= |s| then s[..n] else s[..|s|])
    else if |s| + n >= 0 then s[..|s| + n]
    else s[..0]
  }

  /** The rows of the date with the code. */
  function AtDateCode(df: seq<Row>, fecha: Date, codigo: string): seq<Row> {
    ByCode(ByDate(df, fecha), codigo)
  }

  function BankRanking(df: seq<Row>, fecha: Date, codigo: string, topN: int): seq<RankEntry> {
    var rows := AtDateCode(df, fecha, codigo);
    if rows == [] then []
    else
      ValueGeTotal();
      Head(SortBy(Entries(rows), ValueGe), topN)
  }

  /** The ranking holds min(top_n, matches) entries taken from the rows of
      the date with the code, from the largest value down; every entry left
      out ranks below every entry kept, and with top_n at least the number of
      matches nothing is left out. */
  lemma BankRankingSpec(df: seq<Row>, fecha: Date, codigo: string, topN: nat)
    ensures |BankRanking(df, fecha, codigo, topN)| == Min(topN, |AtDateCode(df, fecha, codigo)|)
    ensures SortedBy(BankRanking(df, fecha, codigo, topN), ValueGe)
    ensures forall e :: e in BankRanking(df, fecha, codigo, topN) ==>
      exists r :: r in df && r.fecha == Some(fecha) && r.codigo == Some(codigo) && e == EntryOf(r)
    ensures forall x, y ::
      (x in multiset(Entries(AtDateCode(df, fecha, codigo))) - multiset(BankRanking(df, fecha, codigo, topN)) &&
       y in BankRanking(df, fecha, codigo, topN)) ==> ValueGe(y, x)
    ensures topN >= |AtDateCode(df, fecha, codigo)| ==>
      multiset(BankRanking(df, fecha, codigo, topN)) == multiset(Entries(AtDateCode(df, fecha, codigo)))
  {
    RankingFromRows(df, fecha, codigo, topN);
    var rows := AtDateCode(df, fecha, codigo);
    if rows != [] {
      ValueGeTotal();
      var s := SortBy(Entries(rows), ValueGe);
      var k := Min(topN, |s|);
      assert BankRanking(df, fecha, codigo, topN) == s[..k];
      SortedPrefixDominates(s, k, ValueGe);
      if topN >= |rows| {
        assert s[..k] == s;
      }
    }
  }

  /** Every ranking entry is the entry of a row of the date with the code. */
  lemma RankingFromRows(df: seq<Row>, fecha: Date, codigo: string, topN: nat)
    ensures forall e :: e in BankRanking(df, fecha, codigo, topN) ==>
      exists r :: r in df && r.fecha == Some(fecha) && r.codigo == Some(codigo) && e == EntryOf(r)
  {
    var rows := AtDateCode(df, fecha, codigo);
    if rows != [] {
      ValueGeTotal();
      var s := SortBy(Entries(rows), ValueGe);
      var k := Min(topN, |s|);
      assert BankRanking(df, fecha, codigo, topN) == s[..k];
      FiltersSpec(df, [], fecha, "", codigo);
      FiltersSpec(ByDate(df, fecha), [], fecha, "", codigo);
      forall e | e in s[..k]
        ensures exists r :: r in df && r.fecha == Some(fecha) && r.codigo == Some(codigo) && e == EntryOf(r)
      {
        assert e in multiset(s);
        assert e in Entries(rows);
        var i :| 0 <= i < |rows| && Entries(rows)[i] == e;
        assert rows[i] in rows;
      }
    }
  }

  // ---------------------------------------------------------------------
  // calcular_concentracion_hhi
  // ---------------------------------------------------------------------

  /** The valor column of a ranking. */
  function EntryValues(r: seq<RankEntry>): (v: seq<Option<real>>)
    ensures |v| == |r| && forall i :: 0 <= i < |r| ==> v[i] == r[i].valor
  {
    seq(|r|, i requires 0 <= i < |r| => r[i].valor)
  }

  /** participacion = valor / total * 100 (missing where valor is). */
  function Participations(v: seq<Option<real>>, total: real): (p: seq<Option<real>>)
    requires total != 0.0
    ensures |p| == |v|
    ensures forall i :: 0 <= i < |v| ==> p[i] == if v[i].Some? then Some(v[i].value / total * 100.0) else None
  {
    seq(|v|, i requires 0 <= i < |v| => if v[i].Some? then Some(v[i].value / total * 100.0) else None)
  }

  /** participacion_sq summed; missing values are skipped. */
  function SumSquares(p: seq<Option<real>>): real {
    if p == [] then 0.0 else (if p[0].Some? then p[0].value * p[0].value else 0.0) + SumSquares(p[1..])
  }

  /** Empty when no bank has assets at the date; Undefined when the asset
      total is 0, where the source divides by zero. */
  datatype Concentration = Empty | Undefined | Hhi(hhi: real, ranking: seq<RankEntry>, participacion: seq<Option<real>>)

  function HhiConcentration(df: seq<Row>, fecha: Date): Concentration {
    var ranking := BankRanking(df, fecha, "1", 50);
    var total := SumPresent(EntryValues(ranking));
    if ranking == [] then Concentration.Empty
    else if total == 0.0 then Undefined
    else Hhi(SumSquares(Participations(EntryValues(ranking), total)), ranking, Participations(EntryValues(ranking), total))
  }

  predicate NonNegativeValues(r: seq<RankEntry>) {
    forall i :: 0 <= i < |r| && r[i].valor.Some? ==> r[i].valor.value >= 0.0
  }

  /** Percentages of a common total add. */
  lemma ScaleAdds(a: real, b: real, total: real)
    requires total != 0.0
    ensures a / total * 100.0 + b / total * 100.0 == (a + b) / total * 100.0
  {
  }

  /** A total is 100 percent of itself. */
  lemma SelfShare(total: real)
    requires total != 0.0
    ensures total / total * 100.0 == 100.0
  {
  }

  /** A part of a positive total is between 0 and 100 percent of it. */
  lemma ShareBound(x: real, total: real)
    requires 0.0 <= x <= total && total > 0.0
    ensures 0.0 <= x / total * 100.0 <= 100.0
  {
    assert x / total <= 1.0;
  }

  /** The shares add up to 100 percent of the total. */
  lemma {:induction false} ParticipationsSum(v: seq<Option<real>>, total: real)
    requires total != 0.0
    ensures SumPresent(Participations(v, total)) == SumPresent(v) / total * 100.0
  {
    if v != [] {
      ParticipationsSum(v[1..], total);
      assert Participations(v, total)[1..] == Participations(v[1..], total);
      ScaleAdds(if v[0].Some? then v[0].value else 0.0, SumPresent(v[1..]), total);
    }
  }

  /** Squares of shares between 0 and 100 sum to at most 100 times the shares. */
  lemma {:induction false} SumSquaresBound(p: seq<Option<real>>)
    requires forall i :: 0 <= i < |p| && p[i].Some? ==> 0.0 <= p[i].value <= 100.0
    ensures 0.0 <= SumSquares(p) <= 100.0 * SumPresent(p)
  {
    if p != [] {
      SumSquaresBound(p[1..]);
      if p[0].Some? {
        var x := p[0].value;
        assert x * (100.0 - x) >= 0.0;
        assert 0.0 <= x * x <= 100.0 * x;
      }
    }
  }

  /** The shares of non-negative values with a non-zero total lie between 0
      and 100, so their squares sum to between 0 and 10000. */
  lemma HhiBound(v: seq<Option<real>>)
    requires SumPresent(v) != 0.0
    requires forall i :: 0 <= i < |v| && v[i].Some? ==> v[i].value >= 0.0
    ensures 0.0 <= SumSquares(Participations(v, SumPresent(v))) <= 10000.0
  {
    SharesInRange(v);
    SharesSumToHundred(v);
    SquaresOfShares(Participations(v, SumPresent(v)));
  }

  /** Shares between 0 and 100 adding up to 100 have squares summing to
      between 0 and 10000. */
  lemma SquaresOfShares(p: seq<Option<real>>)
    requires forall i :: 0 <= i < |p| && p[i].Some? ==> 0.0 <= p[i].value <= 100.0
    requires SumPresent(p) == 100.0
    ensures 0.0 <= SumSquares(p) <= 10000.0
  {
    SumSquaresBound(p);
  }

  /** The shares of the values in their non-zero total add up to 100. */
  lemma SharesSumToHundred(v: seq<Option<real>>)
    requires SumPresent(v) != 0.0
    ensures SumPresent(Participations(v, SumPresent(v))) == 100.0
  {
    ParticipationsSum(v, SumPresent(v));
    SelfShare(SumPresent(v));
  }

  /** The shares of non-negative values in their non-zero total lie between
      0 and 100. */
  lemma SharesInRange(v: seq<Option<real>>)
    requires SumPresent(v) != 0.0
    requires forall i :: 0 <= i < |v| && v[i].Some? ==> v[i].value >= 0.0
    ensures forall i :: 0 <= i < |Participations(v, SumPresent(v))| && Participations(v, SumPresent(v))[i].Some? ==>
      0.0 <= Participations(v, SumPresent(v))[i].value <= 100.0
  {
    var total := SumPresent(v);
    SumPresentNonNegative(v);
    var p := Participations(v, total);
    forall i | 0 <= i < |p| && p[i].Some?
      ensures 0.0 <= p[i].value <= 100.0
    {
      SumPresentBoundsElement(v, i);
      ShareBound(v[i].value, total);
    }
  }


  /** There is no index exactly when no row has assets at the date; the
      shares add up to 100; with non-negative asset values the HHI lies
      between 0 and 10000. */
  lemma ConcentrationSpec(df: seq<Row>, fecha: Date)
    ensures HhiConcentration(df, fecha).Empty? <==> AtDateCode(df, fecha, "1") == []
    ensures HhiConcentration(df, fecha).Hhi? ==>
      SumPresent(HhiConcentration(df, fecha).participacion) == 100.0
    ensures (HhiConcentration(df, fecha).Hhi? && NonNegativeValues(HhiConcentration(df, fecha).ranking)) ==>
      0.0 <= HhiConcentration(df, fecha).hhi <= 10000.0
  {
    var ranking := BankRanking(df, fecha, "1", 50);
    var v := EntryValues(ranking);
    if ranking != [] && SumPresent(v) != 0.0 {
      ParticipationsSum(v, SumPresent(v));
      SelfShare(SumPresent(v));
      if NonNegativeValues(ranking) {
        HhiBound(v);
      }
    }
  }

  /** A single bank with assets holds the whole system: the HHI is 10000. */
  lemma MonopolyHhi(df: seq<Row>, fecha: Date)
    requires |AtDateCode(df, fecha, "1")| == 1
    requires AtDateCode(df, fecha, "1")[0].valor.Some? && AtDateCode(df, fecha, "1")[0].valor.value > 0.0
    ensures HhiConcentration(df, fecha).Hhi? && HhiConcentration(df, fecha).hhi == 10000.0
  {
    var rows := AtDateCode(df, fecha, "1");
    BankRankingSpec(df, fecha, "1", 50);
    var ranking := BankRanking(df, fecha, "1", 50);
    assert multiset(ranking) == multiset(Entries(rows)) == multiset{EntryOf(rows[0])};
    assert ranking[0] in multiset(ranking);
    assert ranking == [EntryOf(rows[0])];
    var x := rows[0].valor.value;
    assert EntryValues(ranking) == [Some(x)];
    assert SumPresent([Some(x)]) == x;
    assert x / x == 1.0;
    assert Participations([Some(x)], x) == [Some(100.0)];
    assert SumSquares([Some(100.0)]) == 10000.0;
  }

  // ---------------------------------------------------------------------
  // obtener_datos_treemap_jerarquico
  // ---------------------------------------------------------------------

  datatype NodeKind = BankNode | AccountNode

  datatype TreeRecord = TreeRecord(labels: string, parents: string, values: real, tipo: NodeKind, id: string)

  /** The bank column as f-string text; a missing bank formats as 'nan'. */
  function BankText(r: Row): string {
    if r.banco.Some? then r.banco.value else "nan"
  }

  /** cuentas_nivel2 of the asset tree, in dictionary order. */
  const AssetAccounts: seq<(string, string)> := [
    ("11", "Fondos Disponibles"), ("13", "Inversiones"), ("14", "Cartera de Creditos"),
    ("16", "Cuentas por Cobrar"), ("17", "Bienes Realizables"), ("18", "Propiedades y Equipo"),
    ("19", "Otros Activos")
  ]

  /** cuentas_nivel2 of the liability and equity tree, in dictionary order. */
  const LiabilityAccounts: seq<(string, string)> := [
    ("21", "Obligaciones con el Publico"), ("25", "Cuentas por Pagar"), ("26", "Obligaciones Financieras"),
    ("27", "Valores en Circulacion"), ("29", "Otros Pasivos"), ("3", "Patrimonio")
  ]

  predicate PositiveValue(r: Row) {
    r.valor.Some? && r.valor.value > 0.0
  }

  function RootOf(r: Row, valor: real): TreeRecord {
    TreeRecord(BankText(r), "", valor / 1000.0, BankNode, BankText(r))
  }

  function ChildOf(r: Row, nombre: string): TreeRecord
    requires r.valor.Some?
  {
    TreeRecord(nombre, BankText(r), r.valor.value / 1000.0, AccountNode, BankText(r) + "_" + nombre)
  }

  /** Level 1 of the asset tree: a root per code-'1' row with a positive value. */
  function AssetRoots(filas: seq<Row>): seq<TreeRecord> {
    if filas == [] then []
    else
      var r := filas[|filas| - 1];
      AssetRoots(filas[..|filas| - 1]) + (if PositiveValue(r) then [RootOf(r, r.valor.value)] else [])
  }

  /** The liabilities plus equity of the row's bank at the date; 0 for a
      missing bank, which no row equals. */
  function LiabilityTotal(dfFecha: seq<Row>, r: Row): real {
    if r.banco.Some? then BankCodeSum(dfFecha, r.banco.value, "2") + BankCodeSum(dfFecha, r.banco.value, "3")
    else 0.0
  }

  /** Level 1 of the liability tree: a root per code-'1' row whose bank has
      positive liabilities plus equity. */
  function LiabilityRoots(dfFecha: seq<Row>, filas: seq<Row>): seq<TreeRecord> {
    if filas == [] then []
    else
      var r := filas[|filas| - 1];
      LiabilityRoots(dfFecha, filas[..|filas| - 1]) +
      (if LiabilityTotal(dfFecha, r) > 0.0 then [RootOf(r, LiabilityTotal(dfFecha, r))] else [])
  }

  /** The children of one level-2 account: a child per row with a positive value. */
  function AccountChildren(filas: seq<Row>, nombre: string): seq<TreeRecord> {
    if filas == [] then []
    else
      var r := filas[|filas| - 1];
      AccountChildren(filas[..|filas| - 1], nombre) + (if PositiveValue(r) then [ChildOf(r, nombre)] else [])
  }

  /** Level 2: the children of each account in turn. */
  function Children(dfFecha: seq<Row>, cuentas: seq<(string, string)>): seq<TreeRecord> {
    if cuentas == [] then []
    else
      var c := cuentas[|cuentas| - 1];
      Children(dfFecha, cuentas[..|cuentas| - 1]) + AccountChildren(ByCode(dfFecha, c.0), c.1)
  }

  /** The records of the 'activos' and 'pasivos' trees; any other kind has none. */
  function TreemapRecords(df: seq<Row>, fecha: Date, tipo: string): seq<TreeRecord> {
    var dfFecha := ByDate(df, fecha);
    if tipo == "activos" then AssetRoots(ByCode(dfFecha, "1")) + Children(dfFecha, AssetAccounts)
    else if tipo == "pasivos" then LiabilityRoots(dfFecha, ByCode(dfFecha, "1")) + Children(dfFecha, LiabilityAccounts)
    else []
  }

  method BuildTreemap(df: seq<Row>, fecha: Date, tipo: string) returns (registros: seq<TreeRecord>)
    ensures registros == TreemapRecords(df, fecha, tipo)
  {
    var dfFecha := ByDate(df, fecha);
    registros := [];
    if tipo == "activos" {
      registros := AppendAssetRoots(registros, ByCode(dfFecha, "1"));
      registros := AppendChildren(registros, dfFecha, AssetAccounts);
    } else if tipo == "pasivos" {
      registros := AppendLiabilityRoots(registros, dfFecha, ByCode(dfFecha, "1"));
      registros := AppendChildren(registros, dfFecha, LiabilityAccounts);
    }
  }

  method AppendAssetRoots(registros: seq<TreeRecord>, filas: seq<Row>) returns (out: seq<TreeRecord>)
    ensures out == registros + AssetRoots(filas)
  {
    out := registros;
    var i := 0;
    while i < |filas|
      invariant 0 <= i <= |filas|
      invariant out == registros + AssetRoots(filas[..i])
    {
      assert filas[..i + 1][..i] == filas[..i];
      var r := filas[i];
      if PositiveValue(r) {
        out := out + [RootOf(r, r.valor.value)];
      }
      i := i + 1;
    }
    assert filas[..|filas|] == filas;
  }

  method AppendLiabilityRoots(registros: seq<TreeRecord>, dfFecha: seq<Row>, filas: seq<Row>)
    returns (out: seq<TreeRecord>)
    ensures out == registros + LiabilityRoots(dfFecha, filas)
  {
    out := registros;
    var i := 0;
    while i < |filas|
      invariant 0 <= i <= |filas|
      invariant out == registros + LiabilityRoots(dfFecha, filas[..i])
    {
      assert filas[..i + 1][..i] == filas[..i];
      var r := filas[i];
      var valorTotal := LiabilityTotal(dfFecha, r);
      if valorTotal > 0.0 {
        out := out + [RootOf(r, valorTotal)];
      }
      i := i + 1;
    }
    assert filas[..|filas|] == filas;
  }

  method AppendChildren(registros: seq<TreeRecord>, dfFecha: seq<Row>, cuentas: seq<(string, string)>)
    returns (out: seq<TreeRecord>)
    ensures out == registros + Children(dfFecha, cuentas)
  {
    out := registros;
    var k := 0;
    while k < |cuentas|
      invariant 0 <= k <= |cuentas|
      invariant out == registros + Children(dfFecha, cuentas[..k])
    {
      assert cuentas[..k + 1][..k] == cuentas[..k];
      var (codigo, nombre) := cuentas[k];
      out := AppendAccountChildren(out, ByCode(dfFecha, codigo), nombre);
      k := k + 1;
    }
    assert cuentas[..|cuentas|] == cuentas;
  }

  method AppendAccountChildren(registros: seq<TreeRecord>, filas: seq<Row>, nombre: string)
    returns (out: seq<TreeRecord>)
    ensures out == registros + AccountChildren(filas, nombre)
  {
    out := registros;
    var i := 0;
    while i < |filas|
      invariant 0 <= i <= |filas|
      invariant out == registros + AccountChildren(filas[..i], nombre)
    {
      assert filas[..i + 1][..i] == filas[..i];
      var r := filas[i];
      if PositiveValue(r) {
        out := out + [ChildOf(r, nombre)];
      }
      i := i + 1;
    }
    assert filas[..|filas|] == filas;
  }

  ghost predicate RootFromRow(filas: seq<Row>, t: TreeRecord) {
    exists r :: r in filas && PositiveValue(r) && t == RootOf(r, r.valor.value)
  }

  /** The asset roots are exactly the roots of the code-'1' rows with a
      positive value; each is a bank node without parent. */
  lemma {:induction false} AssetRootsSpec(filas: seq<Row>)
    ensures forall r :: r in filas && PositiveValue(r) ==> RootOf(r, r.valor.value) in AssetRoots(filas)
    ensures forall t :: t in AssetRoots(filas) ==>
      RootFromRow(filas, t) && t.parents == "" && t.tipo == BankNode && t.values > 0.0
  {
    if filas != [] {
      var n := |filas| - 1;
      AssetRootsSpec(filas[..n]);
      assert filas == filas[..n] + [filas[n]];
      forall t | t in AssetRoots(filas)
        ensures RootFromRow(filas, t)
      {
        if t in AssetRoots(filas[..n]) {
          var r :| r in filas[..n] && PositiveValue(r) && t == RootOf(r, r.valor.value);
          assert r in filas;
        } else {
          assert filas[n] in filas;
        }
      }
    }
  }

  ghost predicate ChildFromRow(filas: seq<Row>, nombre: string, t: TreeRecord) {
    exists r :: r in filas && PositiveValue(r) && t == ChildOf(r, nombre)
  }

  /** An account's children are exactly the children of its rows with a
      positive value; each hangs from its bank under the id "{banco}_{nombre}". */
  lemma {:induction false} AccountChildrenSpec(filas: seq<Row>, nombre: string)
    ensures forall r :: r in filas && PositiveValue(r) ==> ChildOf(r, nombre) in AccountChildren(filas, nombre)
    ensures forall t :: t in AccountChildren(filas, nombre) ==>
      ChildFromRow(filas, nombre, t) && t.labels == nombre && t.id == t.parents + "_" + nombre &&
      t.tipo == AccountNode && t.values > 0.0
  {
    if filas != [] {
      var n := |filas| - 1;
      AccountChildrenSpec(filas[..n], nombre);
      assert filas == filas[..n] + [filas[n]];
      forall t | t in AccountChildren(filas, nombre)
        ensures ChildFromRow(filas, nombre, t)
      {
        if t in AccountChildren(filas[..n], nombre) {
          var r :| r in filas[..n] && PositiveValue(r) && t == ChildOf(r, nombre);
          assert r in filas;
        } else {
          assert filas[n] in filas;
        }
      }
    }
  }

  ghost predicate ChildOfAccount(dfFecha: seq<Row>, cuentas: seq<(string, string)>, t: TreeRecord) {
    exists k :: 0 <= k < |cuentas| && t in AccountChildren(ByCode(dfFecha, cuentas[k].0), cuentas[k].1)
  }

  /** Level 2 holds the children of the listed accounts and nothing else. */
  lemma ChildrenSpec(dfFecha: seq<Row>, cuentas: seq<(string, string)>)
    ensures forall k, t :: 0 <= k < |cuentas| && t in AccountChildren(ByCode(dfFecha, cuentas[k].0), cuentas[k].1) ==>
      t in Children(dfFecha, cuentas)
    ensures forall t :: t in Children(dfFecha, cuentas) ==> ChildOfAccount(dfFecha, cuentas, t)
  {
    ChildrenComplete(dfFecha, cuentas);
    ChildrenSound(dfFecha, cuentas);
  }

  lemma {:induction false} ChildrenComplete(dfFecha: seq<Row>, cuentas: seq<(string, string)>)
    ensures forall k, t :: 0 <= k < |cuentas| && t in AccountChildren(ByCode(dfFecha, cuentas[k].0), cuentas[k].1) ==>
      t in Children(dfFecha, cuentas)
  {
    if cuentas != [] {
      var n := |cuentas| - 1;
      ChildrenComplete(dfFecha, cuentas[..n]);
      var last := AccountChildren(ByCode(dfFecha, cuentas[n].0), cuentas[n].1);
      assert Children(dfFecha, cuentas) == Children(dfFecha, cuentas[..n]) + last;
      forall k, t | 0 <= k < |cuentas| && t in AccountChildren(ByCode(dfFecha, cuentas[k].0), cuentas[k].1)
        ensures t in Children(dfFecha, cuentas)
      {
        if k < n {
          assert cuentas[..n][k] == cuentas[k];
          assert t in Children(dfFecha, cuentas[..n]);
        } else {
          assert t in last;
        }
      }
    }
  }

  lemma {:induction false} ChildrenSound(dfFecha: seq<Row>, cuentas: seq<(string, string)>)
    ensures forall t :: t in Children(dfFecha, cuentas) ==> ChildOfAccount(dfFecha, cuentas, t)
  {
    if cuentas != [] {
      var n := |cuentas| - 1;
      ChildrenSound(dfFecha, cuentas[..n]);
      var last := AccountChildren(ByCode(dfFecha, cuentas[n].0), cuentas[n].1);
      assert Children(dfFecha, cuentas) == Children(dfFecha, cuentas[..n]) + last;
      forall t | t in Children(dfFecha, cuentas)
        ensures ChildOfAccount(dfFecha, cuentas, t)
      {
        if t in Children(dfFecha, cuentas[..n]) {
          var k :| 0 <= k < n && t in AccountChildren(ByCode(dfFecha, cuentas[..n][k].0), cuentas[..n][k].1);
          assert cuentas[..n][k] == cuentas[k];
        } else {
          assert t in last;
        }
      }
    }
  }

  /** The asset tree: its roots are the banks' code-'1' rows with positive
      value, without parent; every other record is the child, with positive
      value, of a row at the date of one of the fixed level-2 accounts, named
      after it and hanging from the row's bank under "{banco}_{nombre}". */
  lemma AssetTreemapSpec(df: seq<Row>, fecha: Date)
    ensures forall r :: r in df && r.fecha == Some(fecha) && r.codigo == Some("1") && PositiveValue(r) ==>
      RootOf(r, r.valor.value) in TreemapRecords(df, fecha, "activos")
    ensures forall t :: t in TreemapRecords(df, fecha, "activos") && t.tipo == BankNode ==>
      RootFromRow(ByCode(ByDate(df, fecha), "1"), t) && t.parents == "" && t.values > 0.0
    ensures forall t :: t in TreemapRecords(df, fecha, "activos") && t.tipo == AccountNode ==>
      ChildOfAccount(ByDate(df, fecha), AssetAccounts, t) && t.id == t.parents + "_" + t.labels && t.values > 0.0
  {
    var dfFecha := ByDate(df, fecha);
    FiltersSpec(df, [], fecha, "", "1");
    FiltersSpec(dfFecha, [], fecha, "", "1");
    AssetRootsSpec(ByCode(dfFecha, "1"));
    ChildrenSpec(dfFecha, AssetAccounts);
    forall t | t in Children(dfFecha, AssetAccounts)
      ensures t.tipo == AccountNode && t.id == t.parents + "_" + t.labels && t.values > 0.0
    {
      var k :| 0 <= k < |AssetAccounts| && t in AccountChildren(ByCode(dfFecha, AssetAccounts[k].0), AssetAccounts[k].1);
      AccountChildrenSpec(ByCode(dfFecha, AssetAccounts[k].0), AssetAccounts[k].1);
    }
  }

  ghost predicate LiabilityRootFromRow(dfFecha: seq<Row>, filas: seq<Row>, t: TreeRecord) {
    exists r :: r in filas && LiabilityTotal(dfFecha, r) > 0.0 && t == RootOf(r, LiabilityTotal(dfFecha, r))
  }

  /** The liability roots are exactly the roots of the code-'1' rows whose
      bank has positive liabilities plus equity at the date, with that sum
      (in millions) as value; a row without bank has no root. */
  lemma {:induction false} LiabilityRootsSpec(dfFecha: seq<Row>, filas: seq<Row>)
    ensures forall r :: r in filas && LiabilityTotal(dfFecha, r) > 0.0 ==>
      RootOf(r, LiabilityTotal(dfFecha, r)) in LiabilityRoots(dfFecha, filas)
    ensures forall t :: t in LiabilityRoots(dfFecha, filas) ==>
      LiabilityRootFromRow(dfFecha, filas, t) && t.parents == "" && t.tipo == BankNode && t.values > 0.0
    ensures forall r: Row :: r.banco.None? ==> LiabilityTotal(dfFecha, r) == 0.0
  {
    if filas != [] {
      var n := |filas| - 1;
      LiabilityRootsSpec(dfFecha, filas[..n]);
      assert filas == filas[..n] + [filas[n]];
      forall t | t in LiabilityRoots(dfFecha, filas)
        ensures LiabilityRootFromRow(dfFecha, filas, t)
      {
        if t in LiabilityRoots(dfFecha, filas[..n]) {
          var r :| r in filas[..n] && LiabilityTotal(dfFecha, r) > 0.0 && t == RootOf(r, LiabilityTotal(dfFecha, r));
          assert r in filas;
        } else {
          assert filas[n] in filas;
        }
      }
    }
  }

  // Shares of the treemap

  datatype TreemapRow = TreemapRow(rec: TreeRecord, participacion: real)

  /** The sum of the values of the roots (parents == ''). */
  function RootTotal(recs: seq<TreeRecord>): real {
    if recs == [] then 0.0
    else RootTotal(recs[..|recs| - 1]) + (if recs[|recs| - 1].parents == "" then recs[|recs| - 1].values else 0.0)
  }

  function Shares(recs: seq<TreeRecord>, total: real): (r: seq<TreemapRow>)
    requires total > 0.0
    ensures |r| == |recs| && forall i :: 0 <= i < |recs| ==> r[i] == TreemapRow(recs[i], recs[i].values / total * 100.0)
  {
    seq(|recs|, i requires 0 <= i < |recs| => TreemapRow(recs[i], recs[i].values / total * 100.0))
  }

  /** participacion: values over the root total, or 0 everywhere when that
      total is not positive. */
  function WithParticipation(recs: seq<TreeRecord>): seq<TreemapRow> {
    var total := RootTotal(recs);
    if total > 0.0 then Shares(recs, total)
    else seq(|recs|, i requires 0 <= i < |recs| => TreemapRow(recs[i], 0.0))
  }

  /** The participation of the roots. */
  function RootShareSum(rows: seq<TreemapRow>): real {
    if rows == [] then 0.0
    else
      RootShareSum(rows[..|rows| - 1]) +
      (if rows[|rows| - 1].rec.parents == "" then rows[|rows| - 1].participacion else 0.0)
  }

  lemma {:induction false} RootSharesScale(recs: seq<TreeRecord>, total: real)
    requires total > 0.0
    ensures RootShareSum(Shares(recs, total)) == RootTotal(recs) / total * 100.0
  {
    if recs != [] {
      var n := |recs| - 1;
      RootSharesScale(recs[..n], total);
      assert Shares(recs, total)[..n] == Shares(recs[..n], total);
      ScaleAdds(RootTotal(recs[..n]), if recs[n].parents == "" then recs[n].values else 0.0, total);
    }
  }

  /** Every record keeps its place; when the roots total a positive amount
      their participations add up to 100, and otherwise every participation
      is 0. */
  lemma WithParticipationSpec(recs: seq<TreeRecord>)
    ensures |WithParticipation(recs)| == |recs|
    ensures forall i :: 0 <= i < |recs| ==> WithParticipation(recs)[i].rec == recs[i]
    ensures RootTotal(recs) > 0.0 ==> RootShareSum(WithParticipation(recs)) == 100.0
    ensures RootTotal(recs) <= 0.0 ==> forall i :: 0 <= i < |recs| ==> WithParticipation(recs)[i].participacion == 0.0
  {
    var total := RootTotal(recs);
    if total > 0.0 {
      RootSharesScale(recs, total);
      SelfShare(total);
    }
  }
}

=== FILE: script_config.dfy ===
// The download configuration of scripts/config.py: the target period (the
// month before "today", which is a parameter here), its display name, the
// output folder, the year XPath, the headless flag and the validation.

module ScriptConfig {
  import opened Common

  // ---------------------------------------------------------------------
  // Decimal text of integers (f-string formatting)
  // ---------------------------------------------------------------------

  function DigitChar(d: nat): char
    requires d < 10
  {
    "0123456789"[d]
  }

  /** The decimal digits of n, without leading zeros. */
  function Decimal(n: nat): string
    decreases n
  {
    if n < 10 then [DigitChar(n)] else Decimal(n / 10) + [DigitChar(n % 10)]
  }

  /** f"{i}" for an int. */
  function IntText(i: int): string {
    if i < 0 then "-" + Decimal(-i) else Decimal(i)
  }

  function DigitValue(c: char): nat {
    if '0' <= c <= '9' then (c as int - '0' as int) as nat else 0
  }

  /** The number a string of decimal digits denotes. */
  function ParseDecimal(s: string): nat {
    if s == [] then 0 else ParseDecimal(s[..|s| - 1]) * 10 + DigitValue(s[|s| - 1])
  }

  /** The text of a natural number is a non-empty digit string without
      leading zero that reads back as the number. */
  lemma {:induction false} DecimalRoundTrip(n: nat)
    ensures Decimal(n) != [] && AllDigits(Decimal(n))
    ensures |Decimal(n)| > 1 ==> Decimal(n)[0] != '0'
    ensures ParseDecimal(Decimal(n)) == n
    decreases n
  {
    if n >= 10 {
      DecimalRoundTrip(n / 10);
      var s := Decimal(n);
      assert s[..|s| - 1] == Decimal(n / 10);
      assert s[0] == Decimal(n / 10)[0];
    }
  }

  // ---------------------------------------------------------------------
  // obtener_periodo_objetivo
  // ---------------------------------------------------------------------

  /** meses_espanol of obtener_periodo_objetivo, January first. */
  const UpperMonths: seq<string> := [
    "ENERO", "FEBRERO", "MARZO", "ABRIL", "MAYO", "JUNIO",
    "JULIO", "AGOSTO", "SEPTIEMBRE", "OCTUBRE", "NOVIEMBRE", "DICIEMBRE"
  ]

  /** meses_espanol of get_carpeta_salida, January first. */
  const LowerMonths: seq<string> := [
    "enero", "febrero", "marzo", "abril", "mayo", "junio",
    "julio", "agosto", "septiembre", "octubre", "noviembre", "diciembre"
  ]

  datatype Period = Period(ano: int, mes: int, nombre: string)

  /** The day before the first of the month of hoy. */
  function DayBeforeMonth(hoy: Date): Date
    requires 1 <= hoy.month <= 12
  {
    if hoy.month == 1 then Date(hoy.year - 1, 12, 31) else MonthEnd(hoy.year, hoy.month - 1)
  }

  /** The period published on the 10th of the month of hoy: the month before. */
  function TargetPeriod(hoy: Date): Period
    requires 1 <= hoy.month <= 12
  {
    var d := DayBeforeMonth(hoy);
    Period(d.year, d.month, UpperMonths[d.month - 1] + " " + IntText(d.year))
  }

  /** The target is the previous calendar month, December of the year before
      for January, and its name is "<MES> <año>". */
  lemma TargetPeriodSpec(hoy: Date)
    requires 1 <= hoy.month <= 12
    ensures hoy.month > 1 ==> TargetPeriod(hoy).ano == hoy.year && TargetPeriod(hoy).mes == hoy.month - 1
    ensures hoy.month == 1 ==> TargetPeriod(hoy).ano == hoy.year - 1 && TargetPeriod(hoy).mes == 12
    ensures 1 <= TargetPeriod(hoy).mes <= 12
    ensures TargetPeriod(hoy).nombre == UpperMonths[TargetPeriod(hoy).mes - 1] + " " + IntText(TargetPeriod(hoy).ano)
    ensures MonthIndexOf(TargetPeriod(hoy).ano, TargetPeriod(hoy).mes) + 1 == MonthIndexOf(hoy.year, hoy.month)
  {
  }

  /** Months counted from year 0. */
  function MonthIndexOf(ano: int, mes: int): int {
    ano * 12 + mes - 1
  }

  // ---------------------------------------------------------------------
  // get_carpeta_salida, get_ano_xpath, CHROME_HEADLESS
  // ---------------------------------------------------------------------

  function CarpetaSalida(p: Period): string
    requires 1 <= p.mes <= 12
  {
    "datos_bancos_" + LowerMonths[p.mes - 1] + "_" + IntText(p.ano)
  }

  function AnoXpath(anoBuscar: int): string {
    "//*[contains(text(), 'Año " + IntText(anoBuscar) + "')]"
  }

  function UpperString(s: string): (r: string)
    ensures |r| == |s| && forall i :: 0 <= i < |s| ==> r[i] == Upper(s[i])
  {
    seq(|s|, i requires 0 <= i < |s| => Upper(s[i]))
  }

  // The month tables are parameters pinned by `requires` rather than
  // literals in the body, so that the verifier unfolds them only once.
  lemma MonthTablesAgreeOn(lower: seq<string>, upper: seq<string>)
    requires lower == ["enero", "febrero", "marzo", "abril", "mayo", "junio",
                       "julio", "agosto", "septiembre", "octubre", "noviembre", "diciembre"]
    requires upper == ["ENERO", "FEBRERO", "MARZO", "ABRIL", "MAYO", "JUNIO",
                       "JULIO", "AGOSTO", "SEPTIEMBRE", "OCTUBRE", "NOVIEMBRE", "DICIEMBRE"]
    ensures |lower| == |upper| == 12
    ensures forall m :: 0 <= m < 12 ==> UpperString(lower[m]) == upper[m]
  {
  }

  /** The folder's month is the period's month in lower case: the two month
      tables agree up to case. The folder is "datos_bancos_<mes>_<año>" and
      the XPath looks for the text "Año <año>". */
  lemma OutputNamesSpec(p: Period)
    requires 1 <= p.mes <= 12
    ensures UpperString(LowerMonths[p.mes - 1]) == UpperMonths[p.mes - 1]
    ensures CarpetaSalida(p) == "datos_bancos_" + LowerMonths[p.mes - 1] + "_" + IntText(p.ano)
    ensures IsSubstring("Año " + IntText(p.ano), AnoXpath(p.ano))
  {
    MonthTablesAgreeOn(LowerMonths, UpperMonths);
    var x := AnoXpath(p.ano);
    var k := "Año " + IntText(p.ano);
    assert x == "//*[contains(text(), '" + k + "')]";
    SubstringAt("//*[contains(text(), '", k, "')]");
  }

  lemma {:induction false} SubstringAt(pre: string, k: string, post: string)
    ensures IsSubstring(k, pre + k + post)
    decreases |pre|
  {
    if pre == [] {
      assert k <= pre + k + post;
    } else {
      assert (pre + k + post)[1..] == pre[1..] + k + post;
      SubstringAt(pre[1..], k, post);
    }
  }

  function LowerChar(c: char): char {
    if 'A' <= c <= 'Z' then (c as int + 32) as char else c
  }

  function LowerString(s: string): (r: string)
    ensures |r| == |s|
  {
    seq(|s|, i requires 0 <= i < |s| => LowerChar(s[i]))
  }

  /** CHROME_HEADLESS from the GITHUB_ACTIONS variable (default 'false'). */
  function ChromeHeadless(githubActions: Option<string>): bool {
    LowerString(if githubActions.Some? then githubActions.value else "false") == "true" || true
  }

  /** The trailing `or True` makes the flag true whatever the environment says. */
  lemma ChromeHeadlessAlways(githubActions: Option<string>)
    ensures ChromeHeadless(githubActions)
  {
  }

  // ---------------------------------------------------------------------
  // validar_configuracion
  // ---------------------------------------------------------------------

  datatype ConfigError = InvalidYear(ano: int) | InvalidMonth(mes: int)

  /** The errors found, in the order they are checked. */
  function ConfigErrors(anoBuscar: int, mes: int, anoActual: int): seq<ConfigError> {
    (if anoBuscar < 2003 || anoBuscar > anoActual + 1 then [InvalidYear(anoBuscar)] else []) +
    (if mes < 1 || mes > 12 then [InvalidMonth(mes)] else [])
  }

  /** validar_configuracion: the errors (printed by the source) and the verdict. */
  method ValidateConfiguration(anoBuscar: int, mes: int, anoActual: int) returns (ok: bool, errores: seq<ConfigError>)
    ensures errores == ConfigErrors(anoBuscar, mes, anoActual)
    ensures ok <==> errores == []
  {
    errores := [];
    if anoBuscar < 2003 || anoBuscar > anoActual + 1 {
      errores := errores + [InvalidYear(anoBuscar)];
    }
    if mes < 1 || mes > 12 {
      errores := errores + [InvalidMonth(mes)];
    }
    ok := errores == [];
  }

  /** The configuration fails exactly when the year is before 2003 or after
      next year, or the month is outside 1..12; each fault is reported once. */
  lemma ConfigErrorsSpec(anoBuscar: int, mes: int, anoActual: int)
    ensures ConfigErrors(anoBuscar, mes, anoActual) == [] <==>
      2003 <= anoBuscar <= anoActual + 1 && 1 <= mes <= 12
    ensures InvalidYear(anoBuscar) in ConfigErrors(anoBuscar, mes, anoActual) <==>
      anoBuscar < 2003 || anoBuscar > anoActual + 1
    ensures InvalidMonth(mes) in ConfigErrors(anoBuscar, mes, anoActual) <==> mes < 1 || mes > 12
    ensures |ConfigErrors(anoBuscar, mes, anoActual)| <= 2
  {
  }

  /** From February 2003 on, the period computed from today always passes
      the validation run on the same day. */
  lemma TargetPeriodValid(hoy: Date)
    requires 1 <= hoy.month <= 12
    requires hoy.year > 2003 || (hoy.year == 2003 && hoy.month > 1)
    ensures ConfigErrors(TargetPeriod(hoy).ano, TargetPeriod(hoy).mes, hoy.year) == []
  {
    TargetPeriodSpec(hoy);
    ConfigErrorsSpec(TargetPeriod(hoy).ano, TargetPeriod(hoy).mes, hoy.year);
  }
}

=== FILE: sorting.dfy ===
/** Generic filtering, ordering and de-duplication of tables, standing in for
    pandas boolean masks, sort_values, unique() and drop_duplicates(keep='first'). */
module Sorting {
  import opened Common

  /** `le` is a total preorder: any two elements compare, and comparison chains. */
  ghost predicate Total<T(!new)>(le: (T, T) -> bool) {
    (forall a, b :: le(a, b) || le(b, a)) &&
    (forall a, b, c :: le(a, b) && le(b, c) ==> le(a, c))
  }

  predicate SortedBy<T>(s: seq<T>, le: (T, T) -> bool) {
    forall i, j :: 0 <= i < j < |s| ==> le(s[i], s[j])
  }

  /** x placed in the sorted sequence s before the first element it does not follow. */
  function Insert<T(!new)>(x: T, s: seq<T>, le: (T, T) -> bool): (r: seq<T>)
    requires Total(le)
    requires SortedBy(s, le)
    ensures SortedBy(r, le)
    ensures multiset(r) == multiset(s) + multiset{x}
    ensures |r| == |s| + 1
    ensures forall i :: 0 <= i < |r| ==> r[i] == x || r[i] in s
  {
    if s == [] then [x]
    else if le(x, s[0]) then [x] + s
    else
      var t := Insert(x, s[1..], le);
      assert forall i :: 0 <= i < |t| ==> le(s[0], t[i]) by {
        forall i | 0 <= i < |t|
          ensures le(s[0], t[i])
        {
          if t[i] != x {
            var k :| 0 <= k < |s[1..]| && s[1..][k] == t[i];
            assert s[k + 1] == t[i];
          }
        }
      }
      assert s == [s[0]] + s[1..];
      [s[0]] + t
  }

  /** A stable ordering of s by `le` (insertion sort). */
  function SortBy<T(!new)>(s: seq<T>, le: (T, T) -> bool): (r: seq<T>)
    requires Total(le)
    ensures SortedBy(r, le)
    ensures multiset(r) == multiset(s)
    ensures |r| == |s|
  {
    if s == [] then []
    else
      assert s == [s[0]] + s[1..];
      Insert(s[0], SortBy(s[1..], le), le)
  }

  /** The distinct elements of s, each at the place it first occurs (pandas unique()). */
  function Distinct<T(==)>(s: seq<T>): (r: seq<T>)
    ensures forall i, j :: 0 <= i < j < |r| ==> r[i] != r[j]
    ensures forall i :: 0 <= i < |r| ==> r[i] in s
    ensures forall i :: 0 <= i < |s| ==> s[i] in r
  {
    if s == [] then []
    else
      var d := Distinct(s[..|s| - 1]);
      assert forall i :: 0 <= i < |s| - 1 ==> s[i] == s[..|s| - 1][i];
      if s[|s| - 1] in d then d else d + [s[|s| - 1]]
  }

  /** Distinct keeps first-occurrence order: of two listed elements, the
      earlier one occurs in s before the later one first does. */
  lemma {:induction false} DistinctFirstOrder<T>(s: seq<T>)
    ensures forall i, j :: 0 <= i < j < |Distinct(s)| ==>
      exists a :: 0 <= a < |s| && s[a] == Distinct(s)[i] && Distinct(s)[j] !in s[..a]
  {
    if s != [] {
      var n := |s| - 1;
      var d := Distinct(s[..n]);
      var r := Distinct(s);
      DistinctFirstOrder(s[..n]);
      forall i, j | 0 <= i < j < |r|
        ensures exists a :: 0 <= a < |s| && s[a] == r[i] && r[j] !in s[..a]
      {
        assert r[i] == d[i];
        if j < |d| {
          assert r[j] == d[j];
          var a :| 0 <= a < n && s[..n][a] == d[i] && d[j] !in s[..n][..a];
          assert s[..n][..a] == s[..a];
          assert 0 <= a < |s| && s[a] == r[i] && r[j] !in s[..a];
        } else {
          assert r[j] == s[n] && s[n] !in d;
          var a :| 0 <= a < n && s[..n][a] == d[i];
          assert s[..a] == s[..n][..a];
          assert 0 <= a < |s| && s[a] == r[i] && r[j] !in s[..a];
        }
      }
    } else {
      assert Distinct(s) == [];
    }
  }

  /** s[i] is the first element of s carrying its key. */
  predicate IsFirst<T, K(==)>(s: seq<T>, key: T -> K, i: int) {
    0 <= i < |s| && forall k :: 0 <= k < i ==> key(s[k]) != key(s[i])
  }

  /** drop_duplicates(subset=key, keep='first'): an element is kept when no
      earlier element carries its key. The kept elements have distinct keys. */
  function DedupFirstBy<T(==), K(==)>(s: seq<T>, key: T -> K): (r: seq<T>)
    ensures forall i, j :: 0 <= i < j < |r| ==> key(r[i]) != key(r[j])
    ensures forall j :: 0 <= j < |r| ==> r[j] in s
  {
    if s == [] then []
    else
      var n := |s| - 1;
      var d := DedupFirstBy(s[..n], key);
      if exists i :: 0 <= i < n && key(s[i]) == key(s[n]) then d
      else
        assert forall j :: 0 <= j < |d| ==> key(d[j]) != key(s[n]) by {
          forall j | 0 <= j < |d|
            ensures key(d[j]) != key(s[n])
          {
            var i :| 0 <= i < n && s[..n][i] == d[j];
          }
        }
        d + [s[n]]
  }

  /** Every first occurrence of a key is kept. */
  lemma {:induction false} DedupKeepsEveryFirst<T, K>(s: seq<T>, key: T -> K)
    ensures forall i :: IsFirst(s, key, i) ==> s[i] in DedupFirstBy(s, key)
  {
    if s == [] {
      assert DedupFirstBy(s, key) == [];
    } else {
      var n := |s| - 1;
      var p := s[..n];
      DedupKeepsEveryFirst(p, key);
      forall i | IsFirst(s, key, i)
        ensures s[i] in DedupFirstBy(s, key)
      {
        if i < n {
          assert IsFirst(p, key, i);
        }
      }
    }
  }

  /** The elements of s that are the first to carry their key. */
  ghost function FirstOccurrences<T, K>(s: seq<T>, key: T -> K): set<T> {
    set i | 0 <= i < |s| && IsFirst(s, key, i) :: s[i]
  }

  /** Only first occurrences are kept. */
  lemma DedupKeepsOnlyFirsts<T, K>(s: seq<T>, key: T -> K)
    ensures forall j :: 0 <= j < |DedupFirstBy(s, key)| ==> DedupFirstBy(s, key)[j] in FirstOccurrences(s, key)
  {
    forall j | 0 <= j < |DedupFirstBy(s, key)|
      ensures DedupFirstBy(s, key)[j] in FirstOccurrences(s, key)
    {
      var i := KeptIsFirst(s, key, j);
    }
  }

  /** The index in s of the j-th kept element, which is a first occurrence. */
  lemma {:induction false} KeptIsFirst<T, K>(s: seq<T>, key: T -> K, j: int) returns (i: int)
    requires 0 <= j < |DedupFirstBy(s, key)|
    ensures IsFirst(s, key, i) && DedupFirstBy(s, key)[j] == s[i]
  {
    var n := |s| - 1;
    var p := s[..n];
    var d := DedupFirstBy(p, key);
    var r := DedupFirstBy(s, key);
    var kept := !exists i :: 0 <= i < n && key(s[i]) == key(s[n]);
    assert r == if kept then d + [s[n]] else d;
    if j < |d| {
      assert r[j] == d[j];
      i := KeptIsFirst(p, key, j);
      assert p[i] == s[i];
    } else {
      assert kept && r[j] == s[n];
      i := n;
    }
  }

  /** Every element's key has a first occurrence. */
  lemma {:induction false} FirstOccurrenceExists<T, K>(s: seq<T>, key: T -> K, i: int)
    requires 0 <= i < |s|
    ensures exists f :: IsFirst(s, key, f) && key(s[f]) == key(s[i])
    decreases i
  {
    if !IsFirst(s, key, i) {
      var k :| 0 <= k < i && key(s[k]) == key(s[i]);
      FirstOccurrenceExists(s, key, k);
    }
  }

  /** The keys carried by the elements of s. */
  ghost function Keys<T, K>(s: seq<T>, key: T -> K): set<K> {
    set i | 0 <= i < |s| :: key(s[i])
  }

  /** Every key of the table survives de-duplication. */
  lemma DedupKeepsEveryKey<T, K>(s: seq<T>, key: T -> K)
    ensures Keys(DedupFirstBy(s, key), key) == Keys(s, key)
  {
    var r := DedupFirstBy(s, key);
    DedupKeepsEveryFirst(s, key);
    forall i | 0 <= i < |s|
      ensures key(s[i]) in Keys(r, key)
    {
      FirstOccurrenceExists(s, key, i);
      var f :| IsFirst(s, key, f) && key(s[f]) == key(s[i]);
      assert s[f] in r;
      var j :| 0 <= j < |r| && r[j] == s[f];
    }
    forall j | 0 <= j < |r|
      ensures key(r[j]) in Keys(s, key)
    {
      assert r[j] in s;
      var i :| 0 <= i < |s| && s[i] == r[j];
    }
  }

  /** A rearrangement of a sequence whose keys are distinct has distinct keys. */
  lemma PermutationKeepsDistinctKeys<T, K>(d: seq<T>, r: seq<T>, key: T -> K)
    requires multiset(r) == multiset(d)
    requires forall a, b :: 0 <= a < b < |d| ==> key(d[a]) != key(d[b])
    ensures forall i, j :: 0 <= i < j < |r| ==> key(r[i]) != key(r[j])
  {
    forall i, j | 0 <= i < j < |r|
      ensures key(r[i]) != key(r[j])
    {
      assert r[i] in multiset(d) && r[j] in multiset(d);
      var a :| 0 <= a < |d| && d[a] == r[i];
      var b :| 0 <= b < |d| && d[b] == r[j];
      if a == b {
        assert multiset(r)[r[i]] >= 2 by {
          assert r == r[..i] + [r[i]] + r[i + 1..j] + [r[j]] + r[j + 1..];
        }
        OneCopyOfDistinctKey(d, a, key);
      }
    }
  }

  /** In a sequence with distinct keys each element occurs once. */
  lemma OneCopyOfDistinctKey<T, K>(d: seq<T>, a: nat, key: T -> K)
    requires forall x, y :: 0 <= x < y < |d| ==> key(d[x]) != key(d[y])
    requires a < |d|
    ensures multiset(d)[d[a]] == 1
  {
    assert d == d[..a] + [d[a]] + d[a + 1..];
    assert d[a] !in d[..a] && d[a] !in d[a + 1..];
    assert multiset(d[..a])[d[a]] == 0 && multiset(d[a + 1..])[d[a]] == 0;
  }

  /** A rearrangement carries the same keys. */
  lemma PermutationKeepsKeys<T, K>(d: seq<T>, r: seq<T>, key: T -> K)
    requires multiset(r) == multiset(d)
    ensures Keys(r, key) == Keys(d, key)
    ensures forall i :: 0 <= i < |r| ==> r[i] in d
  {
    forall i | 0 <= i < |r|
      ensures r[i] in d
    {
      assert r[i] in multiset(r);
    }
    forall k | k in Keys(r, key)
      ensures k in Keys(d, key)
    {
      var i :| 0 <= i < |r| && key(r[i]) == k;
      var m :| 0 <= m < |d| && d[m] == r[i];
    }
    forall k | k in Keys(d, key)
      ensures k in Keys(r, key)
    {
      var m :| 0 <= m < |d| && key(d[m]) == k;
      assert d[m] in multiset(r);
      var i :| 0 <= i < |r| && r[i] == d[m];
    }
  }

  /** The elements that satisfy p, in their original order (a boolean mask). */
  function Filter<T>(s: seq<T>, p: T -> bool): (r: seq<T>)
    ensures |r| <= |s|
  {
    if s == [] then []
    else Filter(s[..|s| - 1], p) + (if p(s[|s| - 1]) then [s[|s| - 1]] else [])
  }

  /** The mask keeps exactly the elements that satisfy p. */
  lemma {:induction false} FilterMembers<T>(s: seq<T>, p: T -> bool)
    ensures forall x :: x in Filter(s, p) <==> x in s && p(x)
  {
    if s != [] {
      var n := |s| - 1;
      FilterMembers(s[..n], p);
      assert s == s[..n] + [s[n]];
    }
  }

  /** The mask keeps the order: it distributes over concatenation. */
  lemma {:induction false} FilterAppend<T>(a: seq<T>, b: seq<T>, p: T -> bool)
    ensures Filter(a + b, p) == Filter(a, p) + Filter(b, p)
  {
    if b != [] {
      var n := |b| - 1;
      assert (a + b)[..|a + b| - 1] == a + b[..n];
      FilterAppend(a, b[..n], p);
    } else {
      assert a + b == a;
    }
  }

  /** Masking twice is masking once with both conditions. */
  lemma {:induction false} FilterTwice<T>(s: seq<T>, p: T -> bool, q: T -> bool, both: T -> bool)
    requires forall x :: both(x) == (p(x) && q(x))
    ensures Filter(Filter(s, p), q) == Filter(s, both)
  {
    if s != [] {
      var n := |s| - 1;
      FilterTwice(s[..n], p, q, both);
      FilterAppend(Filter(s[..n], p), if p(s[n]) then [s[n]] else [], q);
    }
  }

  /** Masking a sequence without repetitions gives one without repetitions. */
  lemma {:induction false} FilterKeepsDistinct<T>(s: seq<T>, p: T -> bool)
    requires forall i, j :: 0 <= i < j < |s| ==> s[i] != s[j]
    ensures forall i, j :: 0 <= i < j < |Filter(s, p)| ==> Filter(s, p)[i] != Filter(s, p)[j]
  {
    if s != [] {
      var n := |s| - 1;
      FilterKeepsDistinct(s[..n], p);
      FilterMembers(s[..n], p);
      assert s[n] !in s[..n];
    }
  }

  /** The first k elements of a sorted sequence (what DataFrame.head keeps)
      come before every element left out. */
  lemma SortedPrefixDominates<T>(s: seq<T>, k: nat, le: (T, T) -> bool)
    requires SortedBy(s, le) && k <= |s|
    ensures forall x, y :: x in multiset(s) - multiset(s[..k]) && y in s[..k] ==> le(y, x)
  {
    assert s == s[..k] + s[k..];
    assert multiset(s) - multiset(s[..k]) == multiset(s[k..]);
    forall x, y | x in multiset(s) - multiset(s[..k]) && y in s[..k]
      ensures le(y, x)
    {
      assert x in s[k..];
      var j :| 0 <= j < |s[k..]| && s[k..][j] == x;
      var i :| 0 <= i < k && s[..k][i] == y;
      assert s[i] == y && s[k + j] == x;
    }
  }

  /** A sequence without repetitions has as many elements as its set. */
  lemma {:induction false} DistinctCardinality<T>(s: seq<T>)
    requires forall i, j :: 0 <= i < j < |s| ==> s[i] != s[j]
    ensures |set x | x in s| == |s|
  {
    if s != [] {
      var n := |s| - 1;
      DistinctCardinality(s[..n]);
      assert s == s[..n] + [s[n]];
      assert (set x | x in s) == (set x | x in s[..n]) + {s[n]};
      assert s[n] !in (set x | x in s[..n]);
    }
  }

  /** The position of the first element that satisfies p (iloc[0] of a mask). */
  function FirstIndex<T>(s: seq<T>, p: T -> bool): (r: Option<nat>)
    ensures r.Some? ==> r.value < |s| && p(s[r.value]) && forall k :: 0 <= k < r.value ==> !p(s[k])
    ensures r.None? ==> forall k :: 0 <= k < |s| ==> !p(s[k])
  {
    if s == [] then None
    else if p(s[0]) then Some(0)
    else match FirstIndex(s[1..], p)
      case None => None
      case Some(i) => Some(i + 1)
  }

  /** Newest first: the order of sort_values(ascending=False) on dates. */
  predicate DateGe(a: Date, b: Date) {
    DateLe(b, a)
  }

  lemma DateGeTotal()
    ensures Total(DateGe)
  {
    forall a, b
      ensures DateGe(a, b) || DateGe(b, a)
    {
      DateLeTotal(a, b);
    }
    forall a, b, c | DateGe(a, b) && DateGe(b, c)
      ensures DateGe(a, c)
    {
      DateLeTransitive(c, b, a);
    }
  }

  function NewestFirst(ds: seq<Date>): (r: seq<Date>)
    ensures SortedBy(r, DateGe) && multiset(r) == multiset(ds)
  {
    DateGeTotal();
    SortBy(ds, DateGe)
  }

  /** Sorting distinct elements by a total order with antisymmetry gives a
      strictly increasing sequence; here, distinct dates newest first. */
  lemma NewestFirstStrict(ds: seq<Date>)
    requires forall i, j :: 0 <= i < j < |ds| ==> ds[i] != ds[j]
    ensures forall i, j :: 0 <= i < j < |NewestFirst(ds)| ==> DateLt(NewestFirst(ds)[j], NewestFirst(ds)[i])
    ensures forall x :: x in NewestFirst(ds) <==> x in ds
  {
    var r := NewestFirst(ds);
    PermutationKeepsDistinctKeys(ds, r, (x: Date) => x);
    PermutationKeepsKeys(ds, r, (x: Date) => x);
    PermutationKeepsKeys(r, ds, (x: Date) => x);
    forall i, j | 0 <= i < j < |r|
      ensures DateLt(r[j], r[i])
    {
      assert DateGe(r[i], r[j]);
    }
  }

  /** Ascending string order (Python's sorted on str). */
  predicate StrAsc(a: string, b: string) {
    StrLe(a, b)
  }

  lemma StrAscTotal()
    ensures Total(StrAsc)
  {
    forall a, b
      ensures StrAsc(a, b) || StrAsc(b, a)
    {
      StrLeTotal(a, b);
    }
    forall a, b, c | StrAsc(a, b) && StrAsc(b, c)
      ensures StrAsc(a, c)
    {
      StrLeTransitive(a, b, c);
    }
  }

  function SortedStrings(s: seq<string>): (r: seq<string>)
    ensures SortedBy(r, StrAsc) && multiset(r) == multiset(s)
  {
    StrAscTotal();
    SortBy(s, StrAsc)
  }

  /** Distinct strings, sorted, are strictly increasing and keep their set. */
  lemma SortedStringsStrict(s: seq<string>)
    requires forall i, j :: 0 <= i < j < |s| ==> s[i] != s[j]
    ensures forall i, j :: 0 <= i < j < |SortedStrings(s)| ==> StrLt(SortedStrings(s)[i], SortedStrings(s)[j])
    ensures forall x :: x in SortedStrings(s) <==> x in s
  {
    var r := SortedStrings(s);
    PermutationKeepsDistinctKeys(s, r, (x: string) => x);
    PermutationKeepsKeys(s, r, (x: string) => x);
    PermutationKeepsKeys(r, s, (x: string) => x);
    forall i, j | 0 <= i < j < |r|
      ensures StrLt(r[i], r[j])
    {
      assert StrAsc(r[i], r[j]);
    }
  }

  /** No element of a occurs in b. */
  predicate Apart<T(==)>(a: seq<T>, b: seq<T>) {
    forall i, j :: 0 <= i < |a| && 0 <= j < |b| ==> a[i] != b[j]
  }

  /** Two lists without repetitions and without common elements join into
      a list without repetitions. */
  lemma JoinKeepsDistinct<T>(a: seq<T>, b: seq<T>)
    requires forall i, j :: 0 <= i < j < |a| ==> a[i] != a[j]
    requires forall i, j :: 0 <= i < j < |b| ==> b[i] != b[j]
    requires Apart(a, b)
    ensures forall i, j :: 0 <= i < j < |a + b| ==> (a + b)[i] != (a + b)[j]
  {
    forall i, j | 0 <= i < j < |a + b|
      ensures (a + b)[i] != (a + b)[j]
    {
      if j < |a| {
        assert (a + b)[i] == a[i] && (a + b)[j] == a[j];
      } else if i < |a| {
        assert (a + b)[i] == a[i] && (a + b)[j] == b[j - |a|];
      } else {
        assert (a + b)[i] == b[i - |a|] && (a + b)[j] == b[j - |a|];
      }
    }
  }
}
